=== FILE: README.md ===
# Occupational-health site: a Dafny model of its content pipeline

This project models the logic behind an occupational-health website. The site publishes laws, articles, image and slide manifests, and a catalogue of occupational-health standards, including GBZ 188 surveillance items and the standards' PDFs. The model covers every path by which content reaches the site:

- the content APIs (laws, standards, media, smart push, chat-bot webhook, admin fetch and PDF upload);
- the OpenClaw push and publish scripts;
- the Notion import;
- the nightly catalogue updater and the maintenance supervisor;
- the three PDF downloaders.

It also covers what the pages do with the content: listing, filtering, sorting and paging, the catalogue table, the hazard explorer, and the text helpers.

Each source file becomes one module of pure functions. Clocks, file contents, directory listings, network answers, decoders, sessions and configured keys are parameters. Strings are `seq<char>`; where JavaScript counts or cuts a string by UTF-16 code units, the model does too (Text.JsLength, Text.JsTake). JSON values are a datatype. Shared behaviour is defined once:

- JavaScript's `Map`, `parseInt`, truthiness, `split`/`join`, `trim` and regular-expression fragments;
- YAML double-quoted scalars (section 7.3.1 of YAML 1.2);
- the `%PDF-` file header (section 7.5.2 of ISO 32000-1);
- the bearer-token header (section 2.1 of RFC 6750).

The proofs establish:

- **Round trips:** every writer's output reads back as what was written (YAML scalars, frontmatter documents, content files, snapshots, manifests, MDX documents).
- **Exact decision sequences:** every route's decision order is stated as if-and-only-if conditions on its inputs, including the error answers and the exceptions.
- **Normalisers:** each slug and file-name normaliser produces only its allowed alphabet, has no doubled dash, and is idempotent where the source strips edge dashes.
- **Sorting:** the sorts are stable permutations.
- **Merges and counters:** merges are last-writer-wins, and the batch counters account for every item.
- **Downloaders:** no file already on disk above the size threshold is overwritten: 500 bytes for the scrape downloader, 100 bytes for the standards downloader.

## Model

| member | source | states |
|---|---|---|
| ApiAuth.StripBearer | src/lib/api-auth.ts:19 | removing a leading `Bearer` (any letter case) and the white space after it leaves a suffix of the header that starts with no white space; a header without the scheme is kept whole |
| ApiAuth.IncomingKey | src/lib/api-auth.ts:17-20 | the presented key is the `x-api-key` header when that is present (even empty), else the stripped `Authorization` header, else the `apiKey` query parameter |
| ApiAuth.RequireApiKey | src/lib/api-auth.ts:3-30 | without a configured key every request is refused with 500; with one, a request passes exactly when the presented key equals it, and is otherwise refused with 401 |
| ApiAuth.HeaderShadows | src/lib/api-auth.ts:17-22 | a present `x-api-key` header alone decides: the request passes iff it equals the key, whatever the other two places hold |
| ApiAuth.BearerAccepted | src/lib/api-auth.ts:19 | `Authorization: Bearer <key>` with the scheme in any letter case passes when no `x-api-key` header is sent |
| ApiAuth.BareAuthorizationAccepted | src/lib/api-auth.ts:19 | a bare key in the `Authorization` header, with no scheme, passes as well |
| Utils.Normalize | src/lib/utils.ts:22 | collapsing white-space runs to one space and trimming gives a text whose only white space is single plain spaces, none at either end, and never longer than the input |
| Utils.NormalizeIdempotent | src/lib/utils.ts:22 | normalising a normalised text changes nothing |
| Utils.NormalizeFixed | src/lib/utils.ts:22 | a text already in normal form is its own normalisation |
| Utils.Excerpt | src/lib/utils.ts:21-29 | a normalised text that fits is returned as is; a longer one is cut to its first `maxLength` characters and gets `...`, so it is exactly `maxLength + 3` long; the result is always in normal form |
| Utils.ExcerptDefault | src/lib/utils.ts:21 | with the default length 120 an excerpt has at most 123 characters, and a normalised text of up to 120 characters comes back whole |
| Utils.ExcerptIdempotent | src/lib/utils.ts:21-29 | excerpting an excerpt again, with room for the three dots, gives it back unchanged |
| Utils.ShortNormalUnchanged | src/lib/utils.ts:24-25 | a text already in normal form and short enough is returned unchanged |
| Utils.FormatDate | src/lib/utils.ts:7-19 | a date that cannot be parsed is shown exactly as written; a valid one goes through the year-month-day formatter |
| Pdf.FirstFiveIsMagic | scripts/auto-pdf-finder.mjs:60-67 | reading a file's first five bytes into a zero-filled five-byte buffer gives the header `%PDF-` exactly when the file begins with it; a shorter file leaves a zero byte, which the header does not contain |
| Pdf.MagicSpellsHeader | scripts/download-standards-pdfs.mjs:87-88 | the five header bytes are the character codes of `%PDF-`, so the scripts' text comparison is a comparison of bytes |
| Pdf.Download | scripts/download-standards-pdfs.mjs:67-92 | a download attempt saves the file exactly when the final answer has status 200, at least the minimum number of bytes and the PDF header, and reports its size; any other status is an HTTP error and a network failure is a failure |
| Pdf.DownloadMonotone | scripts/scrape-and-download-pdfs.mjs:49-61 | raising the size floor (500 here, 100 in the other script) only turns saved files into refusals and never changes what a save reports |
| Pdf.CodeStem | scripts/download-standards-pdfs.mjs:106 | the file stem of a code has no `/` and no white space and is never longer than the code |
| Gbz.ParseCategory | src/data/gbz188.ts:4 | a stored label names a category exactly when it is one of the five listed labels, and the category read back has that label |
| Gbz.CategoriesExact | src/data/gbz188.ts:11-17 | the category list has exactly five distinct labels: every category's label is in it, and every label in it names a category |
| Gbz.ParseName | src/data/gbz188.ts:4 | writing a category's label and reading it back gives the same category |
| Gbz.BuiltInCodesDistinct | src/data/gbz188.ts:19-110 | no two records of the built-in table share a code |
| Gbz.BuiltInListsNonEmpty | src/data/gbz188.ts:19-110 | every built-in record lists at least one check, one contraindication and one target disease |
| Gbz.BuiltInCoversCategories | src/data/gbz188.ts:19-110 | each of the five categories has at least one built-in record |
| GbzExplorer.Filtered | src/components/standards/gbz-explorer.tsx:14-25 | the listed records are the table's records, in their order, that are of the selected category (or all are selected) and whose name, code or a target disease contains the keyword (or the keyword is blank); each passing record keeps its number of copies and every other record is dropped |
| GbzExplorer.AllAndBlankKeepsEverything | src/components/standards/gbz-explorer.tsx:16-18 | with all categories selected and a blank keyword the whole table is listed |
| GbzExplorer.CategorySelects | src/components/standards/gbz-explorer.tsx:16 | with a blank keyword, selecting a category's label lists exactly the records of that category |
| GbzExplorer.KeywordIsRaw | src/components/standards/gbz-explorer.tsx:18-21 | the keyword is used untrimmed: `苯 ` with a trailing space does not find the benzene record that `苯` finds |
| ListingPages.PickStringParam | src/app/articles/page.tsx:12-21 | a repeated parameter gives its first value, a single one gives itself (even when empty), and an absent one or an empty list gives the fallback |
| ListingPages.Listed | src/app/articles/page.tsx:33-48 | the page lists the content records, in their order, that carry the tag (or no tag is asked for) and whose lower-cased title, summary, category and tags joined by spaces contain the trimmed lower-cased keyword; each passing record keeps its number of copies and every other one is dropped |
| ListingPages.NoParamsListsAll | src/app/articles/page.tsx:24-42 | without any query parameter the whole collection is listed |
| ListingPages.TagIsCaseSensitive | src/app/articles/page.tsx:26-34 | the tag is only trimmed, so `gbz` does not select a record tagged `GBZ` |
| ListingPages.FieldHitKept | src/app/articles/page.tsx:44-47 | a keyword occurring in the lower-cased text of any one of the four fields keeps the record |
| ListingPages.TagHitKept | src/app/articles/page.tsx:44-47 | a keyword occurring in one lower-cased tag keeps the record |
| ListingPages.KeywordSpansFields | src/app/articles/page.tsx:44-47 | because the fields are joined by spaces, a keyword can match across two fields: `a b` keeps a record titled `a` with summary `b` although neither field contains it |
| MediaStore.ManifestPath | src/lib/media-store.ts:23 | a manifest lives at `content/<kind>/manifest.json` |
| MediaStore.ManifestPathsDistinct | src/lib/media-store.ts:22-23 | images and slide decks never share a manifest file |
| MediaStore.LoadManifest | src/lib/media-store.ts:22-34 | an unreadable or unparseable file, or one whose `items` is not an array, loads as an empty manifest stamped with the current time; otherwise the file's items and time are kept as they are |
| MediaStore.MediaList | src/lib/media-store.ts:36-48 | the list holds exactly the manifest's items, each as often as stored, ordered from the latest date to the earliest |
| MediaStore.MediaListByDate | src/lib/media-store.ts:38-40 | when every date parses, the list is ordered by the parsed dates themselves |
| MediaStore.FindById | src/lib/media-store.ts:52 | the lookup finds an item exactly when one has the id, and the one found is the first such item |
| MediaStore.MediaById | src/lib/media-store.ts:50-58 | an item is found exactly when the manifest holds one with that id; the one found has the id, and no item with that id has a later date |
| MediaStore.SaveMediaManifest | src/lib/media-store.ts:60-76 | saving writes the collection's manifest file with the items in the given order and the time of the save |
| MediaStore.SaveThenLoad | src/lib/media-store.ts:60-76 | a saved manifest loads back unchanged, whenever it is loaded |
| MediaStore.SaveThenFind | src/lib/media-store.ts:50-76 | after a save, an id can be looked up exactly when one of the saved items has it |
| MediaRoute.DataPart | src/app/api/media/route.ts:29-32 | the text handed to the Base64 decoder is the whole field when it has no comma, and otherwise a comma-free part of it |
| MediaRoute.DataUrlDecodesData | src/app/api/media/route.ts:30 | for a data URL `header,data` exactly the data after the comma is decoded, whatever the header holds |
| MediaRoute.Post | src/app/api/media/route.ts:34-98 | the key gate decides first; then a body that is not JSON is 400, a `null` body throws (500), a missing or empty `fileName` and then `fileData` are 400; data that decodes to nothing is 400 and to more than 20 MiB is 413; a failed write is 500; otherwise the file is stored as `<clock>-<sanitised name>` under `/uploads/` and its decoded size is reported |
| MediaRoute.StoredNameSafe | src/app/api/media/route.ts:15-27 | a stored file name is non-empty and uses only letters, digits, `.`, `_` and `-` |
| MediaRoute.CleanNameKept | src/app/api/media/route.ts:15-27 | a non-empty name already in that alphabet is kept as it is behind the clock and a dash |
| Slug.Tidy | src/lib/content.ts:175-176 | collapsing dash runs and stripping one edge dash on each side leaves no doubled dash and no dash at either end |
| Slug.SlugPrefix | scripts/openclaw-push.mjs:34-41 | the slug prefix has at most `maxLen` characters, all from `[a-z0-9_-]`, no doubled dash and no leading dash |
| Slug.DigitSuffixValue | scripts/openclaw-push.mjs:43 | the last `k` digits of the clock, read back as a number, are the clock modulo `10^k` |
| Slug.OpenclawSlugify | scripts/openclaw-push.mjs:34-46 | the slug uses only `[a-z0-9_-]`, has at most 57 characters and ends in a dash and the clock's last six digits; it starts with the 50-character prefix when that has at least three characters, and with `post` otherwise |
| Slug.OpenclawSlugifyCanDoubleDash | scripts/openclaw-push.mjs:40-41 | because the cut to 50 characters comes after the edge-dash strip, 49 letters, a space and a letter give a prefix ending in a dash, so the slug holds `--` |
| Slug.NotionSlugify | src/lib/notion-sync.ts:30-47 | the slug ends in a dash and the page-id or clock suffix, starts with the 60-character prefix (or `post` when that is empty) and has at most 73 characters |
| Slug.NotionSuffix | src/lib/notion-sync.ts:41-43 | a non-empty page id gives at most 12 of its characters and no dash; without one the suffix is at most eight clock digits |
| Slug.ContentNormalize | src/lib/content.ts:170-176 | the normalised input is a clean slug: non-empty runs of `[a-z0-9]` joined by single dashes, none at either end |
| Slug.ContentNormalizeFixed | src/lib/content.ts:170-176 | a string that is already a clean slug is not changed by the normalisation |
| Slug.ContentNormalizeIdempotent | src/lib/content.ts:170-176 | normalising twice is normalising once |
| Slug.CreateSlug | src/lib/content.ts:169-183 | an input that normalises to three characters or more gives that clean slug; a shorter one gives `<prefix>-<clock>` |
| Slug.ContentNormalizeNoAlnum | src/lib/content.ts:169-183 | an input without ASCII letters or digits, such as a title written only in Chinese, normalises to nothing, so the slug is always `<prefix>-<clock>` |
| Slug.StandardSlug | src/app/api/admin/fetch-standard/route.ts:150-158 | the slug of a standard number is a clean slug over `[a-z0-9]` |
| Slug.StandardSlugFixed | src/app/api/admin/fetch-standard/route.ts:150-158 | a clean slug is not changed by it |
| Slug.StandardSlugIdempotent | src/app/api/admin/fetch-standard/route.ts:150-158 | applying it twice is applying it once |
| Slug.SanitizeFileName | src/app/api/media/route.ts:15-27 | the sanitised name is non-empty, is made of non-empty runs of `[a-zA-Z0-9._]` joined by single dashes, and a name already of that form is kept |
| Slug.UploadFallback | src/app/api/media/route.ts:23 | the fallback name `upload-<clock>.bin` is itself a non-empty name of that form |
| Slug.CleanFileNameKept | src/app/api/media/route.ts:16-20 | a non-empty name already of that form passes the replacement chain unchanged |
| Content.StringValue | src/lib/content.ts:39-41 | a string value is kept and anything else gives the fallback |
| Content.TagOf | src/lib/content.ts:49-50 | a tag contributed by an array item is non-empty and has no white space at either end |
| Content.StringArray | src/lib/content.ts:43-51 | anything but an array gives no tags; an array gives at most one tag per item, each trimmed and non-empty |
| Content.StringArrayMembers | src/lib/content.ts:48-50 | a tag is read from an array exactly when some item is a string whose trimmed text is that non-empty tag |
| Content.StringArrayKeepsTags | src/lib/content.ts:43-51 | a list of trimmed non-empty tags is read back unchanged |
| Content.ToAttachment | src/lib/content.ts:59-80 | an item becomes an attachment exactly when it is an object with a non-empty string name and url; its type is the given one when that is one of the six known types and `file` otherwise |
| Content.AttachmentArray | src/lib/content.ts:53-82 | anything but an array gives no attachments; an array gives at most one per item, each complete and of a known type |
| Content.AttachmentArrayKeeps | src/lib/content.ts:53-82 | complete attachments of known types, written as objects, are read back unchanged |
| Content.SlugOfName | src/lib/content.ts:107 | a markdown file name loses one `.md` or `.mdx` ending, in any letter case, and any other name is kept |
| Content.SlugOfNameRoundTrip | src/lib/content.ts:107-150 | the files `<slug>.mdx` and `<slug>.md` give the slug back |
| Content.ReadContentFileRoundTrip | src/lib/content.ts:104-121 | reading `<slug>.mdx` whose frontmatter holds a record the reader can reproduce (trimmed tags, no empty author or source, complete attachments) gives that record back, with the body trimmed |
| Content.ReadAll | src/lib/content.ts:89-125 | one record is read per markdown file of the directory, and none for other entries |
| Content.ContentList | src/lib/content.ts:123-140 | an unreadable directory lists nothing; otherwise the list holds exactly the records read, each as often, newest first with an unparseable date counted as 0 |
| Content.ContentListLength | src/lib/content.ts:89-140 | the list has one record per markdown file |
| Content.AllTags | src/lib/content.ts:164-167 | the tag index is sorted, has no repetitions and holds the distinct tags of the records |
| Content.AllTagsMembers | src/lib/content.ts:164-167 | a tag is in the index exactly when some record carries it |
| Content.ContentBySlug | src/lib/content.ts:142-162 | nothing is found exactly when neither `<slug>.mdx` nor `<slug>.md` exists; the `.mdx` file wins when both do |
| Content.ContentBySlugSlug | src/lib/content.ts:142-162 | a record found for a slug carries that slug |
| Content.ReadContentFile | src/lib/content.ts:104-121 | the slug comes from the file name and is the title's default; summary defaults to "", date to today, category to 未分类; an empty author or source is dropped; tags and attachments are coerced and the body is trimmed |
| ContentWrite.SafeLines | src/lib/content-write.ts:26-30 | the body gives one line per piece between line breaks; each is that piece with only its trailing white space removed, holds no line break and ends in no white space |
| ContentWrite.SafeBodyIdempotent | src/lib/content-write.ts:26-30 | cleaning a cleaned body changes nothing |
| ContentWrite.ShownTags | src/lib/content-write.ts:34-61 | the tags written are the non-empty given tags in order, or the single placeholder `无标签` when none is left; so at least one non-empty tag is always written |
| ContentWrite.OptionalLines | src/lib/content-write.ts:46-52 | an author line is written only for a non-empty author and a source line only for a non-empty source |
| ContentWrite.AttachmentLines | src/lib/content-write.ts:63-72 | no attachments give the one line `attachments: []`; otherwise a heading and three lines per attachment |
| ContentWrite.FileReadsBack | src/lib/content-write.ts:32-76 | when every quoted value fits on one line, the written file reads back as its frontmatter lines between the two `---` lines and the cleaned body followed by a line break |
| ContentWrite.FrontFieldsReadBack | src/lib/content-write.ts:37-52 | the first five frontmatter lines read back as the slug, the title, the summary or `""`, the date or today, and the category or `未分类`; then the author and the source when given |
| ContentWrite.TagsReadBack | src/lib/content-write.ts:54-61 | after the `tags:` line each list item reads back as the shown tag at that position |
| ContentWrite.AttachmentReadBack | src/lib/content-write.ts:63-72 | after the `attachments:` line each attachment's three lines read back as its name, url and type |
| ContentWrite.WriteContentFile | src/lib/content-write.ts:147-167 | the slug is made from the payload's slug, or its title when there is none, with the singular section name as fallback prefix; with a token and on Vercel the file goes to the GitHub contents API under `site/content/<kind>/<slug>.mdx` with the default repository and branch filled in, and otherwise to `<cwd>/content/<kind>/<slug>.mdx` |
| ContentWrite.SlugOneLine | src/lib/content.ts:169-183 | every slug the content library makes fits on one line |
| ContentWrite.WrittenFileReadsBack | src/lib/content-write.ts:147-167 | the written file reads back as its frontmatter and cleaned body, and its first frontmatter line names the slug it is written under |
| Yaml.TwoPassIsEach | src/lib/content-write.ts:22-24 | doubling every backslash and then escaping every double quote is the same as escaping character by character |
| Yaml.Escape | src/lib/content-write.ts:22-24 | escaping a value that has no line break gives a text without one |
| Yaml.EscapeRoundTrip | src/lib/content-write.ts:22-24 | a value escaped this way reads back, as the body of a double-quoted YAML scalar, as the value itself |
| Yaml.UnescapePlain | src/lib/content-write.ts:22-24 | a value without backslash or double quote is its own escaped form |
| Yaml.QuotedRoundTrip | src/lib/content-write.ts:39-43 | a value written as `head` followed by the escaped value in double quotes reads back, after that head, as the value |
| Frontmatter.FieldRoundTrip | src/lib/content-write.ts:39-43 | a `key: "value"` line reads back, for that key, as the value |
| Frontmatter.Field | src/lib/content-write.ts:39-43 | a field line whose key and value fit on one line is a frontmatter line, that is one line and not the closing `---` |
| Frontmatter.RawFieldPlain | src/app/api/admin/fetch-standard/route.ts:126-140 | a value put between the quotes unescaped still reads back when it has no quote and no backslash |
| Frontmatter.RawFieldQuoteBreaks | src/app/api/admin/fetch-standard/route.ts:126-140 | a value holding a double quote, put between the quotes unescaped, makes the line unreadable |
| Frontmatter.ListItems | src/lib/content-write.ts:58-60 | one `  - "tag"` line per tag, in order; they are frontmatter lines when the tags fit on one line |
| Frontmatter.DocumentRoundTrip | src/lib/content-write.ts:37-76 | reading a document written as `---`, the frontmatter lines, `---`, an empty line and the body gives back exactly those frontmatter lines and the body after the separator |
| Frontmatter.BareDocumentRoundTrip | src/lib/content-write.ts:74-157 | reading a document whose text follows the closing `---` line directly gives back the frontmatter lines and exactly that text |
| Frontmatter.SplitJoinThen | src/lib/content-write.ts:75 | joining one-line pieces with line breaks, then a break and more text, and splitting again gives the pieces followed by the lines of that text |
| Sorting.Sort | src/components/standards/standards-catalog.tsx:59-64 | for any total preorder, the result is ordered by it and is a permutation of the input |
| Sorting.SortStable | src/components/standards/standards-catalog.tsx:59-64 | elements the order ranks equal keep their relative input order, as `Array.prototype.sort` guarantees |
| Sorting.SortDescending | src/lib/content.ts:136-139 | the result is a permutation of the input whose keys never increase from front to back |
| Sorting.StringLeIsTotalPreorder | src/lib/content.ts:166 | the default string order of `sort()`, by UTF-16 code unit, is total and transitive, so it is a valid sort order |
| Sorting.StringLeAntisymmetric | src/lib/content.ts:166 | two strings each sorted before the other are equal, because the UTF-16 encoding is decoded back to the string |
| Sorting.CodeUnitsNotCodePoints | src/lib/content.ts:166 | the default order is not code-point order: U+10000 sorts before U+E000 |
| Text.Utf16RoundTrip | src/lib/content.ts:166 | decoding the UTF-16 code units of a string gives the string back |
| Text.JsLength | src/app/api/webhook/openclaw/route.ts:128 | `length` counts UTF-16 code units: at least one and at most two per character |
| Text.JsLengthBmp | src/app/api/webhook/openclaw/route.ts:128 | the code units are as many as the characters exactly when every character lies in the Basic Multilingual Plane |
| Text.JsTake | scripts/scrape-and-download-pdfs.mjs:131 | `slice(0, n)` keeps the longest beginning of at most `n` code units; one more character would exceed `n` |
| Text.JsTakeLast | scripts/site-auto-maintain.mjs:41 | `slice(-n)` keeps the longest ending of at most `n` code units; one more character would exceed `n` |
| Text.JsTakeBmp | scripts/scrape-and-download-pdfs.mjs:184 | on text within the Basic Multilingual Plane, cutting code units is cutting characters |
| JsMap.Dedup | src/lib/content.ts:166 | the result holds each element of the input exactly once and nothing else |
| JsMap.PutAllFromEmpty | scripts/openclaw-push.mjs:166-169 | inserting pairs into an empty `Map` leaves each key once, in order of first insertion, bound to the value of its last pair |
| JsMap.PutAllKeys | scripts/openclaw-push.mjs:166-169 | the map's keys are exactly the inserted keys and it never grows beyond the number of pairs |
| Json.TextField | scripts/openclaw-publish.mjs:65-67 | a field is missing exactly when it is falsy, and a truthy string field is kept unchanged |
| Json.ToJsString | scripts/openclaw-publish.mjs:48 | `String(value)`: a string is itself, a natural number prints as its decimal digits, a negative one starts with `-`, an object is `[object Object]`, an empty array is empty and a one-string array is that string |
| Json.NatStringPositive | scripts/openclaw-push.mjs:55 | a numeric-string `length` compares above zero exactly when the number is positive |
| Pattern.Search | scripts/standards-auto-update.mjs:113-119 | a match is found exactly when the pattern matches at some position, and the found span lies inside the text |
| Pattern.MatchAllFrom | scripts/scrape-and-download-pdfs.mjs:90-91 | the matches lie inside the text, in order, and do not overlap |
| Pattern.MatchAllSound | scripts/scrape-and-download-pdfs.mjs:90-91 | every reported match is a real match of the pattern at its start |
| Pattern.MatchAllComplete | scripts/scrape-and-download-pdfs.mjs:90-91 | every position where the pattern matches is covered by a reported match |
| Pattern.LitTest | scripts/standards-auto-update.mjs:101-107 | testing a literal pattern is substring containment |
| Numbers.IntOr | scripts/download-standards-pdfs.mjs:22-23 | `parseInt(arg) \|\| d`: a missing option, NaN or zero give the default; any other value is kept, sign included |
| Numbers.ParseIntDecimal | scripts/download-standards-pdfs.mjs:22-23 | a printed number after blanks and an optional minus reads back as itself, whatever non-digit follows |
| Numbers.ParseIntHex | scripts/download-standards-pdfs.mjs:22-23 | a `0x` prefix selects hexadecimal: `0x10` reads as 16 |
| Numbers.ParseIntNoDigit | scripts/download-standards-pdfs.mjs:22-23 | text without a digit reads as NaN |
| StandardsCatalog.RowLeIsTotalPreorder | src/components/standards/standards-catalog.tsx:59-64 | "files first, then by code" is a valid sort order whenever the code comparison is |
| StandardsCatalog.StagedIsShown | src/components/standards/standards-catalog.tsx:36-57 | applying the four filters one after another keeps exactly the rows passing all of them, in their order |
| StandardsCatalog.Filtered | src/components/standards/standards-catalog.tsx:36-66 | the table holds exactly the rows passing the search and the three filters, each as often as listed; rows with a file come before rows without; within each group codes are in order |
| StandardsCatalog.AllFiltersOffShowsAll | src/components/standards/standards-catalog.tsx:36-57 | with an empty search and every filter off, every row is shown |
| StandardsCatalog.SpecificFiltersSelect | src/components/standards/standards-catalog.tsx:47-52 | a chosen category or status only lets rows carrying it through |
| StandardsCatalog.DownloadableCount | src/components/standards/standards-catalog.tsx:34 | the count is the number of rows having a PDF or a Word file |
| StandardsCatalog.FileFiltersComplementary | src/components/standards/standards-catalog.tsx:53-57 | "with file" and "without file" split the rows the other filters leave: their sizes add up to the unfiltered table |
| StandardsCatalog.ShownSplits | src/components/standards/standards-catalog.tsx:53-57 | a row passing the other filters passes exactly one of the two file filters |
| StandardsCatalog.FilteredCount | src/components/standards/standards-catalog.tsx:36-66 | the table has as many rows as pass the filters, whatever the order |
| StandardsCatalog.DownloadableCountIsTable | src/components/standards/standards-catalog.tsx:34-54 | the number on the "with file" button is the size of that table when no other filter is on |
| StandardsCatalog.TotalPages | src/components/standards/standards-catalog.tsx:68 | the page count is the least number of fifty-row pages that hold every row |
| StandardsCatalog.Paged | src/components/standards/standards-catalog.tsx:69 | a page holds at most fifty rows: the slice at its position, or nothing past the end |
| StandardsCatalog.RowOnItsPage | src/components/standards/standards-catalog.tsx:68-69 | every row appears on the page its position determines, and that page is within the page count |
| StandardsCatalog.FirstPageEmptyIffNoRows | src/components/standards/standards-catalog.tsx:296-298 | the "nothing found" message shows on the first page exactly when no row passes |
| StandardsCatalog.Prev | src/components/standards/standards-catalog.tsx:279 | the previous-page button leaves the filters alone, so the same rows pass; the page stays at least 1 |
| StandardsCatalog.Next | src/components/standards/standards-catalog.tsx:286 | the next-page button leaves the filters alone, so the same rows pass; the page stays at most the last |
| StandardsCatalog.PageButtonsStayInRange | src/components/standards/standards-catalog.tsx:279-287 | from a page in range both buttons stay in range and move in their direction |
| StandardsCatalog.PrevNextRoundTrip | src/components/standards/standards-catalog.tsx:279-287 | inside the page range, going back then on, or on then back, returns to the same view |
| StandardsCatalog.HandleSearch | src/components/standards/standards-catalog.tsx:72 | a new query resets to page 1, keeps status and file filters, and resets the category exactly when the query is not blank |
| StandardsCatalog.HandleCategory | src/components/standards/standards-catalog.tsx:73 | the page goes back to 1, and a row is shown exactly when it is in the new category (or the category is all) and passes the old search, status and file filters |
| StandardsCatalog.HandleStatus | src/components/standards/standards-catalog.tsx:74 | the page goes back to 1, and a row is shown exactly when it has the new status (or the status is all) and passes the old search, category and file filters |
| StandardsCatalog.HandleDownload | src/components/standards/standards-catalog.tsx:75 | the page goes back to 1, and a row is shown exactly when it passes the old search, category and status filters and has a file, has none, or either, as the new file filter says |
| StandardsCatalog.FilterChangeShowsFirstPage | src/components/standards/standards-catalog.tsx:68-75 | after a search, category, status or file-filter change the table shows the first fifty rows of the new result |
| StandardsCatalog.SearchClearsCategory | src/components/standards/standards-catalog.tsx:38-72 | a non-blank search finds a matching row in any category, even when a category was selected |
| StandardsCatalog.TallyCounts | src/components/standards/standards-catalog.tsx:79-81 | the loop adds to each category the number of rows carrying it, and creates a key for each category that occurs |
| StandardsCatalog.CategoryCounts | src/components/standards/standards-catalog.tsx:77-83 | every category's count is the number of rows carrying it; "全部" starts at the number of rows; the keys are "全部" and the categories that occur |
| StandardsCatalog.CategoryCountIsTable | src/components/standards/standards-catalog.tsx:47-83 | a category's count equals the size of the table with only that category selected |
| StandardsCatalog.AllLabelCountedTwice | src/components/standards/standards-catalog.tsx:78-80 | a row whose category is itself "全部" is counted twice under that label |
| StandardsStore.StringList | src/lib/standards-store.ts:20-22 | a value is read as a string list exactly when it is an array of strings only, and the list converts back to that array |
| StandardsStore.HazardJson | src/lib/standards-store.ts:99-107 | a written record is an object with exactly the seven hazard keys, each holding the record's field |
| StandardsStore.ToHazard | src/lib/standards-store.ts:24-56 | a record is accepted exactly when it is an object whose seven fields have the expected types and whose category is one of the five labels; the accepted record carries those fields |
| StandardsStore.ToHazardRoundTrip | src/lib/standards-store.ts:24-56 | a record written by the store validates back to itself |
| StandardsStore.ToHazardIgnoresExtraKeys | src/lib/standards-store.ts:47-55 | keys other than the seven are dropped: two objects agreeing on those keys validate alike |
| StandardsStore.LoadSnapshot | src/lib/standards-store.ts:58-88 | a snapshot loads exactly when the file parses, holds a `hazards` array and at least one entry validates; it holds the valid entries in order, the source string or `api`, and the stored time or now |
| StandardsStore.LoadStoredHazards | src/lib/standards-store.ts:90-93 | the stored hazards are present exactly when a snapshot loads, and then there is at least one |
| StandardsStore.LoadedHazardsMembers | src/lib/standards-store.ts:71-73 | a hazard is loaded exactly when some entry of the array validates to it |
| StandardsStore.SaveSnapshot | src/lib/standards-store.ts:95-109 | the written file holds the given records unvalidated, the given source and the save time |
| StandardsStore.SaveThenLoad | src/lib/standards-store.ts:58-109 | saving a non-empty list of valid records and loading gives the same records in order, with the saved source and time |
| StandardsStore.NonStringSourceLoadsAsApi | src/lib/standards-store.ts:79 | a non-string source, which the standards route saves as given, loads back as `api` |
| StandardsRoute.ValidateAgreesWithToHazard | src/app/api/standards/route.ts:15-35 | the route accepts a record exactly when the store would load it |
| StandardsRoute.SourceOf | src/app/api/standards/route.ts:73 | a present non-null source is saved as it is, even when it is not a string; otherwise `api` |
| StandardsRoute.Post | src/app/api/standards/route.ts:37-82 | a bad key is refused first; unparseable JSON is 400; a null body or a failed write is 500; a missing or empty array is 400; an array with an invalid record is 400; otherwise every record is valid, the count is the array's length and the file is the snapshot of those records |
| StandardsRoute.AuthBeforeBody | src/app/api/standards/route.ts:38-41 | a refused request gets the same answer whatever its body |
| StandardsRoute.OneInvalidRefusesAll | src/app/api/standards/route.ts:60-69 | one invalid record refuses the whole batch and nothing is saved |
| StandardsRoute.SavedLoadsBack | src/app/api/standards/route.ts:71-81 | what a successful request saves loads back as every submitted record in order, so the count reported is the number the site serves |
| HazardMerge.Keyed | scripts/openclaw-push.mjs:166-167 | each record is paired with its `Map` key, in order |
| HazardMerge.MergeHazards | scripts/openclaw-push.mjs:164-169 | the merge throws exactly when a record is `null`; otherwise it has at most as many records as went in, and at least one when any went in |
| HazardMerge.MergeHazardsSpec | scripts/openclaw-push.mjs:164-169 | one record per code, in order of first appearance, the total being the number of distinct codes; an incoming record overrides the existing one with its code, and a code only on disk keeps its last stored record |
| CatalogUpdate.CodeToSlug | scripts/standards-auto-update.mjs:83-90 | the slug has only lower-case letters, digits and dashes, with no two dashes in a row |
| CatalogUpdate.CodeToSlugIdempotent | scripts/standards-auto-update.mjs:83-90 | converting a slug again changes nothing |
| CatalogUpdate.MaxId | scripts/standards-auto-update.mjs:80 | the largest id, treating a missing id as 0, bounds every id and is one of them |
| CatalogUpdate.NextId | scripts/standards-auto-update.mjs:79-81 | the next id is one above the largest id, and it is undefined (-Infinity) exactly when the catalogue is empty |
| CatalogUpdate.Categorize | scripts/standards-auto-update.mjs:112-126 | the label is one of the known categories; a GBZ code with a digit and a diagnosis title is an occupational-disease diagnosis; only GBZ 158 codes are warning signs; only WS codes with none of the earlier title words are health standards |
| CatalogUpdate.YearOfTrailingYear | scripts/standards-auto-update.mjs:270-271 | a code ending in a four-digit year yields that year, whatever precedes it |
| CatalogUpdate.NewEntry | scripts/standards-auto-update.mjs:273-282 | a new entry keeps the code and title, is current, joins code and title as its full title, and takes its category, year and slug from the code and title |
| CatalogUpdate.AcceptedFresh | scripts/standards-auto-update.mjs:268-285 | every accepted candidate is one of the search hits, is relevant and carries a code not yet catalogued |
| CatalogUpdate.AcceptedDistinct | scripts/standards-auto-update.mjs:269-285 | no code is accepted twice, even when several searches return it |
| CatalogUpdate.AcceptedComplete | scripts/standards-auto-update.mjs:263-328 | every relevant hit ends with its code known: catalogued before or accepted in this run |
| CatalogUpdate.DiscoverNew | scripts/standards-auto-update.mjs:263-328 | the two search loops build one entry per accepted candidate, in order, the k-th from the k-th accepted candidate |
| CatalogUpdate.FoundFresh | scripts/standards-auto-update.mjs:274-285 | the new entries have fresh, pairwise distinct codes and consecutive ids after the largest existing one |
| CatalogUpdate.FoundNone | scripts/standards-auto-update.mjs:331-335 | nothing is found exactly when every relevant hit's code is already catalogued |
| CatalogUpdate.SavedComplete | scripts/standards-auto-update.mjs:349-350 | after the save every relevant hit's code is in the catalogue, with the total recounted |
| CatalogUpdate.Run | scripts/standards-auto-update.mjs:249-351 | a run stops with nothing new exactly when every relevant hit is catalogued; a dry run only lists; otherwise the new entries are appended to the catalogue, the total recounted and the time stamped, and every relevant code is then catalogued |
| AttachText.FirstKeyFrom | src/app/api/admin/upload-pdf/route.ts:124 | the result is the first position from `from` where the key begins a line, and none means the key begins no line there |
| AttachText.FirstKey | src/app/api/admin/upload-pdf/route.ts:124 | `/^key/m` matches first where the key begins a line, and fails exactly when it begins none |
| AttachText.Splice | src/app/api/admin/upload-pdf/route.ts:117-126 | the text outside the replaced span is unchanged and the length changes by the difference |
| AttachText.ReplaceFirstIsSplice | src/app/api/admin/upload-pdf/route.ts:117-120 | replacing a contained string splices the replacement over its first occurrence |
| AttachText.ExpandPlain | src/app/api/admin/upload-pdf/route.ts:119-125 | a replacement without `$` is inserted as written |
| AttachText.ExpandPlainPrefix | src/app/api/admin/upload-pdf/route.ts:119-125 | a `$`-free prefix of a replacement is inserted as written, before the expansion of the rest |
| AttachText.ExpandMatch | src/app/api/admin/upload-pdf/route.ts:117-120 | `$&` in a replacement inserts the matched text |
| AttachText.ReplaceAt | src/app/api/admin/upload-pdf/route.ts:117-126 | without `$` the replacement of a match is the plain splice |
| AttachText.ReplaceString | src/app/api/admin/upload-pdf/route.ts:117-120 | a text without the pattern is unchanged; otherwise its first occurrence is replaced by the expanded replacement, which is the literal replacement when it holds no `$` |
| AttachText.ExpandBlockHead | src/app/api/admin/upload-pdf/route.ts:119 | however the replacement expands, it begins with the `attachments:` line and the start of the entry |
| AttachText.DollarNameExpands | src/app/api/admin/upload-pdf/route.ts:119 | a `$&` in the file name puts the matched text into the written name |
| AttachText.SplicedBlockHasUrl | src/app/api/admin/upload-pdf/route.ts:119-126 | a page the block was spliced into references the PDF's address |
| AttachText.SpliceKeepsKey | src/app/api/admin/upload-pdf/route.ts:123-126 | replacing a line-initial key by the block keeps the key and puts the new entry right after it, ahead of the listed ones |
| AttachText.BlockLongerThanEmptyList | src/app/api/admin/upload-pdf/route.ts:116-129 | the block is longer than the empty list it replaces, so the page always changes |
| AttachText.SpaceRun | scripts/auto-pdf-finder.mjs:189 | the run covers exactly the white space from the start position, as a greedy `\s*` does |
| UploadPdf.UpdateAttachments | src/app/api/admin/upload-pdf/route.ts:114-127 | an empty list is replaced by the block; failing that, a page not yet naming the PDF gets the block at its first line-initial key; otherwise the page is kept |
| UploadPdf.PlainRewrite | src/app/api/admin/upload-pdf/route.ts:114-127 | with no `$` in slug or address the block is inserted as written: in place of the empty list, or as a new first entry after the key |
| UploadPdf.DollarSlugRewrite | src/app/api/admin/upload-pdf/route.ts:117-120 | a slug holding `$&` gets the matched empty list spliced into the written file name |
| UploadPdf.RewriteAppliesIff | src/app/api/admin/upload-pdf/route.ts:114-129 | the page is written back exactly when one of the two rewrites applies; then, barring `$`, it references the PDF |
| UploadPdf.SecondRewriteKeeps | src/app/api/admin/upload-pdf/route.ts:116-121 | a second upload leaves a page alone once it references the PDF and has no empty list |
| UploadPdf.Post | src/app/api/admin/upload-pdf/route.ts:7-156 | a non-admin is refused; a missing file or slug is 400; a non-PDF name is 400; a text field in place of the file is 500; a missing token is 500; a failed upload is 500; otherwise the PDF is stored under the slug's name and the page is written back exactly when the rewrite changes it |
| UploadPdf.PageDoesNotChangeAnswer | src/app/api/admin/upload-pdf/route.ts:100-155 | whatever happens to the page, the status and the address returned are the same |
| AutoPdfFinder.Basename | scripts/auto-pdf-finder.mjs:182 | the file name has no slash, and is made of characters of the path |
| AutoPdfFinder.LastSegment | scripts/auto-pdf-finder.mjs:182 | the segment is the suffix after the last slash, with no slash in it |
| AutoPdfFinder.LastSegmentAfterSlash | scripts/auto-pdf-finder.mjs:182 | the part after a final slash is the last segment |
| AutoPdfFinder.UploadUrlBasename | scripts/auto-pdf-finder.mjs:182-227 | a locally stored PDF's entry is named after the slug's file |
| AutoPdfFinder.BareKeyAt | scripts/auto-pdf-finder.mjs:188-189 | `/^attachments:\s*$/m` matches at a line-initial key with white space up to a line end, taking the longest such white space, and fails when no line end follows within that white space |
| AutoPdfFinder.BareKeyBeforeEntries | scripts/auto-pdf-finder.mjs:189 | on a key followed by its entries the match is the key alone |
| AutoPdfFinder.BareKeyBeforeBlankLine | scripts/auto-pdf-finder.mjs:189 | on a key followed by a blank line the match takes the first line break too |
| AutoPdfFinder.KeyWithValueNotBare | scripts/auto-pdf-finder.mjs:188 | a key with a value on its line does not match |
| AutoPdfFinder.LastLineEnd | scripts/auto-pdf-finder.mjs:189 | the greedy white space gives back characters to the last line end within it, and there is none when it reports none |
| AutoPdfFinder.FirstBareKeyFrom | scripts/auto-pdf-finder.mjs:188-189 | the first position where the bare-key pattern matches, and none when it matches nowhere |
| AutoPdfFinder.UpdateMdxAttachment | scripts/auto-pdf-finder.mjs:178-200 | a page with a PDF entry is refused; otherwise the block named after the URL's file name replaces the first empty list, else the first bare key line, else is put before the closing delimiter; only a real run writes |
| AutoPdfFinder.NoDelimiterStillReported | scripts/auto-pdf-finder.mjs:190-199 | on a page with none of the three anchors nothing changes, yet the update is reported and the page written back |
| AutoPdfFinder.UpdatedNamesUrl | scripts/auto-pdf-finder.mjs:186-193 | a page rewritten by one of the three rules then names the PDF's address, when the address holds no `$` |
| AutoPdfFinder.SplicedLineBlockHasUrl | scripts/auto-pdf-finder.mjs:192 | the block placed before the delimiter names the address |
| AutoPdfFinder.IsValidPdf | scripts/auto-pdf-finder.mjs:59-68 | a file is valid exactly when it could be read and begins with `%PDF-` |
| AutoPdfFinder.Compact | scripts/auto-pdf-finder.mjs:120 | the compact number has no white space and no slash |
| AutoPdfFinder.SearchPdfUrls | scripts/auto-pdf-finder.mjs:103-128 | each candidate once; the candidates are exactly the number-search hits when there is a number, the title-search hits when there is a title and fewer than three number hits, and the mirror address when there is a number |
| AutoPdfFinder.ManyHitsSkipTitleSearch | scripts/auto-pdf-finder.mjs:113 | with three or more number hits no title-search hit is a candidate |
| AutoPdfFinder.QuotedAt | scripts/auto-pdf-finder.mjs:232-233 | a match begins with the key and captures a non-empty text without a quote |
| AutoPdfFinder.QuotedFrom | scripts/auto-pdf-finder.mjs:232-233 | the first match found is a real match, and none means the pattern matches nowhere |
| AutoPdfFinder.PageNumber | scripts/auto-pdf-finder.mjs:236 | a non-empty number read from the title is used as the page's number |
| AutoPdfFinder.ProcessFile | scripts/auto-pdf-finder.mjs:211-263 | a page with a PDF entry is skipped; a local copy only rewrites the page; a page with neither number nor title fails; otherwise the page succeeds exactly when some candidate downloads a valid PDF, and is then attached to the stored copy |
| AutoPdfFinder.LocalCopyNeedsNoSearch | scripts/auto-pdf-finder.mjs:225-229 | a page with a local copy gets the same outcome whatever the search and downloads would give |
| AutoPdfFinder.Tally | scripts/auto-pdf-finder.mjs:209-266 | the counters count the pages updated or found and the pages that failed, and together never exceed the number of pages |
| FetchStandard.AttachmentLines | src/app/api/admin/fetch-standard/route.ts:119-121 | without a PDF the block is the empty list; with one it is the key and one entry named after the slug, pointing at the address |
| FetchStandard.TagLines | src/app/api/admin/fetch-standard/route.ts:123-125 | one quoted line per tag, in order, or the default tag alone for an empty list |
| FetchStandard.StandardFrontLines | src/app/api/admin/fetch-standard/route.ts:127-138 | with one-line values free of quotes and backslashes every frontmatter line is well formed |
| FetchStandard.StandardFrontAt | src/app/api/admin/fetch-standard/route.ts:128-134 | the title is on the second line and the number on the seventh |
| FetchStandard.EmptyAttachmentsIffNoPdf | src/app/api/admin/fetch-standard/route.ts:119-121 | the empty attachments line appears exactly when no PDF address was given |
| FetchStandard.StandardMdxReadsBack | src/app/api/admin/fetch-standard/route.ts:110-148 | a page written with plain values reads back as its frontmatter lines, title and number, with an attachment exactly when a PDF address was given |
| FetchStandard.QuotedTitleBreaks | src/app/api/admin/fetch-standard/route.ts:129 | the title is written without escaping, so a title holding a quote no longer reads back |
| FetchStandard.SearchPdfUrl | src/app/api/admin/fetch-standard/route.ts:25-50 | the search never finds an address |
| FetchStandard.TagTexts | src/app/api/admin/fetch-standard/route.ts:123-203 | absent or falsy tags give the two default tags; an array gives its elements as strings |
| FetchStandard.StringLengthTags | src/app/api/admin/fetch-standard/route.ts:123-124 | an object whose `length` is a numeric string makes the template throw exactly when the number is positive |
| FetchStandard.Post | src/app/api/admin/fetch-standard/route.ts:164-313 | a non-admin is refused; an unreadable or null body is 500; a missing number is 400; a missing token is 500; a non-string number or unusable tags is 500; a failed page upload is 500; otherwise the page is created under the number's slug with title, summary and tags or their defaults, and a PDF exactly when a supplied address gave a valid PDF that was uploaded |
| FetchStandard.PdfOnlyFromSuppliedUrl | src/app/api/admin/fetch-standard/route.ts:208-275 | without a supplied address no PDF is attached, whatever a download would give |
| FetchStandard.DecisionOrder | src/app/api/admin/fetch-standard/route.ts:166-198 | the role is checked before the body, and the number before the token |
| FetchStandard.Defaults | src/app/api/admin/fetch-standard/route.ts:200-203 | without title, summary, tags and address the page uses the number as title, a summary naming it, the two default tags and no attachment |
| FetchStandard.SmallOrHeaderlessRefused | src/app/api/admin/fetch-standard/route.ts:221 | a download of 100 bytes or less, or without the PDF header, is not used even when the answer is ok |
| NotionSync.RichTextToString | src/lib/notion-sync.ts:26-28 | an empty rich text is empty, and a non-empty one begins with its first fragment |
| NotionSync.RichTextAppend | src/lib/notion-sync.ts:26-28 | the plain text of two rich texts in a row is their plain texts in a row: fragments come out in order, none lost or added |
| NotionSync.BlockLine | src/lib/notion-sync.ts:57-105 | a block is skipped exactly when its type is not one of the ten converted ones |
| NotionSync.HeadingLine | src/lib/notion-sync.ts:64-75 | a heading becomes exactly as many `#` as its level, a space and its text |
| NotionSync.CalloutIsQuote | src/lib/notion-sync.ts:84-101 | a callout converts exactly as a quote with the same text |
| NotionSync.UnsupportedVanishes | src/lib/notion-sync.ts:103-108 | removing a block of an unsupported type does not change the Markdown |
| NotionSync.BlockInMarkdown | src/lib/notion-sync.ts:57-108 | every supported block's Markdown occurs in the converted text |
| NotionSync.Lookup | src/lib/notion-sync.ts:120 | the Chinese name is taken when present, then the capitalised English name, then the lower-case one |
| NotionSync.ExtractPageMeta | src/lib/notion-sync.ts:111-152 | each field is read from the first property name present, when that property has the expected type; otherwise the title is "无标题", the summary empty, the category "未分类", the tags none and the date today |
| NotionSync.ChineseNameShadows | src/lib/notion-sync.ts:120-124 | a Chinese title property of the wrong type hides a proper English one, and the page is untitled |
| NotionSync.SampleMeta | src/lib/notion-sync.ts:111-152 | a page with the Chinese-named properties yields exactly their title, summary, category, tags and date |
| NotionSync.EscapeQuotesAgrees | src/lib/notion-sync.ts:164-167 | for text without backslashes, escaping only quotes is the full escape |
| NotionSync.TagsYaml | src/lib/notion-sync.ts:158-161 | no tags give `tags: []`; otherwise the key over one unquoted line per tag, in order |
| NotionSync.NotionFront | src/lib/notion-sync.ts:163-168 | four field lines, then the tag lines |
| NotionSync.BuildMdxIsDocument | src/lib/notion-sync.ts:154-173 | the template is the standard frontmatter layout over the page's field lines and body |
| NotionSync.TagsTextIsJoin | src/lib/notion-sync.ts:158-161 | the tags block is its lines joined by line breaks |
| NotionSync.BuildMdxReadsBack | src/lib/notion-sync.ts:154-173 | a page whose fields fit on one line reads back as exactly its frontmatter lines and its body |
| NotionSync.TitleReadsBack | src/lib/notion-sync.ts:164 | a title without backslashes reads back from its line |
| NotionSync.TrailingBackslashTitle | src/lib/notion-sync.ts:164 | backslashes are not escaped, so a title ending in one does not read back |
| NotionSync.ProcessPage | src/lib/notion-sync.ts:200-219 | an empty or untitled page is skipped; a page whose blocks cannot be fetched or whose write fails is an error carrying that message; otherwise it is synced under the title's slug with the converted document |
| NotionSync.Outcomes | src/lib/notion-sync.ts:200-220 | one outcome per page, in order |
| NotionSync.TallyAllCounts | src/lib/notion-sync.ts:200-220 | every page is counted exactly once as synced, skipped or an error, and the slugs are those of the synced pages in order |
| NotionSync.PagesReadStep | src/lib/notion-sync.ts:189-223 | a batch is followed by the next only when its cursor is non-empty |
| NotionSync.SyncNotionDatabase | src/lib/notion-sync.ts:175-226 | the result counts every page read exactly once, and lists the synced slugs in processing order |
| NotionSync.SyncBatch | src/lib/notion-sync.ts:200-220 | the loop over a batch continues the counters of the pages before it |
| NotionSync.UntitledPagesSkipped | src/lib/notion-sync.ts:203-206 | a run over untitled pages syncs nothing and skips every page |
| OpenclawMdx.Given | scripts/openclaw-push.mjs:61-64 | a string is present exactly when it is not empty, and then it is itself |
| OpenclawMdx.ShownTags | scripts/openclaw-push.mjs:55-57 | at least one tag is listed: the draft's own or the placeholder |
| OpenclawMdx.DateLine | scripts/openclaw-push.mjs:62 | a one-line date gives a well-formed frontmatter line |
| OpenclawMdx.DateLineReadBack | scripts/openclaw-push.mjs:62 | the unescaped date reads back as itself when it holds no backslash or quote |
| OpenclawMdx.AuthorLine | scripts/openclaw-push.mjs:64 | the author line is empty exactly when there is no author, and a well-formed line otherwise |
| OpenclawMdx.HeadLines | scripts/openclaw-push.mjs:60-64 | five lines before the tags, all well formed when the values fit on one line |
| OpenclawMdx.HeadFieldsReadBack | scripts/openclaw-push.mjs:60-63 | the title, summary and category lines read back as the title, the summary or empty, and the category or "未分类" |
| OpenclawMdx.HeadOptionalReadBack | scripts/openclaw-push.mjs:54-64 | the date line reads back as the date or today when it needs no escaping; the author line is empty exactly without an author and reads back as the author otherwise |
| OpenclawMdx.AttachmentLines | scripts/openclaw-publish.mjs:51-56 | no attachments give `attachments: []`; otherwise the key and three lines per attachment |
| OpenclawMdx.Entry | scripts/openclaw-publish.mjs:54 | three lines per attachment, well formed when its values fit on one line |
| OpenclawMdx.Entries | scripts/openclaw-publish.mjs:53-55 | three lines for each attachment, in order |
| OpenclawMdx.EntriesReadBack | scripts/openclaw-publish.mjs:53-55 | each attachment's lines read back as its name, its address and its type, `pdf` when it has none |
| OpenclawMdx.EntryReadBack | scripts/openclaw-publish.mjs:54 | one entry's lines read back as the attachment's name, address and type |
| OpenclawMdx.EntriesFront | scripts/openclaw-publish.mjs:53-55 | attachments whose values fit on one line give well-formed lines |
| OpenclawMdx.FrontWith | scripts/openclaw-push.mjs:59-67 | the head lines and `tags:`, then one item per shown tag, then the attachment lines; well formed when the values fit on one line |
| OpenclawMdx.PushFront | scripts/openclaw-push.mjs:59-68 | the push frontmatter always ends with `attachments: []` |
| OpenclawMdx.PublishFront | scripts/openclaw-publish.mjs:63-72 | the publish frontmatter ends with the draft's attachment lines |
| OpenclawMdx.PushMdx | scripts/openclaw-push.mjs:53-72 | a pushed draft whose values fit on one line reads back as its frontmatter lines and its content |
| OpenclawMdx.PublishMdx | scripts/openclaw-publish.mjs:58-75 | a published draft whose values fit on one line reads back as its frontmatter lines, attachments included, and its content |
| OpenclawMdx.FrontWithFields | scripts/openclaw-push.mjs:60-63 | the title, summary and category lines read back in either frontmatter |
| OpenclawMdx.PushMdxFields | scripts/openclaw-push.mjs:53-72 | a pushed document reads back as the draft's title, summary, category and content |
| OpenclawMdx.PublishMdxFields | scripts/openclaw-publish.mjs:58-75 | a published document reads back as the draft's title, summary, category and content |
| OpenclawParse.DetectModule | scripts/openclaw-push.mjs:86-91 | the section is laws exactly when the lower-cased text holds a law keyword; article keywords never decide anything |
| OpenclawParse.DetectModuleIgnoresCase | scripts/openclaw-push.mjs:87 | lower-casing the text first changes nothing |
| OpenclawParse.DetectCategory | scripts/openclaw-push.mjs:93-103 | a law is national law exactly when the text mentions 法律 or 法规, a departmental rule only when it mentions 规定 or 办法, a standard otherwise; an article is a case study exactly when it mentions 案例, a guide otherwise |
| OpenclawParse.CategoryNamesSection | scripts/openclaw-push.mjs:93-103 | the category always belongs to the section it was detected for |
| OpenclawParse.InputLines | scripts/openclaw-push.mjs:106 | the lines are the non-empty ones, none when the input is blank, the first starting with a non-space character |
| OpenclawParse.LinesOfTrimmed | scripts/openclaw-push.mjs:106 | splitting a trimmed text keeps non-empty lines; the first begins with the text's first character |
| OpenclawParse.StripCommand | scripts/openclaw-push.mjs:113 | the line is unchanged or loses a leading command of at least five characters |
| OpenclawParse.StripCommandOneLine | scripts/openclaw-push.mjs:113 | stripping keeps a one-line text on one line |
| OpenclawParse.TitleOf | scripts/openclaw-push.mjs:112-115 | the title is never empty; when it differs from the first line it has at least two UTF-16 code units; without a command it is the trimmed line |
| OpenclawParse.TagRunEnd | scripts/openclaw-push.mjs:124 | the run covers exactly the tag characters from its start |
| OpenclawParse.HashTagsFrom | scripts/openclaw-push.mjs:124-125 | every tag is a non-empty run of tag characters that occurs after a `#` in the text |
| OpenclawParse.KeptLines | scripts/openclaw-push.mjs:128 | the body lines are exactly those from the third on that are not hashtag lines |
| OpenclawParse.ParseNaturalLanguage | scripts/openclaw-push.mjs:105-134 | nothing is parsed exactly when the input is blank; otherwise the title is non-empty, the category belongs to the section detected from the first line, the summary is the trimmed second line, every tag occurs after a `#`, and the content is the kept lines or a heading with the summary or placeholder |
| OpenclawPublish.TrimSlashes | scripts/openclaw-publish.mjs:211 | the result is the path's prefix that drops exactly its trailing slashes |
| OpenclawPublish.LastIndexOf | scripts/openclaw-publish.mjs:211 | the position holds the character and none follows it; none exactly when the character does not occur |
| OpenclawPublish.BaseName | scripts/openclaw-publish.mjs:211 | the last segment holds no slash |
| OpenclawPublish.Extname | scripts/openclaw-publish.mjs:211 | a non-empty extension starts with its only dot, lies in the last segment and ends it, and is shorter than the segment; a segment without a dot has none |
| OpenclawPublish.ExtnameAfterStem | scripts/openclaw-publish.mjs:211-212 | a file name made of a stem without dots and an extension keeps that extension in any directory |
| OpenclawPublish.Follow | scripts/openclaw-publish.mjs:176-194 | a saved file was reached within five redirects, at an address of the first URL's protocol, from a server answering 200; an HTTP error is a non-200 answer; past five redirects the download rejects; a first URL the protocol does not take rejects, and only the first; a crash names a location the protocol does not take |
| OpenclawPublish.DownloadFile | scripts/openclaw-publish.mjs:174-196 | a saved file took at most five redirects; the download rejects before any request exactly when the URL's scheme is not the protocol chosen from its `https` prefix |
| OpenclawPublish.RedirectLoopRejects | scripts/openclaw-publish.mjs:178-181 | a server that always redirects to absolute URLs of the same protocol makes the download reject |
| OpenclawPublish.RedirectChainSaved | scripts/openclaw-publish.mjs:177-190 | a chain of at most five redirects through absolute URLs of the same protocol, ending in a 200, saves the file from its last address |
| OpenclawPublish.RedirectElsewhereCrashes | scripts/openclaw-publish.mjs:176-181 | a redirect to a relative location or one with the other scheme throws inside the response callback, so the script crashes instead of rejecting |
| OpenclawPublish.HttpsUpgradeCrashes | scripts/openclaw-publish.mjs:176-181 | a plain-HTTP attachment whose server redirects to the same address over HTTPS crashes the script |
| OpenclawPublish.KindOf | scripts/openclaw-publish.mjs:218 | an entry has a type exactly when its `type` is truthy |
| OpenclawPublish.UploadExt | scripts/openclaw-publish.mjs:211 | the extension is a dot followed by no dot or slash |
| OpenclawPublish.Localize | scripts/openclaw-publish.mjs:203-223 | an entry without a URL or name is skipped; a local URL is kept as is; a remote one points at its downloaded copy named after the name slugified at the entry's own clock reading, or keeps its URL when the download rejects; the entry throws exactly when it is `null`, its URL is not a string or does not parse, its name is not a string, or the download meets a redirect it cannot follow |
| OpenclawPublish.DownloadedKeepsExtension | scripts/openclaw-publish.mjs:211-218 | a downloaded copy keeps the remote file's extension, `.pdf` when it had none |
| OpenclawPublish.LocalizeAll | scripts/openclaw-publish.mjs:203-225 | the run throws exactly when some entry throws, and lists at most one attachment per entry |
| OpenclawPublish.LocalizeAllCount | scripts/openclaw-publish.mjs:203-225 | exactly one attachment per listed entry |
| OpenclawPublish.LocalizeAllFrom | scripts/openclaw-publish.mjs:203-225 | every listed attachment comes from an entry that lists it |
| OpenclawPublish.LocalizeAllAppend | scripts/openclaw-publish.mjs:203-225 | entries are handled one after another: two runs list the first's attachments then the second's |
| OpenclawPublish.DownloadAttachments | scripts/openclaw-publish.mjs:150-199 | a falsy value gives no attachment, an array is handled entry by entry with each entry's own clock reading, a number or boolean cannot be iterated and throws |
| OpenclawPublish.PublishTags | scripts/openclaw-publish.mjs:60-62 | the tags throw exactly for a non-empty string or an object with a positive `length`; an array gives each element through `String` |
| OpenclawPublish.PublishDraft | scripts/openclaw-publish.mjs:154-156 | a draft is built exactly when the title is a string and the tags can be listed; it carries the record's title, summary, category, author and date and the local attachments |
| OpenclawPublish.EmptyArrayCategoryKept | scripts/openclaw-publish.mjs:67 | a category given as an empty array is written empty rather than as "未分类"; a missing one falls back to "未分类" |
| OpenclawPublish.ModuleOf | scripts/openclaw-publish.mjs:105 | the module is the record's when truthy, otherwise `articles` |
| OpenclawPublish.PublishCommand | scripts/openclaw-publish.mjs:90-172 | blank input and unparseable JSON fail first; a standards record needs a non-empty hazards array and merges it into the stored ones; otherwise title and content are required before the module is checked; a content record is written under the title's slug, made with a clock reading of its own after the attachments, and reads back as the draft |
| OpenclawPublish.CrashedEntryWritesNothing | scripts/openclaw-publish.mjs:150-157 | an attachment entry that throws, or whose download crashes on a redirect, stops a content record before its page is written |
| OpenclawPush.WriteContent | scripts/openclaw-push.mjs:138-149 | the slug is the draft's own, or a slug of at most 57 characters ending in the clock's digits; the file lies in the section's directory and reads back as the draft |
| OpenclawPush.DraftOf | scripts/openclaw-push.mjs:53-64 | a parsed command becomes a draft with its title, content, summary and category, and no slug or attachments |
| OpenclawPush.ParsedOneLine | scripts/openclaw-push.mjs:105-134 | the values of a parsed command always fit on one line, so its document reads back |
| OpenclawPush.TextCommand | scripts/openclaw-push.mjs:347-363 | the text mode fails exactly when the command has no non-empty line; otherwise it writes to the detected section, and the document reads back as the parsed title, summary, category and content |
| OpenclawPush.StringField | scripts/openclaw-push.mjs:61-64 | a falsy value is absent, a string is kept, anything else throws |
| OpenclawPush.TagsField | scripts/openclaw-push.mjs:55-56 | the tags throw exactly for an array holding a non-string, a non-empty string, or an object with a positive `length`; an array of strings is kept |
| OpenclawPush.DraftFromJson | scripts/openclaw-push.mjs:138-149 | a record gives a draft exactly when its title is a string and its summary, category, author and tags are usable; a missing content is written as `undefined` |
| OpenclawPush.RecordOf | scripts/openclaw-push.mjs:16 | a draft as a record holds the title, the content and the set fields |
| OpenclawPush.DraftFromRecord | scripts/openclaw-push.mjs:138-149 | reading a record written from a draft gives the draft back |
| OpenclawPush.JsonCommand | scripts/openclaw-push.mjs:294-330 | the module must be one of the three sections, the JSON must parse, a standards record needs a non-empty hazards array merged into the stored ones with the given or default source, and a content record needs a title and content |
| OpenclawPush.JsonRecordWritten | scripts/openclaw-push.mjs:322-328 | a record with title and content is written as its draft's document |
| OpenclawPush.FileCommand | scripts/openclaw-push.mjs:332-345 | both arguments are required; the file's record is then written without checking the module or the fields |
| OpenclawPush.FileModeWritesUndefined | scripts/openclaw-push.mjs:322-341 | the file mode writes a record the JSON mode refuses: without content, into any directory, with the body `undefined` |
| Webhook.DetectSection | src/app/api/webhook/openclaw/route.ts:49-54 | a message is filed under laws exactly when its lower-cased first line holds one of the nine law triggers |
| Webhook.Category | src/app/api/webhook/openclaw/route.ts:78-83 | each later category rule wins over the earlier ones: `规定`/`办法` give 部门规章 over everything, then `标准`/`gbz` give 标准规范, then `法律`/`法规` give 国家法律, then `案例` gives 案例分析, else the section's default |
| Webhook.CaseStudyLaw | src/app/api/webhook/openclaw/route.ts:52-80 | the category does not follow the section: a law message with `通知` and `案例` is filed under the article category 案例分析 |
| Webhook.RunEnd | src/app/api/webhook/openclaw/route.ts:69 | the run of hashtag characters from a position is maximal |
| Webhook.HashTags | src/app/api/webhook/openclaw/route.ts:69-70 | every tag is a non-empty run of CJK, ASCII letters or digits that occurs after a `#` in the message |
| Webhook.HashTagsComplete | src/app/api/webhook/openclaw/route.ts:69-70 | every `#` followed by a tag character yields its tag: the global match never skips one |
| Webhook.BodyLines | src/app/api/webhook/openclaw/route.ts:73 | the body keeps, in order, exactly the lines from the third on that do not start with `#` or start with `## ` |
| Webhook.ParseNaturalLanguage | src/app/api/webhook/openclaw/route.ts:43-86 | nothing for fewer than two non-empty lines; otherwise the section and category come from the trimmed first line, the title is that line without its command (or the whole line), the summary the trimmed second line, the tags the hashtags of the whole message, and the body the kept lines joined by blank lines or a heading with the summary |
| Webhook.TrimNonEmpty | src/app/api/webhook/openclaw/route.ts:44-47 | the first non-empty line stays non-empty once trimmed |
| Webhook.TrimKeepsFirst | src/app/api/webhook/openclaw/route.ts:44-47 | trimming a line that starts with a non-space character keeps that character first |
| Webhook.OneLineOnlyParsedByScript | src/app/api/webhook/openclaw/route.ts:45 | a one-line message is not understood by the webhook although the push script accepts it |
| Webhook.CheckApiKey | src/app/api/webhook/openclaw/route.ts:100-110 | with no key configured every request passes; otherwise the first key the request presents must equal the configured one |
| Webhook.CheckMatchesGate | src/app/api/webhook/openclaw/route.ts:100-110 | with a key configured the webhook admits exactly the requests the shared API gate admits; without one it admits all while the gate admits none |
| Webhook.DetectSectionFromData | src/app/api/webhook/openclaw/route.ts:186-194 | a record is a law exactly when its lower-cased title, category and tags hold one of the eight law keywords |
| Webhook.FaAnywhereIsLaw | src/app/api/webhook/openclaw/route.ts:192 | any `法` in the title, category or tags makes a record a law |
| Webhook.JsonPayload | src/app/api/webhook/openclaw/route.ts:139-148 | the payload carries the record's title and content as strings, tags exactly when the record has an array, source `openclaw` and no slug; it cannot be built exactly when a string field holds a non-string or title or content is missing |
| Webhook.TextPayload | src/app/api/webhook/openclaw/route.ts:162-169 | a parsed message's payload carries its title, content, summary and category, and tags exactly when there are some |
| Webhook.MessageText | src/app/api/webhook/openclaw/route.ts:126 | the Telegram message's truthy text comes first; whatever is chosen is truthy |
| Webhook.ReadMessage | src/app/api/webhook/openclaw/route.ts:126-128 | no text, a text that is not a string, or a non-empty string, as the chosen value is |
| Webhook.Handle | src/app/api/webhook/openclaw/route.ts:135-183 | a JSON record with truthy title and content is written to the section its data names; otherwise a parsed command is written to its section; the message is not understood exactly when neither applies |
| Webhook.Post | src/app/api/webhook/openclaw/route.ts:112-122 | unauthorised exactly when the key check fails; invalid JSON exactly when it passes and the body does not parse |
| Webhook.ShortMessageIgnored | src/app/api/webhook/openclaw/route.ts:126-133 | a missing text, or one shorter than five UTF-16 code units once trimmed, is ignored |
| Webhook.WritesOnlyLongText | src/app/api/webhook/openclaw/route.ts:128-183 | anything is written only for an authorised request whose message is a string of at least five UTF-16 code units once trimmed |
| Webhook.NullOrNonStringCrashes | src/app/api/webhook/openclaw/route.ts:125-128 | a `null` body or a message text that is not a string throws |
| Webhook.JsonRecordWins | src/app/api/webhook/openclaw/route.ts:136-157 | a usable JSON record is never parsed as free text |
| Webhook.TwoLinesWritten | src/app/api/webhook/openclaw/route.ts:159-178 | a free-text message of at least two lines without a JSON record is written when the writer succeeds |
| SmartPush.TextOrEmpty | src/app/api/smart-push/route.ts:71-78 | a falsy value becomes empty and a string is kept as it is |
| SmartPush.DetectModule | src/app/api/smart-push/route.ts:38-63 | a `hazards` array means standards; else a truthy file name and data mean media; else a truthy title and content mean laws exactly when the lower-cased title, category and tags hold one of the nineteen law keywords, articles otherwise; anything else is an article |
| SmartPush.ChosenSection | src/app/api/smart-push/route.ts:178-200 | a missing, falsy or `auto` module is detected from the data, each of the four names selects its section, and any other truthy value is unsupported |
| SmartPush.NullishString | src/app/api/smart-push/route.ts:70-77 | an absent or `null` field is no value, a string is kept, and any other value makes the writer throw |
| SmartPush.TruthyString | src/app/api/smart-push/route.ts:76-77 | a falsy field is no value, a truthy string is kept, and any other truthy value makes the writer throw |
| SmartPush.ContentPayload | src/app/api/smart-push/route.ts:69-79 | the payload carries the converted title and content, tags from an array converted with `String` and none otherwise; it cannot be built exactly when one of the string fields holds a value of another type |
| SmartPush.ContentPush | src/app/api/smart-push/route.ts:65-96 | a trimmed title shorter than 2 UTF-16 code units is refused first, then a trimmed content shorter than 10; a record passing both is written to the requested section when the payload builds and the write succeeds, and throws otherwise |
| SmartPush.MediaPush | src/app/api/smart-push/route.ts:98-134 | a missing name is refused, then missing data; the decoded file is refused when empty or larger than 20 MiB; a failed write throws; a stored file is named after the clock and the sanitised name, served under `/uploads/` and reports its size |
| SmartPush.StandardsPush | src/app/api/smart-push/route.ts:136-154 | anything but a non-empty array is refused; the array is saved unchecked with the given source or `smart-push`, and the count is its length; a failed write throws |
| SmartPush.Post | src/app/api/smart-push/route.ts:156-211 | the key gate answers first, then a body that is not JSON, then a missing or non-object `data`, then an unknown module; every other request goes to its section's handler |
| SmartPush.StatusMapping | src/app/api/smart-push/route.ts:157-209 | success is 200, a refusal or unknown module 400, an exception 500, and a gate refusal keeps the gate's status |
| SmartPush.TitleCheckedFirst | src/app/api/smart-push/route.ts:81-86 | a too-short title is reported even when the content is too short as well |
| SmartPush.NoHazardValidation | src/app/api/smart-push/route.ts:137-145 | a non-empty array of `null`s is saved as it is |
| SmartPush.OversizeStatusDiffers | src/app/api/smart-push/route.ts:118-202 | an oversized upload is a 400 here but a 413 from the media route |
| SmartPush.GbzTitleIsLaw | src/app/api/smart-push/route.ts:46-59 | a record titled after a GBZ standard is filed under laws |
| LawsRoute.ValidatePayload | src/app/api/laws/route.ts:9-19 | a title shorter than 2 UTF-16 code units once trimmed is reported first, then a content shorter than 10; a payload passing both is valid |
| LawsRoute.DownloadAndUploadPdf | src/app/api/laws/route.ts:21-92 | a PDF is stored exactly when a token is set, the fetch answers ok with at least 100 bytes that start with the PDF header, and the upload succeeds; it is then served at `/uploads/<slug>.pdf` |
| LawsRoute.MergeAttachments | src/app/api/laws/route.ts:126-133 | the given attachments are kept in order and one PDF entry named after the slug is appended exactly when a PDF was stored and none of them is a PDF |
| LawsRoute.MergedHasPdf | src/app/api/laws/route.ts:126-133 | whenever a PDF was stored the written attachments include a PDF |
| LawsRoute.Post | src/app/api/laws/route.ts:94-155 | the key gate answers first, then invalid JSON, then a throwing or failing validation; a valid payload fetches the PDF only when an address is given, merges it into the attachments and writes the page; a failed write throws |
| LawsRoute.NoPdfNoAttachment | src/app/api/laws/route.ts:120-153 | without a PDF address the answer's `pdfUrl` is null |
| LawsRoute.SlugsAgree | src/app/api/laws/route.ts:118-119 | the route's slug and the writer's slug agree, whatever the clocks, when the normalised input has three characters or more |
| LawsRoute.PdfSlugIsPageSlug | src/app/api/laws/route.ts:118-135 | on such an input the PDF is named after the slug the page is written under |
| LawsRoute.SlugsMayDiffer | src/app/api/laws/route.ts:118-136 | on a shorter input the PDF's slug depends on the clock and can differ from the page's |
| SiteMaintain.AcquireLock | scripts/site-auto-maintain.mjs:47-61 | the run proceeds exactly when there is no lock, the lock is unreadable, or its timestamp is more than thirty minutes old; it then holds its own lock, and otherwise leaves the lock as it found it |
| SiteMaintain.LockExcludesOverlap | scripts/site-auto-maintain.mjs:47-61 | while the first run still holds its lock, a second run started within thirty minutes of it does not proceed |
| SiteMaintain.NonNumericLockBlocksForever | scripts/site-auto-maintain.mjs:51 | a lock whose timestamp is not a number is never taken over |
| SiteMaintain.AppendLog | scripts/site-auto-maintain.mjs:33-45 | the line is always appended last; above 5 MiB the earlier content is first cut to the longest ending of it that has at most 1 MiB UTF-16 code units |
| SiteMaintain.WebsiteOk | scripts/site-auto-maintain.mjs:228-244 | the website check passes exactly when every page answered 200 |
| SiteMaintain.ErrorCount | scripts/site-auto-maintain.mjs:100-251 | no error exactly when every module check succeeded and every page answered 200; at least one error per failing page |
| SiteMaintain.Grade | scripts/site-auto-maintain.mjs:254 | no error is ok, more than two is an error, one or two a warning |
| SiteMaintain.Maintain | scripts/site-auto-maintain.mjs:254-287 | a run that does not get the lock only writes `skipped`; one that does always removes its lock before writing the health file, which holds the graded error count, or `crash` exactly when writing the lock throws |
| ScrapePdfs.ListingUrlInjective | scripts/scrape-and-download-pdfs.mjs:78-81 | different listing pages are fetched from different addresses |
| ScrapePdfs.Pages | scripts/scrape-and-download-pdfs.mjs:76-78 | the listing pages are walked in order, 1 to 66 |
| ScrapePdfs.FullUrl | scripts/scrape-and-download-pdfs.mjs:94 | a gathered address always starts with `http`; an absolute one is kept as it is |
| ScrapePdfs.RelativeAbsoluteSame | scripts/scrape-and-download-pdfs.mjs:90-95 | a relative and an absolute link to the same article give one address |
| ScrapePdfs.PageArticles | scripts/scrape-and-download-pdfs.mjs:83-96 | every address of a listing page is a full address, and a failed fetch gives none |
| ScrapePdfs.ScrapeListing | scripts/scrape-and-download-pdfs.mjs:73-102 | the addresses are distinct, full, and are exactly those some listing page links to |
| ScrapePdfs.ListingMember | scripts/scrape-and-download-pdfs.mjs:75-96 | an address is gathered exactly when some listing page links to it |
| ScrapePdfs.ListingHttp | scripts/scrape-and-download-pdfs.mjs:94-95 | every gathered address is a full address |
| ScrapePdfs.NormalizeCode | scripts/scrape-and-download-pdfs.mjs:138 | a tidied code has no white space at its ends and no white space but plain spaces; a blank match gives "", a match starting with a non-space character a non-empty code |
| ScrapePdfs.CodeMatchSolid | scripts/scrape-and-download-pdfs.mjs:132-137 | a match of a code pattern starts with its family's first letter |
| ScrapePdfs.ExtractCode | scripts/scrape-and-download-pdfs.mjs:130-138 | the code is empty exactly when no code family occurs, and is trimmed |
| ScrapePdfs.StripTags | scripts/scrape-and-download-pdfs.mjs:120 | stripping removes characters only, and leaves no `<` followed somewhere by a `>`; a text without `<` is kept |
| ScrapePdfs.TagAt | scripts/scrape-and-download-pdfs.mjs:116 | an element opens with the tag name, its opening tag ends at the first `>`, and its content ends at a closing tag |
| ScrapePdfs.TagsFrom | scripts/scrape-and-download-pdfs.mjs:116 | every element found is a match of the element pattern, in order |
| ScrapePdfs.Headings | scripts/scrape-and-download-pdfs.mjs:116 | one heading per `<h1>` element found |
| ScrapePdfs.ArticleTitle | scripts/scrape-and-download-pdfs.mjs:115-123 | the title is the stripped text of the first heading that is not the site logo, not the site name and longer than three UTF-16 code units; "" exactly when there is none |
| ScrapePdfs.EndsWithNoCasePrefix | scripts/scrape-and-download-pdfs.mjs:142 | a document ending is kept when text is put in front |
| ScrapePdfs.HrefAt | scripts/scrape-and-download-pdfs.mjs:142 | a link match runs to the first quote after `href="` and has a document ending |
| ScrapePdfs.ScanFrom | scripts/scrape-and-download-pdfs.mjs:142-143 | the global matches are in order, do not overlap, and each is a match |
| ScrapePdfs.ScanComplete | scripts/scrape-and-download-pdfs.mjs:142-143 | no match is skipped: every position where a match starts lies inside a match found |
| ScrapePdfs.HrefsFrom | scripts/scrape-and-download-pdfs.mjs:142-143 | every link found is a link match |
| ScrapePdfs.HrefsComplete | scripts/scrape-and-download-pdfs.mjs:142-143 | every position where a link match starts lies inside a link found |
| ScrapePdfs.LinkTexts | scripts/scrape-and-download-pdfs.mjs:142-144 | every link text holds no quote and has a document ending |
| ScrapePdfs.NormalizeLink | scripts/scrape-and-download-pdfs.mjs:144-146 | a link is kept exactly when it starts with `/` or `http`; a kept link starts with `http` and keeps its document ending |
| ScrapePdfs.HostedLink | scripts/scrape-and-download-pdfs.mjs:145 | a completed root-relative link starts with `http` and keeps its ending |
| ScrapePdfs.ArticleLinks | scripts/scrape-and-download-pdfs.mjs:141-150 | the download links are distinct, full, have a document ending, and are exactly the kept links of the page |
| ScrapePdfs.ExtractRecord | scripts/scrape-and-download-pdfs.mjs:112-152 | a page yields no record exactly when it could not be fetched or has neither a code nor a kept link; a record carries the article's address, its best title and distinct links |
| ScrapePdfs.ExtractPdfLinks | scripts/scrape-and-download-pdfs.mjs:105-164 | the records are exactly those of the article pages that yield one, at most one per address |
| ScrapePdfs.ToDownload | scripts/scrape-and-download-pdfs.mjs:173 | the records to download are exactly those with a `.pdf` link |
| ScrapePdfs.DigitRun | scripts/scrape-and-download-pdfs.mjs:187 | the run of digits from a position is maximal |
| ScrapePdfs.IdAt | scripts/scrape-and-download-pdfs.mjs:187 | an article number is a non-empty run of digits |
| ScrapePdfs.ArticleId | scripts/scrape-and-download-pdfs.mjs:187 | the article number is the leftmost `/<digits>.html` match, none exactly when there is no match |
| ScrapePdfs.NameBase | scripts/scrape-and-download-pdfs.mjs:180-189 | a file name holds no slash and no white space; a code gives its stem; a title longer than five UTF-16 code units gives at most 80 code units of name characters |
| ScrapePdfs.TitleName | scripts/scrape-and-download-pdfs.mjs:184 | a title becomes at most 80 word characters, CJK ideographs or hyphens, each one UTF-16 code unit |
| ScrapePdfs.FallbackName | scripts/scrape-and-download-pdfs.mjs:186-188 | the fallback name holds no slash and no white space |
| ScrapePdfs.DownloadItem | scripts/scrape-and-download-pdfs.mjs:178-209 | a record is skipped exactly when its file is on disk with more than 500 bytes; a saved download came from one of its `.pdf` links and has at least 500 bytes; a failure means none of those links gave an acceptable file |
| ScrapePdfs.FiveHundredBytesFetchedAgain | scripts/scrape-and-download-pdfs.mjs:194 | a file of exactly 500 bytes is not skipped although a 500-byte download is accepted, so it is fetched again |
| ScrapePdfs.CountAll | scripts/scrape-and-download-pdfs.mjs:212-225 | every result of a batch is counted once and the byte total never shrinks |
| ScrapePdfs.Store | scripts/scrape-and-download-pdfs.mjs:60 | a batch only adds files, and a file no download of the batch targets keeps its size |
| ScrapePdfs.BatchResults | scripts/scrape-and-download-pdfs.mjs:176-210 | every record of a batch is checked against the folder as it was when the batch started |
| ScrapePdfs.BatchKeepsBig | scripts/scrape-and-download-pdfs.mjs:194-202 | one batch keeps every file that had more than 500 bytes |
| ScrapePdfs.DownloadBatches | scripts/scrape-and-download-pdfs.mjs:175-231 | every record to download is accounted for once |
| ScrapePdfs.DownloadKeepsBig | scripts/scrape-and-download-pdfs.mjs:175-231 | the download step never replaces a file that had more than 500 bytes |
| ScrapePdfs.BigFilesUntouched | scripts/scrape-and-download-pdfs.mjs:194-202 | no download of a batch targets a file that had more than 500 bytes |
| ScrapePdfs.DownloadPdfs | scripts/scrape-and-download-pdfs.mjs:167-244 | every record is downloaded, skipped, failed or counted as having no PDF link; the last are those without a `.pdf` link, and without any record to download the folder is unchanged |
| ScrapePdfs.NoneToDownload | scripts/scrape-and-download-pdfs.mjs:173 | without a record with a `.pdf` link nothing is downloaded |
| ScrapePdfs.DownloadPdfsKeepsBig | scripts/scrape-and-download-pdfs.mjs:167-244 | the whole download step never replaces a file that had more than 500 bytes |
| ScrapePdfs.Main | scripts/scrape-and-download-pdfs.mjs:247-262 | the cached records are used when the links file exists, otherwise those of the scraped listing; every record is accounted for |
| StandardPdfs.ArgAfter | scripts/download-standards-pdfs.mjs:22-23 | the option's value is the argument after the first occurrence of the flag; without the flag the first argument is read |
| StandardPdfs.ConcurrencyAsWritten | scripts/download-standards-pdfs.mjs:22 | the batch size as the script reads it is never zero and is 3 when no value follows |
| StandardPdfs.MinusOneAccepted | scripts/download-standards-pdfs.mjs:22 | `--concurrency -1` is taken as the batch size -1 |
| StandardPdfs.NegativeConcurrencyNeverEnds | scripts/download-standards-pdfs.mjs:183 | with a negative batch size the batch index stays below a non-zero length after any number of rounds |
| StandardPdfs.Concurrency | scripts/download-standards-pdfs.mjs:22 | the corrected batch size is a positive option value, otherwise 3 |
| StandardPdfs.MaxRetry | scripts/download-standards-pdfs.mjs:23 | the retry limit is never zero and is 2 when no value follows |
| StandardPdfs.Chunks | scripts/download-standards-pdfs.mjs:183-184 | the batches hold between 1 and the batch size standards each and together are the whole list in order |
| StandardPdfs.DownloadUrls | scripts/download-standards-pdfs.mjs:103-115 | four sources, in order, each addressed by the code with slashes and white-space runs made dashes; the title is not used |
| StandardPdfs.TrySources | scripts/download-standards-pdfs.mjs:137-150 | the first of the four sources whose answer has status 200, at least 100 bytes and the PDF header is the download, with its size and address; when none answers so, every source has failed |
| StandardPdfs.DownloadStandard | scripts/download-standards-pdfs.mjs:119-151 | a file of more than 100 bytes is reported as existing and a standard given up on is skipped, both without change; a download saves the file and records it, and a failure of every source records one more failed run |
| StandardPdfs.FailingRun | scripts/download-standards-pdfs.mjs:131-150 | a run on a standard no source has leaves it unavailable, counting one more failure unless it was already given up on |
| StandardPdfs.RerunCounts | scripts/download-standards-pdfs.mjs:131-150 | after n failing runs the standard has at least n failures recorded, or reached the retry limit |
| StandardPdfs.GivesUpAfterRetries | scripts/download-standards-pdfs.mjs:131-133 | a standard no source has is skipped by every run once `--retry` runs have failed |
| StandardPdfs.CountOne | scripts/download-standards-pdfs.mjs:193-209 | every outcome is counted once |
| StandardPdfs.RunBatch | scripts/download-standards-pdfs.mjs:183-209 | every standard of a batch is checked against the folder and progress as they were when the batch started: only a file on disk then counts as existing, only a standard given up on by then is skipped, and every standard is counted once |
| StandardPdfs.SharedFileInOneBatch | scripts/download-standards-pdfs.mjs:183-187 | two standards of one batch that share a file name are both downloaded when the file is missing, and the later write is the one that stays |
| StandardPdfs.SharedFileInTwoBatches | scripts/download-standards-pdfs.mjs:122-127 | the same two standards in separate batches: the second finds the first's file of more than 100 bytes and counts as existing |
| StandardPdfs.BatchSequentialWhenIndependent | scripts/download-standards-pdfs.mjs:185-186 | a batch whose standards have distinct file names and distinct codes ends as if its standards had run one after another |
| StandardPdfs.RunAll | scripts/download-standards-pdfs.mjs:183-209 | the standards one after another, each seeing the files and progress the earlier ones wrote, as with `--concurrency 1`: every standard is counted once |
| StandardPdfs.RunBatchesFlat | scripts/download-standards-pdfs.mjs:183-209 | when no batch holds two standards with one file name or one code, the batch split does not change the counters, the folder or the progress |
| StandardPdfs.PresentOrPending | scripts/download-standards-pdfs.mjs:166-181 | every standard is either on disk or pending, never both |
| StandardPdfs.ProcessAll | scripts/download-standards-pdfs.mjs:154-241 | the report counts every catalog standard once as downloaded, existing, failed or skipped |
| StandardPdfs.ConcurrencyOneIsSequential | scripts/download-standards-pdfs.mjs:183-187 | with `--concurrency 1` the whole run is the one-after-another run of the pending standards |
| StandardPdfs.StandardKeepsFiles | scripts/download-standards-pdfs.mjs:92-127 | one standard never replaces a file of more than 100 bytes |
| StandardPdfs.RunAllKeepsFiles | scripts/download-standards-pdfs.mjs:183-209 | one after another, as with `--concurrency 1`, no standard replaces a file of more than 100 bytes, even one saved earlier in the same run |
| StandardPdfs.RunBatchKeepsFiles | scripts/download-standards-pdfs.mjs:183-187 | a batch never replaces a file that had more than 100 bytes when the batch started, which includes every file an earlier batch saved |
| StandardPdfs.RunBatchesKeepsFiles | scripts/download-standards-pdfs.mjs:183-215 | the batches in turn keep every file of more than 100 bytes that was on disk before the first |
| StandardPdfs.ProcessAllKeepsFiles | scripts/download-standards-pdfs.mjs:154-241 | the whole run keeps every PDF that was on disk |
| NhcDownload.CodeToFilename | scripts/download-standards.py:39-42 | the file name is the code with every space and every slash turned into a dash, other characters kept, and `.pdf` added |
| NhcDownload.SameNameWithoutSpace | scripts/download-standards.py:39-42 | for a code without white space this is the file name the Node batch downloader derives |
| NhcDownload.OtherSpaceNamesDiffer | scripts/download-standards.py:41 | a code holding a tab or another non-plain space keeps it here, so the two downloaders look for different files |
| NhcDownload.Base | scripts/download-standards.py:71 | the space-free code keeps every other character and no space |
| NhcDownload.GenerateUrls | scripts/download-standards.py:68-86 | five addresses, each ending in the space-free code and `.pdf` |
| NhcDownload.TryDownload | scripts/download-standards.py:50-66 | a download succeeds exactly for an answer taken for a PDF, and writes the whole body, which is longer than 5000 bytes |
| NhcDownload.StricterThanBatchDownload | scripts/download-standards.py:58-60 | every body saved here with status 200 the Node batch downloader would save too, with the same size |
| NhcDownload.PartialHtmlRefused | scripts/download-standards.py:58 | a partial answer with an HTML type is refused whatever its body |
| NhcDownload.Missing | scripts/download-standards.py:95-102 | the missing standards are, in catalog order, exactly those in force whose slug has no file |
| NhcDownload.MapFile | scripts/download-standards.py:119-128 | the slug maps to the file, a new slug is added at the end, and every other entry stays as it was |
| NhcDownload.Fetch | scripts/download-standards.py:123-135 | a standard is counted once; a download maps its slug to its file and puts the file in the folder; it fails exactly when no address gives a PDF, and then nothing changes; other slugs and files keep their entries |
| NhcDownload.Known | scripts/download-standards.py:117-121 | a file already in the folder is mapped and counted as downloaded without changing the folder |
| NhcDownload.Step | scripts/download-standards.py:111-137 | one standard is counted once; it fails exactly when its file is missing and no address gives a PDF; no file of the folder is written over |
| NhcDownload.Loop | scripts/download-standards.py:111-137 | every selected standard is counted once and the map only grows |
| NhcDownload.LoopKeeps | scripts/download-standards.py:111-137 | the loop keeps every file and every slug, and changes no entry of a slug it did not process |
| NhcDownload.MaxDownloads | scripts/download-standards.py:109 | without an argument the limit is 20, otherwise what `int` reads, or an exception |
| NhcDownload.Selected | scripts/download-standards.py:111 | the first n missing standards, or with a negative n all but the last -n (Python's slice) |
| NhcDownload.Main | scripts/download-standards.py:88-145 | an argument `int` cannot read ends the run before anything is saved; otherwise at most the number of standards, and by default at most 20, are counted, and the reported mappings are the saved map's size |

## Left out

- Network, process and file I/O are left out; only their results are modelled, as parameters. This covers HTTP requests, the GitHub contents API, the Notion client, `curl`/`execSync`, reading and writing files, `git`, `next build`, `vercel`, `pm2`, `lsof`/`kill`, and the console.
- Concurrency is modelled sequentially. The `Promise.allSettled` batches of the PDF scripts decide every item against the folder as it was when the batch started, then apply the items' writes one by one. A rejected promise is not modelled, since the handlers catch their own errors.
- StandardPdfs.RunBatch: the writes of a batch are applied in batch order. The script applies them in the order the downloads finish, which is timing. So when two standards of one batch share a file name, or share a code, which download's size or progress entry is kept can differ from the model; every other outcome and all counters agree.
- The redirect chains of the scrape and batch downloaders are left out, because they follow redirects without a hop limit. A download is modelled by its final answer. The publish script's chain, which is limited to five redirects and keeps the first URL's protocol, is modelled (`OpenclawPublish.Follow`); a redirect location that protocol cannot request crashes the script.
- OpenclawPublish.Takes: a location is taken when it starts with the protocol's scheme, in any ASCII case. Leading spaces, which the URL parser strips, and a malformed remainder after the scheme, which makes the request throw too, are not modelled.
- The retry of `tryDownload` in scripts/auto-pdf-finder.mjs on a link embedded in an HTML answer is left out, because it has no cycle guard. Each download's success is a parameter.
- Scraping third-party HTML is left out: the openstd and biaozhun searches, the NHC list, the Google search and `extractStdNumber`. Their results are parameters (candidate lists, search results, the extracted number).
- gray-matter's YAML parser is left out. A parsed frontmatter is a JSON value. The model reads back only the documents the site's own writers produce.
- `JSON.parse`, Base64 decoding, URL parsing and `Date.parse` are left out; they are parameters. So is the webhook's `tryParseJSON`, which also cuts the first `{...}` span out of a message with a regular expression before parsing it: Webhook.Handle takes its result as `tryParse`.
- The interactive mode of scripts/openclaw-push.mjs (no arguments, prompts on standard input) is left out, because it only reads the console and then runs the free-text command, which is modelled (`OpenclawPush.TextCommand`).
- The GET handlers of the routes are left out, because they only return fixed usage descriptions.
- Text.Lower: `toLowerCase` and the `i` flag of the regular expressions (Pattern.LitNoCase) fold only ASCII letters. The source's keywords and codes are ASCII or CJK, and CJK has no case. User-supplied text is not so limited: in ListingPages.Listed and in the catalogue search (StandardsCatalog.SearchHit) the visitor's query and the record fields may hold fullwidth Latin (Ａ–Ｚ) or other cased scripts, which `toLowerCase` folds and the model does not, so such a query can match in the source and not in the model.
- Utils.Excerpt, Utils.ExcerptDefault, Utils.ShortNormalUnchanged: lengths count Unicode scalar values, not UTF-16 code units. A text with characters outside the Basic Multilingual Plane is cut later than in the source.
- StandardsCatalog.RowLe: `localeCompare(..., "zh-CN")` is not modelled, since its collation tables are the engine's. The catalogue table takes its code order as a parameter that is required to be a total preorder; the default `sort()` order of Content.AllTags (Sorting.StringLe, UTF-16 code-unit order) is proved to be one (Sorting.StringLeIsTotalPreorder).
- Json.JNum: JSON numbers are integers. Fractions, exponents and the special values are not modelled. Json.NumericPositive reads a numeric string's sign and digits, so an underflowing literal such as `1e-400`, which JavaScript reads as 0, counts as positive.
- MediaStore.ItemTime: an unparseable date is given time 0. In the source it makes the comparator return NaN, which leaves the order up to the engine.
- Content.Timestamp: an unparseable date counts as 0, as in the source.
- Intl date formatting is left out; it is a parameter of Utils.FormatDate.
- NotionSync.BlocksToMarkdown: only the first page of a page's block children is converted, as in the source, which does not page through them. Page properties other than the ones read are not modelled.
- next-auth, React rendering and the static pages are left out. The admin session is a value (AdminSession.Session); the components are modelled only through the state their filters, sorts and handlers compute.
- Where the webhook and the smart-push route cast body fields (`as string`), the model treats a value of another type as an exception at the point where the writer first calls a string method on it. In the laws route this holds for the title and the content only.
- LawsRoute.Post: the body's other fields are read as values of their declared types. A `slug`, `summary`, `tags`, `attachments` or `pdfUrl` of another JSON type is not modelled; in the source some of them throw (a non-array `tags` fails at `tags?.filter` in src/lib/content-write.ts:34, a non-array `attachments` at `.some` once a PDF was stored), and the route answers 500.
- SiteMaintain.AppendLog: when the 1 MiB cut falls inside a surrogate pair, JavaScript keeps the lone low surrogate, which Node writes out as U+FFFD; the model drops that half instead (Text.JsTakeLast).
- Python's `int()` is left out: NhcDownload.MaxDownloads takes the value `int` reads from the argument, or its exception, as a parameter.

## Findings

| source | as written | input that shows it | evidently intended | confidence | as-written member | corrected member |
|---|---|---|---|---|---|---|
| scripts/download-standards-pdfs.mjs:22 | `parseInt(...) \|\| 3` falls back only for NaN and 0, so a negative batch size is accepted, and the loop at line 183 (`i += CONCURRENCY`) then never reaches `pending.length` | `--concurrency -1` with at least one pending standard | a batch size of at least 1, with the default 3 otherwise | not executed | StandardPdfs.ConcurrencyAsWritten, StandardPdfs.MinusOneAccepted, StandardPdfs.NegativeConcurrencyNeverEnds | StandardPdfs.Concurrency, StandardPdfs.Chunks |

=== FILE: admin_session.dfy ===
/** The server session of the admin routes (next-auth): a route is open to a signed-in user
    whose role is `admin`. */
module AdminSession {
  import opened Common

  /** The signed-in user's role, or no session at all. */
  datatype Session = NoSession | Signed(role: Option<string>)

  /** `session && session.user.role === "admin"`. */
  predicate IsAdmin(s: Session) {
    s.Signed? && s.role == Some("admin")
  }
}

=== FILE: api_auth.dfy ===
/** The API-key gate of the content APIs (`src/lib/api-auth.ts`). The configured key is a
    parameter; the three places a client may present its key are fields of the request. */
module ApiAuth {
  import opened Common
  import opened Text

  /** The parts of a request the gate reads: the `x-api-key` header, the `Authorization`
      header and the `apiKey` query parameter, each absent or present (possibly empty). */
  datatype Request = Request(apiKeyHeader: Option<string>, authorization: Option<string>, apiKeyQuery: Option<string>)

  /** Why a request is refused. */
  datatype Denial = ServerKeyMissing | BadKey {
    function Status(): nat {
      match this
      case ServerKeyMissing => 500
      case BadKey => 401
    }
  }

  /** `h` starts with `Bearer` in any ASCII letter case, followed by white space. */
  predicate HasBearer(h: string) {
    |h| >= 7 && Lower(h[..6]) == "bearer" && IsSpace(h[6])
  }

  /** `replace(/^Bearer\s+/i, "")`: the scheme and all white space after it are removed. */
  function StripBearer(h: string): (r: string)
    ensures |r| <= |h| && r == h[|h| - |r|..]
    ensures HasBearer(h) ==> |r| < |h| - 6 && IsBlank(h[6..|h| - |r|]) && (|r| > 0 ==> !IsSpace(r[0]))
    ensures !HasBearer(h) ==> r == h
  {
    if HasBearer(h) then
      var r := DropWhile(h[6..], IsSpace);
      assert h[6..][..|h| - 6 - |r|] == h[6..|h| - |r|];
      r
    else h
  }

  /** The key the request presents: the first of the three places that is present, even
      when its value is empty or wrong. */
  function IncomingKey(req: Request): (r: Option<string>)
    ensures req.apiKeyHeader.Some? ==> r == req.apiKeyHeader
    ensures req.apiKeyHeader.None? && req.authorization.Some? ==> r == Some(StripBearer(req.authorization.value))
    ensures req.apiKeyHeader.None? && req.authorization.None? ==> r == req.apiKeyQuery
  {
    if req.apiKeyHeader.Some? then req.apiKeyHeader
    else if req.authorization.Some? then Some(StripBearer(req.authorization.value))
    else req.apiKeyQuery
  }

  /** `requireApiKey`: `None` lets the request through. */
  function RequireApiKey(expected: Option<string>, req: Request): (r: Option<Denial>)
    ensures expected.GetOr("") == "" ==> r == Some(ServerKeyMissing)
    ensures expected.GetOr("") != "" ==> (r.None? <==> IncomingKey(req) == expected)
    ensures expected.GetOr("") != "" && r.Some? ==> r.value == BadKey
  {
    if expected.GetOr("") == "" then Some(ServerKeyMissing)
    else
      var incoming := IncomingKey(req);
      if incoming.GetOr("") == "" || incoming != expected then Some(BadKey) else None
  }

  /** A present `x-api-key` header decides alone: the request passes iff that header is the
      key, whatever the other two places hold. */
  lemma HeaderShadows(expected: string, req: Request)
    requires expected != "" && req.apiKeyHeader.Some?
    ensures RequireApiKey(Some(expected), req).None? <==> req.apiKeyHeader.value == expected
  {
  }

  /** `Authorization: Bearer <key>`, in any letter case of the scheme, passes when no
      `x-api-key` header is sent. */
  lemma BearerAccepted(key: string, scheme: string, query: Option<string>)
    requires key != "" && !IsSpace(key[0])
    requires |scheme| == 6 && Lower(scheme) == "bearer"
    ensures RequireApiKey(Some(key), Request(None, Some(scheme + " " + key), query)).None?
  {
    var h := scheme + " " + key;
    assert h[..6] == scheme && h[6] == ' ';
    var r := StripBearer(h);
    assert h[7..] == key;
    assert r == h[|h| - |r|..] == key;
  }

  /** A bare key in the `Authorization` header (no scheme) passes too. */
  lemma BareAuthorizationAccepted(key: string, query: Option<string>)
    requires key != "" && !HasBearer(key)
    ensures RequireApiKey(Some(key), Request(None, Some(key), query)).None?
  {
  }
}

=== FILE: attach_text.dfy ===
/** The text-level frontmatter rewrites that attach a PDF to a law page without parsing
    it: the one-item attachment block, the `^` of a multiline regular expression, and
    splicing a replacement into a string. */
module AttachText {
  import opened Common
  import opened Text

  /** The line terminators of ECMA-262 (section 12.3), after which `^` matches in
      multiline mode. */
  predicate IsLineTerminator(c: char) {
    c == '\n' || c == '\r' || c == '\U{2028}' || c == '\U{2029}'
  }

  /** Position `i` begins a line. */
  predicate LineStart(s: string, i: int) {
    i == 0 || (0 < i <= |s| && IsLineTerminator(s[i - 1]))
  }

  /** `key` occurs at the start of a line at position `i` (`/^key/m` matches there). */
  predicate KeyAt(s: string, i: int, key: string) {
    LineStart(s, i) && StartsAt(s, i, key)
  }

  /** The first position at or after `from` where `key` begins a line. */
  function FirstKeyFrom(s: string, key: string, from: nat): (r: Option<nat>)
    ensures r.Some? ==> from <= r.value && KeyAt(s, r.value, key)
    ensures r.Some? ==> forall j :: from <= j < r.value ==> !KeyAt(s, j, key)
    ensures r.None? ==> forall j :: from <= j ==> !KeyAt(s, j, key)
    decreases |s| + 1 - from
  {
    if from > |s| then None
    else if KeyAt(s, from, key) then Some(from)
    else FirstKeyFrom(s, key, from + 1)
  }

  /** Where `/^key/m` first matches. */
  function FirstKey(s: string, key: string): (r: Option<nat>)
    ensures r.Some? ==> KeyAt(s, r.value, key) && forall j :: 0 <= j < r.value ==> !KeyAt(s, j, key)
    ensures r.None? <==> forall j :: 0 <= j ==> !KeyAt(s, j, key)
  {
    FirstKeyFrom(s, key, 0)
  }

  /** `s` with the `n` characters at `i` replaced by `rep`. */
  function Splice(s: string, i: nat, n: nat, rep: string): (r: string)
    requires i + n <= |s|
    ensures |r| == |s| - n + |rep|
    ensures r[..i] == s[..i] && r[i + |rep|..] == s[i + n..]
  {
    s[..i] + rep + s[i + n..]
  }

  /** `s.replace(pattern, rep)` with a string pattern is the splice at the first
      occurrence. */
  lemma ReplaceFirstIsSplice(s: string, pattern: string, rep: string)
    requires Contains(s, pattern)
    ensures IndexOf(s, pattern).Some?
    ensures ReplaceFirst(s, pattern, rep) == Splice(s, IndexOf(s, pattern).value, |pattern|, rep)
  {
  }

  /** The text `String.prototype.replace` inserts for a match (GetSubstitution, section
      22.1.3.19.1 of ECMA-262, 2023 edition): `$$` is `$`, `$&` the matched text, `` $` ``
      the text before the match, `$'` the text after it, and `$n` or `$nn` capture group n
      of the pattern, where a two-digit index beyond the groups is read as one digit
      followed by a literal digit. Every other `$` stands for itself. */
  function Expand(rep: string, matched: string, before: string, after: string, caps: seq<string>): string
    decreases |rep|
  {
    if |rep| == 0 then ""
    else if rep[0] != '$' || |rep| == 1 then [rep[0]] + Expand(rep[1..], matched, before, after, caps)
    else if rep[1] == '$' then "$" + Expand(rep[2..], matched, before, after, caps)
    else if rep[1] == '&' then matched + Expand(rep[2..], matched, before, after, caps)
    else if rep[1] == '`' then before + Expand(rep[2..], matched, before, after, caps)
    else if rep[1] == '\'' then after + Expand(rep[2..], matched, before, after, caps)
    else if IsDigit(rep[1]) && |rep| >= 3 && IsDigit(rep[2])
            && 1 <= DigitValue(rep[1]) * 10 + DigitValue(rep[2]) <= |caps| then
      caps[DigitValue(rep[1]) * 10 + DigitValue(rep[2]) - 1] + Expand(rep[3..], matched, before, after, caps)
    else if IsDigit(rep[1]) && 1 <= DigitValue(rep[1]) <= |caps| then
      caps[DigitValue(rep[1]) - 1] + Expand(rep[2..], matched, before, after, caps)
    else "$" + Expand(rep[1..], matched, before, after, caps)
  }

  /** Text without `$` is inserted as written, ahead of whatever follows it. */
  lemma {:induction false} ExpandPlainPrefix(a: string, b: string, matched: string, before: string, after: string, caps: seq<string>)
    requires '$' !in a
    ensures Expand(a + b, matched, before, after, caps) == a + Expand(b, matched, before, after, caps)
    decreases |a|
  {
    if |a| > 0 {
      assert a[0] in a;
      assert (a + b)[0] == a[0] && (a + b)[1..] == a[1..] + b;
      assert '$' !in a[1..] by {
        forall i | 0 <= i < |a[1..]|
          ensures a[1..][i] != '$'
        {
          assert a[1..][i] == a[i + 1];
        }
      }
      ExpandPlainPrefix(a[1..], b, matched, before, after, caps);
      var e := Expand(b, matched, before, after, caps);
      assert Expand(a + b, matched, before, after, caps) == [a[0]] + (a[1..] + e);
      assert [a[0]] + (a[1..] + e) == ([a[0]] + a[1..]) + e;
      assert [a[0]] + a[1..] == a;
    } else {
      assert a + b == b;
    }
  }

  /** A replacement without `$` is inserted as written. */
  lemma ExpandPlain(rep: string, matched: string, before: string, after: string, caps: seq<string>)
    requires '$' !in rep
    ensures Expand(rep, matched, before, after, caps) == rep
  {
    ExpandPlainPrefix(rep, "", matched, before, after, caps);
    assert rep + "" == rep;
  }

  /** `$&` puts the matched text back: `"a$&b"` becomes `"a" + matched + "b"`. */
  lemma ExpandMatch(matched: string, before: string, after: string, caps: seq<string>)
    ensures Expand("a$&b", matched, before, after, caps) == "a" + matched + "b"
  {
    var r := "a$&b";
    assert r[1..] == "$&b" && r[1..][2..] == "b";
    assert Expand("b", matched, before, after, caps) == "b" by {
      ExpandPlain("b", matched, before, after, caps);
    }
  }

  /** The text after replacing the `n` characters at `i`, a match of a pattern with the
      capture groups `caps`, by the expansion of `rep`. */
  function ReplaceAt(s: string, i: nat, n: nat, rep: string, caps: seq<string>): (r: string)
    requires i + n <= |s|
    ensures '$' !in rep ==> r == Splice(s, i, n, rep)
  {
    var e := Expand(rep, s[i..i + n], s[..i], s[i + n..], caps);
    assert '$' !in rep ==> e == rep by {
      if '$' !in rep {
        ExpandPlain(rep, s[i..i + n], s[..i], s[i + n..], caps);
      }
    }
    Splice(s, i, n, e)
  }

  /** `s.replace(pattern, rep)` with a string pattern (or a regular expression without
      groups): the first match is replaced by the expansion of `rep`. */
  function ReplaceString(s: string, pattern: string, rep: string): (r: string)
    ensures !Contains(s, pattern) ==> r == s
    ensures Contains(s, pattern) ==>
      IndexOf(s, pattern).Some? && r == ReplaceAt(s, IndexOf(s, pattern).value, |pattern|, rep, [])
    ensures '$' !in rep ==> r == ReplaceFirst(s, pattern, rep)
  {
    match IndexOf(s, pattern)
    case None => s
    case Some(i) => ReplaceAt(s, i, |pattern|, rep, [])
  }

  /** The list entry of a PDF under an `attachments:` key. */
  function PdfItem(name: string, url: string): string {
    "\n  - name: \"" + name + "\"\n    url: \"" + url + "\"\n    type: \"pdf\""
  }

  /** The whole block: the key and the one entry. */
  function PdfBlock(name: string, url: string): string {
    "attachments:" + PdfItem(name, url)
  }

  /** The first line of the block and the start of its entry. */
  const BlockHead: string := "attachments:\n  - name: \""

  /** The rest of the entry after its name. */
  function EntryTail(url: string): string {
    "\"\n    url: \"" + url + "\"\n    type: \"pdf\""
  }

  lemma BlockParts(name: string, url: string)
    ensures PdfBlock(name, url) == BlockHead + (name + EntryTail(url))
  {
  }

  lemma EntryTailPlain(url: string)
    requires '$' !in url
    ensures '$' !in EntryTail(url)
  {
  }

  /** However the replacement expands, the inserted text opens with the key and the first
      entry line, which contain no `$`. */
  lemma ExpandBlockHead(name: string, url: string, matched: string, before: string, after: string, caps: seq<string>)
    ensures var e := Expand(PdfBlock(name, url), matched, before, after, caps);
      |e| >= |BlockHead| && e[..|BlockHead|] == BlockHead
  {
    BlockParts(name, url);
    ExpandPlainPrefix(BlockHead, name + EntryTail(url), matched, before, after, caps);
  }

  /** A block over a name and an address without `$` holds none. */
  lemma BlockPlain(name: string, url: string)
    requires '$' !in name && '$' !in url
    ensures '$' !in PdfBlock(name, url)
  {
    BlockParts(name, url);
    EntryTailPlain(url);
  }

  lemma ExpandMatchPrefix(rest: string, matched: string, before: string, after: string, caps: seq<string>)
    ensures Expand("$&" + rest, matched, before, after, caps) == matched + Expand(rest, matched, before, after, caps)
  {
    assert ("$&" + rest)[2..] == rest;
  }

  /** `$&` between two runs of plain text expands to the matched text. */
  lemma ExpandAround(h: string, t: string, matched: string, before: string, after: string)
    requires '$' !in h && '$' !in t
    ensures Expand(h + ("$&" + t), matched, before, after, []) == h + (matched + t)
  {
    ExpandPlainPrefix(h, "$&" + t, matched, before, after, []);
    ExpandMatchPrefix(t, matched, before, after, []);
    ExpandPlain(t, matched, before, after, []);
  }

  lemma BlockAround(a: string, x: string, b: string, url: string)
    ensures PdfBlock(a + x + b, url) == (BlockHead + a) + (x + (b + EntryTail(url)))
  {
    BlockParts(a + x + b, url);
  }

  /** A `$&` in the file name puts the matched text into the written name: with the name
      `a$&b.pdf` replacing `attachments: []`, the entry is named `aattachments: []b.pdf`. */
  lemma DollarNameExpands(a: string, b: string, url: string, matched: string, before: string, after: string)
    requires '$' !in a && '$' !in b && '$' !in url
    ensures Expand(PdfBlock(a + "$&" + b, url), matched, before, after, [])
            == PdfBlock(a + matched + b, url)
  {
    EntryTailPlain(url);
    BlockAround(a, "$&", b, url);
    BlockAround(a, matched, b, url);
    ExpandAround(BlockHead + a, b + EntryTail(url), matched, before, after);
  }

  /** The middle part of a concatenation occurs in it. */
  lemma ContainsMiddle(a: string, b: string, c: string)
    ensures StartsAt(a + b + c, |a|, b) && Contains(a + b + c, b)
  {
    var s := a + b + c;
    assert s[|a|..|a| + |b|] == b;
    assert 0 <= |a| <= |s| && StartsAt(s, |a|, b);
  }

  /** Regrouping a five-part concatenation around its middle part. */
  lemma Regroup5(a: string, b: string, c: string, d: string, e: string)
    ensures a + (b + c + d) + e == (a + b) + c + (d + e)
  {
  }

  /** The block names the address of the PDF, so a page it was spliced into references it. */
  lemma SplicedBlockHasUrl(s: string, i: nat, n: nat, name: string, url: string)
    requires i + n <= |s|
    ensures Contains(Splice(s, i, n, PdfBlock(name, url)), url)
  {
    var pre := "attachments:\n  - name: \"" + name + "\"\n    url: \"";
    var post := "\"\n    type: \"pdf\"";
    assert PdfBlock(name, url) == pre + url + post;
    Regroup5(s[..i], pre, url, post, s[i + n..]);
    ContainsMiddle(s[..i] + pre, url, post + s[i + n..]);
  }

  /** Replacing a line-initial key by the block keeps the key and inserts the entry right
      after it, ahead of the entries already listed. */
  lemma SpliceKeepsKey(s: string, i: nat, name: string, url: string)
    requires StartsAt(s, i, "attachments:")
    ensures Splice(s, i, |"attachments:"|, PdfBlock(name, url)) == s[..i + |"attachments:"|] + PdfItem(name, url) + s[i + |"attachments:"|..]
  {
    var k := "attachments:";
    assert s[..i + |k|] == s[..i] + k;
  }

  /** The block is longer than the empty list it replaces, so the replacement changes the
      text. */
  lemma BlockLongerThanEmptyList(name: string, url: string)
    ensures |PdfBlock(name, url)| > |"attachments: []"|
  {
  }

  /** The length of the run of white space starting at `j` (what a greedy `\s*` takes). */
  function SpaceRun(s: string, j: nat): (k: nat)
    requires j <= |s|
    ensures j + k <= |s|
    ensures forall m :: j <= m < j + k ==> IsSpace(s[m])
    ensures j + k == |s| || !IsSpace(s[j + k])
    decreases |s| - j
  {
    if j < |s| && IsSpace(s[j]) then 1 + SpaceRun(s, j + 1) else 0
  }

  /** `$` of a multiline regular expression: the end of the text or a line terminator
      next. */
  predicate LineEnd(s: string, i: int) {
    i == |s| || (0 <= i < |s| && IsLineTerminator(s[i]))
  }
}

=== FILE: auto_pdf_finder.dfy ===
/** The PDF finder script (`scripts/auto-pdf-finder.mjs`): for every law page without a PDF
    attachment it looks for a local copy, or searches for and downloads one, and rewrites
    the page's frontmatter text to attach it. The directory listing, the file reads, the
    web search, the number extraction and the downloads are parameters. */
module AutoPdfFinder {
  import opened Common
  import opened Text
  import opened JsMap
  import opened Pdf
  import opened AttachText

  /** The marker of a PDF attachment; a page containing it is left alone. */
  const PdfType: string := "type: \"pdf\""

  /** The empty attachments list. */
  const EmptyList: string := "attachments: []"

  /** The attachments key. */
  const Key: string := "attachments:"

  /** The closing frontmatter delimiter with its line breaks. */
  const Closing: string := "\n---\n"

  /** `path.basename` of a URL path: the part after the last `/`, trailing slashes
      ignored. */
  function Basename(p: string): (r: string)
    ensures '/' !in r
    ensures |r| <= |p|
    ensures forall c :: c in r ==> c in p
    decreases |p|
  {
    if |p| > 0 && p[|p| - 1] == '/' then Basename(p[..|p| - 1])
    else LastSegment(p)
  }

  /** The part of `p` after its last `/` (all of `p` without one). */
  function LastSegment(p: string): (r: string)
    ensures '/' !in r
    ensures |r| <= |p| && p[|p| - |r|..] == r
    ensures r != p ==> p[|p| - |r| - 1] == '/'
    decreases |p|
  {
    if |p| == 0 then ""
    else if p[|p| - 1] == '/' then ""
    else LastSegment(p[..|p| - 1]) + [p[|p| - 1]]
  }

  /** The segment after a slash is the last segment when it has no slash itself. */
  lemma {:induction false} LastSegmentAfterSlash(a: string, b: string)
    requires '/' !in b
    ensures LastSegment(a + "/" + b) == b
    decreases |b|
  {
    var p := a + "/" + b;
    if |b| == 0 {
      assert p[|p| - 1] == '/';
    } else {
      assert p[..|p| - 1] == a + "/" + b[..|b| - 1];
      LastSegmentAfterSlash(a, b[..|b| - 1]);
      assert b == b[..|b| - 1] + [b[|b| - 1]];
    }
  }

  /** The name given to a stored download is the slug's file name. */
  lemma UploadUrlBasename(slug: string)
    requires '/' !in slug
    ensures Basename(UploadUrl(slug)) == slug + ".pdf"
  {
    assert UploadUrl(slug) == "/uploads" + "/" + (slug + ".pdf");
    LastSegmentAfterSlash("/uploads", slug + ".pdf");
  }

  /** On a bare key followed by its entries the match is the key alone. */
  lemma BareKeyBeforeEntries()
    ensures BareKeyAt("attachments:\n  - x", 0) == Some(12)
  {
    var s := "attachments:\n  - x";
    assert StartsAt(s, 0, Key);
    assert SpaceRun(s, 12) == 3;
  }

  /** On a key followed by a blank line the match also takes the first line break. */
  lemma BareKeyBeforeBlankLine()
    ensures BareKeyAt("attachments:\n\n  - x", 0) == Some(13)
  {
    var s := "attachments:\n\n  - x";
    assert StartsAt(s, 0, Key);
    assert SpaceRun(s, 12) == 4;
  }

  /** A key with a value on its line is not bare. */
  lemma KeyWithValueNotBare()
    ensures BareKeyAt("attachments: x", 0).None?
  {
    var s := "attachments: x";
    assert StartsAt(s, 0, Key);
    assert SpaceRun(s, 12) == 1;
  }

  /** The length of the match of `/^attachments:\s*$/m` at `i`, if it matches there: the
      key at a line start, then the longest white space after it that ends at a line end
      (the greedy `\s*` gives back characters until `$` holds). */
  function BareKeyAt(s: string, i: nat): (r: Option<nat>)
    ensures r.Some? ==> KeyAt(s, i, Key) && |Key| <= r.value && i + r.value <= |s| && LineEnd(s, i + r.value)
    ensures r.Some? ==> forall m :: i + r.value < m <= i + |Key| + SpaceRun(s, i + |Key|) ==> !LineEnd(s, m)
    ensures r.None? && KeyAt(s, i, Key) ==> forall m :: i + |Key| <= m <= i + |Key| + SpaceRun(s, i + |Key|) ==> !LineEnd(s, m)
    ensures i > |s| ==> r.None?
  {
    if !KeyAt(s, i, Key) then None
    else
      var j := i + |Key|;
      match LastLineEnd(s, j, SpaceRun(s, j))
      case None => None
      case Some(k) => Some(|Key| + k)
  }

  /** The largest `k' <= k` with a line end at `j + k'`. */
  function LastLineEnd(s: string, j: nat, k: nat): (r: Option<nat>)
    requires j + k <= |s|
    ensures r.Some? ==> r.value <= k && LineEnd(s, j + r.value) && forall m :: j + r.value < m <= j + k ==> !LineEnd(s, m)
    ensures r.None? ==> forall m :: j <= m <= j + k ==> !LineEnd(s, m)
  {
    if LineEnd(s, j + k) then Some(k)
    else if k == 0 then None
    else LastLineEnd(s, j, k - 1)
  }

  /** The first match of `/^attachments:\s*$/m` at or after `from`: its position and
      length. */
  function FirstBareKeyFrom(s: string, from: nat): (r: Option<(nat, nat)>)
    ensures r.Some? ==> from <= r.value.0 && BareKeyAt(s, r.value.0) == Some(r.value.1)
    ensures r.Some? ==> forall j :: from <= j < r.value.0 ==> BareKeyAt(s, j).None?
    ensures r.None? ==> forall j :: from <= j ==> BareKeyAt(s, j).None?
    decreases |s| + 1 - from
  {
    if from > |s| then None
    else
      var here := BareKeyAt(s, from);
      if here.Some? then Some((from, here.value))
      else
        var r := FirstBareKeyFrom(s, from + 1);
        NoBareKeyStep(s, from, if r.Some? then r.value.0 else -1);
        r
  }

  /** No match at `from` and none from `from + 1` up to `to` (or anywhere after, when `to`
      is negative) means none from `from`. */
  lemma NoBareKeyStep(s: string, from: nat, to: int)
    requires BareKeyAt(s, from).None?
    requires to >= 0 ==> forall j :: from + 1 <= j < to ==> BareKeyAt(s, j).None?
    requires to < 0 ==> forall j :: from + 1 <= j ==> BareKeyAt(s, j).None?
    ensures to >= 0 ==> forall j :: from <= j < to ==> BareKeyAt(s, j).None?
    ensures to < 0 ==> forall j :: from <= j ==> BareKeyAt(s, j).None?
  {
  }

  /** What `updateMdxAttachment` returns and the text it would write. */
  datatype AttachResult = AttachResult(returned: bool, text: string, written: bool)

  /** `updateMdxAttachment`: refuse a page that already has a PDF entry; otherwise build the
      block named after the URL's basename and put it, in this order of preference, in
      place of the first `attachments: []`, in place of the first bare `attachments:` line,
      or before the first closing delimiter; in a dry run nothing is written. */
  function UpdateMdxAttachment(content: string, downloadUrl: string, dryRun: bool): (r: AttachResult)
    ensures Contains(content, PdfType) ==> !r.returned && !r.written && r.text == content
    ensures !Contains(content, PdfType) ==> r.returned && (r.written <==> !dryRun)
    ensures !Contains(content, PdfType) && Contains(content, EmptyList) ==>
      r.text == ReplaceString(content, EmptyList, PdfBlock(Basename(downloadUrl), downloadUrl))
    ensures !Contains(content, PdfType) && !Contains(content, EmptyList) && FirstBareKeyFrom(content, 0).Some? ==>
      var (i, n) := FirstBareKeyFrom(content, 0).value;
      i + n <= |content| && r.text == ReplaceAt(content, i, n, PdfBlock(Basename(downloadUrl), downloadUrl), [])
    ensures !Contains(content, PdfType) && !Contains(content, EmptyList) && FirstBareKeyFrom(content, 0).None? ==>
      r.text == ReplaceString(content, Closing, "\n" + PdfBlock(Basename(downloadUrl), downloadUrl) + Closing)
  {
    if Contains(content, PdfType) then AttachResult(false, content, false)
    else
      var block := PdfBlock(Basename(downloadUrl), downloadUrl);
      var updated :=
        if Contains(content, EmptyList) then ReplaceString(content, EmptyList, block)
        else match FirstBareKeyFrom(content, 0)
          case Some((i, n)) => ReplaceAt(content, i, n, block, [])
          case None => ReplaceString(content, Closing, "\n" + block + Closing);
      AttachResult(true, updated, !dryRun)
  }

  /** The last resort changes nothing on a page without a closing delimiter, yet the
      function still reports an update and writes the page back unchanged. */
  lemma NoDelimiterStillReported(content: string, downloadUrl: string)
    requires !Contains(content, PdfType) && !Contains(content, EmptyList)
    requires FirstBareKeyFrom(content, 0).None? && !Contains(content, Closing)
    ensures var r := UpdateMdxAttachment(content, downloadUrl, false);
      r.returned && r.written && r.text == content
  {
  }

  /** A page rewritten by one of the three rules now names the PDF's address, when the
      address holds no `$` for the replacement to expand. */
  lemma UpdatedNamesUrl(content: string, downloadUrl: string, dryRun: bool)
    requires '$' !in downloadUrl
    requires !Contains(content, PdfType)
    requires Contains(content, EmptyList) || FirstBareKeyFrom(content, 0).Some? || Contains(content, Closing)
    ensures Contains(UpdateMdxAttachment(content, downloadUrl, dryRun).text, downloadUrl)
  {
    var name := Basename(downloadUrl);
    var block := PdfBlock(name, downloadUrl);
    BlockPlain(name, downloadUrl);
    assert '$' !in "\n" + block + Closing;
    if Contains(content, EmptyList) {
      ReplaceFirstIsSplice(content, EmptyList, block);
      SplicedBlockHasUrl(content, IndexOf(content, EmptyList).value, |EmptyList|, name, downloadUrl);
    } else if FirstBareKeyFrom(content, 0).Some? {
      var (i, n) := FirstBareKeyFrom(content, 0).value;
      SplicedBlockHasUrl(content, i, n, name, downloadUrl);
    } else {
      var i := IndexOf(content, Closing).value;
      ReplaceFirstIsSplice(content, Closing, "\n" + block + Closing);
      SplicedLineBlockHasUrl(content, i, |Closing|, name, downloadUrl);
    }
  }

  /** As `SplicedBlockHasUrl`, with the block wrapped in line breaks and the delimiter. */
  lemma SplicedLineBlockHasUrl(s: string, i: nat, n: nat, name: string, url: string)
    requires i + n <= |s|
    ensures Contains(Splice(s, i, n, "\n" + PdfBlock(name, url) + Closing), url)
  {
    var pre := "\n" + "attachments:\n  - name: \"" + name + "\"\n    url: \"";
    var post := "\"\n    type: \"pdf\"" + Closing;
    assert "\n" + PdfBlock(name, url) + Closing == pre + url + post;
    Regroup5(s[..i], pre, url, post, s[i + n..]);
    ContainsMiddle(s[..i] + pre, url, post + s[i + n..]);
  }

  /** `isValidPdf`: the first five bytes read into a zeroed buffer spell `%PDF-`; a file
      that cannot be read (`None`) is not valid. */
  function IsValidPdf(file: Option<seq<Byte>>): (r: bool)
    ensures r <==> file.Some? && HasMagic(file.value)
  {
    if file.None? then false
    else
      FirstFiveIsMagic(file.value);
      FirstFive(file.value) == Magic
  }

  /** The number with its white space and slashes removed, as the mirror names files. */
  function Compact(stdNumber: string): (r: string)
    ensures forall i :: 0 <= i < |r| ==> !IsSpace(r[i]) && r[i] != '/'
  {
    Filter(stdNumber, c => !IsSpace(c) && c != '/')
  }

  /** The mirror address tried for every number. */
  function MirrorUrl(stdNumber: string): string {
    "https://www.waizi.org.cn/doc/" + Compact(stdNumber) + ".pdf"
  }

  /** The search query built from the number and title. */
  function NumberQuery(stdNumber: string, title: string): string {
    stdNumber + " " + title
  }

  /** The search query built from the title alone. */
  function TitleQuery(title: string): string {
    title + " pdf 下载"
  }

  /** The candidate list before de-duplication. */
  function Candidates(stdNumber: string, title: string, search: string -> seq<string>): seq<string> {
    var first := if stdNumber != "" then search(NumberQuery(stdNumber, title)) else [];
    var second := if title != "" && |first| < 3 then search(TitleQuery(title)) else [];
    var mirror := if stdNumber != "" then [MirrorUrl(stdNumber)] else [];
    first + second + mirror
  }

  /** `searchPdfUrls`: the number search, the title search only when the first gave fewer
      than three addresses, and the mirror when there is a number; each address once, in
      the order first found. `search` stands for the web search. */
  function SearchPdfUrls(stdNumber: string, title: string, search: string -> seq<string>): (r: seq<string>)
    ensures Distinct(r)
    ensures forall u :: u in r <==>
      || (stdNumber != "" && u in search(NumberQuery(stdNumber, title)))
      || (title != "" && (stdNumber == "" || |search(NumberQuery(stdNumber, title))| < 3) && u in search(TitleQuery(title)))
      || (stdNumber != "" && u == MirrorUrl(stdNumber))
  {
    Dedup(Candidates(stdNumber, title, search))
  }

  /** With three or more hits for the number the title search is not used: every
      candidate comes from the number search or is the mirror. */
  lemma ManyHitsSkipTitleSearch(stdNumber: string, title: string, search: string -> seq<string>)
    requires stdNumber != "" && |search(NumberQuery(stdNumber, title))| >= 3
    ensures forall u :: u in SearchPdfUrls(stdNumber, title, search) ==>
      u in search(NumberQuery(stdNumber, title)) || u == MirrorUrl(stdNumber)
  {
  }

  /** The value of `key:` followed by white space and a double-quoted, non-empty,
      quote-free text at `i` (`/key:\s*"([^"]+)"/` matching at `i`). */
  function QuotedAt(s: string, i: nat, key: string): (r: Option<string>)
    ensures r.Some? ==> StartsAt(s, i, key) && |r.value| > 0 && '"' !in r.value
  {
    if !StartsAt(s, i, key) then None
    else
      var q := i + |key| + SpaceRun(s, i + |key|);
      if q < |s| && s[q] == '"' then
        match IndexOfFrom(s, "\"", q + 1)
        case None => None
        case Some(e) =>
          if e == q + 1 then None
          else
            assert forall m :: q + 1 <= m < e ==> !StartsAt(s, m, "\"");
            assert forall m :: q + 1 <= m < e ==> s[m] != '"' by {
              forall m | q + 1 <= m < e ensures s[m] != '"' {
                assert !StartsAt(s, m, "\"");
                assert s[m..m + 1] == [s[m]];
              }
            }
            Some(s[q + 1..e])
      else None
  }

  /** The first match of `/key:\s*"([^"]+)"/` in `s`, scanning from `from`. */
  function QuotedFrom(s: string, key: string, from: nat): (r: Option<string>)
    ensures r.Some? ==> exists i :: from <= i && QuotedAt(s, i, key) == r
    ensures r.None? ==> forall i :: from <= i ==> QuotedAt(s, i, key).None?
    decreases |s| + 1 - from
  {
    if from > |s| then None
    else if QuotedAt(s, from, key).Some? then QuotedAt(s, from, key)
    else QuotedFrom(s, key, from + 1)
  }

  /** What became of one page. */
  datatype FileOutcome =
    | HasPdf
    | LocalCopy(result: AttachResult)
    | NoInfo
    | Found(url: string, result: AttachResult)
    | NotFound

  /** The address a stored download is served from. */
  function UploadUrl(slug: string): string {
    "/uploads/" + slug + ".pdf"
  }

  /** The page's quoted `title:` value, or `""`. */
  function PageTitle(content: string): string {
    QuotedFrom(content, "title:", 0).GetOr("")
  }

  /** `extractStdNumber(title) || source`: the number read from the title, or else the
      page's quoted `source:` value, or `""`. */
  function PageNumber(content: string, extract: string -> Option<string>): (r: string)
    ensures extract(PageTitle(content)).Some? && extract(PageTitle(content)).value != "" ==>
      r == extract(PageTitle(content)).value
  {
    var source := QuotedFrom(content, "source:", 0).GetOr("");
    match extract(PageTitle(content))
    case Some(n) => if n != "" then n else source
    case None => source
  }

  /** Some candidate address downloads to a valid PDF. */
  predicate SomeDownloads(candidates: seq<string>, download: string -> bool) {
    exists i :: 0 <= i < |candidates| && download(candidates[i])
  }

  /** One page of the loop in `main`. `localPdf` says whether `uploads/<slug>.pdf` exists;
      `extract` stands for `extractStdNumber`, `search` for the web search, and `download`
      says whether downloading an address gave a valid PDF. */
  function ProcessFile(content: string, slug: string, localPdf: bool, dryRun: bool,
                       extract: string -> Option<string>, search: string -> seq<string>,
                       download: string -> bool): (o: FileOutcome)
    ensures Contains(content, PdfType) <==> o.HasPdf?
    ensures !Contains(content, PdfType) && localPdf <==> o.LocalCopy?
    ensures o.LocalCopy? ==> o.result == UpdateMdxAttachment(content, UploadUrl(slug), dryRun) && o.result.returned
    ensures o.NoInfo? <==>
      !Contains(content, PdfType) && !localPdf && PageNumber(content, extract) == "" && PageTitle(content) == ""
    ensures o.NoInfo? ==> QuotedFrom(content, "title:", 0).None?
    ensures o.Found? <==>
      && !Contains(content, PdfType) && !localPdf && (PageNumber(content, extract) != "" || PageTitle(content) != "")
      && SomeDownloads(SearchPdfUrls(PageNumber(content, extract), PageTitle(content), search), download)
    ensures o.NotFound? <==>
      && !Contains(content, PdfType) && !localPdf && (PageNumber(content, extract) != "" || PageTitle(content) != "")
      && forall u :: u in SearchPdfUrls(PageNumber(content, extract), PageTitle(content), search) ==> !download(u)
    ensures o.Found? ==> o.url == UploadUrl(slug) && o.result == UpdateMdxAttachment(content, o.url, dryRun)
  {
    if Contains(content, PdfType) then HasPdf
    else if localPdf then LocalCopy(UpdateMdxAttachment(content, UploadUrl(slug), dryRun))
    else
      var title := PageTitle(content);
      var stdNum := PageNumber(content, extract);
      if stdNum == "" && title == "" then NoInfo
      else if SomeDownloads(SearchPdfUrls(stdNum, title, search), download) then
        Found(UploadUrl(slug), UpdateMdxAttachment(content, UploadUrl(slug), dryRun))
      else NotFound
  }

  /** A page whose local copy exists is only rewritten: no search or download enters its
      outcome. */
  lemma LocalCopyNeedsNoSearch(content: string, slug: string, dryRun: bool,
                               extract1: string -> Option<string>, search1: string -> seq<string>, download1: string -> bool,
                               extract2: string -> Option<string>, search2: string -> seq<string>, download2: string -> bool)
    ensures ProcessFile(content, slug, true, dryRun, extract1, search1, download1)
         == ProcessFile(content, slug, true, dryRun, extract2, search2, download2)
  {
  }

  /** The two counters `main` prints. */
  function Tally(outcomes: seq<FileOutcome>): (r: (nat, nat))
    ensures r.0 + r.1 <= |outcomes|
    ensures r.0 == Count(outcomes, (o: FileOutcome) => (o.LocalCopy? && o.result.returned) || o.Found?)
    ensures r.1 == Count(outcomes, (o: FileOutcome) => o.NoInfo? || o.NotFound?)
  {
    if |outcomes| == 0 then (0, 0)
    else
      var rest := Tally(outcomes[1..]);
      var o := outcomes[0];
      var d := if (o.LocalCopy? && o.result.returned) || o.Found? then 1 else 0;
      var f := if o.NoInfo? || o.NotFound? then 1 else 0;
      (rest.0 + d, rest.1 + f)
  }
}

=== FILE: catalog_update.dfy ===
/** The nightly job that grows the standards catalogue (`scripts/standards-auto-update.mjs`):
    search results become candidate (code, title) pairs; a candidate is added when its code
    is new and it concerns occupational health; new entries get consecutive ids after the
    largest existing one, a category from a first-match rule table, a year read from the end
    of the code and a slug; the catalogue is saved with its total recounted. */
module CatalogUpdate {
  import opened Common
  import opened Text
  import opened Pattern

  /** One catalogue entry. `id` is `None` where the file has no numeric id (JSON `null`). */
  datatype Standard = Standard(
    id: Option<int>,
    code: string,
    title: string,
    fullTitle: string,
    year: int,
    status: string,
    category: string,
    slug: string)

  /** The catalogue file: the entries, `stats.total` and `generatedAt`. */
  datatype Catalog = Catalog(standards: seq<Standard>, total: int, generatedAt: string)

  /** A search hit, in the order the searches return them (five keyword searches of one
      site, then two of another). */
  datatype Candidate = Candidate(code: string, title: string)

  /** The labels the rule table can assign. */
  const Categories: set<string> := {
    "职业病诊断", "职业健康监护", "工作场所监测", "基础标准",
    "警示标识", "个体防护", "技术规范与导则", "卫生标准"
  }

  /** Lower-case, `/` and white-space runs to `-`, drop everything outside `[a-z0-9-]`,
      collapse dash runs. Leading and trailing dashes are kept. */
  function CodeToSlug(code: string): (r: string)
    ensures forall i :: 0 <= i < |r| ==> IsSlugChar(r[i])
    ensures NoDouble(r, '-')
  {
    var a := MapChar(Lower(code), '/', '-');
    var b := ReplaceRuns(a, IsSpace, '-');
    var c := Filter(b, IsSlugChar);
    CollapseDashes(c)
  }

  /** A slug is its own slug: running the conversion twice changes nothing. */
  lemma CodeToSlugIdempotent(code: string)
    ensures CodeToSlug(CodeToSlug(code)) == CodeToSlug(code)
  {
    var s := CodeToSlug(code);
    LowerNoUpper(s);
    var a := MapChar(Lower(s), '/', '-');
    assert a == s;
    ReplaceRunsNone(s, IsSpace, '-');
    var b := ReplaceRuns(a, IsSpace, '-');
    assert b == s;
    var c := Filter(b, IsSlugChar);
    assert c == s;
    CollapseDashesFixed(s);
  }

  /** `s.id || 0`. */
  function IdValue(s: Standard): int {
    s.id.GetOr(0)
  }

  /** `Math.max(...ids)` over a non-empty list. */
  function MaxId(xs: seq<Standard>): (m: int)
    requires |xs| > 0
    ensures forall i :: 0 <= i < |xs| ==> IdValue(xs[i]) <= m
    ensures exists i :: 0 <= i < |xs| && IdValue(xs[i]) == m
  {
    if |xs| == 1 then IdValue(xs[0])
    else
      var m := MaxId(xs[1..]);
      assert forall i :: 1 <= i < |xs| ==> xs[i] == xs[1..][i - 1];
      if IdValue(xs[0]) >= m then IdValue(xs[0]) else m
  }

  /** The id the next new entry gets: one more than the largest id. On an empty catalogue
      `Math.max()` is -Infinity and so is every id derived from it; `None` stands for it. */
  function NextId(xs: seq<Standard>): (r: Option<int>)
    ensures r.None? <==> |xs| == 0
    ensures r.Some? ==> forall i :: 0 <= i < |xs| ==> IdValue(xs[i]) < r.value
    ensures r.Some? ==> exists i :: 0 <= i < |xs| && IdValue(xs[i]) == r.value - 1
  {
    if |xs| == 0 then None else Some(MaxId(xs) + 1)
  }

  /** The id after `k` increments of `nextId++`. */
  function IdAfter(first: Option<int>, k: nat): Option<int> {
    if first.Some? then Some(first.value + k) else None
  }

  /** Title keywords of the relevance test, one list per rule. */
  const WsHealthWords := ["职业", "卫生", "防护", "健康监护"]
  const HearingWords := ["声学", "噪声", "听力", "听阈", "测听", "护听", "助听"]
  const OccupationalWords := ["职业病", "职业健康", "职业卫生", "职业暴露", "职业防护"]
  const WorkplaceWords := ["工作场所", "劳动防护", "个体防护"]
  const HazardWords := ["粉尘", "尘肺", "矽肺", "化学毒物", "中毒", "放射", "辐射"]

  /** Whether a standard concerns occupational health: every GBZ code; WS codes with a
      health word in the title; and any title with a noise/hearing, occupational-disease,
      workplace or hazard keyword. */
  predicate IsRelevant(code: string, title: string) {
    StartsWith(code, "GBZ")
    || (StartsWith(code, "WS") && ContainsAny(title, WsHealthWords))
    || ContainsAny(title, HearingWords)
    || ContainsAny(title, OccupationalWords)
    || ContainsAny(title, WorkplaceWords)
    || ContainsAny(title, HazardWords)
  }

  /** `/GBZ\s*<rest>/`. */
  function GbzThen(rest: seq<Item>): seq<Item> {
    Lit("GBZ") + [Many(Class(IsSpace))] + rest
  }

  /** `/GBZ\/T\s*<n>/`. */
  function GbzTThen(n: string): seq<Item> {
    Lit("GBZ/T") + [Many(Class(IsSpace))] + Lit(n)
  }

  /** Title keywords of the category rules that look at the title. */
  const ProtectionWords := ["防护", "护听"]
  const AudiometryWords := ["测听", "听力", "听阈", "声学"]
  const MonitoringWords := ["噪声", "粉尘", "化学", "毒物"]
  const LimitWords := ["限值", "接触"]

  /** The category rule table; the first rule that fires decides. */
  function Categorize(code: string, title: string): (r: string)
    ensures r in Categories
    ensures Test(code, GbzThen([One(Class(IsDigit))])) && Contains(title, "诊断") ==> r == "职业病诊断"
    ensures r == "警示标识" ==> Test(code, GbzThen(Lit("158")))
    ensures r == "卫生标准" ==>
      (Contains(code, "WS")
       && !ContainsAny(title, ProtectionWords) && !ContainsAny(title, AudiometryWords)
       && !ContainsAny(title, MonitoringWords) && !ContainsAny(title, LimitWords))
  {
    if Test(code, GbzThen([One(Class(IsDigit))])) && Contains(title, "诊断") then "职业病诊断"
    else if Test(code, GbzTThen("188")) then "职业健康监护"
    else if Test(code, GbzTThen("189")) then "工作场所监测"
    else if Test(code, GbzTThen("229")) then "职业病诊断"
    else if Test(code, GbzTThen("300")) then "工作场所监测"
    else if Test(code, GbzThen(Lit("1-"))) || Test(code, GbzThen(Lit("2-"))) then "基础标准"
    else if Test(code, GbzThen(Lit("158"))) then "警示标识"
    else if ContainsAny(title, ProtectionWords) then "个体防护"
    else if ContainsAny(title, AudiometryWords) then "技术规范与导则"
    else if ContainsAny(title, MonitoringWords) then "工作场所监测"
    else if ContainsAny(title, LimitWords) then "基础标准"
    else if Contains(code, "WS") then "卫生标准"
    else "技术规范与导则"
  }

  /** The year at the end of a code (`/(\d{4})$/`), or the current year. */
  function YearOf(code: string, currentYear: int): int {
    if |code| >= 4 && All(code[|code| - 4..], IsDigit) then DigitsValue(code[|code| - 4..])
    else currentYear
  }

  lemma NatToStringFourDigits(y: nat)
    requires 1000 <= y <= 9999
    ensures |NatToString(y)| == 4
  {
    assert NatToString(y) == NatToString(y / 10) + [DigitChar(y % 10)];
    assert NatToString(y / 10) == NatToString(y / 100) + [DigitChar(y / 10 % 10)];
    assert NatToString(y / 100) == NatToString(y / 1000) + [DigitChar(y / 100 % 10)];
  }

  /** A code that ends in a four-digit year yields that year, whatever precedes it. */
  lemma YearOfTrailingYear(prefix: string, y: nat, currentYear: int)
    requires 1000 <= y <= 9999
    ensures YearOf(prefix + NatToString(y), currentYear) == y
  {
    var code := prefix + NatToString(y);
    NatToStringFourDigits(y);
    assert code[|code| - 4..] == NatToString(y);
    DigitsValueNatToString(y);
  }

  /** The entry built for an accepted candidate. */
  function NewEntry(c: Candidate, id: Option<int>, currentYear: int): (r: Standard)
    ensures r.code == c.code && r.title == c.title && r.id == id
    ensures r.fullTitle == c.code + " " + c.title && r.status == "现行"
    ensures r.category in Categories && r.category == Categorize(c.code, c.title)
    ensures r.year == YearOf(c.code, currentYear) && r.slug == CodeToSlug(c.code)
  {
    Standard(id, c.code, c.title, c.code + " " + c.title, YearOf(c.code, currentYear), "现行",
             Categorize(c.code, c.title), CodeToSlug(c.code))
  }

  predicate Relevant(c: Candidate) {
    IsRelevant(c.code, c.title)
  }

  /** The candidates the discovery loop accepts, in search order, when the codes in `seen`
      are already known: a candidate is taken when it passes `relevant` and its code is
      not yet known, and its code becomes known. */
  function Accepted(seen: set<string>, cands: seq<Candidate>, relevant: Candidate -> bool): seq<Candidate>
    decreases |cands|
  {
    if |cands| == 0 then []
    else if cands[0].code !in seen && relevant(cands[0]) then
      [cands[0]] + Accepted(seen + {cands[0].code}, cands[1..], relevant)
    else
      Accepted(seen, cands[1..], relevant)
  }

  /** Every accepted candidate is one of the candidates, passes the test and carries a code
      that was not known. */
  lemma {:induction false} AcceptedFresh(seen: set<string>, cands: seq<Candidate>, relevant: Candidate -> bool)
    ensures forall k :: 0 <= k < |Accepted(seen, cands, relevant)| ==>
      Accepted(seen, cands, relevant)[k] in cands
      && relevant(Accepted(seen, cands, relevant)[k]) && Accepted(seen, cands, relevant)[k].code !in seen
    decreases |cands|
  {
    if |cands| > 0 {
      if cands[0].code !in seen && relevant(cands[0]) {
        AcceptedFresh(seen + {cands[0].code}, cands[1..], relevant);
      } else {
        AcceptedFresh(seen, cands[1..], relevant);
      }
    }
  }

  predicate DistinctCodes(xs: seq<Candidate>) {
    forall k, l :: 0 <= k < l < |xs| ==> xs[k].code != xs[l].code
  }

  /** No code is accepted twice. */
  lemma {:induction false} AcceptedDistinct(seen: set<string>, cands: seq<Candidate>, relevant: Candidate -> bool)
    ensures DistinctCodes(Accepted(seen, cands, relevant))
    decreases |cands|
  {
    if |cands| > 0 {
      if cands[0].code !in seen && relevant(cands[0]) {
        var rest := Accepted(seen + {cands[0].code}, cands[1..], relevant);
        AcceptedDistinct(seen + {cands[0].code}, cands[1..], relevant);
        AcceptedFresh(seen + {cands[0].code}, cands[1..], relevant);
        var r := [cands[0]] + rest;
        assert Accepted(seen, cands, relevant) == r;
        forall k, l | 0 <= k < l < |r|
          ensures r[k].code != r[l].code
        {
          if k > 0 {
            assert r[k] == rest[k - 1] && r[l] == rest[l - 1];
          } else {
            assert r[l] == rest[l - 1];
            assert rest[l - 1].code !in seen + {cands[0].code};
            assert r[0].code == cands[0].code;
          }
        }
      } else {
        AcceptedDistinct(seen, cands[1..], relevant);
        assert Accepted(seen, cands, relevant) == Accepted(seen, cands[1..], relevant);
      }
    }
  }

  /** `code` is known: it was known before, or some accepted candidate carries it. */
  predicate Known(seen: set<string>, acc: seq<Candidate>, code: string) {
    code in seen || exists k :: 0 <= k < |acc| && acc[k].code == code
  }

  /** Every candidate that passes the test ends with its code known. */
  lemma {:induction false} AcceptedComplete(seen: set<string>, cands: seq<Candidate>, relevant: Candidate -> bool)
    ensures forall i :: 0 <= i < |cands| && relevant(cands[i]) ==>
      Known(seen, Accepted(seen, cands, relevant), cands[i].code)
    decreases |cands|
  {
    if |cands| > 0 {
      var r := Accepted(seen, cands, relevant);
      if cands[0].code !in seen && relevant(cands[0]) {
        var seen' := seen + {cands[0].code};
        var rest := Accepted(seen', cands[1..], relevant);
        AcceptedComplete(seen', cands[1..], relevant);
        assert r == [cands[0]] + rest;
        forall i | 0 <= i < |cands| && relevant(cands[i])
          ensures Known(seen, r, cands[i].code)
        {
          if i == 0 || cands[i].code == cands[0].code {
            assert r[0].code == cands[i].code;
          } else if cands[i].code !in seen {
            assert cands[1..][i - 1] == cands[i];
            assert Known(seen', rest, cands[i].code);
            var k :| 0 <= k < |rest| && rest[k].code == cands[i].code;
            assert r[k + 1] == rest[k];
          }
        }
      } else {
        AcceptedComplete(seen, cands[1..], relevant);
        assert r == Accepted(seen, cands[1..], relevant);
        forall i | 0 <= i < |cands| && relevant(cands[i])
          ensures Known(seen, r, cands[i].code)
        {
          if i > 0 {
            assert cands[1..][i - 1] == cands[i];
          }
        }
      }
    }
  }

  /** The discovery loop, for any relevance test and any way `make(c, k)` of building the
      `k`-th new entry from candidate `c`: one entry per accepted candidate, in order. */
  method DiscoverNew(existing: set<string>, cands: seq<Candidate>, relevant: Candidate -> bool,
                     make: (Candidate, nat) -> Standard)
    returns (added: seq<Standard>)
    ensures |added| == |Accepted(existing, cands, relevant)|
    ensures forall k :: 0 <= k < |added| ==> added[k] == make(Accepted(existing, cands, relevant)[k], k)
  {
    var seen := existing;
    ghost var taken: seq<Candidate> := [];
    added := [];
    var i := 0;
    while i < |cands|
      invariant 0 <= i <= |cands|
      invariant taken + Accepted(seen, cands[i..], relevant) == Accepted(existing, cands, relevant)
      invariant |added| == |taken|
      invariant forall k :: 0 <= k < |added| ==> added[k] == make(taken[k], k)
    {
      var c := cands[i];
      assert cands[i..][1..] == cands[i + 1..];
      assert Accepted(seen, cands[i..], relevant) ==
        if c.code !in seen && relevant(c) then [c] + Accepted(seen + {c.code}, cands[i + 1..], relevant)
        else Accepted(seen, cands[i + 1..], relevant);
      if c.code !in seen && relevant(c) {
        added := added + [make(c, |added|)];
        taken := taken + [c];
        seen := seen + {c.code};
      }
      i := i + 1;
    }
  }

  function Codes(c: Catalog): set<string> {
    set k | 0 <= k < |c.standards| :: c.standards[k].code
  }

  /** `saveCatalog`: stamps the time and recounts `stats.total`. */
  function SaveCatalog(c: Catalog, now: string): (r: Catalog)
    ensures r.standards == c.standards
    ensures r.total == |r.standards|
    ensures r.generatedAt == now
  {
    Catalog(c.standards, |c.standards|, now)
  }

  /** How a run ends: nothing found; a dry run listing what it would add; or the catalogue
      saved with the new entries appended. */
  datatype Outcome =
    | NothingNew
    | WouldAdd(found: seq<Standard>)
    | Saved(catalog: Catalog, found: seq<Standard>)

  /** `found` holds one new entry per accepted candidate, in order, with consecutive ids
      after the catalogue's largest. */
  ghost predicate Builds(catalog: Catalog, cands: seq<Candidate>, currentYear: int, found: seq<Standard>) {
    var acc := Accepted(Codes(catalog), cands, Relevant);
    |found| == |acc|
    && forall k :: 0 <= k < |acc| ==> found[k] == NewEntry(acc[k], IdAfter(NextId(catalog.standards), k), currentYear)
  }

  /** The new entries carry fresh, distinct codes and consecutive ids. */
  lemma FoundFresh(catalog: Catalog, cands: seq<Candidate>, currentYear: int, found: seq<Standard>)
    requires Builds(catalog, cands, currentYear, found)
    ensures forall k :: 0 <= k < |found| ==>
      found[k].code !in Codes(catalog) && found[k].id == IdAfter(NextId(catalog.standards), k)
    ensures forall k, l :: 0 <= k < l < |found| ==> found[k].code != found[l].code
  {
    var acc := Accepted(Codes(catalog), cands, Relevant);
    AcceptedFresh(Codes(catalog), cands, Relevant);
    AcceptedDistinct(Codes(catalog), cands, Relevant);
    assert forall k :: 0 <= k < |found| ==> found[k].code == acc[k].code;
  }

  /** Nothing is found exactly when every relevant candidate's code is already catalogued. */
  lemma FoundNone(catalog: Catalog, cands: seq<Candidate>, currentYear: int, found: seq<Standard>)
    requires Builds(catalog, cands, currentYear, found)
    ensures |found| == 0 <==> forall i :: 0 <= i < |cands| && Relevant(cands[i]) ==> cands[i].code in Codes(catalog)
  {
    var existing := Codes(catalog);
    var acc := Accepted(existing, cands, Relevant);
    AcceptedFresh(existing, cands, Relevant);
    AcceptedComplete(existing, cands, Relevant);
    if |found| == 0 {
      assert forall i :: 0 <= i < |cands| && Relevant(cands[i]) ==> Known(existing, acc, cands[i].code);
    } else {
      ghost var i0 :| 0 <= i0 < |cands| && cands[i0] == acc[0];
      assert Relevant(cands[i0]) && cands[i0].code !in existing;
    }
  }

  /** After the save every relevant candidate's code is in the catalogue. */
  lemma SavedComplete(catalog: Catalog, cands: seq<Candidate>, currentYear: int, found: seq<Standard>, now: string)
    requires Builds(catalog, cands, currentYear, found)
    ensures var saved := SaveCatalog(Catalog(catalog.standards + found, catalog.total, catalog.generatedAt), now);
      forall i :: 0 <= i < |cands| && Relevant(cands[i]) ==> cands[i].code in Codes(saved)
  {
    var existing := Codes(catalog);
    var acc := Accepted(existing, cands, Relevant);
    AcceptedComplete(existing, cands, Relevant);
    var saved := SaveCatalog(Catalog(catalog.standards + found, catalog.total, catalog.generatedAt), now);
    forall i | 0 <= i < |cands| && Relevant(cands[i])
      ensures cands[i].code in Codes(saved)
    {
      assert Known(existing, acc, cands[i].code);
      if cands[i].code in existing {
        var k :| 0 <= k < |catalog.standards| && catalog.standards[k].code == cands[i].code;
        assert saved.standards[k] == catalog.standards[k];
      } else {
        var k :| 0 <= k < |acc| && acc[k].code == cands[i].code;
        assert saved.standards[|catalog.standards| + k] == found[k];
      }
    }
  }

  /** One run of the job over the candidates the searches returned. */
  method Run(catalog: Catalog, cands: seq<Candidate>, currentYear: int, now: string, dryRun: bool)
    returns (out: Outcome)
    ensures out.NothingNew? <==> forall i :: 0 <= i < |cands| && Relevant(cands[i]) ==> cands[i].code in Codes(catalog)
    ensures out.WouldAdd? ==> dryRun
    ensures out.Saved? ==> !dryRun
    ensures !out.NothingNew? ==>
      (|out.found| > 0
       && forall k :: 0 <= k < |out.found| ==>
            out.found[k].code !in Codes(catalog) && out.found[k].id == IdAfter(NextId(catalog.standards), k))
    ensures !out.NothingNew? ==> forall k, l :: 0 <= k < l < |out.found| ==> out.found[k].code != out.found[l].code
    ensures !out.NothingNew? ==>
      var acc := Accepted(Codes(catalog), cands, Relevant);
      |out.found| == |acc|
      && forall k :: 0 <= k < |acc| ==> out.found[k] == NewEntry(acc[k], IdAfter(NextId(catalog.standards), k), currentYear)
    ensures out.Saved? ==>
      (out.catalog.standards == catalog.standards + out.found
       && out.catalog.total == |out.catalog.standards| && out.catalog.generatedAt == now)
    ensures out.Saved? ==> forall i :: 0 <= i < |cands| && Relevant(cands[i]) ==> cands[i].code in Codes(out.catalog)
  {
    var first := NextId(catalog.standards);
    var added := DiscoverNew(Codes(catalog), cands, Relevant, (c: Candidate, k: nat) => NewEntry(c, IdAfter(first, k), currentYear));
    assert Builds(catalog, cands, currentYear, added);
    FoundFresh(catalog, cands, currentYear, added);
    FoundNone(catalog, cands, currentYear, added);
    if |added| == 0 {
      return NothingNew;
    }
    if dryRun {
      return WouldAdd(added);
    }
    SavedComplete(catalog, cands, currentYear, added, now);
    var saved := SaveCatalog(Catalog(catalog.standards + added, catalog.total, catalog.generatedAt), now);
    return Saved(saved, added);
  }
}

=== FILE: common.dfy ===
/** The option type and the generic sequence operations (filtering, JavaScript's
    `Array.prototype.slice`, membership helpers) that the rest of the model shares. */
module Common {

  /** A value that may be absent: JavaScript's `undefined`/`null`, Python's `None`, or a
      lookup that found nothing. */
  datatype Option<+T> = None | Some(value: T) {
    function GetOr(default: T): T {
      if Some? then value else default
    }
  }

  /** Keeps the elements of `xs` that satisfy `p`, in their original order
      (JavaScript's `Array.prototype.filter`). */
  function Filter<T(==, !new)>(xs: seq<T>, p: T -> bool): (r: seq<T>)
    ensures |r| <= |xs|
    ensures forall i :: 0 <= i < |r| ==> p(r[i])
    ensures forall x :: x in r <==> x in xs && p(x)
    ensures (forall i :: 0 <= i < |xs| ==> p(xs[i])) ==> r == xs
  {
    if |xs| == 0 then []
    else if p(xs[0]) then [xs[0]] + Filter(xs[1..], p)
    else Filter(xs[1..], p)
  }

  /** A first element that passes stays first. */
  lemma FilterHead<T(!new)>(xs: seq<T>, p: T -> bool)
    requires |xs| > 0 && p(xs[0])
    ensures |Filter(xs, p)| > 0 && Filter(xs, p)[0] == xs[0]
  {
  }

  /** `xs` can be obtained from `ys` by deleting elements: it keeps their relative order. */
  predicate IsSubsequence<T(==)>(xs: seq<T>, ys: seq<T>)
    decreases |ys|
  {
    if |xs| == 0 then true
    else if |ys| == 0 then false
    else if xs[0] == ys[0] then IsSubsequence(xs[1..], ys[1..])
    else IsSubsequence(xs, ys[1..])
  }

  /** What a filter keeps stays in its original order. */
  lemma {:induction false} FilterSubsequence<T(!new)>(xs: seq<T>, p: T -> bool)
    ensures IsSubsequence(Filter(xs, p), xs)
  {
    if |xs| > 0 {
      FilterSubsequence(xs[1..], p);
      var r := Filter(xs, p);
      if p(xs[0]) {
        assert r[0] == xs[0] && r[1..] == Filter(xs[1..], p);
      } else if |r| > 0 {
        assert r == Filter(xs[1..], p);
      }
    }
  }

  /** A filter keeps every copy of an element that passes and no copy of one that fails. */
  lemma {:induction false} FilterMultiset<T(!new)>(xs: seq<T>, p: T -> bool)
    ensures forall x :: multiset(Filter(xs, p))[x] == if p(x) then multiset(xs)[x] else 0
  {
    if |xs| > 0 {
      FilterMultiset(xs[1..], p);
      assert xs == [xs[0]] + xs[1..];
    }
  }

  /** Number of elements of `xs` that satisfy `p`. */
  function Count<T>(xs: seq<T>, p: T -> bool): (n: nat)
    ensures n <= |xs|
    ensures n == 0 <==> forall i :: 0 <= i < |xs| ==> !p(xs[i])
    ensures n == |xs| <==> forall i :: 0 <= i < |xs| ==> p(xs[i])
  {
    if |xs| == 0 then 0 else (if p(xs[0]) then 1 else 0) + Count(xs[1..], p)
  }

  lemma {:induction false} FilterLength<T(!new)>(xs: seq<T>, p: T -> bool)
    ensures |Filter(xs, p)| == Count(xs, p)
  {
    if |xs| > 0 {
      FilterLength(xs[1..], p);
    }
  }

  lemma {:induction false} FilterAppend<T(!new)>(a: seq<T>, b: seq<T>, p: T -> bool)
    ensures Filter(a + b, p) == Filter(a, p) + Filter(b, p)
  {
    if |a| == 0 {
      assert a + b == b;
    } else {
      assert (a + b)[1..] == a[1..] + b;
      FilterAppend(a[1..], b, p);
    }
  }

  /** Filtering by `p` and then by `q` is filtering by both at once. */
  lemma {:induction false} FilterFilter<T(!new)>(xs: seq<T>, p: T -> bool, q: T -> bool, pq: T -> bool)
    requires forall x :: pq(x) == (p(x) && q(x))
    ensures Filter(Filter(xs, p), q) == Filter(xs, pq)
  {
    if |xs| > 0 {
      FilterFilter(xs[1..], p, q, pq);
      if p(xs[0]) {
        assert Filter(xs, p)[1..] == Filter(xs[1..], p);
      }
    }
  }

  /** When every element passing `a` passes exactly one of `b` and `c`, the two counts add
      up to the count of `a`. */
  lemma {:induction false} CountPartition<T>(xs: seq<T>, a: T -> bool, b: T -> bool, c: T -> bool)
    requires forall x :: a(x) == (b(x) || c(x)) && !(b(x) && c(x))
    ensures Count(xs, b) + Count(xs, c) == Count(xs, a)
  {
    if |xs| > 0 {
      CountPartition(xs[1..], a, b, c);
    }
  }

  /** Where a JavaScript slice index lands: negative indices count from the end, and the
      result is clamped to `0 .. len`. */
  function SliceIndex(len: nat, x: int): (k: nat)
    ensures k <= len
    ensures 0 <= x <= len ==> k == x
    ensures x > len ==> k == len
    ensures x < 0 ==> k == if len + x < 0 then 0 else len + x
  {
    if x < 0 then (if len + x < 0 then 0 else len + x) else if x > len then len else x
  }

  /** JavaScript's `slice(start, end)` on arrays and strings. */
  function Slice<T>(xs: seq<T>, start: int, end: int): (r: seq<T>)
    ensures |r| <= |xs|
    ensures var a, b := SliceIndex(|xs|, start), SliceIndex(|xs|, end);
      if a < b then r == xs[a..b] else r == []
  {
    var a, b := SliceIndex(|xs|, start), SliceIndex(|xs|, end);
    if a < b then xs[a..b] else []
  }

  /** `slice(0, n)`: the first `n` elements, or all of them when there are fewer. */
  function Take<T>(xs: seq<T>, n: nat): (r: seq<T>)
    ensures |r| == if |xs| < n then |xs| else n
    ensures r == xs[..|r|]
  {
    Slice(xs, 0, n)
  }

  /** `slice(-n)` for `n > 0`: the last `n` elements, or all of them when there are fewer. */
  function TakeLast<T>(xs: seq<T>, n: nat): (r: seq<T>)
    requires n > 0
    ensures |r| == if |xs| < n then |xs| else n
    ensures r == xs[|xs| - |r|..]
  {
    Slice(xs, -(n as int), |xs|)
  }

  /** A window of a concatenation that lies after its first part is a window of the second. */
  lemma SliceAfter<T>(a: seq<T>, b: seq<T>, k: nat, n: nat)
    requires |a| <= k && k + n <= |a| + |b|
    ensures (a + b)[k..k + n] == b[k - |a|..k - |a| + n]
  {
    var w := (a + b)[k..k + n];
    assert forall i :: 0 <= i < n ==> w[i] == b[k - |a| + i];
  }

  /** The three parts of a concatenation are its three windows. */
  lemma Parts3<T>(a: seq<T>, b: seq<T>, c: seq<T>)
    ensures (a + b + c)[..|a|] == a
    ensures (a + b + c)[|a|..|a| + |b|] == b
    ensures (a + b + c)[|a| + |b|..] == c
  {
    var s := a + b + c;
    assert forall i :: 0 <= i < |b| ==> s[|a|..|a| + |b|][i] == b[i];
    assert forall i :: 0 <= i < |c| ==> s[|a| + |b|..][i] == c[i];
  }

  /** The pieces `f` gives for each element, concatenated in order (`xs.flatMap(f)`). */
  function FlatMap<T, U>(xs: seq<T>, f: T -> seq<U>): seq<U>
    decreases |xs|
  {
    if |xs| == 0 then [] else f(xs[0]) + FlatMap(xs[1..], f)
  }

  lemma {:induction false} FlatMapLength<T, U>(xs: seq<T>, f: T -> seq<U>, n: nat)
    requires forall x :: |f(x)| == n
    ensures |FlatMap(xs, f)| == n * |xs|
    decreases |xs|
  {
    if |xs| > 0 {
      FlatMapLength(xs[1..], f, n);
      assert n * |xs| == n * (|xs| - 1) + n;
    }
  }

  /** An element is in the flattened sequence exactly when it is in the piece of some
      element. */
  lemma {:induction false} FlatMapMember<T, U>(xs: seq<T>, f: T -> seq<U>, u: U)
    ensures u in FlatMap(xs, f) <==> exists i :: 0 <= i < |xs| && u in f(xs[i])
    decreases |xs|
  {
    if |xs| > 0 {
      FlatMapMember(xs[1..], f, u);
      if u in FlatMap(xs[1..], f) {
        var i :| 0 <= i < |xs[1..]| && u in f(xs[1..][i]);
        assert xs[1..][i] == xs[i + 1];
      }
      if exists i :: 0 <= i < |xs| && u in f(xs[i]) {
        var i :| 0 <= i < |xs| && u in f(xs[i]);
        if i > 0 {
          assert xs[1..][i - 1] == xs[i];
        }
      }
    }
  }

  /** When every piece has `n` elements, the piece of element `i` sits at `n * i`. */
  lemma {:induction false} FlatMapAt<T, U>(xs: seq<T>, f: T -> seq<U>, n: nat, i: nat, j: nat)
    requires forall x :: |f(x)| == n
    requires i < |xs| && j == n * i
    ensures |FlatMap(xs, f)| == n * |xs|
    ensures j + n <= |FlatMap(xs, f)|
    ensures FlatMap(xs, f)[j..j + n] == f(xs[i])
    decreases |xs|
  {
    var head, rest := f(xs[0]), FlatMap(xs[1..], f);
    assert FlatMap(xs, f) == head + rest;
    if |xs| > 1 {
      FlatMapAt(xs[1..], f, n, if i == 0 then 0 else i - 1, if i == 0 then 0 else j - n);
    }
    assert n * |xs| == n * (|xs| - 1) + n;
    if i == 0 {
      assert (head + rest)[..n] == head;
    } else {
      assert n * i == n * (i - 1) + n;
      FlatMapAtLater(xs, f, n, i, j, head, rest);
    }
  }

  lemma FlatMapAtLater<T, U>(xs: seq<T>, f: T -> seq<U>, n: nat, i: nat, j: nat, head: seq<U>, rest: seq<U>)
    requires 0 < i < |xs| && n <= j && |head| == n
    requires j <= |rest| && rest[j - n..j] == f(xs[1..][i - 1])
    ensures (head + rest)[j..j + n] == f(xs[i])
  {
    assert xs[1..][i - 1] == xs[i];
    SliceAfter(head, rest, j, n);
  }

  /** No element occurs twice. */
  predicate Distinct<T(==)>(xs: seq<T>) {
    forall i, j :: 0 <= i < j < |xs| ==> xs[i] != xs[j]
  }

  /** The head and the tail of a concatenation whose first part is not empty. */
  lemma ConsAppend<T>(a: seq<T>, b: seq<T>)
    requires |a| > 0
    ensures (a + b)[0] == a[0] && (a + b)[1..] == a[1..] + b
  {
  }

  /** The values `f` gives for the elements it accepts, in order (a `map` followed by a
      `filter` that drops the rejected entries). */
  function Collect<T, U>(xs: seq<T>, f: T -> Option<U>): (r: seq<U>)
    ensures |r| <= |xs|
  {
    if |xs| == 0 then []
    else if f(xs[0]).Some? then [f(xs[0]).value] + Collect(xs[1..], f)
    else Collect(xs[1..], f)
  }

  /** An element `f` rejects contributes nothing to the collected results. */
  lemma CollectSkips<T, U>(a: seq<T>, x: T, b: seq<T>, f: T -> Option<U>)
    requires f(x).None?
    ensures Collect(a + [x] + b, f) == Collect(a + b, f)
  {
    CollectAppend(a + [x], b, f);
    CollectAppend(a, [x], f);
    CollectAppend(a, b, f);
    assert [x][1..] == [];
    assert Collect([x], f) == [];
    assert Collect(a, f) + [] == Collect(a, f);
  }

  predicate Accepted<T, U>(f: T -> Option<U>, x: T) {
    f(x).Some?
  }

  /** One value per accepted element. */
  lemma {:induction false} CollectCount<T, U>(xs: seq<T>, f: T -> Option<U>)
    ensures |Collect(xs, f)| == Count(xs, x => Accepted(f, x))
  {
    if |xs| > 0 {
      CollectCount(xs[1..], f);
    }
  }

  /** `f` gives `u` for some element of `xs`. */
  predicate SomeGives<T, U(==)>(xs: seq<T>, f: T -> Option<U>, u: U) {
    exists i :: 0 <= i < |xs| && f(xs[i]) == Some(u)
  }

  /** The collected values are exactly those `f` gives for some element. */
  lemma {:induction false} CollectMembers<T, U>(xs: seq<T>, f: T -> Option<U>, u: U)
    ensures u in Collect(xs, f) <==> SomeGives(xs, f, u)
  {
    if |xs| > 0 {
      CollectMembers(xs[1..], f, u);
      if SomeGives(xs[1..], f, u) {
        var i :| 0 <= i < |xs[1..]| && f(xs[1..][i]) == Some(u);
        assert f(xs[i + 1]) == Some(u);
      }
      if SomeGives(xs, f, u) && f(xs[0]) != Some(u) {
        var i :| 0 <= i < |xs| && f(xs[i]) == Some(u);
        assert f(xs[1..][i - 1]) == Some(u);
      }
    }
  }

  /** Nothing is collected exactly when `f` rejects every element. */
  lemma {:induction false} CollectEmpty<T, U>(xs: seq<T>, f: T -> Option<U>)
    ensures |Collect(xs, f)| == 0 <==> forall i :: 0 <= i < |xs| ==> f(xs[i]).None?
  {
    if |xs| > 0 {
      CollectEmpty(xs[1..], f);
      assert forall i :: 1 <= i < |xs| ==> xs[i] == xs[1..][i - 1];
    }
  }

  /** A property every accepted value has holds of every collected one. */
  lemma {:induction false} CollectKeeps<T, U>(xs: seq<T>, f: T -> Option<U>, p: U -> bool)
    requires forall x :: f(x).Some? ==> p(f(x).value)
    ensures forall i :: 0 <= i < |Collect(xs, f)| ==> p(Collect(xs, f)[i])
  {
    if |xs| > 0 {
      CollectKeeps(xs[1..], f, p);
    }
  }

  /** When `f` accepts every element, the values come out one per element, in order. */
  lemma {:induction false} CollectAll<T, U>(xs: seq<T>, f: T -> Option<U>, ys: seq<U>)
    requires |ys| == |xs| && forall i :: 0 <= i < |xs| ==> f(xs[i]) == Some(ys[i])
    ensures Collect(xs, f) == ys
  {
    if |xs| > 0 {
      CollectAll(xs[1..], f, ys[1..]);
      assert ys == [ys[0]] + ys[1..];
    }
  }

  /** Collecting over a concatenation collects over each part. */
  lemma {:induction false} CollectAppend<T, U>(a: seq<T>, b: seq<T>, f: T -> Option<U>)
    ensures Collect(a + b, f) == Collect(a, f) + Collect(b, f)
  {
    if |a| == 0 {
      assert a + b == b;
    } else {
      assert (a + b)[1..] == a[1..] + b;
      CollectAppend(a[1..], b, f);
    }
  }

  /** An element of a window is an element of the whole sequence. */
  lemma SliceElem<T>(ls: seq<T>, a: nat, b: nat, xs: seq<T>, i: nat)
    requires a <= b <= |ls| && ls[a..b] == xs && i < |xs|
    ensures ls[a + i] == xs[i]
  {
    assert ls[a..b][i] == ls[a + i];
  }

  /** Element `j` of the second part of a concatenation. */
  lemma AppendAt<T>(a: seq<T>, b: seq<T>, j: nat)
    requires j < |b|
    ensures |a| + j < |a + b| && (a + b)[|a| + j] == b[j]
  {
  }

  lemma SuffixElem<T>(ls: seq<T>, a: nat, xs: seq<T>, i: nat)
    requires a <= |ls| && ls[a..] == xs && i < |xs|
    ensures ls[a + i] == xs[i]
  {
    assert ls[a..][i] == ls[a + i];
  }

  /** The index of the first element satisfying `p` (`findIndex`, with `None` for -1): the
      loop that tries candidates in order and stops at the first that works. */
  function FirstWhere<T>(xs: seq<T>, p: T -> bool): (r: Option<nat>)
    ensures r.Some? ==> r.value < |xs| && p(xs[r.value])
    ensures r.Some? ==> forall j :: 0 <= j < r.value ==> !p(xs[j])
    ensures r.None? <==> forall j :: 0 <= j < |xs| ==> !p(xs[j])
  {
    if |xs| == 0 then None
    else if p(xs[0]) then Some(0)
    else match FirstWhere(xs[1..], p)
      case None => None
      case Some(k) => Some(k + 1)
  }
}

=== FILE: content.dfy ===
/** The content library the pages read articles and laws through
    (`src/lib/content.ts`): the coercion of frontmatter values, the defaults of a content
    record, the listing and its order, the tag index and the lookup by slug. The
    frontmatter has already been parsed (by gray-matter) into a `Json` object; the
    directory listing, the file contents, today's date and `Date.parse` are parameters. */
module Content {
  import opened Common
  import opened Text
  import opened Json
  import opened Sorting
  import JsMap

  /** The two content sections, each a directory under `content/`. */
  datatype Kind = Articles | Laws {
    function Dir(): string {
      match this
      case Articles => "articles"
      case Laws => "laws"
    }
  }

  /** The attachment types a record may declare; any other becomes `file`. */
  const AttachmentTypes: seq<string> := ["image", "pdf", "ppt", "mindmap", "audio", "file"]

  datatype ContentAttachment = ContentAttachment(name: string, url: string, kind: string)

  /** A content record without its body. */
  datatype Meta = Meta(
    slug: string,
    title: string,
    summary: string,
    date: string,
    tags: seq<string>,
    category: string,
    author: Option<string>,
    source: Option<string>,
    attachments: seq<ContentAttachment>)

  datatype Detail = Detail(meta: Meta, content: string)

  const Uncategorized: string := "未分类"

  /** A field that must be a string, or the fallback. */
  function StringValue(v: Option<Json>, fallback: string): (r: string)
    ensures AsString(v).Some? ==> r == AsString(v).value
    ensures AsString(v).None? ==> r == fallback
  {
    AsString(v).GetOr(fallback)
  }

  /** A tag as the reader leaves it: not empty, and without edge whitespace. */
  predicate IsTag(t: string) {
    t != "" && Trim(t) == t
  }

  /** The tag an array item contributes: its trimmed text when it is a string that is
      not blank. */
  function TagOf(item: Json): (r: Option<string>)
    ensures r.Some? ==> IsTag(r.value)
  {
    if item.JStr? && Trim(item.s) != "" then
      TrimTwice(item.s);
      Some(Trim(item.s))
    else None
  }

  /** Trimming is idempotent. */
  lemma TrimTwice(s: string)
    ensures Trim(Trim(s)) == Trim(s)
  {
    var t := Trim(s);
    if t != "" {
      assert !IsSpace(t[0]);
      assert LeadingSpaces(t) == 0;
    }
  }

  /** `toStringArray`: anything but an array gives no tags; an array gives the trimmed
      strings that are not blank, in order. */
  function StringArray(v: Option<Json>): (r: seq<string>)
    ensures AsArray(v).None? ==> r == []
    ensures AsArray(v).Some? ==> |r| <= |AsArray(v).value|
    ensures forall i :: 0 <= i < |r| ==> IsTag(r[i])
  {
    if AsArray(v).Some? then
      CollectKeeps(AsArray(v).value, TagOf, IsTag);
      Collect(AsArray(v).value, TagOf)
    else []
  }

  /** The tags read from an array are exactly the trimmed, non-blank strings in it. */
  lemma StringArrayMembers(items: seq<Json>, t: string)
    ensures t in StringArray(Some(JArr(items))) <==>
      exists i :: 0 <= i < |items| && items[i].JStr? && Trim(items[i].s) == t && t != ""
  {
    CollectMembers(items, TagOf, t);
    assert AsArray(Some(JArr(items))).value == items;
  }

  /** Tags that are already trimmed and not empty survive `toStringArray` unchanged. */
  lemma StringArrayKeepsTags(tags: seq<string>)
    requires forall i :: 0 <= i < |tags| ==> IsTag(tags[i])
    ensures StringArray(Some(StrArray(tags))) == tags
  {
    var items := StrArray(tags).items;
    assert forall i :: 0 <= i < |tags| ==> TagOf(items[i]) == Some(tags[i]);
    CollectAll(items, TagOf, tags);
  }

  /** One entry of `toAttachmentArray`: it needs an object with a non-empty string name
      and url; a type outside the six known ones, or no string type, becomes `file`. */
  function ToAttachment(item: Json): (r: Option<ContentAttachment>)
    ensures r.Some? <==>
      item.JObj? && StringValue(Get(item, "name"), "") != "" && StringValue(Get(item, "url"), "") != ""
    ensures r.Some? ==>
      && r.value.name == AsString(Get(item, "name")).value
      && r.value.url == AsString(Get(item, "url")).value
      && r.value.kind in AttachmentTypes
      && (StringValue(Get(item, "type"), "file") in AttachmentTypes ==> r.value.kind == AsString(Get(item, "type")).GetOr("file"))
      && (StringValue(Get(item, "type"), "file") !in AttachmentTypes ==> r.value.kind == "file")
  {
    if !Truthy(Some(item)) || !IsObjectType(Some(item)) then None
    else
      var name := StringValue(Get(item, "name"), "");
      var url := StringValue(Get(item, "url"), "");
      var rawType := StringValue(Get(item, "type"), "file");
      if name == "" || url == "" then None
      else Some(ContentAttachment(name, url, if rawType in AttachmentTypes then rawType else "file"))
  }

  predicate ValidAttachment(a: ContentAttachment) {
    a.name != "" && a.url != "" && a.kind in AttachmentTypes
  }

  /** `toAttachmentArray`: anything but an array gives none; an array gives the entries
      that convert, in order. */
  function AttachmentArray(v: Option<Json>): (r: seq<ContentAttachment>)
    ensures AsArray(v).None? ==> r == []
    ensures AsArray(v).Some? ==> |r| <= |AsArray(v).value|
    ensures forall i :: 0 <= i < |r| ==> ValidAttachment(r[i])
  {
    if AsArray(v).Some? then
      CollectKeeps(AsArray(v).value, ToAttachment, ValidAttachment);
      Collect(AsArray(v).value, ToAttachment)
    else []
  }

  /** An attachment as the frontmatter writer records it. */
  function AttachmentJson(a: ContentAttachment): (j: Json)
    ensures j.JObj?
    ensures Get(j, "name") == Some(JStr(a.name)) && Get(j, "url") == Some(JStr(a.url))
    ensures Get(j, "type") == Some(JStr(a.kind))
  {
    JObj(map["name" := JStr(a.name), "url" := JStr(a.url), "type" := JStr(a.kind)])
  }

  function AttachmentsJson(atts: seq<ContentAttachment>): (r: seq<Json>)
    ensures |r| == |atts| && forall i :: 0 <= i < |atts| ==> r[i] == AttachmentJson(atts[i])
  {
    if |atts| == 0 then [] else [AttachmentJson(atts[0])] + AttachmentsJson(atts[1..])
  }

  /** Valid attachments survive `toAttachmentArray` unchanged. */
  lemma AttachmentArrayKeeps(atts: seq<ContentAttachment>)
    requires forall i :: 0 <= i < |atts| ==> ValidAttachment(atts[i])
    ensures AttachmentArray(Some(JArr(AttachmentsJson(atts)))) == atts
  {
    AttachmentsCollect(atts);
  }

  lemma AttachmentsCollect(atts: seq<ContentAttachment>)
    requires forall i :: 0 <= i < |atts| ==> ValidAttachment(atts[i])
    ensures Collect(AttachmentsJson(atts), ToAttachment) == atts
  {
    AttachmentsJsonReadBack(atts);
    CollectAll(AttachmentsJson(atts), ToAttachment, atts);
  }

  lemma AttachmentsJsonReadBack(atts: seq<ContentAttachment>)
    requires forall i :: 0 <= i < |atts| ==> ValidAttachment(atts[i])
    ensures forall i :: 0 <= i < |atts| ==> ToAttachment(AttachmentsJson(atts)[i]) == Some(atts[i])
  {
    forall i | 0 <= i < |atts|
      ensures ToAttachment(AttachmentsJson(atts)[i]) == Some(atts[i])
    {
      AttachmentJsonReadBack(atts[i]);
    }
  }

  lemma AttachmentJsonReadBack(a: ContentAttachment)
    requires ValidAttachment(a)
    ensures ToAttachment(AttachmentJson(a)) == Some(a)
  {
    var j := AttachmentJson(a);
    assert StringValue(Get(j, "type"), "file") == a.kind;
  }

  // ---------------------------------------------------------------------------------
  // Reading one file
  // ---------------------------------------------------------------------------------

  /** What gray-matter makes of a file: the frontmatter data and the text after it. */
  datatype Raw = Raw(data: Json, body: string)

  /** `.md` or `.mdx` at the end of a name, in any letter case. */
  predicate EndsWithNoCase(name: string, ext: string) {
    |ext| <= |name| && Lower(name[|name| - |ext|..]) == ext
  }

  predicate IsMarkdownName(name: string) {
    EndsWithNoCase(name, ".mdx") || EndsWithNoCase(name, ".md")
  }

  /** The file name without one `.md`/`.mdx` extension (`/\.mdx?$/i`). */
  function SlugOfName(name: string): (slug: string)
    ensures IsMarkdownName(name) ==> |slug| < |name| && name[..|slug|] == slug
    ensures !IsMarkdownName(name) ==> slug == name
  {
    if EndsWithNoCase(name, ".mdx") then name[..|name| - 4]
    else if EndsWithNoCase(name, ".md") then name[..|name| - 3]
    else name
  }

  /** The file named after a slug gives that slug back. */
  lemma SlugOfNameRoundTrip(slug: string)
    ensures SlugOfName(slug + ".mdx") == slug
    ensures SlugOfName(slug + ".md") == slug
  {
    var a, b := slug + ".mdx", slug + ".md";
    assert a[|a| - 4..] == ".mdx";
    assert Lower(".mdx") == ".mdx";
    assert b[|b| - 3..] == ".md";
    assert Lower(".md") == ".md";
    if |b| >= 4 {
      var w := b[|b| - 4..];
      assert w[3] == 'd' && Lower(w)[3] == 'd';
      assert ".mdx"[3] == 'x';
    }
  }

  /** `readContentFile`: the slug from the file name, the frontmatter's string fields
      with their defaults, the coerced tags and attachments, and the trimmed body. */
  function ReadContentFile(name: string, raw: Raw, today: string): (d: Detail)
    ensures d.meta.slug == SlugOfName(name)
    ensures d.meta.title == StringValue(Get(raw.data, "title"), d.meta.slug)
    ensures d.meta.summary == StringValue(Get(raw.data, "summary"), "")
    ensures d.meta.date == StringValue(Get(raw.data, "date"), today)
    ensures d.meta.category == StringValue(Get(raw.data, "category"), Uncategorized)
    ensures d.meta.author.Some? <==> StringValue(Get(raw.data, "author"), "") != ""
    ensures d.meta.source.Some? <==> StringValue(Get(raw.data, "source"), "") != ""
    ensures d.meta.author.Some? ==> d.meta.author.value == AsString(Get(raw.data, "author")).value
    ensures d.meta.source.Some? ==> d.meta.source.value == AsString(Get(raw.data, "source")).value
    ensures d.meta.tags == StringArray(Get(raw.data, "tags"))
    ensures d.meta.attachments == AttachmentArray(Get(raw.data, "attachments"))
    ensures d.content == Trim(raw.body)
  {
    var slug := SlugOfName(name);
    var author := StringValue(Get(raw.data, "author"), "");
    var source := StringValue(Get(raw.data, "source"), "");
    Detail(
      Meta(
        slug,
        StringValue(Get(raw.data, "title"), slug),
        StringValue(Get(raw.data, "summary"), ""),
        StringValue(Get(raw.data, "date"), today),
        StringArray(Get(raw.data, "tags")),
        StringValue(Get(raw.data, "category"), Uncategorized),
        if author != "" then Some(author) else None,
        if source != "" then Some(source) else None,
        AttachmentArray(Get(raw.data, "attachments"))),
      Trim(raw.body))
  }

  /** The keys of the frontmatter a record is written with. */
  const MetaKeys: set<string> := {"title", "summary", "date", "tags", "category", "author", "source", "attachments"}

  function MetaField(m: Meta, key: string): Option<Json> {
    if key == "title" then Some(JStr(m.title))
    else if key == "summary" then Some(JStr(m.summary))
    else if key == "date" then Some(JStr(m.date))
    else if key == "tags" then Some(StrArray(m.tags))
    else if key == "category" then Some(JStr(m.category))
    else if key == "author" && m.author.Some? then Some(JStr(m.author.value))
    else if key == "source" && m.source.Some? then Some(JStr(m.source.value))
    else if key == "attachments" then Some(JArr(AttachmentsJson(m.attachments)))
    else None
  }

  /** The frontmatter data of a record. */
  function MetaJson(m: Meta): (j: Json)
    ensures j.JObj?
    ensures forall k :: k in MetaKeys ==> Get(j, k) == MetaField(m, k)
  {
    JObj(map k | k in MetaKeys && MetaField(m, k).Some? :: MetaField(m, k).value)
  }

  /** A record the reader can reproduce: tags trimmed and not empty, author and source
      absent rather than empty, attachments complete and of a known type. */
  predicate Canonical(m: Meta) {
    && (forall i :: 0 <= i < |m.tags| ==> IsTag(m.tags[i]))
    && m.author != Some("") && m.source != Some("")
    && (forall i :: 0 <= i < |m.attachments| ==> ValidAttachment(m.attachments[i]))
  }

  /** Reading the file `<slug>.mdx` whose frontmatter holds a canonical record gives
      the record back. */
  lemma ReadContentFileRoundTrip(m: Meta, body: string, today: string)
    requires Canonical(m)
    ensures ReadContentFile(m.slug + ".mdx", Raw(MetaJson(m), body), today) == Detail(m, Trim(body))
  {
    var d := ReadContentFile(m.slug + ".mdx", Raw(MetaJson(m), body), today);
    SlugOfNameRoundTrip(m.slug);
    MetaJsonStrings(m);
    MetaJsonOptional(m);
    MetaJsonLists(m);
    assert d.meta == m;
  }

  lemma MetaJsonStrings(m: Meta)
    ensures var j := MetaJson(m);
      && StringValue(Get(j, "title"), m.slug) == m.title
      && StringValue(Get(j, "summary"), "") == m.summary
      && StringValue(Get(j, "category"), Uncategorized) == m.category
      && forall today :: StringValue(Get(j, "date"), today) == m.date
  {
    assert "title" in MetaKeys && "summary" in MetaKeys && "date" in MetaKeys && "category" in MetaKeys;
  }

  lemma MetaJsonOptional(m: Meta)
    requires m.author != Some("") && m.source != Some("")
    ensures var j := MetaJson(m);
      && (StringValue(Get(j, "author"), "") != "" <==> m.author.Some?)
      && (m.author.Some? ==> AsString(Get(j, "author")) == m.author)
      && (StringValue(Get(j, "source"), "") != "" <==> m.source.Some?)
      && (m.source.Some? ==> AsString(Get(j, "source")) == m.source)
  {
    assert "author" in MetaKeys && "source" in MetaKeys;
  }

  lemma MetaJsonLists(m: Meta)
    requires Canonical(m)
    ensures var j := MetaJson(m);
      && StringArray(Get(j, "tags")) == m.tags
      && AttachmentArray(Get(j, "attachments")) == m.attachments
  {
    assert "tags" in MetaKeys && "attachments" in MetaKeys;
    StringArrayKeepsTags(m.tags);
    AttachmentArrayKeeps(m.attachments);
  }

  // ---------------------------------------------------------------------------------
  // Listing, tags and lookup
  // ---------------------------------------------------------------------------------

  /** A directory entry with the file's parsed contents. */
  datatype DirEntry = DirEntry(name: string, isFile: bool, raw: Raw)

  predicate IsMarkdownFile(e: DirEntry) {
    e.isFile && IsMarkdownName(e.name)
  }

  /** The records of the markdown files, in directory order. */
  function ReadAll(entries: seq<DirEntry>, today: string): (r: seq<Meta>)
    ensures |r| == Count(entries, IsMarkdownFile)
  {
    if |entries| == 0 then []
    else
      var rest := ReadAll(entries[1..], today);
      if IsMarkdownFile(entries[0]) then [ReadContentFile(entries[0].name, entries[0].raw, today).meta] + rest
      else rest
  }

  /** `getTimestamp`: `Date.parse` of the date, with an unparseable date (`NaN`) as 0. */
  function Timestamp(parse: string -> Option<int>, date: string): int {
    parse(date).GetOr(0)
  }

  function MetaTime(parse: string -> Option<int>): Meta -> int {
    (m: Meta) => Timestamp(parse, m.date)
  }

  /** `getContentList`: every markdown file's record (none when the directory cannot be
      read), newest first. */
  function ContentList(dir: Option<seq<DirEntry>>, today: string, parse: string -> Option<int>): (r: seq<Meta>)
    ensures dir.None? ==> r == []
    ensures dir.Some? ==> multiset(r) == multiset(ReadAll(dir.value, today))
    ensures forall i, j :: 0 <= i < j < |r| ==> Timestamp(parse, r[i].date) >= Timestamp(parse, r[j].date)
  {
    if dir.None? then [] else SortDescending(ReadAll(dir.value, today), MetaTime(parse))
  }

  /** The list holds one record per markdown file. */
  lemma ContentListLength(dir: Option<seq<DirEntry>>, today: string, parse: string -> Option<int>)
    ensures |ContentList(dir, today, parse)| == if dir.None? then 0 else Count(dir.value, IsMarkdownFile)
  {
    var r := ContentList(dir, today, parse);
    if dir.Some? {
      assert |multiset(r)| == |multiset(ReadAll(dir.value, today))|;
    }
  }

  /** All tags of the records, flattened in order. */
  function TagsOf(records: seq<Meta>): seq<string> {
    if |records| == 0 then [] else records[0].tags + TagsOf(records[1..])
  }

  predicate HasTag(records: seq<Meta>, t: string) {
    exists i :: 0 <= i < |records| && t in records[i].tags
  }

  lemma {:induction false} TagsOfMembers(records: seq<Meta>, t: string)
    ensures t in TagsOf(records) <==> HasTag(records, t)
  {
    if |records| > 0 {
      TagsOfMembers(records[1..], t);
      if HasTag(records[1..], t) {
        var i :| 0 <= i < |records[1..]| && t in records[1..][i].tags;
        assert t in records[i + 1].tags;
      }
      if HasTag(records, t) && t !in records[0].tags {
        var i :| 0 <= i < |records| && t in records[i].tags;
        assert t in records[1..][i - 1].tags;
      }
    }
  }

  /** `getAllTags`: the distinct tags of all records, sorted. */
  function AllTags(records: seq<Meta>): (r: seq<string>)
    ensures SortedBy(r, StringLe)
    ensures Distinct(r)
    ensures multiset(r) == multiset(JsMap.Dedup(TagsOf(records)))
  {
    var d := JsMap.Dedup(TagsOf(records));
    StringLeIsTotalPreorder();
    var r := Sort(d, StringLe);
    DistinctMultiset(d);
    MultisetDistinct(r);
    r
  }

  /** The tag index holds exactly the tags some record carries. */
  lemma AllTagsMembers(records: seq<Meta>, t: string)
    ensures t in AllTags(records) <==> HasTag(records, t)
  {
    TagsOfMembers(records, t);
    var r, d := AllTags(records), JsMap.Dedup(TagsOf(records));
    assert t in r <==> t in multiset(r);
    assert t in d <==> t in multiset(d);
  }

  /** In a sequence without repetitions, every element occurs once. */
  lemma {:induction false} DistinctMultiset<T>(xs: seq<T>)
    requires Distinct(xs)
    ensures forall x :: multiset(xs)[x] <= 1
  {
    if |xs| > 0 {
      assert Distinct(xs[1..]) by {
        forall i, j | 0 <= i < j < |xs[1..]|
          ensures xs[1..][i] != xs[1..][j]
        {
          assert xs[1..][i] == xs[i + 1] && xs[1..][j] == xs[j + 1];
        }
      }
      DistinctMultiset(xs[1..]);
      assert xs == [xs[0]] + xs[1..];
      assert xs[0] !in xs[1..];
    }
  }

  /** A sequence whose elements each occur at most once has no repetitions. */
  lemma MultisetDistinct<T>(xs: seq<T>)
    requires forall x :: multiset(xs)[x] <= 1
    ensures Distinct(xs)
  {
    forall i, j | 0 <= i < j < |xs|
      ensures xs[i] != xs[j]
    {
      assert xs == xs[..j] + xs[j..];
      assert xs[i] == xs[..j][i] && xs[j] == xs[j..][0];
      assert xs[i] in multiset(xs[..j]) && xs[j] in multiset(xs[j..]);
      assert multiset(xs) == multiset(xs[..j]) + multiset(xs[j..]);
      assert multiset(xs)[xs[j]] == multiset(xs[..j])[xs[j]] + multiset(xs[j..])[xs[j]];
    }
  }

  /** `getContentBySlug`: `<slug>.mdx` first, then `<slug>.md`, `None` when neither
      exists. `files` maps the names in the section's directory to their contents. */
  function ContentBySlug(files: map<string, Raw>, slug: string, today: string): (r: Option<Detail>)
    ensures r.None? <==> slug + ".mdx" !in files && slug + ".md" !in files
    ensures slug + ".mdx" in files ==> r == Some(ReadContentFile(slug + ".mdx", files[slug + ".mdx"], today))
    ensures slug + ".mdx" !in files && slug + ".md" in files ==> r == Some(ReadContentFile(slug + ".md", files[slug + ".md"], today))
  {
    if slug + ".mdx" in files then Some(ReadContentFile(slug + ".mdx", files[slug + ".mdx"], today))
    else if slug + ".md" in files then Some(ReadContentFile(slug + ".md", files[slug + ".md"], today))
    else None
  }

  /** The record found for a slug carries that slug. */
  lemma ContentBySlugSlug(files: map<string, Raw>, slug: string, today: string)
    ensures ContentBySlug(files, slug, today).Some? ==> ContentBySlug(files, slug, today).value.meta.slug == slug
  {
    SlugOfNameRoundTrip(slug);
  }
}

=== FILE: content_write.dfy ===
/** The writer behind the content APIs (`src/lib/content-write.ts`): the frontmatter of a
    record, the clean-up of its body, the slug and path it is written under, and the
    choice between the GitHub contents API and the local file system. The current date,
    the clock and the environment are parameters; the writes themselves are not part of
    this model. */
module ContentWrite {
  import opened Common
  import opened Text
  import opened Yaml
  import opened Frontmatter
  import opened Content
  import Slug

  /** The record a caller asks to write. Absent fields are `None`; `??` keeps an empty
      string, while the author, the source and the tags are filtered by truthiness. */
  datatype Payload = Payload(
    slug: Option<string>,
    title: string,
    summary: Option<string>,
    date: Option<string>,
    tags: Option<seq<string>>,
    category: Option<string>,
    author: Option<string>,
    source: Option<string>,
    attachments: Option<seq<ContentAttachment>>,
    content: string)

  const NoTags: string := "无标签"

  // ---------------------------------------------------------------------------------
  // The body
  // ---------------------------------------------------------------------------------

  /** `toSafeLines`: the lines of the body, each without its trailing white space. */
  function SafeLines(value: string): (r: seq<string>)
    ensures |r| == |Split(value, '\n')|
    ensures forall i :: 0 <= i < |r| ==>
      && |r[i]| <= |Split(value, '\n')[i]|
      && r[i] == Split(value, '\n')[i][..|r[i]|]
      && (|r[i]| > 0 ==> !IsSpace(r[i][|r[i]| - 1]))
      && (forall k :: |r[i]| <= k < |Split(value, '\n')[i]| ==> IsSpace(Split(value, '\n')[i][k]))
      && '\n' !in r[i]
  {
    var lines := Split(value, '\n');
    seq(|lines|, i requires 0 <= i < |lines| => TrimEnd(lines[i]))
  }

  /** The body as it is written: the safe lines joined again. */
  function SafeBody(value: string): string {
    Join(SafeLines(value), "\n")
  }

  lemma {:induction false} TrimEndTwice(s: string)
    ensures TrimEnd(TrimEnd(s)) == TrimEnd(s)
  {
    var t := TrimEnd(s);
    assert |t| == 0 || !IsSpace(t[|t| - 1]);
  }

  /** Cleaning a clean body changes nothing: the writer's output is a fixed point. */
  lemma SafeBodyIdempotent(value: string)
    ensures SafeBody(SafeBody(value)) == SafeBody(value)
  {
    var lines := Split(value, '\n');
    var ls := SafeLines(value);
    SplitJoin(ls, '\n');
    assert Split(SafeBody(value), '\n') == ls;
    var ls2 := SafeLines(SafeBody(value));
    assert |ls2| == |ls|;
    forall i | 0 <= i < |ls|
      ensures ls2[i] == ls[i]
    {
      assert ls[i] == TrimEnd(lines[i]);
      assert ls2[i] == TrimEnd(ls[i]);
      TrimEndTwice(lines[i]);
    }
    assert ls2 == ls;
  }

  // ---------------------------------------------------------------------------------
  // The frontmatter
  // ---------------------------------------------------------------------------------

  /** `payload.tags?.filter(Boolean) ?? []`, with the placeholder when none is left. */
  function ShownTags(tags: Option<seq<string>>): (r: seq<string>)
    ensures |r| >= 1
    ensures forall i :: 0 <= i < |r| ==> r[i] != ""
    ensures |Filter(tags.GetOr([]), NonEmpty)| == 0 ==> r == [NoTags]
    ensures |Filter(tags.GetOr([]), NonEmpty)| > 0 ==> r == Filter(tags.GetOr([]), NonEmpty)
  {
    var kept := Filter(tags.GetOr([]), NonEmpty);
    if |kept| == 0 then [NoTags] else kept
  }

  predicate NonEmpty(s: string) { s != "" }

  /** The keys of the five fields every record has, in their fixed order. */
  const HeadKeys: seq<string> := ["slug", "title", "summary", "date", "category"]

  /** Their values: the summary falls back to `""`, the date to today and the category to
      `未分类`. */
  function HeadValues(p: Payload, slug: string, today: string): (vs: seq<string>)
    ensures |vs| == 5
  {
    [slug, p.title, p.summary.GetOr(""), p.date.GetOr(today), p.category.GetOr(Uncategorized)]
  }

  /** The five field lines. */
  function HeadLines(p: Payload, slug: string, today: string): (ls: seq<string>)
    ensures |ls| == 5
  {
    var vs := HeadValues(p, slug, today);
    seq(5, j requires 0 <= j < 5 => Field(HeadKeys[j], vs[j]))
  }

  /** The author and source lines, each only when the value is not empty. */
  function OptionalLines(p: Payload): (ls: seq<string>)
    ensures |ls| == (if p.author.GetOr("") != "" then 1 else 0) + (if p.source.GetOr("") != "" then 1 else 0)
  {
    (if p.author.GetOr("") != "" then [Field("author", p.author.value)] else [])
    + (if p.source.GetOr("") != "" then [Field("source", p.source.value)] else [])
  }

  /** The three lines of one attachment. */
  function Entry(a: ContentAttachment): (ls: seq<string>)
    ensures |ls| == 3
  {
    [Quoted("  - name: ", a.name), Quoted("    url: ", a.url), Quoted("    type: ", a.kind)]
  }

  /** `attachments: []`, or one name/url/type entry per attachment, in order. */
  function AttachmentLines(atts: seq<ContentAttachment>): (ls: seq<string>)
    ensures |atts| == 0 ==> ls == ["attachments: []"]
    ensures |atts| > 0 ==> |ls| == 1 + 3 * |atts| && ls[0] == "attachments:"
  {
    if |atts| == 0 then ["attachments: []"]
    else
      FlatMapLength(atts, Entry, 3);
      ["attachments:"] + FlatMap(atts, Entry)
  }

  /** The record's own fields: the five every record has, then the author and the source. */
  function HeadBlock(p: Payload, slug: string, today: string): (ls: seq<string>)
    ensures |ls| == 5 + |OptionalLines(p)|
  {
    HeadLines(p, slug, today) + OptionalLines(p)
  }

  /** The `tags:` line and one list item per tag. */
  function TagBlock(tags: seq<string>): (ls: seq<string>)
    ensures |ls| == 1 + |tags|
  {
    ["tags:"] + ListItems(tags)
  }

  /** The tags, then the attachments: the part of the frontmatter that does not depend on
      the slug or the date. */
  function TailBlock(p: Payload): (ls: seq<string>)
    ensures |ls| == 1 + |ShownTags(p.tags)| + |AttachmentLines(p.attachments.GetOr([]))|
  {
    TagBlock(ShownTags(p.tags)) + AttachmentLines(p.attachments.GetOr([]))
  }

  /** All frontmatter lines between the two `---` lines. */
  function FrontOf(p: Payload, slug: string, today: string): (ls: seq<string>)
    ensures |ls| == 5 + |OptionalLines(p)| + |TailBlock(p)|
  {
    HeadBlock(p, slug, today) + TailBlock(p)
  }

  /** `buildFrontmatter`: the lines joined, opening and closing with `---`, and ending with
      a line break. */
  function BuildFrontmatter(p: Payload, slug: string, today: string): string {
    Join(["---"] + FrontOf(p, slug, today) + ["---", ""], "\n")
  }

  /** The whole file: the frontmatter, then the clean body and a line break. */
  function FileText(p: Payload, slug: string, today: string): string {
    BuildFrontmatter(p, slug, today) + SafeBody(p.content) + "\n"
  }

  /** Every value written between quotes fits on one line. */
  predicate OneLinePayload(p: Payload, slug: string, today: string) {
    OneLine(slug) && OneLineFields(p, today)
  }

  /** The same, for the values the payload itself supplies. */
  predicate OneLineFields(p: Payload, today: string) {
    && OneLine(p.title) && OneLine(p.summary.GetOr("")) && OneLine(p.date.GetOr(today))
    && OneLine(p.category.GetOr(Uncategorized)) && OneLine(p.author.GetOr("")) && OneLine(p.source.GetOr(""))
    && (forall i :: 0 <= i < |ShownTags(p.tags)| ==> OneLine(ShownTags(p.tags)[i]))
    && (forall i :: 0 <= i < |p.attachments.GetOr([])| ==>
          var a := p.attachments.GetOr([])[i];
          OneLine(a.name) && OneLine(a.url) && OneLine(a.kind))
  }

  lemma HeadFront(p: Payload, slug: string, today: string)
    requires OneLinePayload(p, slug, today)
    ensures FrontLines(HeadBlock(p, slug, today))
  {
    HeadLinesFront(p, slug, today);
    OptionalFront(p);
    FrontLinesAppend(HeadLines(p, slug, today), OptionalLines(p));
  }

  lemma HeadLinesFront(p: Payload, slug: string, today: string)
    requires OneLinePayload(p, slug, today)
    ensures FrontLines(HeadLines(p, slug, today))
  {
    KeysOneLine();
  }

  lemma OptionalFront(p: Payload)
    requires OneLine(p.author.GetOr("")) && OneLine(p.source.GetOr(""))
    ensures FrontLines(OptionalLines(p))
  {
    KeysOneLine();
  }

  lemma {:induction false} EntriesFront(atts: seq<ContentAttachment>)
    requires forall i :: 0 <= i < |atts| ==> OneLine(atts[i].name) && OneLine(atts[i].url) && OneLine(atts[i].kind)
    ensures FrontLines(FlatMap(atts, Entry))
  {
    if |atts| > 0 {
      EntriesFront(atts[1..]);
      EntryFront(atts[0]);
      FrontLinesAppend(Entry(atts[0]), FlatMap(atts[1..], Entry));
    }
  }

  lemma EntryFront(a: ContentAttachment)
    requires OneLine(a.name) && OneLine(a.url) && OneLine(a.kind)
    ensures FrontLines(Entry(a))
  {
    QuotedFront("  - name: ", a.name);
    QuotedFront("    url: ", a.url);
    QuotedFront("    type: ", a.kind);
  }

  lemma FrontOfFront(p: Payload, slug: string, today: string)
    requires OneLinePayload(p, slug, today)
    ensures FrontLines(FrontOf(p, slug, today))
  {
    HeadFront(p, slug, today);
    TailFront(p);
    FrontLinesAppend(HeadBlock(p, slug, today), TailBlock(p));
  }

  lemma TailFront(p: Payload)
    requires forall i :: 0 <= i < |ShownTags(p.tags)| ==> OneLine(ShownTags(p.tags)[i])
    requires forall i :: 0 <= i < |p.attachments.GetOr([])| ==>
      var a := p.attachments.GetOr([])[i];
      OneLine(a.name) && OneLine(a.url) && OneLine(a.kind)
    ensures FrontLines(TailBlock(p))
  {
    var atts := p.attachments.GetOr([]);
    assert IsFrontLine("tags:") && IsFrontLine("attachments: []") && IsFrontLine("attachments:");
    assert FrontLines(["tags:"]);
    FrontLinesAppend(["tags:"], ListItems(ShownTags(p.tags)));
    if |atts| > 0 {
      EntriesFront(atts);
      assert FrontLines(["attachments:"]);
      FrontLinesAppend(["attachments:"], FlatMap(atts, Entry));
    } else {
      assert FrontLines(["attachments: []"]);
    }
    FrontLinesAppend(TagBlock(ShownTags(p.tags)), AttachmentLines(atts));
  }

  /** The first lines of the frontmatter are the five fields, then the optional ones. */
  lemma HeadAt(p: Payload, slug: string, today: string)
    ensures forall j :: 0 <= j < 5 ==> FrontOf(p, slug, today)[j] == HeadLines(p, slug, today)[j]
    ensures forall j :: 0 <= j < |OptionalLines(p)| ==>
      FrontOf(p, slug, today)[5 + j] == OptionalLines(p)[j]
  {
    var head, opt, tail := HeadLines(p, slug, today), OptionalLines(p), TailBlock(p);
    assert FrontOf(p, slug, today) == head + opt + tail;
  }

  /** The frontmatter is the head block followed by the tail block. */
  lemma FrontSplit(p: Payload, slug: string, today: string)
    ensures FrontOf(p, slug, today) == HeadBlock(p, slug, today) + TailBlock(p)
    ensures |HeadBlock(p, slug, today)| == 5 + |OptionalLines(p)|
  {
  }

  /** Line `j` of the tail block is line `5 + |OptionalLines(p)| + j` of the frontmatter. */
  lemma TailAt(p: Payload, slug: string, today: string, j: nat)
    requires j < |TailBlock(p)|
    ensures 5 + |OptionalLines(p)| + j < |FrontOf(p, slug, today)|
    ensures FrontOf(p, slug, today)[5 + |OptionalLines(p)| + j] == TailBlock(p)[j]
  {
    FrontSplit(p, slug, today);
    AppendAt(HeadBlock(p, slug, today), TailBlock(p), j);
  }

  /** A file whose quoted values fit on one line reads back as its frontmatter lines and
      its clean body followed by a line break. */
  lemma FileReadsBack(p: Payload, slug: string, today: string)
    requires OneLinePayload(p, slug, today)
    ensures ReadDocument(FileText(p, slug, today)) == Some((FrontOf(p, slug, today), SafeBody(p.content) + "\n"))
  {
    var front := FrontOf(p, slug, today);
    var rest := SafeBody(p.content) + "\n";
    FrontOfFront(p, slug, today);
    assert FileText(p, slug, today) == BuildFrontmatter(p, slug, today) + rest;
    JoinedFrontmatter(front, rest);
    BareDocumentRoundTrip(front, rest);
  }

  /** The first five lines read back, in order, as the slug, the title, the summary (or
      `""`), the date (or today) and the category (or `未分类`); then come the author line
      when there is an author, and the source line when there is a source. */
  lemma FrontFieldsReadBack(p: Payload, slug: string, today: string)
    ensures var ls := FrontOf(p, slug, today);
      && (forall j :: 0 <= j < 5 ==> ReadField(ls[j], HeadKeys[j]) == Some(HeadValues(p, slug, today)[j]))
      && (p.author.GetOr("") != "" ==> ReadField(ls[5], "author") == p.author)
      && (p.source.GetOr("") != "" ==> ReadField(ls[5 + |OptionalLines(p)| - 1], "source") == p.source)
  {
    HeadAt(p, slug, today);
    FieldsReadBack(HeadLines(p, slug, today), HeadKeys, HeadValues(p, slug, today));
    OptionalLinesReadBack(p);
  }

  /** In particular the first line reads back as the slug. */
  lemma SlugLineReadBack(p: Payload, slug: string, today: string)
    ensures ReadField(FrontOf(p, slug, today)[0], "slug") == Some(slug)
  {
    HeadAt(p, slug, today);
    FieldRoundTrip("slug", slug);
  }

  /** Field lines read back as their values, line by line. */
  lemma FieldsReadBack(ls: seq<string>, keys: seq<string>, values: seq<string>)
    requires |ls| == |keys| == |values|
    requires forall j :: 0 <= j < |ls| ==> ls[j] == Field(keys[j], values[j])
    ensures forall j :: 0 <= j < |ls| ==> ReadField(ls[j], keys[j]) == Some(values[j])
  {
    forall j | 0 <= j < |ls|
      ensures ReadField(ls[j], keys[j]) == Some(values[j])
    {
      FieldRoundTrip(keys[j], values[j]);
    }
  }

  lemma OptionalLinesReadBack(p: Payload)
    ensures var ls := OptionalLines(p);
      && (p.author.GetOr("") != "" ==> ReadField(ls[0], "author") == p.author)
      && (p.source.GetOr("") != "" ==> ReadField(ls[|ls| - 1], "source") == p.source)
  {
    if p.author.GetOr("") != "" {
      FieldRoundTrip("author", p.author.value);
    }
    if p.source.GetOr("") != "" {
      FieldRoundTrip("source", p.source.value);
    }
  }

  /** The tag lines read back as the shown tags, one per line and in order. */
  lemma TagsReadBack(p: Payload, slug: string, today: string, i: nat)
    requires i < |ShownTags(p.tags)|
    ensures var ls := FrontOf(p, slug, today); var k := 5 + |OptionalLines(p)|;
      && ls[k] == "tags:"
      && ReadQuoted(ls[k + 1 + i], "  - ") == Some(ShownTags(p.tags)[i])
  {
    var tags := ShownTags(p.tags);
    var tail := TailBlock(p);
    TailAt(p, slug, today, 0);
    TailAt(p, slug, today, 1 + i);
    assert tail[0] == TagBlock(tags)[0] == "tags:";
    assert tail[1 + i] == TagBlock(tags)[1 + i] == Quoted("  - ", tags[i]);
    QuotedRoundTrip("  - ", tags[i]);
  }

  /** A non-empty attachment block is its heading followed by the entries. */
  lemma AttachmentSplit(atts: seq<ContentAttachment>)
    requires |atts| > 0
    ensures AttachmentLines(atts) == ["attachments:"] + FlatMap(atts, Entry)
  {
  }

  /** Line `1 + 3 * i + d` of the attachment block is line `d` of attachment `i`'s entry. */
  lemma EntryAt(atts: seq<ContentAttachment>, i: nat, d: nat)
    requires i < |atts| && d < 3
    ensures 1 + 3 * i + d < |AttachmentLines(atts)|
    ensures AttachmentLines(atts)[1 + 3 * i + d] == Entry(atts[i])[d]
  {
    EntriesAt(atts, i, d);
    AttachmentSplit(atts);
    AppendAt(["attachments:"], FlatMap(atts, Entry), 3 * i + d);
  }

  /** Line `3 * i + d` of the entries is line `d` of attachment `i`'s entry. */
  lemma EntriesAt(atts: seq<ContentAttachment>, i: nat, d: nat)
    requires i < |atts| && d < 3
    ensures 3 * i + d < |FlatMap(atts, Entry)|
    ensures FlatMap(atts, Entry)[3 * i + d] == Entry(atts[i])[d]
  {
    var j := 3 * i;
    FlatMapAt(atts, Entry, 3, i, j);
    SliceElem(FlatMap(atts, Entry), j, j + 3, Entry(atts[i]), d);
  }

  /** Line `j` of the attachment block is line `1 + |tags| + j` of the tail block. */
  lemma AttachmentsAt(p: Payload, j: nat)
    requires j < |AttachmentLines(p.attachments.GetOr([]))|
    ensures TailBlock(p)[1 + |ShownTags(p.tags)| + j] == AttachmentLines(p.attachments.GetOr([]))[j]
  {
    AppendAt(TagBlock(ShownTags(p.tags)), AttachmentLines(p.attachments.GetOr([])), j);
  }

  /** Line `d` of attachment `i`'s entry is where the frontmatter keeps it. */
  lemma EntryInFront(p: Payload, slug: string, today: string, i: nat, d: nat)
    requires i < |p.attachments.GetOr([])| && d < 3
    ensures var k := 5 + |OptionalLines(p)| + 1 + |ShownTags(p.tags)|;
      && k + 1 + 3 * i + d < |FrontOf(p, slug, today)|
      && FrontOf(p, slug, today)[k] == "attachments:"
      && FrontOf(p, slug, today)[k + 1 + 3 * i + d] == Entry(p.attachments.GetOr([])[i])[d]
  {
    var atts := p.attachments.GetOr([]);
    EntryAt(atts, i, d);
    AttachmentLineInFront(p, slug, today, 0);
    AttachmentLineInFront(p, slug, today, 1 + 3 * i + d);
  }

  /** Line `j` of the attachment block is where the frontmatter keeps it. */
  lemma AttachmentLineInFront(p: Payload, slug: string, today: string, j: nat)
    requires j < |AttachmentLines(p.attachments.GetOr([]))|
    ensures var k := 5 + |OptionalLines(p)| + 1 + |ShownTags(p.tags)|;
      && k + j < |FrontOf(p, slug, today)|
      && FrontOf(p, slug, today)[k + j] == AttachmentLines(p.attachments.GetOr([]))[j]
  {
    AttachmentsAt(p, j);
    TailAt(p, slug, today, 1 + |ShownTags(p.tags)| + j);
  }

  /** Every attachment's three lines read back as its name, url and type. */
  lemma AttachmentReadBack(p: Payload, slug: string, today: string, i: nat)
    requires i < |p.attachments.GetOr([])|
    ensures var ls := FrontOf(p, slug, today); var atts := p.attachments.GetOr([]);
      var k := 5 + |OptionalLines(p)| + 1 + |ShownTags(p.tags)|;
      && ls[k] == "attachments:"
      && ReadQuoted(ls[k + 1 + 3 * i], "  - name: ") == Some(atts[i].name)
      && ReadQuoted(ls[k + 2 + 3 * i], "    url: ") == Some(atts[i].url)
      && ReadQuoted(ls[k + 3 + 3 * i], "    type: ") == Some(atts[i].kind)
  {
    var atts := p.attachments.GetOr([]);
    EntryInFront(p, slug, today, i, 0);
    EntryInFront(p, slug, today, i, 1);
    EntryInFront(p, slug, today, i, 2);
    QuotedRoundTrip("  - name: ", atts[i].name);
    QuotedRoundTrip("    url: ", atts[i].url);
    QuotedRoundTrip("    type: ", atts[i].kind);
  }

  // ---------------------------------------------------------------------------------
  // writeContentFile
  // ---------------------------------------------------------------------------------

  /** The environment variables the writer reads. */
  datatype Env = Env(githubToken: Option<string>, vercel: Option<string>, repo: Option<string>, branch: Option<string>)

  const DefaultRepo: string := "axuan20160304-oss/xu-occupational-health"

  /** Where the file goes: a PUT to the GitHub contents API, or a file under the working
      directory. */
  datatype Target = GitHub(apiUrl: string, branch: string) | LocalFile(path: string)

  datatype Written = Written(slug: string, filePath: string, text: string, target: Target)

  /** The singular of the section name, the fallback slug's prefix. */
  function Singular(kind: Kind): (r: string)
    ensures r + [kind.Dir()[|kind.Dir()| - 1]] == kind.Dir()
  {
    match kind
    case Articles => "article"
    case Laws => "law"
  }

  predicate UsesGitHub(env: Env) {
    env.githubToken.GetOr("") != "" && env.vercel.GetOr("") != ""
  }

  /** `writeContentFile`: the slug from the payload's slug or its title, the relative
      path `content/<kind>/<slug>.mdx`, the text, and the target. */
  function WriteContentFile(kind: Kind, p: Payload, env: Env, cwd: string, now: nat, today: string): (w: Written)
    ensures w.slug == Slug.CreateSlug(p.slug.GetOr(p.title), Singular(kind), now)
    ensures w.text == FileText(p, w.slug, today)
    ensures w.target.GitHub? <==> UsesGitHub(env)
    ensures w.target.GitHub? ==>
      && w.filePath == "content/" + kind.Dir() + "/" + w.slug + ".mdx"
      && w.target.apiUrl == "https://api.github.com/repos/" + env.repo.GetOr(DefaultRepo) + "/contents/site/" + w.filePath
      && w.target.branch == env.branch.GetOr("main")
    ensures w.target.LocalFile? ==>
      w.filePath == w.target.path == cwd + "/content/" + kind.Dir() + "/" + w.slug + ".mdx"
  {
    var slug := Slug.CreateSlug(p.slug.GetOr(p.title), Singular(kind), now);
    var relative := "content/" + kind.Dir() + "/" + slug + ".mdx";
    var text := FileText(p, slug, today);
    if UsesGitHub(env) then
      Written(slug, relative, text,
              GitHub("https://api.github.com/repos/" + env.repo.GetOr(DefaultRepo) + "/contents/site/" + relative,
                     env.branch.GetOr("main")))
    else
      var path := cwd + "/content/" + kind.Dir() + "/" + slug + ".mdx";
      Written(slug, path, text, LocalFile(path))
  }

  /** Every slug `createSlug` produces is one line: either a clean slug or the prefix, a
      dash and the decimal digits of the clock. */
  lemma SlugOneLine(input: string, prefix: string, now: nat)
    requires OneLine(prefix)
    ensures OneLine(Slug.CreateSlug(input, prefix, now))
  {
    NormalizedOneLine(input);
    FallbackOneLine(prefix, now);
  }

  lemma NormalizedOneLine(input: string)
    ensures OneLine(Slug.ContentNormalize(input))
  {
    CleanOneLine(Slug.ContentNormalize(input));
  }

  lemma CleanOneLine(c: string)
    requires Slug.Clean(c, IsSlugChar)
    ensures OneLine(c)
  {
    AllOneLine(c, IsSlugChar);
  }

  lemma FallbackOneLine(prefix: string, now: nat)
    requires OneLine(prefix)
    ensures OneLine(prefix + "-" + NatToString(now))
  {
    AllOneLine(NatToString(now), IsDigit);
  }

  lemma SingularOneLine(kind: Kind)
    ensures OneLine(Singular(kind))
  {
    match kind
    case Articles =>
    case Laws =>
  }

  /** A string drawn from an alphabet without the line break is one line. */
  lemma AllOneLine(s: string, ok: char -> bool)
    requires All(s, ok) && !ok('\n')
    ensures OneLine(s)
  {
  }

  /** The written file reads back as its frontmatter and its clean body, and its first
      frontmatter line names the slug the file is written under. */
  lemma WrittenFileReadsBack(kind: Kind, p: Payload, env: Env, cwd: string, now: nat, today: string)
    requires OneLineFields(p, today)
    ensures var w := WriteContentFile(kind, p, env, cwd, now, today);
      ReadDocument(w.text) == Some((FrontOf(p, w.slug, today), SafeBody(p.content) + "\n"))
      && ReadField(FrontOf(p, w.slug, today)[0], "slug") == Some(w.slug)
  {
    var w := WriteContentFile(kind, p, env, cwd, now, today);
    SingularOneLine(kind);
    SlugOneLine(p.slug.GetOr(p.title), Singular(kind), now);
    FileReadsBack(p, w.slug, today);
    SlugLineReadBack(p, w.slug, today);
  }
}

=== FILE: fetch_standard.dfy ===
/** `POST /api/admin/fetch-standard` (`src/app/api/admin/fetch-standard/route.ts`): an
    administrator names a standard, the route optionally downloads its PDF from a supplied
    address, and writes a law page for it. The session, the parsed body, the token, the
    date, and what the download and the two uploads return are parameters. */
module FetchStandard {
  import opened Common
  import opened Text
  import opened Json
  import opened Slug
  import opened Frontmatter
  import opened Pdf
  import opened AdminSession

  /** The fixed category and author of a standard page. */
  const StandardCategory: string := "标准规范"
  const Author: string := "徐广军"

  /** The tag written when the tag list is empty. */
  const DefaultTag: string := "职业卫生标准"

  /** The closing note of the page body. */
  const DownloadNote: string := "> 本标准全文可通过上方 PDF 预览查看，或点击\"下载 PDF\"按钮获取完整文件。"

  /** The attachments block: one PDF named after the slug, or the empty list. */
  function AttachmentLines(slug: string, pdfUrl: Option<string>): (ls: seq<string>)
    ensures pdfUrl.None? ==> ls == ["attachments: []"]
    ensures pdfUrl.Some? ==>
      && |ls| == 4 && ls[0] == "attachments:"
      && ls[1] == RawField("  - name", slug + ".pdf") && ls[2] == RawField("    url", pdfUrl.value)
  {
    match pdfUrl
    case None => ["attachments: []"]
    case Some(url) => ["attachments:", RawField("  - name", slug + ".pdf"), RawField("    url", url), "    type: \"pdf\""]
  }

  /** One `  - "tag"` line per tag, or the default tag when there is none. */
  function TagLines(tags: seq<string>): (ls: seq<string>)
    ensures |tags| == 0 ==> ls == ["  - \"" + DefaultTag + "\""]
    ensures |tags| > 0 ==> |ls| == |tags| && forall i :: 0 <= i < |tags| ==> ls[i] == "  - \"" + tags[i] + "\""
  {
    if |tags| == 0 then ["  - \"" + DefaultTag + "\""]
    else seq(|tags|, i requires 0 <= i < |tags| => "  - \"" + tags[i] + "\"")
  }

  /** The frontmatter lines of a standard page. Title, summary and number are written
      between quotes without escaping. */
  function StandardFront(slug: string, title: string, stdNumber: string, pdfUrl: Option<string>,
                         summary: string, tags: seq<string>, date: string): seq<string> {
    [RawField("slug", slug), RawField("title", title), RawField("summary", summary), RawField("date", date),
     RawField("category", StandardCategory), RawField("author", Author), RawField("source", stdNumber), "tags:"]
      + TagLines(tags) + AttachmentLines(slug, pdfUrl)
  }

  /** The body: a heading with the title, the number, the summary and the note. */
  function StandardBody(title: string, stdNumber: string, summary: string): string {
    "## " + title + "\n\n标准编号：" + stdNumber + "\n\n" + summary + "\n\n" + DownloadNote
  }

  /** `generateStandardMdx`: the template's text is the frontmatter document over these
      lines and this body. */
  function GenerateStandardMdx(slug: string, title: string, stdNumber: string, pdfUrl: Option<string>,
                               summary: string, tags: seq<string>, date: string): string {
    Document(StandardFront(slug, title, stdNumber, pdfUrl, summary, tags, date), StandardBody(title, stdNumber, summary))
  }

  /** The values of a page fit the format: one line each, and no quote or backslash in
      the values written between quotes. */
  predicate Plain(s: string) {
    '\n' !in s && '"' !in s && '\\' !in s
  }

  /** Plain values give frontmatter lines throughout. */
  lemma StandardFrontLines(slug: string, title: string, stdNumber: string, pdfUrl: Option<string>,
                           summary: string, tags: seq<string>, date: string)
    requires Plain(slug) && Plain(title) && Plain(stdNumber) && Plain(summary) && Plain(date)
    requires pdfUrl.Some? ==> Plain(pdfUrl.value)
    requires forall i :: 0 <= i < |tags| ==> Plain(tags[i])
    ensures FrontLines(StandardFront(slug, title, stdNumber, pdfUrl, summary, tags, date))
  {
    var head := [RawField("slug", slug), RawField("title", title), RawField("summary", summary), RawField("date", date),
     RawField("category", StandardCategory), RawField("author", Author), RawField("source", stdNumber), "tags:"];
    var t := TagLines(tags);
    var a := AttachmentLines(slug, pdfUrl);
    assert FrontLines(head);
    assert FrontLines(t) by {
      forall i | 0 <= i < |t|
        ensures IsFrontLine(t[i])
      {
        if |tags| > 0 {
          assert t[i] == "  - \"" + tags[i] + "\"";
        }
      }
    }
    assert FrontLines(a);
    FrontLinesAppend(head, t);
    FrontLinesAppend(head + t, a);
  }

  /** Where the title and the number sit among the frontmatter lines. */
  lemma StandardFrontAt(slug: string, title: string, stdNumber: string, pdfUrl: Option<string>,
                        summary: string, tags: seq<string>, date: string)
    ensures var front := StandardFront(slug, title, stdNumber, pdfUrl, summary, tags, date);
      |front| > 8 && front[1] == RawField("title", title) && front[6] == RawField("source", stdNumber)
  {
  }

  /** The empty attachments line is there exactly when no PDF address was given. */
  lemma EmptyAttachmentsIffNoPdf(slug: string, title: string, stdNumber: string, pdfUrl: Option<string>,
                                 summary: string, tags: seq<string>, date: string)
    ensures "attachments: []" in StandardFront(slug, title, stdNumber, pdfUrl, summary, tags, date) <==> pdfUrl.None?
  {
    var head := [RawField("slug", slug), RawField("title", title), RawField("summary", summary), RawField("date", date),
     RawField("category", StandardCategory), RawField("author", Author), RawField("source", stdNumber), "tags:"];
    var t := TagLines(tags);
    var a := AttachmentLines(slug, pdfUrl);
    var front := head + t + a;
    assert StandardFront(slug, title, stdNumber, pdfUrl, summary, tags, date) == front;
    if pdfUrl.None? {
      assert front[|head + t|] == "attachments: []";
    } else {
      forall i | 0 <= i < |front|
        ensures front[i] != "attachments: []"
      {
        var line := front[i];
        if line != "tags:" && line != "attachments:" {
          if i < |head| {
            assert line == head[i];
            assert line[|line| - 1] == '"';
          } else if i < |head + t| {
            assert line == t[i - |head|];
            assert line[|line| - 1] == '"';
          } else {
            assert line == a[i - |head + t|];
            assert line[|line| - 1] == '"';
          }
        }
      }
    }
  }

  /** A page written with plain values reads back: its frontmatter lines, its title, its
      number, and an attachments block exactly when a PDF address was given. */
  lemma StandardMdxReadsBack(slug: string, title: string, stdNumber: string, pdfUrl: Option<string>,
                             summary: string, tags: seq<string>, date: string)
    requires Plain(slug) && Plain(title) && Plain(stdNumber) && Plain(summary) && Plain(date)
    requires pdfUrl.Some? ==> Plain(pdfUrl.value)
    requires forall i :: 0 <= i < |tags| ==> Plain(tags[i])
    ensures var doc := ReadDocument(GenerateStandardMdx(slug, title, stdNumber, pdfUrl, summary, tags, date));
      && doc.Some?
      && doc.value.0 == StandardFront(slug, title, stdNumber, pdfUrl, summary, tags, date)
      && ReadField(doc.value.0[1], "title") == Some(title)
      && ReadField(doc.value.0[6], "source") == Some(stdNumber)
      && ("attachments: []" in doc.value.0 <==> pdfUrl.None?)
  {
    var front := StandardFront(slug, title, stdNumber, pdfUrl, summary, tags, date);
    StandardFrontLines(slug, title, stdNumber, pdfUrl, summary, tags, date);
    DocumentRoundTrip(front, StandardBody(title, stdNumber, summary));
    StandardFrontAt(slug, title, stdNumber, pdfUrl, summary, tags, date);
    RawFieldPlain("title", title);
    RawFieldPlain("source", stdNumber);
    EmptyAttachmentsIffNoPdf(slug, title, stdNumber, pdfUrl, summary, tags, date);
  }

  /** The title goes in without escaping, so a title with a double quote breaks its line. */
  lemma QuotedTitleBreaks(slug: string, stdNumber: string, pdfUrl: Option<string>, summary: string, tags: seq<string>, date: string)
    ensures ReadField(StandardFront(slug, "a\"b", stdNumber, pdfUrl, summary, tags, date)[1], "title").None?
  {
    RawFieldQuoteBreaks("title");
  }

  /** `searchPdfUrl`: it assembles search addresses but never fetches them, and finds
      nothing. */
  function SearchPdfUrl(query: string): (r: Option<string>)
    ensures r.None?
  {
    None
  }

  /** A download is used when the answer is ok, longer than 100 bytes and starts with the
      PDF header. */
  predicate AcceptedPdf(f: Fetched) {
    f.Answered? && f.response.Ok() && |f.response.data| > 100 && HasMagic(f.response.data)
  }

  /** How a request ends. `Crash` is an exception outside the handler's checks, which the
      framework answers with 500. */
  datatype Outcome =
    | Forbidden
    | MissingNumber
    | NoToken
    | Crash
    | PageUploadFailed
    | Created(slug: string, pdfPath: Option<string>, mdxPath: string, mdx: string, message: string)
  {
    function Status(): nat {
      match this
      case Forbidden => 403
      case MissingNumber => 400
      case NoToken => 500
      case Crash => 500
      case PageUploadFailed => 500
      case Created(_, _, _, _, _) => 200
    }
  }

  /** `tags || ["职业卫生标准", "GBZ"]` and the tag lines drawn from it: `None` where the
      template throws (`tags.map` on a value with a positive `length` that is no array). */
  function TagTexts(v: Option<Json>): (r: Option<seq<string>>)
    ensures !Truthy(v) ==> r == Some([DefaultTag, "GBZ"])
    ensures Truthy(v) && v.value.JArr? ==> r == Some(ToJsStrings(v.value.items))
  {
    if !Truthy(v) then Some([DefaultTag, "GBZ"])
    else match v.value
      case JArr(items) => Some(ToJsStrings(items))
      case JStr(_) => None
      case JObj(_) => if LengthPositive(Get(v.value, "length")) then None else Some([])
      case _ => Some([])
  }

  /** An object whose `length` is a string holding a positive number passes the length
      test, and `map` is then missing: `tags: {"length": "1"}` makes the request fail,
      while `{"length": "0"}` lists no tag. */
  lemma StringLengthTags(n: nat)
    ensures var tags := Some(JObj(map["length" := JStr(NatToString(n))]));
      n > 0 <==> TagTexts(tags).None?
  {
    NatStringPositive(n);
  }

  /** The success message. */
  function Message(stdNumber: string, pdf: bool): string {
    if pdf then "标准 " + stdNumber + " 已创建，PDF 已上传" else "标准 " + stdNumber + " 已创建（无PDF，可稍后上传）"
  }

  /** The handler. `body` is the parsed body (`None` when it is not JSON); `pdf` is what
      fetching the supplied address gave; `pdfUploaded` and `mdxUploaded` are what the two
      uploads returned. */
  function Post(session: Session, body: Option<Json>, token: Option<string>, today: string,
                pdf: Fetched, pdfUploaded: bool, mdxUploaded: bool): (o: Outcome)
    ensures !IsAdmin(session) <==> o.Forbidden?
    ensures o.MissingNumber? <==> IsAdmin(session) && body.Some? && body.value != JNull && !Truthy(Get(body.value, "standardNumber"))
    ensures o.NoToken? <==>
      && IsAdmin(session) && body.Some? && body.value != JNull && Truthy(Get(body.value, "standardNumber"))
      && (token.None? || token.value == "")
    ensures o.Crash? <==>
      && IsAdmin(session)
      && (|| body.None? || body.value == JNull
          || (&& Truthy(Get(body.value, "standardNumber")) && token.Some? && token.value != ""
              && (AsString(Get(body.value, "standardNumber")).None? || TagTexts(Get(body.value, "tags")).None?)))
    ensures o.PageUploadFailed? ==> !mdxUploaded
    ensures o.Created? ==> mdxUploaded && body.Some? && AsString(Get(body.value, "standardNumber")).Some?
    ensures o.Created? && body.Some? && AsString(Get(body.value, "standardNumber")).Some? ==>
      var n := AsString(Get(body.value, "standardNumber")).value;
      && token.Some? && token.value != ""
      && o.slug == StandardSlug(n)
      && o.mdxPath == "content/laws/" + o.slug + ".mdx"
      && (o.pdfPath.Some? <==> Truthy(Get(body.value, "pdfUrl")) && AcceptedPdf(pdf) && pdfUploaded)
      && (o.pdfPath.Some? ==> o.pdfPath.value == "/uploads/" + o.slug + ".pdf")
      && o.message == Message(n, o.pdfPath.Some?)
      && TagTexts(Get(body.value, "tags")).Some?
      && o.mdx == GenerateStandardMdx(o.slug, TextField(Get(body.value, "title")).GetOr(n), n, o.pdfPath,
                                      TextField(Get(body.value, "summary")).GetOr(n + " 职业卫生标准全文"),
                                      TagTexts(Get(body.value, "tags")).value, today)
  {
    if !IsAdmin(session) then Forbidden
    else if body.None? || body.value == JNull then Crash
    else
      var b := body.value;
      if !Truthy(Get(b, "standardNumber")) then MissingNumber
      else if token.None? || token.value == "" then NoToken
      else if AsString(Get(b, "standardNumber")).None? then Crash
      else
        var n := AsString(Get(b, "standardNumber")).value;
        var slug := StandardSlug(n);
        var title := TextField(Get(b, "title")).GetOr(n);
        var summary := TextField(Get(b, "summary")).GetOr(n + " 职业卫生标准全文");
        var external := Truthy(Get(b, "pdfUrl"));
        var pdfPath: Option<string> :=
          if external && AcceptedPdf(pdf) && pdfUploaded then Some("/uploads/" + slug + ".pdf")
          else None;
        match TagTexts(Get(b, "tags"))
        case None => Crash
        case Some(tags) =>
          if !mdxUploaded then PageUploadFailed
          else Created(slug, pdfPath, "content/laws/" + slug + ".mdx",
                       GenerateStandardMdx(slug, title, n, pdfPath, summary, tags, today), Message(n, pdfPath.Some?))
  }

  /** A PDF can only come from an address the request supplies: without one the page is
      written without attachment, whatever a download would have returned. */
  lemma PdfOnlyFromSuppliedUrl(session: Session, b: Json, token: Option<string>, today: string,
                               pdf: Fetched, pdfUploaded: bool, mdxUploaded: bool)
    requires !Truthy(Get(b, "pdfUrl"))
    ensures var o := Post(session, Some(b), token, today, pdf, pdfUploaded, mdxUploaded);
      o.Created? ==> o.pdfPath.None?
  {
  }

  /** The checks run in order: the role before the body, the number before the token. */
  lemma DecisionOrder(session: Session, body: Option<Json>, token: Option<string>, today: string,
                      pdf: Fetched, pdfUploaded: bool, mdxUploaded: bool)
    ensures !IsAdmin(session) ==> Post(session, body, token, today, pdf, pdfUploaded, mdxUploaded).Status() == 403
    ensures IsAdmin(session) && body.Some? && body.value != JNull && !Truthy(Get(body.value, "standardNumber")) ==>
      Post(session, body, None, today, pdf, pdfUploaded, mdxUploaded).Status() == 400
    ensures IsAdmin(session) && body.Some? && Truthy(Get(body.value, "standardNumber")) ==>
      Post(session, body, None, today, pdf, pdfUploaded, mdxUploaded) == NoToken
  {
  }

  /** Without title, summary, tags and PDF address, the page uses the number as its title,
      a summary naming the number, the two default tags, and no attachment. */
  lemma Defaults(b: Json, n: string, token: string, today: string, pdf: Fetched, pdfUploaded: bool)
    requires Get(b, "standardNumber") == Some(JStr(n)) && n != "" && token != ""
    requires !Truthy(Get(b, "title")) && !Truthy(Get(b, "summary"))
    requires !Truthy(Get(b, "tags")) && !Truthy(Get(b, "pdfUrl"))
    ensures var o := Post(Signed(Some("admin")), Some(b), Some(token), today, pdf, pdfUploaded, true);
      && o.Created? && o.pdfPath.None?
      && o.mdx == GenerateStandardMdx(StandardSlug(n), n, n, None, n + " 职业卫生标准全文", [DefaultTag, "GBZ"], today)
  {
    assert Truthy(Get(b, "standardNumber"));
    assert AsString(Get(b, "standardNumber")) == Some(n);
    assert TextField(Get(b, "title")).None?;
    assert TextField(Get(b, "summary")).None?;
    assert TagTexts(Get(b, "tags")) == Some([DefaultTag, "GBZ"]);
  }

  /** A supplied file is refused when it is too small or lacks the header, even with an
      ok answer. */
  lemma SmallOrHeaderlessRefused(r: Response)
    requires r.Ok() && (|r.data| <= 100 || !HasMagic(r.data))
    ensures !AcceptedPdf(Answered(r))
  {
  }
}

=== FILE: frontmatter.dfy ===
/** Markdown documents with a YAML frontmatter block, as every content writer of the site
    produces them: a `---` line, the frontmatter lines, a `---` line, an empty line, the
    body and a final line break. The reader splits at line breaks, takes the lines up to
    the next `---` as frontmatter and the rest of the text as the body. */
module Frontmatter {
  import opened Common
  import opened Text
  import opened Yaml

  /** A frontmatter line: one line, and not the closing delimiter. */
  predicate IsFrontLine(l: string) {
    '\n' !in l && l != "---"
  }

  predicate FrontLines(ls: seq<string>) {
    forall i :: 0 <= i < |ls| ==> IsFrontLine(ls[i])
  }

  lemma FrontLinesAppend(a: seq<string>, b: seq<string>)
    ensures FrontLines(a) && FrontLines(b) ==> FrontLines(a + b)
  {
    if FrontLines(a) && FrontLines(b) {
      forall i | 0 <= i < |a + b|
        ensures IsFrontLine((a + b)[i])
      {
        if i >= |a| {
          assert (a + b)[i] == b[i - |a|];
        }
      }
    }
  }

  /** A value that fits on one line. */
  predicate OneLine(s: string) {
    '\n' !in s
  }

  predicate NotNewline(c: char) { c != '\n' }

  /** A slice of a one-line string is one line. */
  lemma SliceOneLine(s: string, a: int, b: int)
    requires 0 <= a <= b <= |s|
    ensures OneLine(s) ==> OneLine(s[a..b])
  {
    if OneLine(s) {
      assert All(s, NotNewline);
      SliceKeeps(s, a, b, NotNewline);
    }
  }

  /** Trimming a one-line string leaves one line. */
  lemma TrimOneLine(s: string)
    ensures OneLine(s) ==> OneLine(Trim(s))
  {
    var k := LeadingSpaces(s);
    SliceOneLine(s, k, k + |Trim(s)|);
  }

  /** `value || fallback` for an optional string: the empty string is falsy. */
  function Or(v: Option<string>, fallback: string): (r: string)
    ensures r == fallback || (v.Some? && r == v.value)
    ensures v.Some? && v.value != "" ==> r == v.value
  {
    if v.Some? && v.value != "" then v.value else fallback
  }

  /** The frontmatter keys the writers use are one-line words. */
  lemma KeysOneLine()
    ensures OneLine("title") && OneLine("summary") && OneLine("category") && OneLine("author")
    ensures OneLine("slug") && OneLine("source") && OneLine("date")
  {
  }

  /** A quoted value after a head of two or more characters is a frontmatter line when
      both fit on one line. */
  lemma QuotedFront(head: string, value: string)
    requires |head| >= 2
    ensures OneLine(head) && OneLine(value) ==> IsFrontLine(Quoted(head, value))
  {
  }

  /** `key: "value"` as a frontmatter line. */
  function Field(key: string, value: string): (r: string)
    ensures '\n' !in key && OneLine(value) ==> IsFrontLine(r)
  {
    Quoted(key + ": ", value)
  }

  /** The value of a `key: "…"` line. */
  function ReadField(line: string, key: string): Option<string> {
    ReadQuoted(line, key + ": ")
  }

  /** A field line reads back as its value. */
  lemma FieldRoundTrip(key: string, value: string)
    ensures ReadField(Field(key, value), key) == Some(value)
  {
    QuotedRoundTrip(key + ": ", value);
  }

  /** `key: "raw"`: a value put between the quotes as it is, without escaping. */
  function RawField(key: string, raw: string): string {
    key + ": \"" + raw + "\""
  }

  /** A value with no quote and no backslash needs no escaping, so the unescaped line is
      the escaped one and reads back as the value. */
  lemma RawFieldPlain(key: string, raw: string)
    requires '"' !in raw && '\\' !in raw
    ensures RawField(key, raw) == Field(key, raw)
    ensures ReadField(RawField(key, raw), key) == Some(raw)
  {
    FieldRoundTrip(key, raw);
  }

  /** A double quote inside an unescaped value ends the scalar early: the line no longer
      reads back. */
  lemma RawFieldQuoteBreaks(key: string)
    ensures ReadField(RawField(key, "a\"b"), key).None?
  {
    var line := RawField(key, "a\"b");
    var open := key + ": \"";
    assert line == open + "a\"b\"";
    assert line[|open|..|line| - 1] == "a\"b";
    assert Unescape("a\"b") == None;
  }

  /** The block-sequence entries `  - "tag"`, one per tag. */
  function ListItems(xs: seq<string>): (ls: seq<string>)
    ensures |ls| == |xs|
    ensures forall i :: 0 <= i < |xs| ==> ls[i] == Quoted("  - ", xs[i])
    ensures (forall i :: 0 <= i < |xs| ==> OneLine(xs[i])) ==> FrontLines(ls)
  {
    seq(|xs|, i requires 0 <= i < |xs| => Quoted("  - ", xs[i]))
  }

  /** The whole document. */
  function Document(front: seq<string>, body: string): string {
    Join(["---"] + front + ["---", ""], "\n") + "\n" + (body + "\n")
  }

  /** The first index at or after `from` where `xs` holds `x`. */
  function FindFrom(xs: seq<string>, from: nat, x: string): (r: Option<nat>)
    ensures r.Some? ==> from <= r.value < |xs| && xs[r.value] == x
    ensures r.Some? ==> forall k :: from <= k < r.value ==> xs[k] != x
    ensures r.None? ==> forall k :: from <= k < |xs| ==> xs[k] != x
    decreases |xs| - from
  {
    if from >= |xs| then None
    else if xs[from] == x then Some(from)
    else FindFrom(xs, from + 1, x)
  }

  /** The reader: `None` when the text does not open with a `---` line or the block is
      never closed; otherwise the frontmatter lines and the text after the closing line. */
  function ReadDocument(doc: string): Option<(seq<string>, string)> {
    var lines := Split(doc, '\n');
    if lines[0] != "---" then None
    else match FindFrom(lines, 1, "---")
      case None => None
      case Some(j) => Some((lines[1..j], Join(lines[j + 1..], "\n")))
  }

  /** Reading a written document gives back its frontmatter lines, and its body after
      the empty separator line. */
  lemma DocumentRoundTrip(front: seq<string>, body: string)
    requires FrontLines(front)
    ensures ReadDocument(Document(front, body)) == Some((front, "\n" + body + "\n"))
  {
    var lines := Split(Document(front, body), '\n');
    var rest := Split(body + "\n", '\n');
    var tail := ["---", ""] + rest;
    DocumentLines(front, body);
    Parts3(["---"], front, tail);
    var j := |front| + 1;
    assert lines[0] == lines[..1][0] == "---";
    assert lines[j..] == tail;
    assert lines[j] == tail[0] == "---";
    DelimiterFound(front, lines);
    assert lines[j + 1..] == tail[1..] == [""] + rest;
    JoinAfterEmpty(rest);
    JoinSplit(body + "\n", '\n');
    assert Join(lines[j + 1..], "\n") == "\n" + (body + "\n") == "\n" + body + "\n";
  }

  lemma JoinAfterEmpty(rest: seq<string>)
    requires |rest| >= 1
    ensures Join([""] + rest, "\n") == "\n" + Join(rest, "\n")
  {
    assert ([""] + rest)[1..] == rest;
  }

  /** The lines of a document: the delimiters, the frontmatter, the empty line and the
      lines of the body. */
  lemma DocumentLines(front: seq<string>, body: string)
    requires FrontLines(front)
    ensures Split(Document(front, body), '\n') == ["---"] + front + (["---", ""] + Split(body + "\n", '\n'))
  {
    var head := ["---"] + front + ["---", ""];
    forall i | 0 <= i < |head|
      ensures '\n' !in head[i]
    {
      if 1 <= i <= |front| {
        assert head[i] == front[i - 1];
      }
    }
    SplitJoinThen(head, body + "\n");
  }

  /** The first `---` after the opening one closes the frontmatter. */
  lemma DelimiterFound(front: seq<string>, lines: seq<string>)
    requires FrontLines(front)
    requires |lines| > |front| + 1 && lines[1..|front| + 1] == front && lines[|front| + 1] == "---"
    ensures FindFrom(lines, 1, "---") == Some(|front| + 1)
  {
    var j := |front| + 1;
    forall k | 1 <= k < j
      ensures lines[k] != "---"
    {
      assert lines[k] == lines[1..j][k - 1] == front[k - 1];
    }
  }

  /** `DocumentRoundTrip` for callers that cannot branch: it holds whenever the lines are
      frontmatter lines. */
  lemma DocumentReadsBack(front: seq<string>, body: string)
    ensures FrontLines(front) ==> ReadDocument(Document(front, body)) == Some((front, "\n" + body + "\n"))
  {
    if FrontLines(front) {
      DocumentRoundTrip(front, body);
    }
  }

  /** Joining one-line pieces and then a line break and more text, and splitting again,
      gives the pieces and then the lines of the text. */
  lemma {:induction false} SplitJoinThen(parts: seq<string>, b: string)
    requires |parts| >= 1
    requires forall i :: 0 <= i < |parts| ==> '\n' !in parts[i]
    ensures Split(Join(parts, "\n") + "\n" + b, '\n') == parts + Split(b, '\n')
  {
    if |parts| == 1 {
      SplitAppendSep(parts[0], b, '\n');
    } else {
      var tail := parts[1..];
      SplitJoinThen(tail, b);
      var rest := Join(tail, "\n") + "\n" + b;
      assert Join(parts, "\n") == parts[0] + "\n" + Join(tail, "\n");
      assert Join(parts, "\n") + "\n" + b == parts[0] + "\n" + rest;
      SplitAppendSep(parts[0], rest, '\n');
      assert parts == [parts[0]] + tail;
    }
  }

  /** A document whose body follows the closing `---` line directly, with no empty line
      in between. */
  function BareDocument(front: seq<string>, rest: string): string {
    Join(["---"] + front + ["---"], "\n") + "\n" + rest
  }

  /** Reading a bare document gives back its frontmatter lines and exactly the text after
      the closing line. */
  lemma BareDocumentRoundTrip(front: seq<string>, rest: string)
    requires FrontLines(front)
    ensures ReadDocument(BareDocument(front, rest)) == Some((front, rest))
  {
    var head := ["---"] + front + ["---"];
    forall i | 0 <= i < |head|
      ensures '\n' !in head[i]
    {
      if 1 <= i <= |front| {
        assert head[i] == front[i - 1];
      }
    }
    SplitJoinThen(head, rest);
    var lines := Split(BareDocument(front, rest), '\n');
    assert lines == head + Split(rest, '\n');
    var j := |front| + 1;
    assert lines[0] == "---";
    assert lines[1..j] == front;
    assert lines[j] == "---";
    DelimiterFound(front, lines);
    assert lines[j + 1..] == Split(rest, '\n');
    JoinSplit(rest, '\n');
  }

  /** Joining with a final empty piece ends the text with the separator. */
  lemma {:induction false} JoinEmptyLast(parts: seq<string>, sep: string)
    requires |parts| >= 1
    ensures Join(parts + [""], sep) == Join(parts, sep) + sep
  {
    if |parts| > 1 {
      JoinEmptyLast(parts[1..], sep);
      assert (parts + [""])[1..] == parts[1..] + [""];
    }
  }

  /** Frontmatter lines joined with a final empty line, then text: the bare document of
      that text. */
  lemma JoinedFrontmatter(front: seq<string>, rest: string)
    ensures Join(["---"] + front + ["---", ""], "\n") + rest == BareDocument(front, rest)
  {
    JoinEmptyLast(["---"] + front + ["---"], "\n");
    assert ["---"] + front + ["---", ""] == ["---"] + front + ["---"] + [""];
  }
}

=== FILE: gbz.dfy ===
/** The built-in table of occupational health surveillance items (`src/data/gbz188.ts`):
    hazard factors, the five categories they fall into, and what the table guarantees
    about itself. */
module Gbz {
  import opened Common

  /** The closed union of category labels of a hazard record. */
  datatype Category = Chemical | Dust | Physical | Biological | SpecialWork {
    /** The label the site shows and stores. */
    function Name(): string {
      match this
      case Chemical => "化学因素"
      case Dust => "粉尘"
      case Physical => "物理因素"
      case Biological => "生物因素"
      case SpecialWork => "特殊作业"
    }
  }

  /** `gbzCategories`, in the order the table lists them. */
  const GbzCategories: seq<string> := ["化学因素", "粉尘", "物理因素", "生物因素", "特殊作业"]

  /** The category a stored label denotes, if it is one of the five. */
  function ParseCategory(s: string): (r: Option<Category>)
    ensures r.Some? ==> r.value.Name() == s
    ensures r.Some? <==> s in GbzCategories
  {
    if s == "化学因素" then Some(Chemical)
    else if s == "粉尘" then Some(Dust)
    else if s == "物理因素" then Some(Physical)
    else if s == "生物因素" then Some(Biological)
    else if s == "特殊作业" then Some(SpecialWork)
    else None
  }

  /** The label list has exactly five distinct entries, and they are the labels of the five
      categories: every category's label is listed, and every listed label names one. */
  lemma CategoriesExact()
    ensures |GbzCategories| == 5 && Distinct(GbzCategories)
    ensures forall c: Category :: c.Name() in GbzCategories
    ensures forall i :: 0 <= i < |GbzCategories| ==> ParseCategory(GbzCategories[i]).Some?
  {
  }

  /** A label read back gives the category it was written from. */
  lemma ParseName(c: Category)
    ensures ParseCategory(c.Name()) == Some(c)
  {
  }

  /** One hazard factor: its code in the standard, the checks made, how often, the
      conditions that bar the work, and the diseases watched for. */
  datatype Hazard = Hazard(
    code: string,
    name: string,
    category: Category,
    checks: seq<string>,
    cycle: string,
    contraindications: seq<string>,
    targetDiseases: seq<string>)

  const Annual: string := "在岗期间每12个月1次"

  /** `gbzHazards`: the table shipped with the site. */
  const BuiltIn: seq<Hazard> := [
    Hazard("5.19", "苯", Chemical, ["血常规", "肝功能", "症状询问", "职业史评估"], Annual,
           ["造血系统疾病", "白细胞持续降低"], ["慢性苯中毒", "血液系统异常"]),
    Hazard("5.35", "甲醛", Chemical, ["眼鼻咽喉检查", "肺功能", "症状询问"], Annual,
           ["活动性哮喘", "严重慢性呼吸系统疾病"], ["刺激性呼吸道损伤", "职业性哮喘"]),
    Hazard("6.1", "矽尘", Dust, ["胸部X线", "肺功能", "职业史与工种暴露史"], "在岗期间每12-24个月1次",
           ["活动性肺结核", "严重肺功能损伤"], ["尘肺病", "肺功能减退"]),
    Hazard("6.3", "石棉粉尘", Dust, ["胸部影像", "肺功能", "职业暴露史"], Annual,
           ["间质性肺疾病", "严重呼吸功能障碍"], ["石棉肺", "胸膜病变"]),
    Hazard("7.1", "噪声", Physical, ["纯音测听", "耳科检查", "血压"], Annual,
           ["双耳平均听阈≥40dB", "器质性耳病"], ["职业性噪声聋", "听力下降"]),
    Hazard("7.3", "高温", Physical, ["血压", "血糖", "心电图", "体格检查"], Annual,
           ["未控制高血压", "未控制糖尿病", "癫痫"], ["中暑", "热痉挛", "热衰竭"]),
    Hazard("7.2", "手传振动", Physical, ["末梢循环测试", "神经系统查体", "手部功能评估"], Annual,
           ["外周神经病变", "严重雷诺现象"], ["手臂振动病"]),
    Hazard("8.1", "布鲁氏菌属", Biological, ["血清学检测", "症状询问", "体格检查"], Annual,
           ["免疫缺陷状态", "慢性活动性感染"], ["职业性布鲁氏菌病"]),
    Hazard("9.1", "电工作业", SpecialWork, ["心电图", "血压", "视力/色觉", "神经系统检查"], Annual,
           ["癫痫", "未控制2级及以上高血压", "红绿色盲"], ["作业相关电气伤害风险"]),
    Hazard("9.2", "高处作业", SpecialWork, ["血压", "平衡功能", "心电图", "神经系统评估"], Annual,
           ["恐高症", "癫痫", "未控制高血压"], ["高处坠落相关作业风险"])
  ]

  /** The codes of a list of hazards, in order. */
  function Codes(hs: seq<Hazard>): (cs: seq<string>)
    ensures |cs| == |hs| && forall i :: 0 <= i < |hs| ==> cs[i] == hs[i].code
  {
    seq(|hs|, i requires 0 <= i < |hs| => hs[i].code)
  }

  /** Some hazard of `hs` falls into category `c`. */
  predicate Covers(hs: seq<Hazard>, c: Category) {
    exists i :: 0 <= i < |hs| && hs[i].category == c
  }

  /** No two built-in records share a code. */
  lemma BuiltInCodesDistinct()
    ensures Distinct(Codes(BuiltIn))
  {
    var cs := Codes(BuiltIn);
    assert cs == ["5.19", "5.35", "6.1", "6.3", "7.1", "7.3", "7.2", "8.1", "9.1", "9.2"];
  }

  /** Every built-in record lists at least one check, one contraindication and one target
      disease. */
  lemma BuiltInListsNonEmpty()
    ensures forall i :: 0 <= i < |BuiltIn| ==>
      |BuiltIn[i].checks| > 0 && |BuiltIn[i].contraindications| > 0 && |BuiltIn[i].targetDiseases| > 0
  {
  }

  /** Each of the five categories has at least one built-in record. */
  lemma BuiltInCoversCategories()
    ensures forall c: Category :: Covers(BuiltIn, c)
  {
    forall c: Category
      ensures Covers(BuiltIn, c)
    {
      match c
      case Chemical => assert BuiltIn[0].category == c;
      case Dust => assert BuiltIn[2].category == c;
      case Physical => assert BuiltIn[4].category == c;
      case Biological => assert BuiltIn[7].category == c;
      case SpecialWork => assert BuiltIn[8].category == c;
    }
  }
}

=== FILE: gbz_explorer.dfy ===
/** The search box and category selector of the hazard explorer
    (`src/components/standards/gbz-explorer.tsx`): which hazard records stay listed. */
module GbzExplorer {
  import opened Common
  import opened Text
  import opened Gbz

  /** The selector value that disables the category filter. */
  const AllCategories: string := "全部"

  /** Some target disease contains the keyword. */
  predicate SomeDiseaseContains(diseases: seq<string>, keyword: string) {
    exists i :: 0 <= i < |diseases| && Contains(diseases[i], keyword)
  }

  /** The filter of one record: its category is the selected one (or all are selected), and
      the keyword is blank or occurs, as typed, in the name, the code or a target disease. */
  predicate Matches(h: Hazard, keyword: string, category: string) {
    && (category == AllCategories || h.category.Name() == category)
    && (Trim(keyword) == "" || Contains(h.name, keyword) || Contains(h.code, keyword)
        || SomeDiseaseContains(h.targetDiseases, keyword))
  }

  /** `filtered`: the records that pass, in their original order. */
  function Filtered(hazards: seq<Hazard>, keyword: string, category: string): (r: seq<Hazard>)
    ensures IsSubsequence(r, hazards)
    ensures forall h :: h in r <==> h in hazards && Matches(h, keyword, category)
    ensures forall h :: multiset(r)[h] == if Matches(h, keyword, category) then multiset(hazards)[h] else 0
  {
    FilterSubsequence(hazards, h => Matches(h, keyword, category));
    FilterMultiset(hazards, h => Matches(h, keyword, category));
    Filter(hazards, h => Matches(h, keyword, category))
  }

  /** With every category selected and a blank keyword, nothing is filtered out. */
  lemma AllAndBlankKeepsEverything(hazards: seq<Hazard>, keyword: string)
    requires Trim(keyword) == ""
    ensures Filtered(hazards, keyword, AllCategories) == hazards
  {
  }

  /** A selected category keeps exactly the records of that category (when the keyword is
      blank), by equality of labels. */
  lemma CategorySelects(hazards: seq<Hazard>, keyword: string, c: Category)
    requires Trim(keyword) == ""
    ensures forall h :: h in Filtered(hazards, keyword, c.Name()) <==> h in hazards && h.category == c
  {
    forall h | h in hazards && h.category.Name() == c.Name()
      ensures h.category == c
    {
      ParseName(h.category);
      ParseName(c);
    }
  }

  /** The keyword is matched raw: it is neither trimmed nor case-folded before the search,
      so a keyword with a trailing space finds nothing that lacks that space. */
  lemma KeywordIsRaw(h: Hazard)
    requires h.name == "苯" && h.code == "5.19" && h.targetDiseases == ["慢性苯中毒"]
    ensures !Matches(h, "苯 ", AllCategories)
    ensures Matches(h, "苯", AllCategories)
  {
    assert StartsAt(h.name, 0, "苯");
    MissingCharNotContained(h.name, "苯 ", ' ');
    MissingCharNotContained(h.code, "苯 ", ' ');
    MissingCharNotContained(h.targetDiseases[0], "苯 ", ' ');
    assert !SomeDiseaseContains(h.targetDiseases, "苯 ");
    assert Trim("苯 ") != "";
  }

  /** A string lacking a character of `sub` does not contain `sub`. */
  lemma MissingCharNotContained(s: string, sub: string, c: char)
    requires c in sub && c !in s
    ensures !Contains(s, sub)
  {
  }
}

=== FILE: hazard_merge.dfy ===
/** The merge both OpenClaw scripts apply to GBZ hazard records (`writeStandards` in
    `scripts/openclaw-push.mjs`, the `standards` branch of `scripts/openclaw-publish.mjs`):
    the records already on disk and then the incoming ones are set into a `Map` keyed by
    their `code`, and the map's values are written back. */
module HazardMerge {
  import opened Common
  import opened Json
  import JsMap

  /** A `Map` key for `h.code`: `undefined`, a primitive value (compared by value), or an
      object or array, which `Map` compares by identity; each parsed one is distinct, so
      it is keyed by the record's position. */
  datatype HazardKey = Undefined | Value(v: Json) | Ref(at: nat)

  function KeyOf(h: Json, at: nat): HazardKey {
    match Get(h, "code")
    case None => Undefined
    case Some(c) => if c.JArr? || c.JObj? then Ref(at) else Value(c)
  }

  /** The records of `hs` keyed by code; `from` is the position of the first one. */
  function Keyed(hs: seq<Json>, from: nat): (r: seq<(HazardKey, Json)>)
    ensures |r| == |hs|
    ensures forall i :: 0 <= i < |hs| ==> r[i] == (KeyOf(hs[i], from + i), hs[i])
  {
    seq(|hs|, i requires 0 <= i < |hs| => (KeyOf(hs[i], from + i), hs[i]))
  }

  /** The merge of `writeStandards`: the existing records, then the incoming ones, set into
      a `Map` by code. `None` when a record is `null` (reading its `code` throws). */
  function MergeHazards(existing: seq<Json>, incoming: seq<Json>): (r: Option<seq<Json>>)
    ensures r.None? <==> JNull in existing || JNull in incoming
    ensures r.Some? ==> 1 <= |r.value| || |existing| + |incoming| == 0
    ensures r.Some? ==> |r.value| <= |existing| + |incoming|
  {
    if JNull in existing || JNull in incoming then None
    else
      var pairs := Keyed(existing, 0) + Keyed(incoming, |existing|);
      JsMap.PutAllKeys(pairs);
      assert |pairs| > 0 ==> pairs[0].0 in JsMap.Keys(pairs);
      Some(JsMap.Values(JsMap.PutAll([], pairs)))
  }

  /** The merge keeps one record per code, in the order codes were first seen, and each
      code holds its last record, so an incoming record overrides an existing one. The
      reported total is the number of distinct codes. */
  lemma MergeHazardsSpec(existing: seq<Json>, incoming: seq<Json>)
    requires JNull !in existing && JNull !in incoming
    ensures var pairs := Keyed(existing, 0) + Keyed(incoming, |existing|);
      var m := JsMap.PutAll([], pairs);
      && Distinct(JsMap.Keys(m))
      && JsMap.Keys(m) == JsMap.Dedup(JsMap.Keys(pairs))
      && MergeHazards(existing, incoming) == Some(JsMap.Values(m))
      && |MergeHazards(existing, incoming).value| == |JsMap.Dedup(JsMap.Keys(pairs))|
      && (forall j :: 0 <= j < |pairs| ==> pairs[j].0 in JsMap.Keys(m))
      && (forall k :: JsMap.LastValue(Keyed(incoming, |existing|), k).Some? ==>
            JsMap.Get(m, k) == JsMap.LastValue(Keyed(incoming, |existing|), k))
      && (forall k :: JsMap.LastValue(Keyed(incoming, |existing|), k).None? ==>
            JsMap.Get(m, k) == JsMap.LastValue(Keyed(existing, 0), k))
  {
    var pairs := Keyed(existing, 0) + Keyed(incoming, |existing|);
    JsMap.PutAllFromEmpty(pairs);
    JsMap.PutAllKeys(pairs);
    forall k
      ensures JsMap.LastValue(pairs, k) ==
        if JsMap.LastValue(Keyed(incoming, |existing|), k).Some? then JsMap.LastValue(Keyed(incoming, |existing|), k)
        else JsMap.LastValue(Keyed(existing, 0), k)
    {
      JsMap.LastValueAppend(Keyed(existing, 0), Keyed(incoming, |existing|), k);
    }
  }

  /** The hazard records already on disk: the `hazards` array of the parsed file, or none
      when the file is missing, is not JSON, or has no such array. */
  function ExistingHazards(file: Option<Json>): seq<Json> {
    if file.Some? then AsArray(Get(file.value, "hazards")).GetOr([]) else []
  }

}

=== FILE: jsmap.dfy ===
/** JavaScript's `Map` and `Set` as the source uses them: `set` on a present key replaces
    its value in place, a new key goes to the end, and iteration follows first insertion.
    A map is a sequence of key/value pairs; `Array.from(new Set(xs))` is `Dedup(xs)`. */
module JsMap {
  import opened Common

  /** The keys of a map, in iteration order. */
  function Keys<K, V>(m: seq<(K, V)>): (ks: seq<K>)
    ensures |ks| == |m|
    ensures forall i :: 0 <= i < |m| ==> ks[i] == m[i].0
  {
    seq(|m|, i requires 0 <= i < |m| => m[i].0)
  }

  /** The values of a map, in iteration order (`Array.from(map.values())`). */
  function Values<K, V>(m: seq<(K, V)>): (vs: seq<V>)
    ensures |vs| == |m|
    ensures forall i :: 0 <= i < |m| ==> vs[i] == m[i].1
  {
    seq(|m|, i requires 0 <= i < |m| => m[i].1)
  }

  /** `map.get(k)`. */
  function Get<K(==,!new), V>(m: seq<(K, V)>, k: K): (r: Option<V>)
    ensures r.None? <==> k !in Keys(m)
    ensures r.Some? ==> (k, r.value) in m
  {
    if |m| == 0 then None
    else if m[0].0 == k then Some(m[0].1)
    else
      var r := Get(m[1..], k);
      assert Keys(m) == [m[0].0] + Keys(m[1..]);
      assert m == [m[0]] + m[1..];
      r
  }

  /** Where key `k` sits in `m`. */
  function KeyIndex<K(==,!new), V>(m: seq<(K, V)>, k: K): (i: nat)
    requires k in Keys(m)
    ensures i < |m| && m[i].0 == k
  {
    if m[0].0 == k then 0
    else
      assert Keys(m) == [m[0].0] + Keys(m[1..]);
      1 + KeyIndex(m[1..], k)
  }

  /** `map.set(k, v)`. */
  function Put<K(==,!new), V>(m: seq<(K, V)>, k: K, v: V): (r: seq<(K, V)>)
    ensures Keys(r) == if k in Keys(m) then Keys(m) else Keys(m) + [k]
    ensures Distinct(Keys(m)) ==> Distinct(Keys(r))
    ensures Distinct(Keys(m)) ==> Get(r, k) == Some(v)
    ensures Distinct(Keys(m)) ==> forall j :: j != k ==> Get(r, j) == Get(m, j)
  {
    if k in Keys(m) then
      var i := KeyIndex(m, k);
      var r := m[i := (k, v)];
      assert Keys(r) == Keys(m);
      PutAt(m, i, k, v);
      r
    else
      var r := m + [(k, v)];
      assert Keys(r) == Keys(m) + [k];
      PutEnd(m, k, v);
      r
  }

  lemma PutAt<K(!new), V>(m: seq<(K, V)>, i: nat, k: K, v: V)
    requires i < |m| && m[i].0 == k
    ensures Distinct(Keys(m)) ==> Get(m[i := (k, v)], k) == Some(v)
    ensures Distinct(Keys(m)) ==> forall j :: j != k ==> Get(m[i := (k, v)], j) == Get(m, j)
  {
    if Distinct(Keys(m)) {
      var r := m[i := (k, v)];
      assert Keys(r) == Keys(m);
      forall j | j != k
        ensures Get(r, j) == Get(m, j)
      {
        GetUnique(r, j);
        GetUnique(m, j);
      }
      GetUnique(r, k);
    }
  }

  lemma PutEnd<K(!new), V>(m: seq<(K, V)>, k: K, v: V)
    requires k !in Keys(m)
    ensures Distinct(Keys(m)) ==> Distinct(Keys(m + [(k, v)]))
    ensures Distinct(Keys(m)) ==> Get(m + [(k, v)], k) == Some(v)
    ensures Distinct(Keys(m)) ==> forall j :: j != k ==> Get(m + [(k, v)], j) == Get(m, j)
  {
    var r := m + [(k, v)];
    assert Keys(r) == Keys(m) + [k];
    if Distinct(Keys(m)) {
      forall j | j != k
        ensures Get(r, j) == Get(m, j)
      {
        GetUnique(r, j);
        GetUnique(m, j);
      }
      GetUnique(r, k);
    }
  }

  /** With distinct keys, `Get` finds the one pair holding the key. */
  lemma {:induction false} GetAt<K(!new), V>(m: seq<(K, V)>, k: K, i: nat)
    requires Distinct(Keys(m)) && i < |m| && m[i].0 == k
    ensures Get(m, k) == Some(m[i].1)
    decreases |m|
  {
    assert Keys(m)[0] == m[0].0 && Keys(m)[i] == k;
    if m[0].0 != k {
      assert Keys(m[1..]) == Keys(m)[1..];
      GetAt(m[1..], k, i - 1);
    }
  }

  lemma GetUnique<K(!new), V>(m: seq<(K, V)>, k: K)
    requires Distinct(Keys(m))
    ensures forall i :: 0 <= i < |m| && m[i].0 == k ==> Get(m, k) == Some(m[i].1)
  {
    forall i | 0 <= i < |m| && m[i].0 == k
      ensures Get(m, k) == Some(m[i].1)
    {
      GetAt(m, k, i);
    }
  }

  /** `for (const [k, v] of xs) map.set(k, v)`, applied to `m`. */
  function PutAll<K(==,!new), V>(m: seq<(K, V)>, xs: seq<(K, V)>): (r: seq<(K, V)>)
    decreases |xs|
  {
    if |xs| == 0 then m
    else
      var last := xs[|xs| - 1];
      Put(PutAll(m, xs[..|xs| - 1]), last.0, last.1)
  }

  /** `Array.from(new Set(xs))`: the first occurrence of every element, in order. */
  function Dedup<T(==,!new)>(xs: seq<T>): (r: seq<T>)
    ensures Distinct(r)
    ensures forall x :: x in r <==> x in xs
    decreases |xs|
  {
    if |xs| == 0 then []
    else
      var d := Dedup(xs[..|xs| - 1]);
      var x := xs[|xs| - 1];
      assert xs == xs[..|xs| - 1] + [x];
      if x in d then d else d + [x]
  }

  /** The value of the last pair in `xs` with key `k`. */
  function LastValue<K(==,!new), V>(xs: seq<(K, V)>, k: K): Option<V>
    decreases |xs|
  {
    if |xs| == 0 then None
    else if xs[|xs| - 1].0 == k then Some(xs[|xs| - 1].1)
    else LastValue(xs[..|xs| - 1], k)
  }

  /** Setting every pair of `xs` into an empty map: each key appears once, in the order of
      its first occurrence, and holds the value of its last occurrence. */
  lemma {:induction false} PutAllFromEmpty<K(!new), V>(xs: seq<(K, V)>)
    ensures Distinct(Keys(PutAll([], xs)))
    ensures Keys(PutAll([], xs)) == Dedup(Keys(xs))
    ensures forall k :: Get(PutAll([], xs), k) == LastValue(xs, k)
    decreases |xs|
  {
    if |xs| > 0 {
      var init := xs[..|xs| - 1];
      var last := xs[|xs| - 1];
      PutAllFromEmpty(init);
      assert Keys(init) == Keys(xs)[..|xs| - 1];
      var m := PutAll([], init);
      forall k
        ensures Get(PutAll([], xs), k) == LastValue(xs, k)
      {
        if k != last.0 {
          assert LastValue(xs, k) == LastValue(init, k);
        }
      }
    }
  }

  /** Every key of `xs` is in the map and nothing else is. */
  lemma PutAllKeys<K(!new), V>(xs: seq<(K, V)>)
    ensures forall k :: k in Keys(PutAll([], xs)) <==> k in Keys(xs)
    ensures |PutAll([], xs)| <= |xs|
  {
    PutAllFromEmpty(xs);
    DedupLength(Keys(xs));
  }

  lemma {:induction false} DedupLength<T(!new)>(xs: seq<T>)
    ensures |Dedup(xs)| <= |xs|
    decreases |xs|
  {
    if |xs| > 0 {
      DedupLength(xs[..|xs| - 1]);
    }
  }

  /** `LastValue` finds a pair of `xs` with that key, and none after it has the key. */
  lemma {:induction false} LastValueIsLast<K(!new), V>(xs: seq<(K, V)>, k: K)
    ensures LastValue(xs, k).None? <==> k !in Keys(xs)
    ensures LastValue(xs, k).Some? ==>
      exists i :: 0 <= i < |xs| && xs[i] == (k, LastValue(xs, k).value)
        && forall j :: i < j < |xs| ==> xs[j].0 != k
    decreases |xs|
  {
    if |xs| > 0 {
      var init := xs[..|xs| - 1];
      LastValueIsLast(init, k);
      assert Keys(xs) == Keys(init) + [xs[|xs| - 1].0];
      if xs[|xs| - 1].0 != k && LastValue(init, k).Some? {
        var i :| 0 <= i < |init| && init[i] == (k, LastValue(init, k).value)
          && forall j :: i < j < |init| ==> init[j].0 != k;
        assert xs[i] == init[i];
      }
    }
  }

  /** The last value `LastValue` finds in two runs of pairs comes from the second run when
      it holds the key. */
  lemma {:induction false} LastValueAppend<K(!new), V>(a: seq<(K, V)>, b: seq<(K, V)>, k: K)
    ensures LastValue(a + b, k) == if LastValue(b, k).Some? then LastValue(b, k) else LastValue(a, k)
    decreases |b|
  {
    if |b| == 0 {
      assert a + b == a;
    } else {
      assert (a + b)[..|a + b| - 1] == a + b[..|b| - 1];
      LastValueAppend(a, b[..|b| - 1], k);
    }
  }
}

=== FILE: json.dfy ===
/** JSON values as `JSON.parse` returns them, and the JavaScript operations the source
    applies to them: property access, `typeof`, truthiness and `Array.isArray`. */
module Json {
  import opened Common
  import opened Text

  /** A parsed JSON value. Numbers are integers in this model. */
  datatype Json =
    | JNull
    | JBool(b: bool)
    | JNum(n: int)
    | JStr(s: string)
    | JArr(items: seq<Json>)
    | JObj(fields: map<string, Json>)

  /** `value[key]`: `None` stands for `undefined`. Only objects carry named fields. */
  function Get(j: Json, key: string): (r: Option<Json>)
    ensures r.Some? <==> j.JObj? && key in j.fields
  {
    if j.JObj? && key in j.fields then Some(j.fields[key]) else None
  }

  /** JavaScript truthiness of a possibly-undefined value. */
  predicate Truthy(v: Option<Json>) {
    match v
    case None => false
    case Some(JNull) => false
    case Some(JBool(b)) => b
    case Some(JNum(n)) => n != 0
    case Some(JStr(s)) => s != ""
    case Some(_) => true
  }

  /** `typeof v === "string"`. */
  function AsString(v: Option<Json>): (r: Option<string>)
    ensures r.Some? <==> v.Some? && v.value.JStr?
  {
    if v.Some? && v.value.JStr? then Some(v.value.s) else None
  }

  /** `Array.isArray(v)`. */
  function AsArray(v: Option<Json>): (r: Option<seq<Json>>)
    ensures r.Some? <==> v.Some? && v.value.JArr?
  {
    if v.Some? && v.value.JArr? then Some(v.value.items) else None
  }

  /** `typeof v === "object"` (true for `null` and arrays, as in JavaScript). */
  predicate IsObjectType(v: Option<Json>) {
    v.Some? && (v.value.JNull? || v.value.JArr? || v.value.JObj?)
  }

  /** The string-valued field `key` of `j`, or `default` when it is missing or not a string. */
  function StringOr(j: Json, key: string, default: string): string {
    AsString(Get(j, key)).GetOr(default)
  }

  /** A JSON array of strings. */
  function StrArray(xs: seq<string>): (r: Json)
    ensures r.JArr? && |r.items| == |xs|
    ensures forall i :: 0 <= i < |xs| ==> r.items[i] == JStr(xs[i])
  {
    JArr(seq(|xs|, i requires 0 <= i < |xs| => JStr(xs[i])))
  }

  /** What a template literal `${v}` makes of a JSON value: strings as they are, integers
      in decimal, `true`/`false`/`null`, arrays as their elements joined with `,` (a
      `null` element as the empty string) and objects as `[object Object]`. */
  function ToJsString(j: Json): (s: string)
    ensures j.JStr? ==> s == j.s
    ensures j.JNum? && j.n >= 0 ==>
      (forall i :: 0 <= i < |s| ==> IsDigit(s[i])) && DigitsValue(s) == j.n
    ensures j.JNum? && j.n < 0 ==> |s| >= 2 && s[0] == '-'
    ensures j.JObj? ==> s == "[object Object]"
    ensures j.JArr? && |j.items| == 0 ==> s == ""
    ensures j.JArr? && |j.items| == 1 && j.items[0].JStr? ==> s == j.items[0].s
    decreases j
  {
    match j
    case JNull => "null"
    case JBool(b) => if b then "true" else "false"
    case JNum(n) =>
      if n >= 0 then DigitsValueNatToString(n); NatToString(n) else "-" + NatToString(-n)
    case JStr(t) => t
    case JArr(items) =>
      Join(seq(|items|, i requires 0 <= i < |items| => if items[i].JNull? then "" else ToJsString(items[i])), ",")
    case JObj(_) => "[object Object]"
  }

  /** A field used through a template literal after `|| default`: a falsy value is absent,
      anything else is converted. */
  function TextField(v: Option<Json>): (r: Option<string>)
    ensures r.None? <==> !Truthy(v)
    ensures Truthy(v) && v.value.JStr? ==> r == Some(v.value.s)
  {
    if Truthy(v) then Some(ToJsString(v.value)) else None
  }

  /** The strings of an array, when it holds nothing else. */
  function AllStrings(xs: seq<Json>): (r: Option<seq<string>>)
    ensures r.Some? <==> forall i :: 0 <= i < |xs| ==> xs[i].JStr?
    ensures r.Some? ==> |r.value| == |xs| && forall i :: 0 <= i < |xs| ==> xs[i] == JStr(r.value[i])
  {
    if forall i :: 0 <= i < |xs| ==> xs[i].JStr? then
      Some(seq(|xs|, i requires 0 <= i < |xs| && xs[i].JStr? => xs[i].s))
    else None
  }

  /** JavaScript's `v > 0` for any `length` value: the value is converted to a number
      (undefined and objects to NaN, `null` to 0, booleans to 0 or 1, a string by
      StringToNumber, an array through its string form). */
  predicate LengthPositive(v: Option<Json>) {
    match v
    case None => false
    case Some(JNull) => false
    case Some(JBool(b)) => b
    case Some(JNum(n)) => n > 0
    case Some(JStr(t)) => NumericPositive(t)
    case Some(JArr(items)) => NumericPositive(ToJsString(JArr(items)))
    case Some(JObj(_)) => false
  }

  predicate AllDigits(s: string) {
    forall i :: 0 <= i < |s| ==> IsDigit(s[i])
  }

  predicate IsPoint(c: char) { c == '.' }
  predicate IsExpMark(c: char) { c == 'e' || c == 'E' }

  /** A digit of base 2, 8 or 16. */
  predicate IsBaseDigit(c: char, base: nat) {
    if base == 2 then c == '0' || c == '1'
    else if base == 8 then '0' <= c <= '7'
    else IsDigit(c) || 'a' <= c <= 'f' || 'A' <= c <= 'F'
  }

  /** The base a `0x`, `0o` or `0b` prefix (either case) selects; 0 without one. */
  function BasePrefix(t: string): nat {
    if |t| >= 2 && t[0] == '0' then
      if t[1] == 'x' || t[1] == 'X' then 16
      else if t[1] == 'o' || t[1] == 'O' then 8
      else if t[1] == 'b' || t[1] == 'B' then 2
      else 0
    else 0
  }

  /** An unsigned decimal mantissa: digits around at most one `.`, at least one digit. */
  predicate Mantissa(m: string) {
    match FirstWhere(m, IsPoint)
    case None => |m| > 0 && AllDigits(m)
    case Some(i) => |m| > 1 && AllDigits(m[..i]) && AllDigits(m[i + 1..])
  }

  /** The part after `e`: an optional sign and at least one digit. */
  predicate Exponent(x: string) {
    var d := if |x| > 0 && (x[0] == '+' || x[0] == '-') then x[1..] else x;
    |d| > 0 && AllDigits(d)
  }

  /** The mantissa of `u` when `u` is an unsigned decimal literal, exponent included. */
  function DecimalMantissa(u: string): (r: Option<string>)
    ensures r.Some? ==> Mantissa(r.value)
  {
    match FirstWhere(u, IsExpMark)
    case None => if Mantissa(u) then Some(u) else None
    case Some(i) => if Mantissa(u[..i]) && Exponent(u[i + 1..]) then Some(u[..i]) else None
  }

  /** Some digit of `m` is not zero. */
  predicate NotAllZero(m: string) {
    exists i :: 0 <= i < |m| && m[i] != '0' && m[i] != '.'
  }

  /** `Number(s) > 0`, after StringToNumber (section 7.1.4.1.1 of ECMA-262): surrounding
      white space is ignored, the empty string is 0, a `0x`/`0o`/`0b` literal takes no
      sign, a decimal literal may be signed and may be `Infinity`; anything else is NaN,
      which compares false. */
  predicate NumericPositive(s: string) {
    var t := Trim(s);
    var base := BasePrefix(t);
    if base != 0 then
      |t| > 2 && (forall i :: 2 <= i < |t| ==> IsBaseDigit(t[i], base)) && NotAllZero(t[2..])
    else
      var u := if |t| > 0 && (t[0] == '+' || t[0] == '-') then t[1..] else t;
      && !(|t| > 0 && t[0] == '-')
      && (u == "Infinity" || (DecimalMantissa(u).Some? && NotAllZero(DecimalMantissa(u).value)))
  }

  /** A string of digits has no white space to trim. */
  lemma TrimDigits(s: string)
    requires AllDigits(s)
    ensures Trim(s) == s
  {
    var t := DropWhile(s, IsSpace);
    assert |t| == |s|;
    if |s| > 0 {
      assert !IsSpace(s[|s| - 1]);
    }
  }

  /** Digits denote zero exactly when they are all `0`. */
  lemma {:induction false} DigitsZero(s: string)
    requires AllDigits(s)
    ensures DigitsValue(s) == 0 <==> !NotAllZero(s)
    decreases |s|
  {
    if |s| > 0 {
      var init := s[..|s| - 1];
      DigitsZero(init);
      if NotAllZero(init) {
        var i :| 0 <= i < |init| && init[i] != '0' && init[i] != '.';
        assert s[i] == init[i];
      }
      if !NotAllZero(s) {
        assert forall i :: 0 <= i < |init| ==> init[i] == s[i];
      }
    }
  }

  /** A printed number as a `length` is positive exactly when the number is. */
  lemma NatStringPositive(n: nat)
    ensures NumericPositive(NatToString(n)) <==> n > 0
  {
    var s := NatToString(n);
    TrimDigits(s);
    assert BasePrefix(s) == 0;
    assert FirstWhere(s, IsExpMark).None?;
    assert FirstWhere(s, IsPoint).None?;
    assert DecimalMantissa(s) == Some(s);
    DigitsZero(s);
    DigitsValueNatToString(n);
  }

  /** The strings of an array of strings are the strings themselves. */
  lemma AllStringsOfStrArray(xs: seq<string>)
    ensures AllStrings(StrArray(xs).items) == Some(xs)
  {
    var r := AllStrings(StrArray(xs).items);
    assert r.Some?;
    assert forall i :: 0 <= i < |xs| ==> r.value[i] == xs[i];
    assert r.value == xs;
  }

  /** `String` applied to each element. */
  function ToJsStrings(xs: seq<Json>): (r: seq<string>)
    ensures |r| == |xs|
    ensures forall i :: 0 <= i < |xs| ==> r[i] == ToJsString(xs[i])
  {
    if |xs| == 0 then [] else [ToJsString(xs[0])] + ToJsStrings(xs[1..])
  }
}

=== FILE: laws_route.dfy ===
/** `POST /api/laws` (`src/app/api/laws/route.ts`): a client holding the API key adds a law
    page, optionally fetching its PDF from a given address and attaching it. The body is
    a record of its string fields, plus whether the two fields the validation trims hold
    some other truthy value; the configured key, the token, what the fetch and the
    upload return, the clocks and whether the page write succeeds are parameters. */
module LawsRoute {
  import opened Common
  import opened Text
  import opened Pdf
  import opened Content
  import ApiAuth
  import Slug
  import ContentWrite

  /** The request body: every field may be absent (`null` is absent too). */
  datatype LawsPayload = LawsPayload(
    slug: Option<string>,
    title: Option<string>,
    summary: Option<string>,
    date: Option<string>,
    tags: Option<seq<string>>,
    category: Option<string>,
    author: Option<string>,
    source: Option<string>,
    attachments: Option<seq<ContentAttachment>>,
    content: Option<string>,
    pdfUrl: Option<string>)

  /** The parsed body: JSON `null`, or an object read as a record. `oddTitle` and
      `oddContent` say that the title or the content holds a truthy value that is not a
      string (a number, `true`, an array or an object); the record then has `None` there. */
  datatype Body =
    | NullBody
    | Record(p: LawsPayload, oddTitle: bool, oddContent: bool)

  /** `validatePayload` throws: reading a field of `null`, or calling `trim` on a truthy
      title that is not a string, or on such a content once the title has passed. */
  predicate ValidationThrows(b: Body) {
    || b.NullBody?
    || b.oddTitle
    || (LongEnough(b.p.title, 2) && b.oddContent)
  }

  /** The two validation messages. */
  datatype Invalid = TitleInvalid | ContentInvalid

  /** A field with at least `n` UTF-16 code units after trimming (a missing field has none). */
  predicate LongEnough(v: Option<string>, n: nat) {
    v.Some? && JsLength(Trim(v.value)) >= n
  }

  /** `validatePayload`: the title needs 2 UTF-16 code units after trimming, then the content 10. */
  function ValidatePayload(p: LawsPayload): (r: Option<Invalid>)
    ensures r == Some(TitleInvalid) <==> !LongEnough(p.title, 2)
    ensures r == Some(ContentInvalid) <==> LongEnough(p.title, 2) && !LongEnough(p.content, 10)
    ensures r.None? <==> LongEnough(p.title, 2) && LongEnough(p.content, 10)
  {
    if !LongEnough(p.title, 2) then Some(TitleInvalid)
    else if !LongEnough(p.content, 10) then Some(ContentInvalid)
    else None
  }

  /** The least size of a PDF the route keeps. */
  const MinPdfBytes: nat := 100

  /** `downloadAndUploadPdf`: without a token, on a failed or refused fetch, on fewer than
      100 bytes or without the PDF header nothing is stored; otherwise the file goes to
      `public/uploads/<slug>.pdf` and, when that upload succeeds, its address is returned. */
  function DownloadAndUploadPdf(token: Option<string>, fetched: Fetched, putOk: bool, slug: string): (r: Option<string>)
    ensures r.Some? <==>
      && token.Some? && token.value != ""
      && fetched.Answered? && fetched.response.Ok()
      && |fetched.response.data| >= MinPdfBytes && HasMagic(fetched.response.data)
      && putOk
    ensures r.Some? ==> r.value == "/uploads/" + slug + ".pdf"
  {
    if token.None? || token.value == "" then None
    else if fetched.Threw? || !fetched.response.Ok() then None
    else if |fetched.response.data| < MinPdfBytes || !HasMagic(fetched.response.data) then None
    else if !putOk then None
    else Some("/uploads/" + slug + ".pdf")
  }

  /** Some attachment already has the type `pdf`. */
  predicate HasPdfAttachment(atts: seq<ContentAttachment>) {
    exists i :: 0 <= i < |atts| && atts[i].kind == "pdf"
  }

  /** The attachments written with the page: the given ones, plus one entry for the stored
      PDF when there is one and none of them is a PDF. */
  function MergeAttachments(given: seq<ContentAttachment>, slug: string, stored: Option<string>): (r: seq<ContentAttachment>)
    ensures |given| <= |r| <= |given| + 1 && r[..|given|] == given
    ensures |r| == |given| + 1 <==> stored.Some? && !HasPdfAttachment(given)
    ensures |r| == |given| + 1 ==> r[|given|] == ContentAttachment(slug + ".pdf", stored.value, "pdf")
  {
    if stored.Some? && !HasPdfAttachment(given) then given + [ContentAttachment(slug + ".pdf", stored.value, "pdf")]
    else given
  }

  /** After the merge there is a PDF entry whenever a PDF was stored. */
  lemma MergedHasPdf(given: seq<ContentAttachment>, slug: string, stored: Option<string>)
    requires stored.Some?
    ensures HasPdfAttachment(MergeAttachments(given, slug, stored))
  {
    var r := MergeAttachments(given, slug, stored);
    if HasPdfAttachment(given) {
      var i :| 0 <= i < |given| && given[i].kind == "pdf";
      assert r[i] == given[i];
    } else {
      assert r[|given|].kind == "pdf";
    }
  }

  /** The parameters of the PDF step. */
  datatype PdfEnv = PdfEnv(token: Option<string>, fetched: Fetched, putOk: bool)

  /** The parameters of the page write. */
  datatype WriteEnv = WriteEnv(env: ContentWrite.Env, cwd: string, now: nat, today: string, ok: bool)

  /** How a request ends. */
  datatype Outcome =
    | Denied(denial: ApiAuth.Denial)
    | BadJson
    | Rejected(reason: Invalid)
    | Crash
    | Created(slug: string, filePath: string, pdfUrl: Option<string>, written: ContentWrite.Written)
  {
    function Status(): nat {
      match this
      case Denied(d) => d.Status()
      case BadJson => 400
      case Rejected(_) => 400
      case Crash => 500
      case Created(_, _, _, _) => 200
    }
  }

  /** The record handed to the writer. */
  function WriterPayload(p: LawsPayload, attachments: seq<ContentAttachment>): ContentWrite.Payload
    requires p.title.Some? && p.content.Some?
  {
    ContentWrite.Payload(p.slug, p.title.value, p.summary, p.date, p.tags, p.category, p.author, p.source,
                         Some(attachments), p.content.value)
  }

  /** The handler. `slugNow` is the clock reading of the route's own `createSlug` (used for
      the PDF's name); the writer reads the clock again (`w.now`). */
  function Post(expected: Option<string>, req: ApiAuth.Request, body: Option<Body>,
                pdf: PdfEnv, slugNow: nat, w: WriteEnv): (o: Outcome)
    ensures o.Denied? <==> ApiAuth.RequireApiKey(expected, req).Some?
    ensures o.BadJson? <==> ApiAuth.RequireApiKey(expected, req).None? && body.None?
    ensures o.Rejected? <==> ApiAuth.RequireApiKey(expected, req).None? && body.Some? && !ValidationThrows(body.value)
                             && ValidatePayload(body.value.p).Some?
    ensures o.Rejected? ==> o.reason == ValidatePayload(body.value.p).value
    ensures o.Crash? <==> ApiAuth.RequireApiKey(expected, req).None? && body.Some?
                          && (ValidationThrows(body.value) || (ValidatePayload(body.value.p).None? && !w.ok))
    ensures o.Created? ==>
      && body.Some? && !ValidationThrows(body.value) && ValidatePayload(body.value.p).None? && w.ok
      && var p := body.value.p;
         var pdfSlug := Slug.CreateSlug(p.slug.GetOr(p.title.value), "law", slugNow);
         var stored := if p.pdfUrl.GetOr("") != "" then DownloadAndUploadPdf(pdf.token, pdf.fetched, pdf.putOk, pdfSlug) else None;
         && o.pdfUrl == stored
         && o.written == ContentWrite.WriteContentFile(Laws, WriterPayload(p, MergeAttachments(p.attachments.GetOr([]), pdfSlug, stored)),
                                                       w.env, w.cwd, w.now, w.today)
         && o.slug == o.written.slug && o.filePath == o.written.filePath
  {
    var denial := ApiAuth.RequireApiKey(expected, req);
    if denial.Some? then Denied(denial.value)
    else if body.None? then BadJson
    else if ValidationThrows(body.value) then Crash
    else
      var p := body.value.p;
      match ValidatePayload(p)
      case Some(reason) => Rejected(reason)
      case None =>
        var pdfSlug := Slug.CreateSlug(p.slug.GetOr(p.title.value), "law", slugNow);
        var stored := if p.pdfUrl.GetOr("") != "" then DownloadAndUploadPdf(pdf.token, pdf.fetched, pdf.putOk, pdfSlug) else None;
        var attachments := MergeAttachments(p.attachments.GetOr([]), pdfSlug, stored);
        if !w.ok then Crash
        else
          var written := ContentWrite.WriteContentFile(Laws, WriterPayload(p, attachments), w.env, w.cwd, w.now, w.today);
          Created(written.slug, written.filePath, stored, written)
  }

  /** Without a PDF address, or when the PDF was not stored, the answer's `pdfUrl` is null
      and the attachments are written as given. */
  lemma NoPdfNoAttachment(expected: Option<string>, req: ApiAuth.Request, p: LawsPayload,
                          pdf: PdfEnv, slugNow: nat, w: WriteEnv)
    requires p.pdfUrl.GetOr("") == ""
    ensures var o := Post(expected, req, Some(Record(p, false, false)), pdf, slugNow, w);
      o.Created? ==> o.pdfUrl.None?
  {
  }

  /** The route names the PDF after its own `createSlug`, the writer names the page after
      another call: the two agree whenever the normalised input has three characters or
      more, whatever the two clock readings. */
  lemma SlugsAgree(input: string, t1: nat, t2: nat)
    requires |Slug.ContentNormalize(input)| >= 3
    ensures Slug.CreateSlug(input, "law", t1) == Slug.CreateSlug(input, "law", t2)
  {
  }

  /** So on such an input the PDF carries the page's own slug: the name the route gives
      the PDF is the slug the page is written under. */
  lemma PdfSlugIsPageSlug(expected: Option<string>, req: ApiAuth.Request, p: LawsPayload,
                          pdf: PdfEnv, slugNow: nat, w: WriteEnv)
    requires p.title.Some? && |Slug.ContentNormalize(p.slug.GetOr(p.title.value))| >= 3
    ensures var o := Post(expected, req, Some(Record(p, false, false)), pdf, slugNow, w);
      o.Created? ==> Slug.CreateSlug(p.slug.GetOr(p.title.value), "law", slugNow) == o.slug
  {
    SlugsAgree(p.slug.GetOr(p.title.value), slugNow, w.now);
  }

  /** With a shorter input they differ as soon as the clock has moved: the PDF is then
      named after a different slug than the page it is attached to. */
  lemma SlugsMayDiffer(t1: nat, t2: nat)
    requires t1 != t2
    ensures Slug.CreateSlug("", "law", t1) != Slug.CreateSlug("", "law", t2)
  {
    assert Slug.ContentNormalize("") == "" by {
      Slug.ContentNormalizeFixed("");
    }
    var a := NatToString(t1);
    var b := NatToString(t2);
    DigitsValueNatToString(t1);
    DigitsValueNatToString(t2);
    assert a != b;
    var s1 := Slug.CreateSlug("", "law", t1);
    var s2 := Slug.CreateSlug("", "law", t2);
    assert s1 == "law" + "-" + a && s2 == "law" + "-" + b;
    assert s1[4..] == a && s2[4..] == b;
  }
}

=== FILE: listing_pages.dfy ===
/** The article and law listing pages (`src/app/articles/page.tsx`, `src/app/laws/page.tsx`;
    the two pages run the same code on their own collections): reading the query string and
    the tag/keyword filter over the content list. */
module ListingPages {
  import opened Common
  import opened Text
  import opened Content

  /** A search parameter as the framework hands it over: absent, one value, or repeated. */
  datatype SearchParam = Absent | One(value: string) | Many(values: seq<string>)

  /** `pickStringParam(value, fallback)`: the first of repeated values, the single value,
      or the fallback. An empty list also gives the fallback; an empty string does not. */
  function PickStringParam(v: SearchParam, fallback: string): (r: string)
    ensures v.One? ==> r == v.value
    ensures v.Many? && |v.values| > 0 ==> r == v.values[0]
    ensures v.Absent? || (v.Many? && |v.values| == 0) ==> r == fallback
  {
    match v
    case Absent => fallback
    case One(s) => s
    case Many(ss) => if |ss| > 0 then ss[0] else fallback
  }

  /** The keyword of the `q` parameter: trimmed and lower-cased. */
  function Keyword(q: SearchParam): string {
    Lower(Trim(PickStringParam(q, "")))
  }

  /** The tag of the `tag` parameter: only trimmed, so it is compared case-sensitively. */
  function TagOf(tag: SearchParam): string {
    Trim(PickStringParam(tag, ""))
  }

  /** The lower-cased, space-joined title, summary, category and tags of a record. */
  function Haystack(m: Meta): string {
    Lower(Join([m.title, m.summary, m.category, Join(m.tags, " ")], " "))
  }

  /** The filter of one record: the tag is empty or one of its tags, and the keyword is
      empty or occurs in its haystack. */
  predicate Keep(m: Meta, keyword: string, tag: string) {
    && (tag == "" || tag in m.tags)
    && (keyword == "" || Contains(Haystack(m), keyword))
  }

  /** The records the page lists: those of `items` (the sorted content list) that pass, in
      their order. */
  function Listed(items: seq<Meta>, q: SearchParam, tag: SearchParam): (r: seq<Meta>)
    ensures IsSubsequence(r, items)
    ensures forall m :: m in r <==> m in items && Keep(m, Keyword(q), TagOf(tag))
    ensures forall m :: multiset(r)[m] == if Keep(m, Keyword(q), TagOf(tag)) then multiset(items)[m] else 0
  {
    FilterSubsequence(items, m => Keep(m, Keyword(q), TagOf(tag)));
    FilterMultiset(items, m => Keep(m, Keyword(q), TagOf(tag)));
    Filter(items, m => Keep(m, Keyword(q), TagOf(tag)))
  }

  /** Without parameters the page lists the whole collection. */
  lemma NoParamsListsAll(items: seq<Meta>)
    ensures Listed(items, Absent, Absent) == items
  {
    assert Trim("") == "";
  }

  /** A tag differing from every tag of a record only in letter case does not select it. */
  lemma TagIsCaseSensitive(m: Meta)
    requires m.tags == ["GBZ"]
    ensures !Keep(m, "", "gbz")
  {
    assert "gbz" != "GBZ";
  }

  /** A keyword found in the lower-cased text of any one field keeps the record. */
  lemma FieldHitKept(m: Meta, keyword: string, f: nat)
    requires f < 4
    requires Contains(Lower([m.title, m.summary, m.category, Join(m.tags, " ")][f]), keyword)
    ensures Keep(m, keyword, "")
  {
    var parts := [m.title, m.summary, m.category, Join(m.tags, " ")];
    JoinHasPart(parts, " ", f);
    var k: nat :| StartsAt(Join(parts, " "), k, parts[f]);
    LowerWindow(Join(parts, " "), k, parts[f]);
    ContainsInWindow(Haystack(m), k, Lower(parts[f]), keyword);
  }

  /** A keyword found in the lower-cased form of one of the record's tags keeps it. */
  lemma TagHitKept(m: Meta, keyword: string, t: nat)
    requires t < |m.tags| && Contains(Lower(m.tags[t]), keyword)
    ensures Keep(m, keyword, "")
  {
    var joined := Join(m.tags, " ");
    JoinHasPart(m.tags, " ", t);
    var k: nat :| StartsAt(joined, k, m.tags[t]);
    LowerWindow(joined, k, m.tags[t]);
    ContainsInWindow(Lower(joined), k, Lower(m.tags[t]), keyword);
    FieldHitKept(m, keyword, 3);
  }

  /** The haystack is one string, so a keyword may match across the boundary of two
      fields: here the title ends with `a`, the summary starts with `b`, and `a b` keeps
      the record although neither field contains it. */
  lemma KeywordSpansFields(m: Meta)
    requires m.title == "a" && m.summary == "b" && m.category == "c" && m.tags == []
    ensures Keep(m, "a b", "")
    ensures !Contains(m.title, "a b") && !Contains(m.summary, "a b")
  {
    assert Join(m.tags, " ") == "";
    var parts := ["a", "b", "c", ""];
    assert parts[2..] == ["c", ""] && parts[3..] == [""];
    assert Join(parts[2..], " ") == "c ";
    assert Join(parts[1..], " ") == "b c ";
    assert Join(parts, " ") == "a b c ";
    LowerNoUpper("a b c ");
    assert Haystack(m) == "a b c ";
    assert StartsAt(Haystack(m), 0, "a b");
  }
}

=== FILE: media_route.dfy ===
/** `POST /api/media` (`src/app/api/media/route.ts`): a client holding the API key uploads
    a file given as Base64 text, possibly as a data URL; the route stores it under a
    timestamped, sanitised name. The configured key, the parsed body, the clock and the
    Base64 decoder are parameters. */
module MediaRoute {
  import opened Common
  import opened Text
  import opened Json
  import opened Pdf
  import ApiAuth
  import Slug

  /** `MAX_MEDIA_BYTES`: 20 MiB. */
  const MaxMediaBytes: nat := 20 * 1024 * 1024

  /** The last piece of splitting on `,`. */
  function LastPiece(raw: string): (r: string)
    ensures ',' !in r
  {
    var parts := Split(raw, ',');
    parts[|parts| - 1]
  }

  /** The text handed to the decoder (`decodeBase64Payload`): with a comma, the part after
      the last one (the data of a `data:` URL, section 3 of RFC 2397); without, all of it. */
  function DataPart(raw: string): (r: string)
    ensures ',' !in raw ==> r == raw
    ensures ',' !in r
  {
    if ',' in raw then LastPiece(raw)
    else
      SplitNoSep(raw, ',');
      raw
  }

  /** A separator in front of `b` leaves the last piece that of `b`. */
  lemma {:induction false} LastPieceAfterSep(a: string, b: string)
    ensures |Split(a + [','] + b, ',')| >= 2
    ensures LastPiece(a + [','] + b) == LastPiece(b)
    decreases |a|
  {
    var s := a + [','] + b;
    if |a| == 0 {
      assert s == [','] + b;
      assert s[1..] == b;
    } else {
      assert s[1..] == a[1..] + [','] + b;
      LastPieceAfterSep(a[1..], b);
    }
  }

  /** A data URL's data is what gets decoded, whatever its header holds. */
  lemma DataUrlDecodesData(header: string, data: string)
    requires ',' !in data
    ensures DataPart(header + "," + data) == data
  {
    var s := header + "," + data;
    assert s == header + [','] + data;
    assert s[|header|] == ',';
    LastPieceAfterSep(header, data);
    SplitNoSep(data, ',');
  }

  /** How a request ends. */
  datatype Outcome =
    | Denied(denial: ApiAuth.Denial)
    | BadJson
    | Crash
    | NoFileName
    | NoFileData
    | EmptyData
    | TooLarge
    | Stored(fileName: string, url: string, bytes: nat)
  {
    function Status(): nat {
      match this
      case Denied(d) => d.Status()
      case BadJson => 400
      case Crash => 500
      case NoFileName => 400
      case NoFileData => 400
      case EmptyData => 400
      case TooLarge => 413
      case Stored(_, _, _) => 200
    }
  }

  /** A required string field: present, a string, and not empty. */
  predicate NonEmptyString(v: Option<Json>) {
    v.Some? && v.value.JStr? && v.value.s != ""
  }

  /** The handler. `body` is the parsed body (`None` when it is not JSON); `decode` gives
      the bytes Base64 text decodes to; `nameNow` and `storeNow` are the two readings of
      the clock (for the fallback name and for the stored name); `writeOk` says whether
      creating the upload directory and writing the file succeed. Nothing catches a failed
      write, so it ends the request with status 500. */
  function Post(expected: Option<string>, req: ApiAuth.Request, body: Option<Json>,
                decode: string -> seq<Byte>, nameNow: nat, storeNow: nat, writeOk: bool): (o: Outcome)
    ensures o.Denied? <==> ApiAuth.RequireApiKey(expected, req).Some?
    ensures o.BadJson? <==> ApiAuth.RequireApiKey(expected, req).None? && body.None?
    ensures o.NoFileName? <==> ApiAuth.RequireApiKey(expected, req).None? && body.Some? && body.value != JNull
                               && !NonEmptyString(Get(body.value, "fileName"))
    ensures o.NoFileData? <==> ApiAuth.RequireApiKey(expected, req).None? && body.Some? && body.value != JNull
                               && NonEmptyString(Get(body.value, "fileName")) && !NonEmptyString(Get(body.value, "fileData"))
    ensures o.EmptyData? || o.TooLarge? || o.Stored? ==>
      && body.Some? && NonEmptyString(Get(body.value, "fileName")) && NonEmptyString(Get(body.value, "fileData"))
      && var n := |decode(DataPart(Get(body.value, "fileData").value.s))|;
         && (o.EmptyData? <==> n == 0)
         && (o.TooLarge? <==> n > MaxMediaBytes)
         && (o.Stored? ==> 0 < n <= MaxMediaBytes && o.bytes == n && writeOk)
    ensures o.Crash? <==>
      && ApiAuth.RequireApiKey(expected, req).None? && body.Some?
      && (|| body.value == JNull
          || (&& NonEmptyString(Get(body.value, "fileName")) && NonEmptyString(Get(body.value, "fileData"))
              && 0 < |decode(DataPart(Get(body.value, "fileData").value.s))| <= MaxMediaBytes && !writeOk))
    ensures o.Stored? ==>
      && o.fileName == NatToString(storeNow) + "-" + Slug.SanitizeFileName(Get(body.value, "fileName").value.s, nameNow)
      && o.url == "/uploads/" + o.fileName
  {
    var denial := ApiAuth.RequireApiKey(expected, req);
    if denial.Some? then Denied(denial.value)
    else if body.None? then BadJson
    else if body.value == JNull then Crash
    else
      var b := body.value;
      if !NonEmptyString(Get(b, "fileName")) then NoFileName
      else if !NonEmptyString(Get(b, "fileData")) then NoFileData
      else
        var safeName := Slug.SanitizeFileName(Get(b, "fileName").value.s, nameNow);
        var bytes := decode(DataPart(Get(b, "fileData").value.s));
        if |bytes| == 0 then EmptyData
        else if |bytes| > MaxMediaBytes then TooLarge
        else if !writeOk then Crash
        else
          var finalName := NatToString(storeNow) + "-" + safeName;
          Stored(finalName, "/uploads/" + finalName, |bytes|)
  }

  /** Digits, a dash and a name in the file-name alphabet stay in that alphabet. */
  lemma StampedNameSafe(digits: string, safe: string)
    requires forall i :: 0 <= i < |digits| ==> IsDigit(digits[i])
    requires forall i :: 0 <= i < |safe| ==> Slug.IsFileNameChar(safe[i])
    ensures forall i :: 0 <= i < |digits + "-" + safe| ==> Slug.IsFileNameChar((digits + "-" + safe)[i])
  {
    var name := digits + "-" + safe;
    forall i | 0 <= i < |name|
      ensures Slug.IsFileNameChar(name[i])
    {
      if i < |digits| {
        assert name[i] == digits[i];
      } else if i > |digits| {
        assert name[i] == safe[i - |digits| - 1];
      }
    }
  }

  /** The stored name is the clock's digits, a dash and a non-empty sanitised name, so it
      uses only the file-name alphabet. */
  lemma StoredNameSafe(expected: Option<string>, req: ApiAuth.Request, body: Option<Json>,
                       decode: string -> seq<Byte>, nameNow: nat, storeNow: nat, writeOk: bool)
    ensures var o := Post(expected, req, body, decode, nameNow, storeNow, writeOk);
      o.Stored? ==> |o.fileName| > 0 && forall i :: 0 <= i < |o.fileName| ==> Slug.IsFileNameChar(o.fileName[i])
  {
    var o := Post(expected, req, body, decode, nameNow, storeNow, writeOk);
    if o.Stored? {
      var safe := Slug.SanitizeFileName(Get(body.value, "fileName").value.s, nameNow);
      assert Slug.Clean(safe, Slug.IsFileNameChar);
      StampedNameSafe(NatToString(storeNow), safe);
    }
  }

  /** A name already in the alphabet is kept: the stored name is the clock's digits, a
      dash and the name itself. */
  lemma CleanNameKept(expected: Option<string>, req: ApiAuth.Request, b: Json,
                      decode: string -> seq<Byte>, nameNow: nat, storeNow: nat, writeOk: bool)
    requires Get(b, "fileName").Some? && Get(b, "fileName").value.JStr?
    requires Slug.Clean(Get(b, "fileName").value.s, Slug.IsFileNameChar) && Get(b, "fileName").value.s != ""
    ensures var o := Post(expected, req, Some(b), decode, nameNow, storeNow, writeOk);
      o.Stored? ==> o.fileName == NatToString(storeNow) + "-" + Get(b, "fileName").value.s
  {
  }
}

=== FILE: media_store.dfy ===
/** The image and slide-deck manifests (`src/lib/media-store.ts`): loading a manifest with
    its fallback, listing newest first, lookup by id, and what saving writes. The parsed
    file, the date parser and the current time are parameters. */
module MediaStore {
  import opened Common
  import opened Sorting
  import opened Text

  /** The two media collections, each with its own manifest. */
  datatype Kind = Images | Ppts {
    function Dir(): string {
      match this
      case Images => "images"
      case Ppts => "ppts"
    }
  }

  /** `content/<kind>/manifest.json`. */
  function ManifestPath(kind: Kind): (p: string)
    ensures StartsWith(p, "content/") && EndsWith(p, "/manifest.json")
  {
    "content/" + kind.Dir() + "/manifest.json"
  }

  /** The two collections never share a manifest. */
  lemma ManifestPathsDistinct()
    ensures ManifestPath(Images) != ManifestPath(Ppts)
  {
    assert ManifestPath(Images)[8] != ManifestPath(Ppts)[8];
  }

  /** One image or slide deck. */
  datatype MediaItem = MediaItem(
    id: string,
    title: string,
    description: string,
    filename: string,
    thumbnail: Option<string>,
    tags: seq<string>,
    date: string,
    source: Option<string>)

  /** A manifest as the site holds it. */
  datatype Manifest = Manifest(items: seq<MediaItem>, updatedAt: Option<string>)

  /** A parsed manifest file: `items` is `None` when that field is not an array. The items
      of an array are taken as media items without being checked, as the source does. */
  datatype ManifestFile = ManifestFile(items: Option<seq<MediaItem>>, updatedAt: Option<string>)

  /** `loadManifest`. `file` is `None` when the file cannot be read or parsed; `now` is the
      ISO time stamped on the empty fallback. */
  function LoadManifest(file: Option<ManifestFile>, now: string): (m: Manifest)
    ensures file.None? || file.value.items.None? ==> m == Manifest([], Some(now))
    ensures file.Some? && file.value.items.Some? ==>
      m.items == file.value.items.value && m.updatedAt == file.value.updatedAt
  {
    if file.None? || file.value.items.None? then Manifest([], Some(now))
    else Manifest(file.value.items.value, file.value.updatedAt)
  }

  /** The time of an item for ordering: `new Date(date).getTime()`. An unparseable date
      makes the comparator `NaN`, which `Array.prototype.sort` treats as "equal"; the model
      gives such an item the time 0. */
  function ItemTime(parse: string -> Option<int>): MediaItem -> int {
    (m: MediaItem) => parse(m.date).GetOr(0)
  }

  /** `getImageList` / `getPptList`: the manifest's items, newest first. */
  function MediaList(file: Option<ManifestFile>, now: string, parse: string -> Option<int>): (r: seq<MediaItem>)
    ensures multiset(r) == multiset(LoadManifest(file, now).items)
    ensures forall i, j :: 0 <= i < j < |r| ==> ItemTime(parse)(r[i]) >= ItemTime(parse)(r[j])
  {
    SortDescending(LoadManifest(file, now).items, ItemTime(parse))
  }

  /** With every date parseable, the times the list is ordered by are the parsed dates
      themselves, so the list runs from the latest date to the earliest. */
  lemma MediaListByDate(file: Option<ManifestFile>, now: string, parse: string -> Option<int>)
    requires forall m :: m in LoadManifest(file, now).items ==> parse(m.date).Some?
    ensures var r := MediaList(file, now, parse);
      forall i :: 0 <= i < |r| ==> parse(r[i].date) == Some(ItemTime(parse)(r[i]))
  {
    var r := MediaList(file, now, parse);
    forall i | 0 <= i < |r|
      ensures parse(r[i].date) == Some(ItemTime(parse)(r[i]))
    {
      assert r[i] in multiset(r);
    }
  }

  /** `items.find((item) => item.id === id) ?? null`: the first item with the id. */
  function FindById(items: seq<MediaItem>, id: string): (r: Option<MediaItem>)
    ensures r.Some? <==> exists i :: 0 <= i < |items| && items[i].id == id
    ensures r.Some? ==> r.value.id == id && r.value in items
    ensures r.Some? ==> exists i :: 0 <= i < |items| && items[i] == r.value && forall j :: 0 <= j < i ==> items[j].id != id
  {
    if |items| == 0 then None
    else if items[0].id == id then Some(items[0])
    else
      var r := FindById(items[1..], id);
      if r.Some? then
        var i :| 0 <= i < |items[1..]| && items[1..][i] == r.value && forall j :: 0 <= j < i ==> items[1..][j].id != id;
        assert items[i + 1] == r.value;
        r
      else r
  }

  /** `getImageById` / `getPptById`: the lookup runs over the sorted list, so among items
      sharing an id the newest (and, among equals, the earliest stored) is found. */
  function MediaById(file: Option<ManifestFile>, now: string, parse: string -> Option<int>, id: string): (r: Option<MediaItem>)
    ensures r.Some? <==> exists m :: m in LoadManifest(file, now).items && m.id == id
    ensures r.Some? ==> r.value.id == id && r.value in LoadManifest(file, now).items
    ensures r.Some? ==> forall m :: m in LoadManifest(file, now).items && m.id == id ==>
      ItemTime(parse)(m) <= ItemTime(parse)(r.value)
  {
    var xs := MediaList(file, now, parse);
    NewestFound(LoadManifest(file, now).items, xs, id, ItemTime(parse));
    FindById(xs, id)
  }

  /** Looking an id up in a reordering of the items, ordered newest first, finds an item
      with that id exactly when there is one, and it is at least as new as every other item
      with that id. */
  lemma NewestFound(items: seq<MediaItem>, xs: seq<MediaItem>, id: string, time: MediaItem -> int)
    requires multiset(xs) == multiset(items)
    requires forall i, j :: 0 <= i < j < |xs| ==> time(xs[i]) >= time(xs[j])
    ensures var r := FindById(xs, id);
      (r.Some? <==> exists m :: m in items && m.id == id) &&
      (r.Some? ==> r.value.id == id && r.value in items) &&
      (r.Some? ==> forall m :: m in items && m.id == id ==> time(m) <= time(r.value))
  {
    var r := FindById(xs, id);
    assert forall m :: m in xs <==> m in multiset(xs);
    assert forall m :: m in items <==> m in multiset(items);
    if r.Some? {
      var i :| 0 <= i < |xs| && xs[i] == r.value && forall j :: 0 <= j < i ==> xs[j].id != id;
      forall m | m in items && m.id == id
        ensures time(m) <= time(r.value)
      {
        var k :| 0 <= k < |xs| && xs[k] == m;
        assert k >= i;
      }
    }
  }

  /** `saveMediaManifest`: the manifest written and returned holds the items as given, in
      the given order, stamped with the time of the save. */
  function SaveMediaManifest(kind: Kind, items: seq<MediaItem>, now: string): (r: (string, Manifest))
    ensures r.0 == ManifestPath(kind)
    ensures r.1.items == items && r.1.updatedAt == Some(now)
  {
    (ManifestPath(kind), Manifest(items, Some(now)))
  }

  /** The file a manifest is written as, read back. */
  function FileOf(m: Manifest): ManifestFile {
    ManifestFile(Some(m.items), m.updatedAt)
  }

  /** What is saved loads back as saved, whatever time the load happens at. */
  lemma SaveThenLoad(kind: Kind, items: seq<MediaItem>, saved: string, now: string)
    ensures LoadManifest(Some(FileOf(SaveMediaManifest(kind, items, saved).1)), now) == SaveMediaManifest(kind, items, saved).1
  {
  }

  /** After a save, every saved id can be looked up, and an id nobody has is not found. */
  lemma SaveThenFind(kind: Kind, items: seq<MediaItem>, saved: string, now: string, parse: string -> Option<int>, id: string)
    ensures var file := Some(FileOf(SaveMediaManifest(kind, items, saved).1));
      MediaById(file, now, parse, id).Some? <==> exists i :: 0 <= i < |items| && items[i].id == id
  {
    var file := Some(FileOf(SaveMediaManifest(kind, items, saved).1));
    if MediaById(file, now, parse, id).Some? {
      var m := MediaById(file, now, parse, id).value;
      var i :| 0 <= i < |items| && items[i] == m;
    } else {
      assert forall i :: 0 <= i < |items| ==> items[i] in items;
    }
  }
}

=== FILE: nhc_download.dfy ===
/** The Python downloader of current standards (scripts/download-standards.py). It lists
    the catalog standards in force (`status` 现行) whose slug has no entry in the PDF
    availability map, takes the first `max_downloads` of them (20 by default), and for each
    one tries five government addresses derived from its code. A PDF of more than 5000
    bytes is saved into the site's PDF folder and the slug is mapped to the file name; a
    file already in the folder is mapped without a download. The folder is a map from file
    name to size; the answers of the five addresses and the command line are parameters. */
module NhcDownload {
  import opened Common
  import opened Text
  import opened Pdf
  import JsMap

  // ---------------------------------------------------------------------------------
  // Names and addresses

  /** `code_to_filename`: `code.replace(" ", "-").replace("/", "-") + ".pdf"`. Every space
      and every slash becomes one dash; other white space is kept. */
  function CodeToFilename(code: string): (r: string)
    ensures |r| == |code| + 4
    ensures EndsWith(r, ".pdf")
    ensures forall i :: 0 <= i < |code| ==> r[i] == (if code[i] == ' ' || code[i] == '/' then '-' else code[i])
  {
    var stem := MapChar(MapChar(code, ' ', '-'), '/', '-');
    assert (stem + ".pdf")[|stem|..] == ".pdf";
    stem + ".pdf"
  }

  /** For a code without white space this is the file name the batch downloader of the
      Node scripts derives. */
  lemma SameNameWithoutSpace(code: string)
    requires forall i :: 0 <= i < |code| ==> !IsSpace(code[i])
    ensures CodeToFilename(code) == CodeStem(code) + ".pdf"
  {
    var m := MapChar(code, '/', '-');
    assert forall i :: 0 <= i < |m| ==> !IsSpace(m[i]);
    ReplaceRunsNone(m, IsSpace, '-');
    assert MapChar(MapChar(code, ' ', '-'), '/', '-') == m;
  }

  /** A code with white space other than a plain space (a tab, a full-width space) keeps
      that character here, while the Node scripts turn every white-space run into a dash:
      the two downloaders look for different files for the same code. */
  lemma OtherSpaceNamesDiffer(code: string, i: nat)
    requires i < |code| && IsSpace(code[i]) && code[i] != ' '
    ensures CodeToFilename(code) != CodeStem(code) + ".pdf"
  {
    var r := CodeToFilename(code);
    var s := CodeStem(code) + ".pdf";
    assert IsSpace(r[i]);
  }

  /** The code is not a plain space (`code.replace(" ", "")` keeps it). */
  function NotSpace(c: char): bool {
    c != ' '
  }

  /** `code.replace(" ", "")`: the code with its spaces removed. */
  function Base(code: string): (r: string)
    ensures ' ' !in r
    ensures forall c :: c in r <==> c in code && c != ' '
  {
    Filter(code, NotSpace)
  }

  /** `generate_urls`: three upload folders of the National Health Commission, the
      occupational-health institute and the disease-control centre, all ending in the
      space-free code and `.pdf`. */
  function GenerateUrls(code: string): (r: seq<string>)
    ensures |r| == 5
    ensures forall k :: 0 <= k < 5 ==> EndsWith(r[k], Base(code) + ".pdf")
  {
    var tail := Base(code) + ".pdf";
    var prefixes := ["https://www.nhc.gov.cn/ewebeditor/uploadfile/2024/",
                     "https://www.nhc.gov.cn/ewebeditor/uploadfile/2023/",
                     "https://www.nhc.gov.cn/ewebeditor/uploadfile/2022/",
                     "https://niohp.chinacdc.cn/zyysjk/zywsbzml/P020",
                     "https://www.chinacdc.cn/jkyj/hjwsyzdkz/bzxg/"];
    var r := seq(5, k requires 0 <= k < 5 => prefixes[k] + tail);
    forall k | 0 <= k < 5
      ensures EndsWith(r[k], tail)
    {
      assert (prefixes[k] + tail)[|prefixes[k]|..] == tail;
    }
    r
  }

  // ---------------------------------------------------------------------------------
  // One download

  /** What `urlopen` and `read` end in: an answer with its status, `Content-Type` and body,
      or an exception (network failure, timeout). */
  datatype Answer = Raised | Replied(status: int, contentType: string, data: seq<Byte>)

  /** The smallest size saved is one byte more than this. */
  const MinExclusive: nat := 5000

  /** The answer is taken for a PDF: `urlopen` raises for a status outside 200–299, the
      type must name a PDF or a byte stream unless the status is 200, and the body must be
      longer than 5000 bytes and start with the header. */
  predicate IsPdfAnswer(a: Answer) {
    a.Replied? && 200 <= a.status <= 299
    && (Contains(a.contentType, "pdf") || Contains(a.contentType, "octet-stream") || a.status == 200)
    && |a.data| > MinExclusive && HasMagic(a.data)
  }

  /** `try_download`: the number of bytes written, or `None` for `False`. */
  function TryDownload(a: Answer): (r: Option<nat>)
    ensures r.Some? <==> IsPdfAnswer(a)
    ensures r.Some? ==> r.value == |a.data| && r.value > MinExclusive
  {
    if IsPdfAnswer(a) then Some(|a.data|) else None
  }

  /** Every body this script saves with status 200 the Node batch downloader would save
      too, with the same size: it asks for more bytes and the same header. */
  lemma StricterThanBatchDownload(status: int, contentType: string, data: seq<Byte>, minBytes: nat)
    requires minBytes <= MinExclusive + 1 && status == 200
    requires TryDownload(Replied(status, contentType, data)).Some?
    ensures Download(Answered(Response(status, data)), minBytes) == Saved(|data|)
  {
  }

  /** A string lacking the first character of `sub` does not contain `sub`. */
  lemma NoFirstCharNoContains(s: string, sub: string)
    requires |sub| > 0 && sub[0] !in s
    ensures !Contains(s, sub)
  {
  }

  /** A partial answer (206) with an HTML type is refused however good its body. */
  lemma PartialHtmlRefused(data: seq<Byte>)
    ensures TryDownload(Replied(206, "text/html", data)).None?
  {
    NoFirstCharNoContains("text/html", "pdf");
    NoFirstCharNoContains("text/html", "octet-stream");
  }

  // ---------------------------------------------------------------------------------
  // The run

  /** A catalog standard, each field `""` when absent (`s.get(key, "")`). */
  datatype Entry = Entry(code: string, title: string, slug: string, status: string)

  /** The status of a standard in force. */
  const Current: string := "现行"

  /** The standard is in force and its slug has no file yet. */
  function MissingIn(hasFile: set<string>): Entry -> bool {
    (e: Entry) => e.slug !in hasFile && e.status == Current
  }

  /** The missing standards, in catalog order. */
  function Missing(standards: seq<Entry>, hasFile: set<string>): (r: seq<Entry>)
    ensures forall e :: e in r <==> e in standards && e.slug !in hasFile && e.status == Current
    ensures IsSubsequence(r, standards)
    ensures |r| <= |standards|
  {
    FilterSubsequence(standards, MissingIn(hasFile));
    Filter(standards, MissingIn(hasFile))
  }

  /** The availability map (slug to file name, in insertion order), the folder and the
      two counters. */
  datatype Progress = Progress(avail: seq<(string, string)>, files: map<string, nat>, downloaded: nat, failed: nat)

  /** The address answers with a PDF. */
  function Saves(fetch: string -> Answer): string -> bool {
    u => TryDownload(fetch(u)).Some?
  }

  /** The file is not in the folder and no address gives a PDF. */
  predicate NotFound(p: Progress, e: Entry, fetch: string -> Answer) {
    CodeToFilename(e.code) !in p.files && forall u :: u in GenerateUrls(e.code) ==> !Saves(fetch)(u)
  }

  /** `pdf_avail[slug] = filename`: the slug maps to the file, a new slug goes to the end,
      and every other entry stays as it was. */
  function MapFile(avail: seq<(string, string)>, slug: string, name: string): (r: seq<(string, string)>)
    requires Distinct(JsMap.Keys(avail))
    ensures Distinct(JsMap.Keys(r))
    ensures JsMap.Get(r, slug) == Some(name)
    ensures forall j :: j != slug ==> JsMap.Get(r, j) == JsMap.Get(avail, j)
    ensures JsMap.Keys(avail) <= JsMap.Keys(r)
    ensures |r| >= |avail|
  {
    JsMap.Put(avail, slug, name)
  }

  /** The addresses tried in order for a standard whose file is missing: the first that
      gives a PDF is saved and mapped; when none does, the standard is counted as failed. */
  function Fetch(p: Progress, e: Entry, fetch: string -> Answer): (r: Progress)
    requires Distinct(JsMap.Keys(p.avail))
    ensures Distinct(JsMap.Keys(r.avail)) && |r.avail| >= |p.avail|
    ensures r.downloaded + r.failed == p.downloaded + p.failed + 1
    ensures r.downloaded == p.downloaded + 1 ==> JsMap.Get(r.avail, e.slug) == Some(CodeToFilename(e.code))
                                                 && CodeToFilename(e.code) in r.files
    ensures r.failed == p.failed + 1 <==> forall u :: u in GenerateUrls(e.code) ==> !Saves(fetch)(u)
    ensures r.failed == p.failed + 1 ==> r.avail == p.avail && r.files == p.files
    ensures forall j :: j != e.slug ==> JsMap.Get(r.avail, j) == JsMap.Get(p.avail, j)
    ensures forall x :: x in p.files && x != CodeToFilename(e.code) ==> x in r.files && r.files[x] == p.files[x]
  {
    var name := CodeToFilename(e.code);
    var urls := GenerateUrls(e.code);
    match FirstWhere(urls, Saves(fetch))
    case None => p.(failed := p.failed + 1)
    case Some(k) =>
      var size := TryDownload(fetch(urls[k])).value;
      Progress(MapFile(p.avail, e.slug, name), p.files[name := size], p.downloaded + 1, p.failed)
  }

  /** A standard whose file is already in the folder: its slug is mapped to the file and
      it counts as downloaded; the folder is left as it is. */
  function Known(p: Progress, e: Entry): (r: Progress)
    requires Distinct(JsMap.Keys(p.avail))
    ensures Distinct(JsMap.Keys(r.avail)) && |r.avail| >= |p.avail|
    ensures r.downloaded == p.downloaded + 1 && r.failed == p.failed && r.files == p.files
    ensures JsMap.Get(r.avail, e.slug) == Some(CodeToFilename(e.code))
    ensures forall j :: j != e.slug ==> JsMap.Get(r.avail, j) == JsMap.Get(p.avail, j)
  {
    p.(avail := MapFile(p.avail, e.slug, CodeToFilename(e.code)), downloaded := p.downloaded + 1)
  }

  /** One standard of the loop: a file already in the folder, whatever its size, is mapped
      and counted as downloaded; otherwise the addresses are tried. No file of the folder
      is ever written over. */
  function Step(p: Progress, e: Entry, fetch: string -> Answer): (r: Progress)
    requires Distinct(JsMap.Keys(p.avail))
    ensures Distinct(JsMap.Keys(r.avail)) && |r.avail| >= |p.avail|
    ensures r.downloaded + r.failed == p.downloaded + p.failed + 1
    ensures r.downloaded == p.downloaded + 1 ==> JsMap.Get(r.avail, e.slug) == Some(CodeToFilename(e.code))
                                                 && CodeToFilename(e.code) in r.files
    ensures r.failed == p.failed + 1 <==> NotFound(p, e, fetch)
    ensures r.failed == p.failed + 1 ==> r.avail == p.avail && r.files == p.files
    ensures forall j :: j != e.slug ==> JsMap.Get(r.avail, j) == JsMap.Get(p.avail, j)
    ensures forall x :: x in p.files ==> x in r.files && r.files[x] == p.files[x]
  {
    if CodeToFilename(e.code) in p.files then Known(p, e) else Fetch(p, e, fetch)
  }

  /** The loop over the selected standards. */
  function Loop(p: Progress, items: seq<Entry>, fetch: string -> Answer): (r: Progress)
    requires Distinct(JsMap.Keys(p.avail))
    ensures Distinct(JsMap.Keys(r.avail)) && |r.avail| >= |p.avail|
    ensures r.downloaded + r.failed == p.downloaded + p.failed + |items|
    decreases |items|
  {
    if |items| == 0 then p else Loop(Step(p, items[0], fetch), items[1..], fetch)
  }

  /** The slugs of the standards. */
  function Slugs(items: seq<Entry>): set<string> {
    set e | e in items :: e.slug
  }

  /** The loop keeps every file of the folder, adds slugs only at the end of the map and
      changes no entry of a slug it did not process. */
  lemma {:induction false} LoopKeeps(p: Progress, items: seq<Entry>, fetch: string -> Answer)
    requires Distinct(JsMap.Keys(p.avail))
    ensures var r := Loop(p, items, fetch);
      JsMap.Keys(p.avail) <= JsMap.Keys(r.avail)
      && (forall j :: j !in Slugs(items) ==> JsMap.Get(r.avail, j) == JsMap.Get(p.avail, j))
      && (forall x :: x in p.files ==> x in r.files && r.files[x] == p.files[x])
    decreases |items|
  {
    if |items| > 0 {
      var q := Step(p, items[0], fetch);
      LoopKeeps(q, items[1..], fetch);
      assert Slugs(items[1..]) <= Slugs(items) by {
        forall j | j in Slugs(items[1..])
          ensures j in Slugs(items)
        {
          var e :| e in items[1..] && e.slug == j;
          assert e in items;
        }
      }
      assert items[0] in items;
    }
  }

  /** The last lines of the run. */
  datatype Report = Report(downloaded: nat, failed: nat, mappings: nat)

  /** `max_downloads`: the first argument read by `int`, or 20 without one. `arg` is
      `None` without an argument and `Some(None)` when `int` raises. */
  function MaxDownloads(arg: Option<Option<int>>): (r: Option<int>)
    ensures arg.None? ==> r == Some(20)
    ensures arg.Some? ==> r == arg.value
  {
    if arg.None? then Some(20) else arg.value
  }

  /** `missing[:max_downloads]`: the first `n` missing standards, or with a negative `n`
      all but the last `-n` of them (Python's slice). */
  function Selected(standards: seq<Entry>, hasFile: set<string>, n: int): (r: seq<Entry>)
    ensures |r| <= |standards|
    ensures n >= 0 ==> |r| <= n
    ensures |r| <= |Missing(standards, hasFile)| && r == Missing(standards, hasFile)[..|r|]
    ensures n < 0 ==> |r| == if |Missing(standards, hasFile)| + n < 0 then 0 else |Missing(standards, hasFile)| + n
  {
    Slice(Missing(standards, hasFile), 0, n)
  }

  /** The slugs that already have a file: the keys of the availability map. */
  function HasFile(avail: seq<(string, string)>): set<string> {
    set k | k in JsMap.Keys(avail)
  }

  /** `main`: the missing standards, cut by the Python slice `missing[:max_downloads]`,
      go through the loop; the availability map is saved and the counters reported. An
      argument `int` cannot read ends the script before anything is saved. */
  function Main(standards: seq<Entry>, avail: seq<(string, string)>, files: map<string, nat>,
                arg: Option<Option<int>>, fetch: string -> Answer): (r: Option<(Report, Progress)>)
    requires Distinct(JsMap.Keys(avail))
    ensures r.None? <==> arg == Some(None)
    ensures r.Some? ==> r.value.0.downloaded + r.value.0.failed <= |standards|
    ensures r.Some? && arg.None? ==> r.value.0.downloaded + r.value.0.failed <= 20
    ensures r.Some? ==> r.value.0.mappings == |r.value.1.avail| >= |avail|
  {
    match MaxDownloads(arg)
    case None => None
    case Some(n) =>
      var out := Loop(Progress(avail, files, 0, 0), Selected(standards, HasFile(avail), n), fetch);
      Some((Report(out.downloaded, out.failed, |out.avail|), out))
  }
}

=== FILE: notion_sync.dfy ===
/** The Notion import (`src/lib/notion-sync.ts`): rich text to plain text, Notion blocks to
    Markdown, the page properties read into frontmatter fields, the MDX document written per
    page, and the counters of a sync run over the pages of the database query. The Notion
    client is replaced by its answers: the query's result pages and each page's blocks
    (or the error fetching them), and the outcome of writing each file. */
module NotionSync {
  import opened Common
  import opened Text
  import opened Yaml
  import opened Frontmatter
  import opened Slug

  /** A rich-text property or block text: the `plain_text` of each fragment. */
  type RichText = seq<string>

  /** `richTextToString`: the fragments' text joined with nothing in between. */
  function RichTextToString(rt: RichText): (s: string)
    ensures |rt| == 0 ==> s == ""
    ensures |rt| > 0 ==> StartsWith(s, rt[0])
  {
    if |rt| == 0 then "" else rt[0] + RichTextToString(rt[1..])
  }

  /** Concatenating rich texts concatenates their plain texts, so the fragments come out
      in order and nothing is lost or added. */
  lemma {:induction false} RichTextAppend(a: RichText, b: RichText)
    ensures RichTextToString(a + b) == RichTextToString(a) + RichTextToString(b)
  {
    if |a| == 0 {
      assert a + b == b;
    } else {
      assert (a + b)[1..] == a[1..] + b;
      RichTextAppend(a[1..], b);
    }
  }

  /** A Notion block as the converter sees it. */
  datatype Block =
    | Paragraph(text: RichText)
    | Heading1(text: RichText)
    | Heading2(text: RichText)
    | Heading3(text: RichText)
    | Bulleted(text: RichText)
    | Numbered(text: RichText)
    | Quote(text: RichText)
    | Code(language: Option<string>, text: RichText)
    | Divider
    | Callout(text: RichText)
    | Unsupported(kind: string)

  /** The Markdown a block becomes, `None` for a block type the converter skips. */
  function BlockLine(b: Block): (r: Option<string>)
    ensures r.None? <==> b.Unsupported?
  {
    match b
    case Paragraph(t) => Some(RichTextToString(t))
    case Heading1(t) => Some("# " + RichTextToString(t))
    case Heading2(t) => Some("## " + RichTextToString(t))
    case Heading3(t) => Some("### " + RichTextToString(t))
    case Bulleted(t) => Some("- " + RichTextToString(t))
    case Numbered(t) => Some("1. " + RichTextToString(t))
    case Quote(t) => Some("> " + RichTextToString(t))
    case Code(lang, t) => Some("```" + lang.GetOr("") + "\n" + RichTextToString(t) + "\n```")
    case Divider => Some("---")
    case Callout(t) => Some("> " + RichTextToString(t))
    case Unsupported(_) => None
  }

  /** The heading level of a block, 0 for a block that is not a heading. */
  function Level(b: Block): nat {
    match b
    case Heading1(_) => 1
    case Heading2(_) => 2
    case Heading3(_) => 3
    case _ => 0
  }

  /** A heading becomes a Markdown ATX heading of its own level: exactly that many `#`,
      then a space, then its text. */
  lemma HeadingLine(b: Block)
    requires Level(b) > 0
    ensures var line := BlockLine(b).value; var k := Level(b);
      && |line| > k
      && (forall i :: 0 <= i < k ==> line[i] == '#')
      && line[k] == ' '
      && line[k + 1..] == RichTextToString(b.text)
  {
    var t := RichTextToString(b.text);
    match b
    case Heading1(_) => assert BlockLine(b).value == "# " + t;
    case Heading2(_) => assert BlockLine(b).value == "## " + t;
    case Heading3(_) => assert BlockLine(b).value == "### " + t;
  }

  /** A quote and a callout with the same text become the same block quote. */
  lemma CalloutIsQuote(t: RichText)
    ensures BlockLine(Callout(t)) == BlockLine(Quote(t))
  {
  }

  /** `blocksToMarkdown`: the lines of the supported blocks, in order, separated by blank
      lines. */
  function BlocksToMarkdown(blocks: seq<Block>): string {
    Join(Collect(blocks, BlockLine), "\n\n")
  }

  /** Unsupported blocks leave no trace: removing one does not change the Markdown. */
  lemma UnsupportedVanishes(a: seq<Block>, kind: string, b: seq<Block>)
    ensures BlocksToMarkdown(a + [Unsupported(kind)] + b) == BlocksToMarkdown(a + b)
  {
    assert BlockLine(Unsupported(kind)).None?;
    CollectSkips(a, Unsupported(kind), b, BlockLine);
  }

  /** Every supported block's Markdown occurs in the converted text. */
  lemma BlockInMarkdown(blocks: seq<Block>, i: nat)
    requires i < |blocks| && !blocks[i].Unsupported?
    ensures Contains(BlocksToMarkdown(blocks), BlockLine(blocks[i]).value)
  {
    var lines := Collect(blocks, BlockLine);
    var u := BlockLine(blocks[i]).value;
    CollectMembers(blocks, BlockLine, u);
    var j :| 0 <= j < |lines| && lines[j] == u;
    JoinHasPart(lines, "\n\n", j);
    var k: nat :| StartsAt(Join(lines, "\n\n"), k, lines[j]);
  }

  /** A page property, by its Notion type. */
  datatype Prop =
    | TitleProp(title: RichText)
    | RichTextProp(richText: RichText)
    | SelectProp(select: Option<string>)
    | MultiSelectProp(names: seq<string>)
    | DateProp(start: Option<string>)
    | OtherProp(kind: string)

  /** `props[zh] ?? props[En] ?? props[en]`: the first of the three names present. */
  function Lookup(props: map<string, Prop>, zh: string, upper: string, lower: string): (r: Option<Prop>)
    ensures zh in props ==> r == Some(props[zh])
    ensures zh !in props && upper in props ==> r == Some(props[upper])
    ensures zh !in props && upper !in props ==> r == (if lower in props then Some(props[lower]) else None)
  {
    if zh in props then Some(props[zh])
    else if upper in props then Some(props[upper])
    else if lower in props then Some(props[lower])
    else None
  }

  const Untitled: string := "无标题"

  /** The frontmatter fields of a page. */
  datatype PageMeta = PageMeta(title: string, summary: string, category: string, tags: seq<string>, date: string)

  /** `extractPageMeta`. `today` is the date part of the current ISO time. A property of
      the wrong type counts as missing. */
  function ExtractPageMeta(props: map<string, Prop>, today: string): (m: PageMeta)
    ensures var p := Lookup(props, "标题", "Title", "title");
      m.title == if p.Some? && p.value.TitleProp? then RichTextToString(p.value.title) else Untitled
    ensures var p := Lookup(props, "摘要", "Summary", "summary");
      m.summary == if p.Some? && p.value.RichTextProp? then RichTextToString(p.value.richText) else ""
    ensures var p := Lookup(props, "分类", "Category", "category");
      m.category == if p.Some? && p.value.SelectProp? then p.value.select.GetOr(Uncategorized) else Uncategorized
    ensures var p := Lookup(props, "标签", "Tags", "tags");
      m.tags == if p.Some? && p.value.MultiSelectProp? then p.value.names else []
    ensures var p := Lookup(props, "日期", "Date", "date");
      m.date == if p.Some? && p.value.DateProp? then p.value.start.GetOr(today) else today
  {
    var t := Lookup(props, "标题", "Title", "title");
    var s := Lookup(props, "摘要", "Summary", "summary");
    var c := Lookup(props, "分类", "Category", "category");
    var g := Lookup(props, "标签", "Tags", "tags");
    var d := Lookup(props, "日期", "Date", "date");
    PageMeta(
      if t.Some? && t.value.TitleProp? then RichTextToString(t.value.title) else Untitled,
      if s.Some? && s.value.RichTextProp? then RichTextToString(s.value.richText) else "",
      if c.Some? && c.value.SelectProp? then c.value.select.GetOr(Uncategorized) else Uncategorized,
      if g.Some? && g.value.MultiSelectProp? then g.value.names else [],
      if d.Some? && d.value.DateProp? then d.value.start.GetOr(today) else today)
  }

  const Uncategorized: string := "未分类"

  /** The Chinese property name shadows the English ones even when its value has the wrong
      type: the page is then untitled although a proper `Title` exists. */
  lemma ChineseNameShadows(props: map<string, Prop>, today: string)
    requires "标题" in props && !props["标题"].TitleProp?
    requires "Title" in props && props["Title"].TitleProp?
    ensures ExtractPageMeta(props, today).title == Untitled
  {
  }

  /** The page of the converter's own test: the title, summary, category, tags and date
      come from the Chinese-named properties. */
  lemma SampleMeta(today: string)
    ensures var props := map[
        "标题" := TitleProp(["噪声作业健康监护测试文章"]),
        "摘要" := RichTextProp(["这是一篇测试文章的摘要内容。"]),
        "分类" := SelectProp(Some("案例分析")),
        "标签" := MultiSelectProp(["噪声", "职业性噪声聋"]),
        "日期" := DateProp(Some("2026-02-19")),
        "状态" := SelectProp(Some("已发布"))];
      ExtractPageMeta(props, today)
        == PageMeta("噪声作业健康监护测试文章", "这是一篇测试文章的摘要内容。", "案例分析", ["噪声", "职业性噪声聋"], "2026-02-19")
  {
  }

  /** `replace(/"/g, '\\"')`: quotes are escaped, backslashes are not. */
  function EscapeQuotes(s: string): string {
    ReplaceChar(s, '"', "\\\"")
  }

  /** Without a backslash in the text, escaping only the quotes is the full escape. */
  lemma EscapeQuotesAgrees(s: string)
    requires '\\' !in s
    ensures EscapeQuotes(s) == Escape(s)
  {
  }

  /** The `tags` block: `tags: []`, or `tags:` and one unquoted `  - tag` line per tag. */
  function TagsYaml(tags: seq<string>): (ls: seq<string>)
    ensures |tags| == 0 ==> ls == ["tags: []"]
    ensures |tags| > 0 ==> |ls| == |tags| + 1 && ls[0] == "tags:" && forall i :: 0 <= i < |tags| ==> ls[i + 1] == "  - " + tags[i]
  {
    if |tags| == 0 then ["tags: []"]
    else
      var items := seq(|tags|, i requires 0 <= i < |tags| => "  - " + tags[i]);
      ItemsAfterHead("tags:", items);
      ["tags:"] + items
  }

  lemma ItemsAfterHead(h: string, items: seq<string>)
    ensures forall i :: 0 <= i < |items| ==> ([h] + items)[i + 1] == items[i]
  {
  }

  /** The frontmatter lines of a page: title and summary with their quotes escaped, date
      and category inserted as they are, then the tags. */
  function NotionFront(m: PageMeta): (ls: seq<string>)
    ensures |ls| == 4 + |TagsYaml(m.tags)|
  {
    [RawField("title", EscapeQuotes(m.title)), RawField("date", m.date), RawField("category", m.category),
     RawField("summary", EscapeQuotes(m.summary))] + TagsYaml(m.tags)
  }

  /** The `tags` block of the template: `tags: []`, or `tags:` over one `  - ` line per
      tag. */
  function TagsText(tags: seq<string>): string {
    if |tags| > 0 then "tags:\n" + Join(TagsYaml(tags)[1..], "\n") else "tags: []"
  }

  /** `buildMdx`: the template, a frontmatter block, an empty line, the body and a final
      line break. */
  function BuildMdx(m: PageMeta, body: string): string {
    "---\n"
      + RawField("title", EscapeQuotes(m.title)) + "\n"
      + RawField("date", m.date) + "\n"
      + RawField("category", m.category) + "\n"
      + RawField("summary", EscapeQuotes(m.summary)) + "\n"
      + TagsText(m.tags) + "\n---\n\n"
      + body + "\n"
  }

  /** The template is the shared document layout over the page's frontmatter lines. */
  lemma BuildMdxIsDocument(m: PageMeta, body: string)
    ensures BuildMdx(m, body) == Document(NotionFront(m), body)
  {
    TagsTextIsJoin(m.tags);
    TemplateIsDocument(RawField("title", EscapeQuotes(m.title)), RawField("date", m.date), RawField("category", m.category),
      RawField("summary", EscapeQuotes(m.summary)), TagsYaml(m.tags), body);
  }

  /** The tags block is its lines joined. */
  lemma TagsTextIsJoin(tags: seq<string>)
    ensures |TagsYaml(tags)| >= 1
    ensures TagsText(tags) == Join(TagsYaml(tags), "\n")
  {
    var ys := TagsYaml(tags);
    if |tags| > 0 {
      JoinCons(ys[0], ys[1..], "\n");
      assert ys == [ys[0]] + ys[1..];
    }
  }

  /** The template's layout, for any four field lines and tag lines. */
  lemma TemplateIsDocument(a: string, b: string, c: string, d: string, tags: seq<string>, body: string)
    requires |tags| >= 1
    ensures "---\n" + a + "\n" + b + "\n" + c + "\n" + d + "\n" + Join(tags, "\n") + "\n---\n\n" + body + "\n"
      == Document([a, b, c, d] + tags, body)
  {
    var rest := tags + ["---", ""];
    ClosingLines(tags, "---", "", "\n");
    JoinFive("---", a, b, c, d, rest, "\n");
    LinesShape("---", a, b, c, d, tags, "");
    TemplateLiterals();
    Regroup("---", "\n", "", a, b, c, d, Join(tags, "\n"), body);
  }

  /** The document's lines regrouped: the opening line and four fields, then the rest. */
  lemma LinesShape<T>(o: T, a: T, b: T, c: T, d: T, tags: seq<T>, e: T)
    ensures [o] + ([a, b, c, d] + tags) + [o, e] == [o, a, b, c, d] + (tags + [o, e])
  {
  }

  /** The literal pieces of the template, split at their line breaks. */
  lemma TemplateLiterals()
    ensures "---\n" == "---" + "\n"
    ensures "\n---\n\n" == "\n" + ("---" + "\n" + "") + "\n"
  {
  }

  /** The template's concatenation, regrouped the way the join builds it. */
  lemma Regroup(o: string, nl: string, e: string, a: string, b: string, c: string, d: string, j: string, body: string)
    ensures (o + nl) + a + nl + b + nl + c + nl + d + nl + j + (nl + (o + nl + e) + nl) + body + nl
      == ((o + nl + a + nl + b + nl + c + nl + d + nl) + (j + nl + (o + nl + e))) + nl + (body + nl)
  {
  }

  /** The two closing lines after the tags. */
  lemma ClosingLines(tags: seq<string>, o: string, e: string, sep: string)
    requires |tags| >= 1
    ensures Join(tags + [o, e], sep) == Join(tags, sep) + sep + (o + sep + e)
  {
    JoinAppend(tags, [o, e], sep);
    JoinCons(o, [e], sep);
    assert [o, e] == [o] + [e];
  }

  /** Five leading lines of a join, spelled out. */
  lemma JoinFive(x0: string, x1: string, x2: string, x3: string, x4: string, rest: seq<string>, sep: string)
    requires |rest| >= 1
    ensures Join([x0, x1, x2, x3, x4] + rest, sep)
      == x0 + sep + x1 + sep + x2 + sep + x3 + sep + x4 + sep + Join(rest, sep)
  {
    var r3 := [x4] + rest;
    var r2 := [x3] + r3;
    var r1 := [x2] + r2;
    var r0 := [x1] + r1;
    ConsFive(x0, x1, x2, x3, x4, rest);
    JoinCons(x0, r0, sep);
    JoinStep(x0 + sep, x1, r1, sep);
    JoinStep(x0 + sep + x1 + sep, x2, r2, sep);
    JoinStep(x0 + sep + x1 + sep + x2 + sep, x3, r3, sep);
    JoinStep(x0 + sep + x1 + sep + x2 + sep + x3 + sep, x4, rest, sep);
  }

  lemma ConsFive<T>(x0: T, x1: T, x2: T, x3: T, x4: T, rest: seq<T>)
    ensures [x0, x1, x2, x3, x4] + rest == [x0] + ([x1] + ([x2] + ([x3] + ([x4] + rest))))
  {
  }

  /** One more leading line, after text already joined. */
  lemma JoinStep(acc: string, x: string, rest: seq<string>, sep: string)
    requires |rest| >= 1
    ensures acc + Join([x] + rest, sep) == acc + x + sep + Join(rest, sep)
  {
    JoinCons(x, rest, sep);
  }

  lemma JoinCons(x: string, rest: seq<string>, sep: string)
    requires |rest| >= 1
    ensures Join([x] + rest, sep) == x + sep + Join(rest, sep)
  {
    assert ([x] + rest)[1..] == rest;
  }

  /** A page whose fields fit on one line is written as a document the frontmatter reader
      takes apart again into exactly the page's frontmatter lines and body. */
  lemma BuildMdxReadsBack(m: PageMeta, body: string)
    requires OneLine(m.title) && OneLine(m.summary) && OneLine(m.category) && OneLine(m.date)
    requires forall i :: 0 <= i < |m.tags| ==> OneLine(m.tags[i])
    ensures ReadDocument(BuildMdx(m, body)) == Some((NotionFront(m), "\n" + body + "\n"))
  {
    BuildMdxIsDocument(m, body);
    FrontOneLine(m);
    DocumentReadsBack(NotionFront(m), body);
  }

  lemma FrontOneLine(m: PageMeta)
    requires OneLine(m.title) && OneLine(m.summary) && OneLine(m.category) && OneLine(m.date)
    requires forall i :: 0 <= i < |m.tags| ==> OneLine(m.tags[i])
    ensures FrontLines(NotionFront(m))
  {
    var fields := [RawField("title", EscapeQuotes(m.title)), RawField("date", m.date), RawField("category", m.category),
      RawField("summary", EscapeQuotes(m.summary))];
    QuotesNoNewline(m.title);
    QuotesNoNewline(m.summary);
    RawFieldFront("title", EscapeQuotes(m.title));
    RawFieldFront("date", m.date);
    RawFieldFront("category", m.category);
    RawFieldFront("summary", EscapeQuotes(m.summary));
    assert FrontLines(fields);
    TagsFront(m.tags);
    FrontLinesAppend(fields, TagsYaml(m.tags));
  }

  /** A field line with a one-line key and value is a frontmatter line. */
  lemma RawFieldFront(key: string, raw: string)
    requires OneLine(key) && OneLine(raw)
    ensures IsFrontLine(RawField(key, raw))
  {
  }

  /** The tag lines are frontmatter lines when every tag fits on one line. */
  lemma TagsFront(tags: seq<string>)
    requires forall i :: 0 <= i < |tags| ==> OneLine(tags[i])
    ensures FrontLines(TagsYaml(tags))
  {
    var ls := TagsYaml(tags);
    forall i | 0 <= i < |ls|
      ensures IsFrontLine(ls[i])
    {
      if |tags| > 0 && i > 0 {
        ItemFront(tags[i - 1]);
      }
    }
  }

  lemma ItemFront(tag: string)
    requires OneLine(tag)
    ensures IsFrontLine("  - " + tag)
  {
  }

  lemma {:induction false} QuotesNoNewline(s: string)
    ensures OneLine(s) ==> OneLine(EscapeQuotes(s))
  {
    if |s| > 0 {
      QuotesNoNewline(s[1..]);
    }
  }

  /** A title without backslashes reads back from its frontmatter line. */
  lemma TitleReadsBack(m: PageMeta)
    requires '\\' !in m.title
    ensures ReadField(NotionFront(m)[0], "title") == Some(m.title)
  {
    EscapeQuotesAgrees(m.title);
    FieldRoundTrip("title", m.title);
  }

  /** Backslashes are not escaped, so a title ending in one no longer reads back: its
      final backslash escapes the closing quote. */
  lemma TrailingBackslashTitle(m: PageMeta)
    requires m.title == "a\\"
    ensures ReadField(NotionFront(m)[0], "title").None?
  {
    assert EscapeQuotes(m.title) == "a\\";
    assert NotionFront(m)[0] == "title: \"a\\\"";
    assert Unescape("a\\") == None;
  }

  /** How the client's call for a page's blocks ended. */
  datatype Fetch<T> = Fetched(value: T) | Threw(message: string)

  /** A page of the query result, with what the client returns for its blocks and what
      happens when its file is written (`Some(message)` when `writeFile` throws). */
  datatype Page = Page(id: string, props: map<string, Prop>, blocks: Fetch<seq<Block>>, writeError: Option<string>)

  /** What one page contributes to the run. */
  datatype Outcome = Skipped | Synced(slug: string, mdx: string) | Failed(message: string)

  /** The loop body for one page. `now` stands for `Date.now()`, read only when the page
      id is empty. */
  function ProcessPage(page: Page, today: string, now: nat): (o: Outcome)
    ensures var m := ExtractPageMeta(page.props, today);
      o.Skipped? <==> m.title == "" || m.title == Untitled
    ensures o.Failed? <==>
      && !o.Skipped?
      && (page.blocks.Threw? || page.writeError.Some?)
    ensures o.Failed? ==>
      o.message == if page.blocks.Threw? then page.blocks.message else page.writeError.value
    ensures o.Synced? ==>
      && page.blocks.Fetched? && page.writeError.None?
      && o.slug == NotionSlugify(ExtractPageMeta(page.props, today).title, Some(page.id), now)
      && o.mdx == BuildMdx(ExtractPageMeta(page.props, today), BlocksToMarkdown(page.blocks.value))
  {
    var m := ExtractPageMeta(page.props, today);
    if m.title == "" || m.title == Untitled then Skipped
    else if page.blocks.Threw? then Failed(page.blocks.message)
    else
      var slug := NotionSlugify(m.title, Some(page.id), now);
      var mdx := BuildMdx(m, BlocksToMarkdown(page.blocks.value));
      if page.writeError.Some? then Failed(page.writeError.value) else Synced(slug, mdx)
  }

  /** `NotionSyncResult`. */
  datatype SyncResult = SyncResult(synced: nat, skipped: nat, errors: seq<string>, slugs: seq<string>)

  const Empty: SyncResult := SyncResult(0, 0, [], [])

  /** Adds one page's outcome to the result. */
  function Tally(r: SyncResult, o: Outcome): SyncResult {
    match o
    case Skipped => r.(skipped := r.skipped + 1)
    case Synced(slug, _) => r.(synced := r.synced + 1, slugs := r.slugs + [slug])
    case Failed(msg) => r.(errors := r.errors + [msg])
  }

  /** The outcome of each page, in order. */
  function Outcomes(pages: seq<Page>, today: string, now: nat): (os: seq<Outcome>)
    ensures |os| == |pages| && forall i :: 0 <= i < |pages| ==> os[i] == ProcessPage(pages[i], today, now)
  {
    seq(|pages|, i requires 0 <= i < |pages| => ProcessPage(pages[i], today, now))
  }

  lemma OutcomesSnoc(pages: seq<Page>, p: Page, today: string, now: nat)
    ensures Outcomes(pages + [p], today, now) == Outcomes(pages, today, now) + [ProcessPage(p, today, now)]
  {
  }

  /** The result after the outcomes `os`, in order. */
  function TallyAll(os: seq<Outcome>): SyncResult {
    if |os| == 0 then Empty else Tally(TallyAll(os[..|os| - 1]), os[|os| - 1])
  }

  lemma TallySnoc(os: seq<Outcome>, o: Outcome)
    ensures TallyAll(os + [o]) == Tally(TallyAll(os), o)
  {
    assert (os + [o])[..|os + [o]| - 1] == os;
  }

  /** The slug an outcome reports. */
  function SlugOf(o: Outcome): Option<string> {
    if o.Synced? then Some(o.slug) else None
  }

  /** Every outcome is counted exactly once, as synced, skipped or an error, and the slugs
      are those of the synced pages in processing order. */
  lemma {:induction false} TallyAllCounts(os: seq<Outcome>)
    ensures var r := TallyAll(os);
      && r.synced + r.skipped + |r.errors| == |os|
      && r.slugs == Collect(os, SlugOf)
      && |r.slugs| == r.synced
  {
    if |os| > 0 {
      var init := os[..|os| - 1];
      TallyAllCounts(init);
      CollectAppend(init, [os[|os| - 1]], SlugOf);
      assert init + [os[|os| - 1]] == os;
    }
  }

  /** One answer of the database query: a batch of pages and the cursor of the next. */
  datatype QueryResponse = QueryResponse(results: seq<Page>, nextCursor: Option<string>)

  /** `while (cursor)`: another query follows only for a non-empty cursor. */
  predicate Continues(resp: QueryResponse) {
    resp.nextCursor.Some? && resp.nextCursor.value != ""
  }

  /** The pages a run reads: the batches up to and including the first one without a next
      cursor. The answers are given as a list, so a run also ends when the list does. */
  function PagesRead(responses: seq<QueryResponse>): seq<Page> {
    if |responses| == 0 then []
    else responses[0].results + (if Continues(responses[0]) then PagesRead(responses[1..]) else [])
  }

  lemma PagesReadStep(responses: seq<QueryResponse>, k: nat)
    requires k < |responses|
    ensures PagesRead(responses[k..]) == responses[k].results
      + (if Continues(responses[k]) then PagesRead(responses[k + 1..]) else [])
  {
    assert responses[k..][1..] == responses[k + 1..];
  }

  lemma AppendNil<T>(xs: seq<T>)
    ensures xs + [] == xs
  {
  }

  lemma AppendAssoc<T>(a: seq<T>, b: seq<T>, c: seq<T>)
    ensures a + (b + c) == (a + b) + c
    ensures (a + b) + [] == a + b
  {
  }

  lemma PagesReadEnd(responses: seq<QueryResponse>)
    ensures PagesRead(responses[|responses|..]) == []
  {
    assert responses[|responses|..] == [];
  }

  /** `syncNotionDatabase`: the query loop over the answers and the per-page loop. */
  method SyncNotionDatabase(responses: seq<QueryResponse>, today: string, now: nat) returns (result: SyncResult)
    ensures result == TallyAll(Outcomes(PagesRead(responses), today, now))
    ensures result.synced + result.skipped + |result.errors| == |PagesRead(responses)|
    ensures result.slugs == Collect(Outcomes(PagesRead(responses), today, now), SlugOf)
  {
    result := Empty;
    ghost var done: seq<Page> := [];
    var k := 0;
    var more := true;
    while more && k < |responses|
      invariant 0 <= k <= |responses|
      invariant result == TallyAll(Outcomes(done, today, now))
      invariant more ==> PagesRead(responses) == done + PagesRead(responses[k..])
      invariant !more ==> PagesRead(responses) == done
      decreases |responses| - k
    {
      var batch := responses[k].results;
      result := SyncBatch(result, batch, done, today, now);
      PagesReadStep(responses, k);
      AppendAssoc(done, batch, PagesRead(responses[k + 1..]));
      AppendAssoc(done, batch, []);
      done := done + batch;
      more := Continues(responses[k]);
      k := k + 1;
    }
    if more {
      PagesReadEnd(responses);
      AppendNil(done);
    }
    assert PagesRead(responses) == done;
    TallyAllCounts(Outcomes(PagesRead(responses), today, now));
  }

  /** The per-page loop over one batch, continuing the result of the pages `done`. */
  method SyncBatch(start: SyncResult, batch: seq<Page>, ghost done: seq<Page>, today: string, now: nat) returns (result: SyncResult)
    requires start == TallyAll(Outcomes(done, today, now))
    ensures result == TallyAll(Outcomes(done + batch, today, now))
  {
    result := start;
    var i := 0;
    PrefixSnoc(done, batch, 0);
    while i < |batch|
      invariant 0 <= i <= |batch|
      invariant result == TallyAll(Outcomes(done + batch[..i], today, now))
    {
      PrefixSnoc(done, batch, i);
      OutcomesSnoc(done + batch[..i], batch[i], today, now);
      TallySnoc(Outcomes(done + batch[..i], today, now), ProcessPage(batch[i], today, now));
      result := Tally(result, ProcessPage(batch[i], today, now));
      i := i + 1;
    }
    PrefixSnoc(done, batch, i);
  }

  lemma PrefixSnoc<T>(done: seq<T>, batch: seq<T>, i: nat)
    requires i <= |batch|
    ensures done + batch[..0] == done && batch[..|batch|] == batch
    ensures i < |batch| ==> done + batch[..i + 1] == (done + batch[..i]) + [batch[i]]
  {
  }

  /** Skipped pages write nothing and report no slug: a run over untitled pages syncs
      nothing. */
  lemma {:induction false} UntitledPagesSkipped(pages: seq<Page>, today: string, now: nat)
    requires forall i :: 0 <= i < |pages| ==> ExtractPageMeta(pages[i].props, today).title == Untitled
    ensures TallyAll(Outcomes(pages, today, now)) == SyncResult(0, |pages|, [], [])
  {
    if |pages| > 0 {
      var init := pages[..|pages| - 1];
      UntitledPagesSkipped(init, today, now);
      assert Outcomes(pages, today, now)[..|pages| - 1] == Outcomes(init, today, now);
    }
  }
}

=== FILE: numbers.dfy ===
/** JavaScript's global `parseInt(string)` without a radix (section 19.2.5 of ECMA-262), the
    way the batch scripts read their numeric command-line options: leading white space is
    skipped, one sign is read, a `0x`/`0X` prefix selects hexadecimal, and the longest run
    of digits that follows is the value. Without a digit the result is NaN, here `None`. */
module Numbers {
  import opened Common
  import opened Text

  /** The length of the longest prefix of `s` whose characters all satisfy `p`. */
  function RunLength(s: string, p: char -> bool): (n: nat)
    ensures n <= |s|
    ensures forall i :: 0 <= i < n ==> p(s[i])
    ensures n < |s| ==> !p(s[n])
  {
    if |s| == 0 || !p(s[0]) then 0 else 1 + RunLength(s[1..], p)
  }

  predicate IsHexDigit(c: char) {
    IsDigit(c) || 'a' <= c <= 'f' || 'A' <= c <= 'F'
  }

  function HexDigitValue(c: char): (v: nat)
    requires IsHexDigit(c)
    ensures v < 16
  {
    if IsDigit(c) then DigitValue(c)
    else if 'a' <= c <= 'f' then c as int - 'a' as int + 10
    else c as int - 'A' as int + 10
  }

  /** The number a string of hexadecimal digits denotes. */
  function HexValue(s: string): nat
    requires forall i :: 0 <= i < |s| ==> IsHexDigit(s[i])
  {
    if |s| == 0 then 0 else HexValue(s[..|s| - 1]) * 16 + HexDigitValue(s[|s| - 1])
  }

  /** `u` begins with the hexadecimal prefix `0x` or `0X`. */
  predicate HexPrefixed(u: string) {
    |u| >= 2 && u[0] == '0' && (u[1] == 'x' || u[1] == 'X')
  }

  /** The unsigned value read after the sign: the hexadecimal digits after the prefix, or
      the leading decimal digits; `None` when that run is empty. */
  function Magnitude(u: string): (r: Option<nat>)
    ensures r.Some? ==> |u| > 0 && IsDigit(u[0])
    ensures |u| > 0 && IsDigit(u[0]) && !HexPrefixed(u) ==> r.Some?
  {
    if HexPrefixed(u) then
      var h := u[2..];
      var k := RunLength(h, IsHexDigit);
      if k == 0 then None else Some(HexValue(h[..k]))
    else
      var k := RunLength(u, IsDigit);
      if k == 0 then None else Some(DigitsValue(u[..k]))
  }

  /** `u` without its leading sign character, if it has one. */
  function Unsigned(t: string): (u: string)
    ensures |t| > 0 && (t[0] == '-' || t[0] == '+') ==> u == t[1..]
    ensures !(|t| > 0 && (t[0] == '-' || t[0] == '+')) ==> u == t
  {
    if |t| > 0 && (t[0] == '-' || t[0] == '+') then t[1..] else t
  }

  /** `s` after its leading white space. */
  function SkipSpace(s: string): (t: string)
    ensures |t| <= |s| && t == s[|s| - |t|..]
    ensures |t| > 0 ==> !IsSpace(t[0])
  {
    s[RunLength(s, IsSpace)..]
  }

  /** The number at the start of `t`, after an optional sign. */
  function Signed(t: string): (r: Option<int>)
    ensures r.Some? ==> |t| > 0 && (IsDigit(t[0]) || (|t| > 1 && IsDigit(t[1])))
  {
    match Magnitude(Unsigned(t))
    case None => None
    case Some(m) =>
      var v: int := m;
      Some(if |t| > 0 && t[0] == '-' then -v else v)
  }

  /** `parseInt(s)`; `None` is NaN. */
  function ParseInt(s: string): (r: Option<int>)
    ensures r.Some? ==> exists i :: 0 <= i < |s| && IsDigit(s[i])
  {
    var t := SkipSpace(s);
    var r := Signed(t);
    if r.Some? && IsDigit(t[0]) then
      assert t[0] == s[|s| - |t|];
      r
    else if r.Some? then
      assert t[1] == s[|s| - |t| + 1];
      r
    else r
  }

  /** `parseInt(arg) || d`, where an absent argument (`undefined`) reads as NaN: NaN and
      zero are falsy and give the default; every other number is kept, sign included. */
  function IntOr(arg: Option<string>, d: int): (r: int)
    ensures arg.None? ==> r == d
    ensures arg.Some? && ParseInt(arg.value).None? ==> r == d
    ensures arg.Some? && ParseInt(arg.value) == Some(0) ==> r == d
    ensures arg.Some? && ParseInt(arg.value).Some? && ParseInt(arg.value).value != 0
            ==> r == ParseInt(arg.value).value
  {
    match arg
    case None => d
    case Some(a) =>
      match ParseInt(a)
      case None => d
      case Some(v) => if v == 0 then d else v
  }

  /** The printed digits are one run of digits that starts no hexadecimal prefix. */
  lemma DigitsRun(n: nat, rest: string)
    requires |rest| == 0 || (!IsDigit(rest[0]) && rest[0] != 'x' && rest[0] != 'X')
    ensures RunLength(NatToString(n) + rest, IsDigit) == |NatToString(n)|
    ensures (NatToString(n) + rest)[..|NatToString(n)|] == NatToString(n)
    ensures !HexPrefixed(NatToString(n) + rest)
  {
    var d := NatToString(n);
    var s := d + rest;
    if |rest| > 0 {
      assert s[|d|] == rest[0];
    }
  }

  /** Leading white space is skipped up to the first other character. */
  lemma SkipSpaceOf(ws: string, t: string)
    requires forall i :: 0 <= i < |ws| ==> IsSpace(ws[i])
    requires |t| > 0 && !IsSpace(t[0])
    ensures SkipSpace(ws + t) == t
  {
    var s := ws + t;
    var k := RunLength(s, IsSpace);
    assert s[|ws|] == t[0];
    assert k == |ws|;
  }

  /** The unsigned value of a printed number followed by no further digit. */
  lemma MagnitudeDecimal(n: nat, rest: string)
    requires |rest| == 0 || (!IsDigit(rest[0]) && rest[0] != 'x' && rest[0] != 'X')
    ensures Magnitude(NatToString(n) + rest) == Some(n)
  {
    DigitsRun(n, rest);
    DigitsValueNatToString(n);
  }

  /** An optional minus sign before a digit is the only sign read. */
  lemma UnsignedAfterSign(neg: bool, u: string)
    requires |u| > 0 && IsDigit(u[0])
    ensures Unsigned((if neg then "-" else "") + u) == u
    ensures ((if neg then "-" else "") + u)[0] == '-' <==> neg
  {
    if neg {
      assert ("-" + u)[1..] == u;
    } else {
      assert "" + u == u;
    }
  }

  /** A printed number after an optional minus sign. */
  lemma SignedDecimal(neg: bool, n: nat, rest: string)
    requires |rest| == 0 || (!IsDigit(rest[0]) && rest[0] != 'x' && rest[0] != 'X')
    ensures Signed((if neg then "-" else "") + NatToString(n) + rest) == Some(if neg then -(n as int) else n)
  {
    var sign := if neg then "-" else "";
    var d := NatToString(n);
    var u := d + rest;
    MagnitudeDecimal(n, rest);
    FirstOfAppend(d, rest);
    UnsignedAfterSign(neg, u);
    AppendAssoc(sign, d, rest);
    SignedOf(sign + u, u, neg, n);
  }

  lemma AppendAssoc(a: string, b: string, c: string)
    ensures a + b + c == a + (b + c)
  {
  }

  lemma FirstOfAppend(a: string, b: string)
    requires |a| > 0
    ensures (a + b)[0] == a[0]
  {
  }

  /** The signed value once the sign and the magnitude are known. */
  lemma SignedOf(t: string, u: string, neg: bool, n: nat)
    requires |t| > 0 && (t[0] == '-' <==> neg)
    requires Unsigned(t) == u && Magnitude(u) == Some(n)
    ensures Signed(t) == Some(if neg then -(n as int) else n)
  {
  }

  /** Reading a printed number back: leading white space is skipped, a minus sign is
      kept, and whatever follows the digits (a fraction, a unit) is ignored, so
      `parseInt(" -3px")` is -3. */
  lemma ParseIntDecimal(ws: string, neg: bool, n: nat, rest: string)
    requires forall i :: 0 <= i < |ws| ==> IsSpace(ws[i])
    requires |rest| == 0 || (!IsDigit(rest[0]) && rest[0] != 'x' && rest[0] != 'X')
    ensures ParseInt(ws + ((if neg then "-" else "") + NatToString(n) + rest)) == Some(if neg then -(n as int) else n)
  {
    var t := (if neg then "-" else "") + NatToString(n) + rest;
    assert t[0] == '-' || t[0] == NatToString(n)[0];
    SkipSpaceOf(ws, t);
    SignedDecimal(neg, n, rest);
  }

  /** A hexadecimal option: `parseInt("0x10")` is 16. */
  lemma ParseIntHex()
    ensures ParseInt("0x10") == Some(16)
  {
    var s := "0x10";
    assert RunLength(s, IsSpace) == 0;
    assert s[0..] == s;
    assert Unsigned(s) == s;
    var h := s[2..];
    assert h == "10";
    assert RunLength(h, IsHexDigit) == 2;
    assert h[..2] == "10";
    assert "10"[..1] == "1";
    assert HexValue("1") == 1 by {
      assert "1"[..0] == "";
    }
  }

  /** Without a digit the option is NaN: `parseInt("--retry")`. */
  lemma ParseIntNoDigit(s: string)
    requires forall i :: 0 <= i < |s| ==> !IsDigit(s[i])
    ensures ParseInt(s).None?
  {
  }
}

=== FILE: openclaw_mdx.dfy ===
/** The MDX documents the two OpenClaw scripts write (`buildMdx` in
    `scripts/openclaw-push.mjs` and `scripts/openclaw-publish.mjs`): the same frontmatter
    except that the publish script lists the attachments where the push script always
    writes `attachments: []`. */
module OpenclawMdx {
  import opened Common
  import opened Yaml
  import opened Frontmatter

  /** An attachment as `buildAttachmentsYaml` reads it; an absent or empty type is a PDF. */
  datatype Attachment = Attachment(name: string, url: string, kind: Option<string>)

  /** The fields `buildMdx` reads. An optional field is `None` when the source's value is
      falsy, and otherwise holds what a template literal makes of that value, which may be
      `""` (an empty array is truthy): `value || fallback` is `GetOr(fallback)`. */
  datatype Draft = Draft(
    title: string,
    summary: Option<string>,
    date: Option<string>,
    category: Option<string>,
    tags: Option<seq<string>>,
    author: Option<string>,
    content: string,
    slug: Option<string>,
    attachments: seq<Attachment>)

  /** A string as the draft holds it: the empty string is falsy. */
  function Given(s: string): (r: Option<string>)
    ensures r.None? <==> s == ""
    ensures r.Some? ==> r.value == s
  {
    if s == "" then None else Some(s)
  }

  const NoTags: string := "无标签"
  const Uncategorized: string := "未分类"

  /** The tags listed in the frontmatter: the draft's own, or the placeholder. */
  function ShownTags(tags: Option<seq<string>>): (r: seq<string>)
    ensures |r| >= 1
  {
    if tags.Some? && |tags.value| > 0 then tags.value else [NoTags]
  }

  /** A date written between quotes without escaping reads back as itself when it holds
      neither a backslash nor a double quote. */
  predicate PlainDate(d: string) {
    '"' !in d && '\\' !in d
  }

  /** Every frontmatter value of the draft fits on one line. */
  predicate OneLineDraft(d: Draft, today: string) {
    OneLine(d.title) && OneLine(d.summary.GetOr("")) && OneLine(d.date.GetOr(today))
    && OneLine(d.category.GetOr(Uncategorized)) && OneLine(d.author.GetOr(""))
    && forall i :: 0 <= i < |ShownTags(d.tags)| ==> OneLine(ShownTags(d.tags)[i])
  }

  /** `date: "…"`: the date is written between quotes without escaping. */
  function DateLine(date: string): (l: string)
    ensures OneLine(date) ==> IsFrontLine(l)
  {
    "date: \"" + date + "\""
  }

  /** The unescaped date reads back as itself when it holds neither a backslash nor a
      double quote. */
  lemma DateLineReadBack(date: string)
    requires PlainDate(date)
    ensures ReadField(DateLine(date), "date") == Some(date)
  {
    var l := DateLine(date);
    assert l[|"date: \""|..|l| - 1] == date;
    assert l[..|"date: \""|] == "date: \"";
    UnescapePlain(date);
  }

  /** The author line, or an empty line when the author is falsy. */
  function AuthorLine(author: Option<string>): (l: string)
    ensures l == "" <==> author.None?
    ensures author.Some? && OneLine(author.value) ==> IsFrontLine(l)
  {
    if author.Some? then Field("author", author.value) else ""
  }

  /** The frontmatter lines before the tags. */
  function HeadLines(d: Draft, today: string): (ls: seq<string>)
    ensures |ls| == 5
    ensures OneLineDraft(d, today) ==> FrontLines(ls)
  {
    KeysOneLine();
    [Field("title", d.title), Field("summary", d.summary.GetOr("")), DateLine(d.date.GetOr(today)),
     Field("category", d.category.GetOr(Uncategorized)), AuthorLine(d.author)]
  }

  /** The title, summary and category lines read back as the title, the summary or `""`,
      and the category or `未分类`. */
  lemma HeadFieldsReadBack(d: Draft, today: string)
    ensures var ls := HeadLines(d, today);
      && ReadField(ls[0], "title") == Some(d.title)
      && ReadField(ls[1], "summary") == Some(d.summary.GetOr(""))
      && ReadField(ls[3], "category") == Some(d.category.GetOr(Uncategorized))
  {
    var ls := HeadLines(d, today);
    var summary, category := d.summary.GetOr(""), d.category.GetOr(Uncategorized);
    assert ls[0] == Field("title", d.title) && ls[1] == Field("summary", summary) && ls[3] == Field("category", category);
    FieldRoundTrip("title", d.title);
    FieldRoundTrip("summary", summary);
    FieldRoundTrip("category", category);
  }

  /** The date line reads back as the date or today when it needs no escaping (the date
      is written unescaped); the author line is empty exactly when there is no author,
      and reads back as the author otherwise. */
  lemma HeadOptionalReadBack(d: Draft, today: string)
    ensures var ls := HeadLines(d, today);
      && (PlainDate(d.date.GetOr(today)) ==> ReadField(ls[2], "date") == Some(d.date.GetOr(today)))
      && (ls[4] == "" <==> d.author.None?)
      && (d.author.Some? ==> ReadField(ls[4], "author") == Some(d.author.value))
  {
    var ls := HeadLines(d, today);
    var date := d.date.GetOr(today);
    assert ls[2] == DateLine(date) && ls[4] == AuthorLine(d.author);
    if d.author.Some? {
      FieldRoundTrip("author", d.author.value);
    }
    if PlainDate(date) {
      DateLineReadBack(date);
    }
  }

  /** `attachments: []`, or one name/url/type entry per attachment. */
  function AttachmentLines(atts: seq<Attachment>): (ls: seq<string>)
    ensures |atts| == 0 ==> ls == ["attachments: []"]
    ensures |atts| > 0 ==> |ls| == 1 + 3 * |atts| && ls[0] == "attachments:"
  {
    if |atts| == 0 then ["attachments: []"] else ["attachments:"] + Entries(atts)
  }

  /** The three lines of one attachment. */
  function Entry(a: Attachment): (ls: seq<string>)
    ensures |ls| == 3
    ensures OneLine(a.name) && OneLine(a.url) && OneLine(a.kind.GetOr("pdf")) ==> FrontLines(ls)
  {
    QuotedFront("  - name: ", a.name);
    QuotedFront("    url: ", a.url);
    QuotedFront("    type: ", a.kind.GetOr("pdf"));
    HeadsOneLine();
    [Quoted("  - name: ", a.name), Quoted("    url: ", a.url), Quoted("    type: ", a.kind.GetOr("pdf"))]
  }

  /** The entries of all attachments, in order. */
  function Entries(atts: seq<Attachment>): (ls: seq<string>)
    ensures |ls| == 3 * |atts|
  {
    FlatMapLength(atts, Entry, 3);
    FlatMap(atts, Entry)
  }

  /** Each attachment's three lines read back as its name, its URL and its type, `pdf`
      when it has none. */
  lemma EntriesReadBack(atts: seq<Attachment>, i: nat)
    requires i < |atts|
    ensures ReadQuoted(Entries(atts)[3 * i], "  - name: ") == Some(atts[i].name)
    ensures ReadQuoted(Entries(atts)[3 * i + 1], "    url: ") == Some(atts[i].url)
    ensures ReadQuoted(Entries(atts)[3 * i + 2], "    type: ") == Some(atts[i].kind.GetOr("pdf"))
  {
    var j := 3 * i;
    FlatMapAt(atts, Entry, 3, i, j);
    EntryLines(Entries(atts), j, Entry(atts[i]));
    EntryReadBack(atts[i]);
  }

  lemma EntryLines(e: seq<string>, j: nat, en: seq<string>)
    requires j + 3 <= |e| && |en| == 3 && e[j..j + 3] == en
    ensures e[j] == en[0] && e[j + 1] == en[1] && e[j + 2] == en[2]
  {
    assert e[j..j + 3][0] == e[j] && e[j..j + 3][1] == e[j + 1] && e[j..j + 3][2] == e[j + 2];
  }

  lemma EntryReadBack(a: Attachment)
    ensures ReadQuoted(Entry(a)[0], "  - name: ") == Some(a.name)
    ensures ReadQuoted(Entry(a)[1], "    url: ") == Some(a.url)
    ensures ReadQuoted(Entry(a)[2], "    type: ") == Some(a.kind.GetOr("pdf"))
  {
    QuotedRoundTrip("  - name: ", a.name);
    QuotedRoundTrip("    url: ", a.url);
    QuotedRoundTrip("    type: ", a.kind.GetOr("pdf"));
  }

  /** Attachment names, URLs and types that fit on one line give frontmatter lines. */
  predicate OneLineAttachments(atts: seq<Attachment>) {
    forall i :: 0 <= i < |atts| ==>
      OneLine(atts[i].name) && OneLine(atts[i].url) && OneLine(atts[i].kind.GetOr("pdf"))
  }

  lemma {:induction false} EntriesFront(atts: seq<Attachment>)
    ensures OneLineAttachments(atts) ==> FrontLines(Entries(atts))
    decreases |atts|
  {
    if |atts| > 0 && OneLineAttachments(atts) {
      assert OneLineAttachments(atts[1..]) by {
        forall i | 0 <= i < |atts[1..]|
          ensures OneLine(atts[1..][i].name) && OneLine(atts[1..][i].url) && OneLine(atts[1..][i].kind.GetOr("pdf"))
        {
          assert atts[1..][i] == atts[i + 1];
        }
      }
      EntriesFront(atts[1..]);
      FrontLinesAppend(Entry(atts[0]), Entries(atts[1..]));
    }
  }

  /** The fixed lines of the frontmatter are frontmatter lines. */
  lemma FixedLines()
    ensures FrontLines(["tags:"]) && FrontLines(["attachments: []"]) && FrontLines(["attachments:"])
  {
    assert IsFrontLine("tags:") && IsFrontLine("attachments: []") && IsFrontLine("attachments:");
  }

  lemma HeadsOneLine()
    ensures OneLine("  - name: ") && OneLine("    url: ") && OneLine("    type: ")
  {
  }

  /** The frontmatter lines: the head, the tags, then the attachment lines given. */
  function FrontWith(d: Draft, today: string, attachLines: seq<string>): (ls: seq<string>)
    ensures |ls| == 6 + |ShownTags(d.tags)| + |attachLines|
    ensures ls[..6] == HeadLines(d, today) + ["tags:"]
    ensures ls[6..6 + |ShownTags(d.tags)|] == ListItems(ShownTags(d.tags))
    ensures ls[6 + |ShownTags(d.tags)|..] == attachLines
    ensures OneLineDraft(d, today) && FrontLines(attachLines) ==> FrontLines(ls)
  {
    var pre := HeadLines(d, today) + ["tags:"];
    var items := ListItems(ShownTags(d.tags));
    Parts3(pre, items, attachLines);
    FrontPartsFront(d, today, items, attachLines);
    pre + items + attachLines
  }

  lemma FrontPartsFront(d: Draft, today: string, items: seq<string>, attachLines: seq<string>)
    requires items == ListItems(ShownTags(d.tags))
    ensures OneLineDraft(d, today) && FrontLines(attachLines) ==>
      FrontLines(HeadLines(d, today) + ["tags:"] + items + attachLines)
  {
    var head := HeadLines(d, today);
    FixedLines();
    FrontLinesAppend(head, ["tags:"]);
    FrontLinesAppend(head + ["tags:"], items);
    FrontLinesAppend(head + ["tags:"] + items, attachLines);
  }

  /** The push script's frontmatter: it never lists attachments. */
  function PushFront(d: Draft, today: string): (ls: seq<string>)
    ensures |ls| == 7 + |ShownTags(d.tags)|
    ensures ls[|ls| - 1] == "attachments: []"
    ensures OneLineDraft(d, today) ==> FrontLines(ls)
  {
    FixedLines();
    var ls := FrontWith(d, today, ["attachments: []"]);
    assert ls[|ls| - 1] == ls[6 + |ShownTags(d.tags)|..][0];
    ls
  }

  /** The publish script's frontmatter: it lists the draft's attachments. */
  function PublishFront(d: Draft, today: string): (ls: seq<string>)
    ensures |ls| >= 7 + |ShownTags(d.tags)|
    ensures ls[6 + |ShownTags(d.tags)|..] == AttachmentLines(d.attachments)
    ensures OneLineDraft(d, today) && OneLineAttachments(d.attachments) ==> FrontLines(ls)
  {
    FixedLines();
    EntriesFront(d.attachments);
    FrontLinesAppend(["attachments:"], Entries(d.attachments));
    FrontWith(d, today, AttachmentLines(d.attachments))
  }

  /** The push script's `buildMdx`: the frontmatter, then the content after an empty line.
      A draft whose frontmatter values fit on one line reads back as its frontmatter lines
      and its content. */
  function PushMdx(d: Draft, today: string): (r: string)
    ensures OneLineDraft(d, today) ==>
      ReadDocument(r) == Some((PushFront(d, today), "\n" + d.content + "\n"))
  {
    DocumentReadsBack(PushFront(d, today), d.content);
    Document(PushFront(d, today), d.content)
  }

  /** The publish script's `buildMdx`, with the attachments in the frontmatter. */
  function PublishMdx(d: Draft, today: string): (r: string)
    ensures OneLineDraft(d, today) && OneLineAttachments(d.attachments) ==>
      ReadDocument(r) == Some((PublishFront(d, today), "\n" + d.content + "\n"))
  {
    DocumentReadsBack(PublishFront(d, today), d.content);
    Document(PublishFront(d, today), d.content)
  }

  /** A document that reads back with this title, summary and category in its first
      frontmatter lines and this content as its body. */
  predicate ReadsBackAs(doc: string, title: string, summary: string, category: string, content: string) {
    match ReadDocument(doc)
    case None => false
    case Some((front, body)) =>
      && |front| >= 4
      && ReadField(front[0], "title") == Some(title)
      && ReadField(front[1], "summary") == Some(summary)
      && ReadField(front[3], "category") == Some(category)
      && body == "\n" + content + "\n"
  }

  /** The title, summary and category lines of any of the two frontmatters read back. */
  lemma FrontWithFields(d: Draft, today: string, attachLines: seq<string>)
    ensures var ls := FrontWith(d, today, attachLines);
      && ReadField(ls[0], "title") == Some(d.title)
      && ReadField(ls[1], "summary") == Some(d.summary.GetOr(""))
      && ReadField(ls[3], "category") == Some(d.category.GetOr(Uncategorized))
  {
    var ls := FrontWith(d, today, attachLines);
    var head := HeadLines(d, today);
    assert ls[0] == head[0] && ls[1] == head[1] && ls[3] == head[3] by {
      assert ls[..6][0] == ls[0] && ls[..6][1] == ls[1] && ls[..6][3] == ls[3];
    }
    HeadFieldsReadBack(d, today);
  }

  /** A push document whose values fit on one line reads back as the draft's title,
      summary (or `""`), category (or `未分类`) and content. */
  lemma PushMdxFields(d: Draft, today: string)
    ensures OneLineDraft(d, today) ==> ReadsBackAs(PushMdx(d, today), d.title, d.summary.GetOr(""), d.category.GetOr(Uncategorized), d.content)
  {
    FrontWithFields(d, today, ["attachments: []"]);
  }

  /** The same for a publish document whose attachments fit on one line as well. */
  lemma PublishMdxFields(d: Draft, today: string)
    ensures OneLineDraft(d, today) && OneLineAttachments(d.attachments) ==> ReadsBackAs(PublishMdx(d, today), d.title, d.summary.GetOr(""), d.category.GetOr(Uncategorized), d.content)
  {
    FrontWithFields(d, today, AttachmentLines(d.attachments));
  }
}

=== FILE: openclaw_parse.dfy ===
/** The free-text command parser of `scripts/openclaw-push.mjs`: the first non-empty line
    names the section, the category and the title, the second is the summary, hashtags
    anywhere become tags and the remaining lines the body. */
module OpenclawParse {
  import opened Common
  import opened Text
  import opened Frontmatter

  /** The two Markdown sections the script writes to. */
  datatype Section = Laws | Articles

  function SectionDir(s: Section): string {
    if s == Laws then "laws" else "articles"
  }

  const LawKeywords: seq<string> := ["法规", "法律", "条例", "规定", "办法", "标准", "规范", "gbz",
    "通知", "决定", "意见", "公告", "制度", "细则", "管理办法"]

  const ArticleKeywords: seq<string> := ["文章", "案例", "指南", "实务", "分析", "经验", "总结",
    "监护", "流程", "复盘", "管理"]

  /** `detectModule`: a law keyword anywhere in the lower-cased text wins, whatever
      article keywords it also holds; everything else is an article. */
  function DetectModule(text: string): (m: Section)
    ensures m == Laws <==> ContainsAny(Lower(text), LawKeywords)
  {
    var lower := Lower(text);
    if ContainsAny(lower, LawKeywords) then Laws
    else if ContainsAny(lower, ArticleKeywords) then Articles
    else Articles
  }

  /** Lower-casing the text first changes nothing: `GBZ` counts as the keyword `gbz`. */
  lemma DetectModuleIgnoresCase(text: string)
    ensures DetectModule(Lower(text)) == DetectModule(text)
  {
    LowerNoUpper(Lower(text));
  }

  const LawCategories: seq<string> := ["国家法律", "部门规章", "标准规范"]
  const ArticleCategories: seq<string> := ["案例分析", "实务指南"]

  /** `detectCategory`: for laws, `法律`/`法规` is checked before `规定`/`办法`, and the
      rest are standards; for articles, `案例` marks a case study and the rest are guides. */
  function DetectCategory(text: string, m: Section): (c: string)
    ensures m == Laws ==> c in LawCategories
    ensures m == Articles ==> c in ArticleCategories
    ensures m == Laws ==>
      (c == "国家法律" <==> Contains(Lower(text), "法律") || Contains(Lower(text), "法规"))
    ensures m == Laws && c == "部门规章" ==> Contains(Lower(text), "规定") || Contains(Lower(text), "办法")
    ensures m == Articles ==> (c == "案例分析" <==> Contains(Lower(text), "案例"))
  {
    var lower := Lower(text);
    if m == Laws then
      if Contains(lower, "法律") || Contains(lower, "法规") then "国家法律"
      else if Contains(lower, "规定") || Contains(lower, "办法") then "部门规章"
      else "标准规范"
    else if Contains(lower, "案例") then "案例分析"
    else if Contains(lower, "指南") || Contains(lower, "实务") then "实务指南"
    else "实务指南"
  }

  /** The section a category belongs to, if it is one of the five. */
  function SectionOfCategory(c: string): Option<Section> {
    if c in LawCategories then Some(Laws)
    else if c in ArticleCategories then Some(Articles)
    else None
  }

  /** The two sections' categories never overlap, so the category names the section. */
  lemma CategoryNamesSection(text: string, m: Section)
    ensures SectionOfCategory(DetectCategory(text, m)) == Some(m)
  {
  }

  // ---------------------------------------------------------------------------------
  // Parsing a free-text command
  // ---------------------------------------------------------------------------------

  predicate NonEmpty(l: string) { l != "" }

  /** `input.trim().split("\n").filter(Boolean)`: the non-empty lines. None is empty, and
      the first starts with a non-space character. */
  function InputLines(input: string): (ls: seq<string>)
    ensures forall i :: 0 <= i < |ls| ==> ls[i] != "" && '\n' !in ls[i]
    ensures |ls| == 0 <==> IsBlank(input)
    ensures |ls| > 0 ==> !IsSpace(ls[0][0])
  {
    var t := Trim(input);
    LinesOfTrimmed(t);
    Filter(Split(t, '\n'), NonEmpty)
  }

  /** The non-empty lines of a trimmed text: none when it is empty, and otherwise the
      first begins with the text's first character. */
  lemma LinesOfTrimmed(t: string)
    ensures var ls := Filter(Split(t, '\n'), NonEmpty);
      && (forall i :: 0 <= i < |ls| ==> ls[i] != "" && '\n' !in ls[i])
      && (t == "" ==> ls == [])
      && (t != "" && t[0] != '\n' ==> |ls| > 0 && ls[0][0] == t[0])
  {
    var parts := Split(t, '\n');
    var ls := Filter(parts, NonEmpty);
    forall i | 0 <= i < |ls|
      ensures ls[i] != "" && '\n' !in ls[i]
    {
      assert ls[i] in parts;
    }
    if t == "" {
      assert parts == [""];
    } else if t[0] != '\n' {
      FilterHead(parts, NonEmpty);
    }
  }

  const CommandVerbs: seq<string> := ["更新", "添加", "新增", "发布", "推送"]
  const CommandNouns: seq<string> := ["法规", "法律", "文章", "案例", "标准", "内容"]

  /** The line opens with a command: a verb, a noun and a full-width or ASCII colon. */
  predicate HasCommand(line: string) {
    |line| >= 5 && line[..2] in CommandVerbs && line[2..4] in CommandNouns
    && (line[4] == '：' || line[4] == ':')
  }

  /** Removes a leading command and the white space after it. */
  function StripCommand(line: string): (r: string)
    ensures r == line || (HasCommand(line) && |r| <= |line| - 5 && r == line[|line| - |r|..])
  {
    if HasCommand(line) then DropWhile(line[5..], IsSpace) else line
  }

  lemma StripCommandOneLine(line: string)
    ensures OneLine(line) ==> OneLine(StripCommand(line))
  {
    var r := StripCommand(line);
    if r != line {
      SliceOneLine(line, |line| - |r|, |line|);
    }
  }

  /** The title: the first line without its command, unless fewer than two UTF-16 code
      units remain, in which case the whole first line. */
  function TitleOf(first: string): (t: string)
    ensures first != "" ==> t != ""
    ensures OneLine(first) ==> OneLine(t)
    ensures t != first ==> JsLength(t) >= 2 && (HasCommand(first) || t == Trim(first))
    ensures !HasCommand(first) && JsLength(Trim(first)) >= 2 ==> t == Trim(first)
  {
    var stripped := Trim(StripCommand(first));
    StripCommandOneLine(first);
    TrimOneLine(StripCommand(first));
    if JsLength(stripped) >= 2 then stripped else first
  }

  /** Characters a hashtag is made of: CJK unified ideographs, ASCII letters, digits and `_`. */
  predicate IsTagChar(c: char) {
    ('\U{4E00}' <= c <= '\U{9FFF}') || IsWordChar(c)
  }

  /** Where the run of tag characters starting at `i` ends. */
  function TagRunEnd(s: string, i: nat): (e: nat)
    requires i <= |s|
    ensures i <= e <= |s|
    ensures forall k :: i <= k < e ==> IsTagChar(s[k])
    ensures e < |s| ==> !IsTagChar(s[e])
    decreases |s| - i
  {
    if i < |s| && IsTagChar(s[i]) then TagRunEnd(s, i + 1) else i
  }

  /** The hashtags of `s` from position `i` on, without their `#`, as a global match of
      `#` followed by tag characters finds them. */
  function HashTagsFrom(s: string, i: nat): (r: seq<string>)
    requires i <= |s|
    ensures forall k :: 0 <= k < |r| ==> |r[k]| > 0 && All(r[k], IsTagChar) && Contains(s, "#" + r[k])
    decreases |s| - i
  {
    if i >= |s| then []
    else if s[i] == '#' && i + 1 < |s| && IsTagChar(s[i + 1]) then
      var e := TagRunEnd(s, i + 1);
      var tag := s[i + 1..e];
      assert s[i..e] == "#" + tag;
      assert StartsAt(s, i, "#" + tag);
      [tag] + HashTagsFrom(s, e)
    else HashTagsFrom(s, i + 1)
  }

  /** A hashtag line: `#` followed by a character that is neither white space nor `#`
      (so a `## ` heading is not one). */
  predicate IsHashtagLine(l: string) {
    |l| >= 2 && l[0] == '#' && !IsSpace(l[1]) && l[1] != '#'
  }

  predicate NotHashtagLine(l: string) { !IsHashtagLine(l) }

  /** The body lines: the third line on, without hashtag lines. */
  function KeptLines(lines: seq<string>): (kept: seq<string>)
    ensures forall l :: l in kept <==> (|lines| > 2 && l in lines[2..] && !IsHashtagLine(l))
  {
    if |lines| > 2 then Filter(lines[2..], NotHashtagLine) else []
  }

  const Placeholder: string := "（待补充正文内容）"

  /** What `parseNaturalLanguage` returns. */
  datatype Parsed = Parsed(section: Section, title: string, summary: string, category: string,
                           tags: seq<string>, content: string)

  /** `parseNaturalLanguage`: `None` exactly when the input has no non-empty line. The
      title is never empty; the category belongs to the detected section; every tag is a
      `#word` of the input; the content is the kept body lines separated by empty lines,
      or a heading with the summary (or a placeholder) when none are kept. */
  function ParseNaturalLanguage(input: string): (r: Option<Parsed>)
    ensures r.None? <==> IsBlank(input)
    ensures r.Some? ==> r.value.title != "" && OneLine(r.value.title) && OneLine(r.value.summary)
    ensures r.Some? ==> SectionOfCategory(r.value.category) == Some(r.value.section)
    ensures r.Some? ==> var lines := InputLines(input);
      && r.value.section == DetectModule(Trim(lines[0]))
      && r.value.summary == (if |lines| > 1 then Trim(lines[1]) else "")
    ensures r.Some? ==> forall k :: 0 <= k < |r.value.tags| ==>
      r.value.tags[k] != "" && All(r.value.tags[k], IsTagChar) && Contains(input, "#" + r.value.tags[k])
    ensures r.Some? ==> var kept := KeptLines(InputLines(input));
      (|kept| > 0 ==> r.value.content == Join(kept, "\n\n"))
      && (|kept| == 0 ==>
            r.value.content == "## " + r.value.title + "\n\n" + (if r.value.summary != "" then r.value.summary else Placeholder))
  {
    var lines := InputLines(input);
    if |lines| == 0 then None
    else
      var first := Trim(lines[0]);
      TrimOneLine(lines[0]);
      var title := TitleOf(first);
      var section := DetectModule(first);
      var category := DetectCategory(first, section);
      CategoryNamesSection(first, section);
      var summary := if |lines| > 1 then Trim(lines[1]) else "";
      TrimOneLine(if |lines| > 1 then lines[1] else "");
      var kept := KeptLines(lines);
      var content := if |kept| > 0 then Join(kept, "\n\n")
                     else "## " + title + "\n\n" + (if summary != "" then summary else Placeholder);
      Some(Parsed(section, title, summary, category, HashTagsFrom(input, 0), content))
  }
}

=== FILE: openclaw_publish.dfy ===
/** The OpenClaw publish script (`scripts/openclaw-publish.mjs`): it reads one JSON record
    from standard input and either merges its hazard records into
    `content/standards/gbz-hazards.json` or writes an MDX document, after downloading the
    record's remote attachments into `public/uploads/`. Parsing the input, URL parsing and
    the web server are parameters; reading and writing files and git are left out. */
module OpenclawPublish {
  import opened Common
  import opened Text
  import opened Json
  import opened Frontmatter
  import opened OpenclawMdx
  import opened HazardMerge
  import Slug

  // ---------------------------------------------------------------------------------
  // File extensions
  // ---------------------------------------------------------------------------------

  /** The path without its trailing slashes. */
  function TrimSlashes(p: string): (r: string)
    ensures |r| <= |p| && r == p[..|r|]
    ensures |r| == 0 || r[|r| - 1] != '/'
    ensures forall k :: |r| <= k < |p| ==> p[k] == '/'
    decreases |p|
  {
    if |p| > 0 && p[|p| - 1] == '/' then TrimSlashes(p[..|p| - 1]) else p
  }

  /** The position of the last `c` in `s`. */
  function LastIndexOf(s: string, c: char): (r: Option<nat>)
    ensures r.Some? ==> r.value < |s| && s[r.value] == c && forall k :: r.value < k < |s| ==> s[k] != c
    ensures r.None? <==> c !in s
    decreases |s|
  {
    if |s| == 0 then None
    else if s[|s| - 1] == c then Some(|s| - 1)
    else
      var r := LastIndexOf(s[..|s| - 1], c);
      assert forall k :: 0 <= k < |s| - 1 ==> s[..|s| - 1][k] == s[k];
      r
  }

  /** The last segment of a path, trailing slashes ignored. */
  function BaseName(p: string): (b: string)
    ensures '/' !in b
  {
    var t := TrimSlashes(p);
    match LastIndexOf(t, '/')
    case None => t
    case Some(i) => t[i + 1..]
  }

  /** Node's `path.extname`: the last segment from its last `.` on, or `""` when the
      segment has no `.`, starts with its only `.`, or is `..`. */
  function Extname(p: string): (e: string)
    ensures e != "" ==> e[0] == '.' && '.' !in e[1..] && '/' !in e
    ensures e != "" ==> |e| < |BaseName(p)| && EndsWith(BaseName(p), e)
    ensures '.' !in BaseName(p) ==> e == ""
  {
    var b := BaseName(p);
    match LastIndexOf(b, '.')
    case None => ""
    case Some(i) =>
      if i == 0 || b == ".." then ""
      else
        assert forall k :: i + 1 <= k < |b| ==> b[i + 1..][k - i - 1] == b[k];
        b[i..]
  }

  /** A file name made of a non-empty stem without dots and an extension keeps that
      extension, whatever directory it sits in. */
  lemma ExtnameAfterStem(dir: string, stem: string, ext: string)
    requires |dir| >= 1 && dir[|dir| - 1] == '/'
    requires stem != "" && '/' !in stem && '.' !in stem
    requires |ext| >= 1 && ext[0] == '.' && '.' !in ext[1..] && '/' !in ext
    ensures Extname(dir + (stem + ext)) == ext
  {
    var name := stem + ext;
    var p := dir + name;
    assert p[|p| - 1] == name[|name| - 1];
    assert TrimSlashes(p) == p;
    var j := |dir| - 1;
    assert p[j] == '/';
    forall k | j < k < |p|
      ensures p[k] != '/'
    {
      assert p[k] == name[k - j - 1];
    }
    assert LastIndexOf(p, '/') == Some(j);
    assert p[j + 1..] == name;
    var i := |stem|;
    assert name[i] == '.';
    forall k | i < k < |name|
      ensures name[k] != '.'
    {
      assert name[k] == ext[k - i];
      assert ext[k - i] == ext[1..][k - i - 1];
    }
    assert LastIndexOf(name, '.') == Some(i);
    assert name[i..] == ext;
    assert name != ".." by {
      assert name[0] == stem[0];
    }
  }

  // ---------------------------------------------------------------------------------
  // Downloading a file
  // ---------------------------------------------------------------------------------

  /** A response: its status and its `location` header (`""` when there is none). */
  datatype Response = Response(status: int, location: string)

  /** How `downloadFile` ends: the file is saved from the URL reached; the promise
      rejects (too many redirects, an HTTP error, a network error, or a first URL the chosen
      protocol does not take); or the request for a redirect's location throws inside the
      response callback, where nothing catches it and the process dies. */
  datatype Fetched =
    | Saved(url: string, redirects: nat)
    | TooManyRedirects
    | HttpError(status: int)
    | NetworkError
    | BadProtocol
    | Uncaught(location: string)

  const MaxRedirects: nat := 5

  /** Whether `proto.get` takes `u` rather than throwing: `u` must be an absolute URL whose
      scheme, compared without regard to ASCII case, is the protocol's own (`https:` or
      `http:`). A relative location and one with the other scheme throw. */
  predicate Takes(secure: bool, u: string) {
    StartsWith(Lower(u), if secure then "https:" else "http:")
  }

  /** The `request` loop of `downloadFile`: a redirect with a location is followed with
      the protocol chosen for the first URL, up to five times; a sixth rejects. A URL the
      protocol does not take throws: on the first request that rejects the promise, on a
      redirect it escapes. `server` answers a request, or fails (`None`). */
  function Follow(secure: bool, url: string, redirects: nat, server: (bool, string) -> Option<Response>): (r: Fetched)
    ensures r.Saved? ==>
      && redirects <= r.redirects <= MaxRedirects && Takes(secure, r.url)
      && server(secure, r.url).Some? && server(secure, r.url).value.status == 200
    ensures r.HttpError? ==> r.status != 200
    ensures redirects > MaxRedirects ==> r == TooManyRedirects
    ensures r.BadProtocol? <==> redirects == 0 && !Takes(secure, url)
    ensures r.Uncaught? ==> !Takes(secure, r.location)
    decreases 6 - redirects
  {
    if redirects > MaxRedirects then TooManyRedirects
    else if !Takes(secure, url) then (if redirects == 0 then BadProtocol else Uncaught(url))
    else match server(secure, url)
      case None => NetworkError
      case Some(res) =>
        if 300 <= res.status < 400 && res.location != "" then
          Follow(secure, res.location, redirects + 1, server)
        else if res.status != 200 then HttpError(res.status)
        else Saved(url, redirects)
  }

  /** `downloadFile`: HTTPS when the URL starts with `https`, plain HTTP otherwise. */
  function DownloadFile(url: string, server: (bool, string) -> Option<Response>): (r: Fetched)
    ensures r.Saved? ==> r.redirects <= MaxRedirects
    ensures r.BadProtocol? <==> !Takes(StartsWith(url, "https"), url)
  {
    Follow(StartsWith(url, "https"), url, 0, server)
  }

  /** A server that keeps redirecting within the protocol is asked six times and the
      download rejects. */
  lemma {:induction false} RedirectLoopRejects(secure: bool, url: string, redirects: nat,
                                                server: (bool, string) -> Option<Response>)
    requires Takes(secure, url)
    requires forall u :: server(secure, u).Some? && 300 <= server(secure, u).value.status < 400
                         && Takes(secure, server(secure, u).value.location)
    ensures Follow(secure, url, redirects, server) == TooManyRedirects
    decreases 6 - redirects
  {
    if redirects <= MaxRedirects {
      var loc := server(secure, url).value.location;
      assert |Lower(loc)| >= 5;
      RedirectLoopRejects(secure, loc, redirects + 1, server);
    }
  }

  /** Five redirects are followed: a server that redirects `k <= 5` times along `urls`,
      each an absolute URL of the first one's protocol, and then answers 200 has the file
      saved from the last URL. */
  lemma {:induction false} RedirectChainSaved(secure: bool, urls: seq<string>, redirects: nat,
                                              server: (bool, string) -> Option<Response>)
    requires |urls| >= 1 && redirects + |urls| - 1 <= MaxRedirects
    requires forall k :: 0 <= k < |urls| - 1 ==> server(secure, urls[k]) == Some(Response(301, urls[k + 1]))
    requires forall k :: 0 <= k < |urls| ==> Takes(secure, urls[k])
    requires server(secure, urls[|urls| - 1]) == Some(Response(200, ""))
    ensures Follow(secure, urls[0], redirects, server) == Saved(urls[|urls| - 1], redirects + |urls| - 1)
    decreases |urls|
  {
    if |urls| > 1 {
      assert server(secure, urls[0]) == Some(Response(301, urls[1]));
      assert |Lower(urls[1])| >= 5;
      assert urls[1..][0] == urls[1];
      RedirectChainSaved(secure, urls[1..], redirects + 1, server);
    }
  }

  /** A redirect to a location the protocol does not take, a relative one or one with the
      other scheme, crashes the script instead of rejecting the download. */
  lemma RedirectElsewhereCrashes(secure: bool, url: string, redirects: nat,
                                 server: (bool, string) -> Option<Response>)
    requires redirects < MaxRedirects && Takes(secure, url)
    requires server(secure, url).Some? && 300 <= server(secure, url).value.status < 400
    requires server(secure, url).value.location != "" && !Takes(secure, server(secure, url).value.location)
    ensures Follow(secure, url, redirects, server) == Uncaught(server(secure, url).value.location)
  {
  }

  /** The everyday redirect from plain HTTP to HTTPS is not followed: it crashes. */
  lemma HttpsUpgradeCrashes()
    ensures DownloadFile("http://h/a.pdf", (secure: bool, u: string) =>
              if u == "http://h/a.pdf" then Some(Response(301, "https://h/a.pdf")) else Some(Response(200, "")))
            == Uncaught("https://h/a.pdf")
  {
    var server := (secure: bool, u: string) =>
      if u == "http://h/a.pdf" then Some(Response(301, "https://h/a.pdf")) else Some(Response(200, ""));
    assert "http://h/a.pdf"[4] != "https"[4];
    assert !StartsWith("http://h/a.pdf", "https");
    assert Lower("http://h/a.pdf") == "http://h/a.pdf";
    assert Takes(false, "http://h/a.pdf");
    assert Lower("https://h/a.pdf") == "https://h/a.pdf";
    assert !Takes(false, "https://h/a.pdf");
    RedirectElsewhereCrashes(false, "http://h/a.pdf", 0, server);
  }

  // ---------------------------------------------------------------------------------
  // Attachments
  // ---------------------------------------------------------------------------------

  /** What `downloadAttachments` does with one entry: it throws, skips it, or lists it. */
  datatype Localized = Crashed | Skipped | Listed(a: Attachment)

  const Uploads: string := "/uploads/"

  /** The `type` of an entry: absent when falsy, otherwise its string form. */
  function KindOf(att: Json): (k: Option<string>)
    ensures k.Some? <==> Truthy(Get(att, "type"))
  {
    TextField(Get(att, "type"))
  }

  /** The extension the downloaded copy gets: the remote path's, or `.pdf`. */
  function UploadExt(pathname: string): (e: string)
    ensures |e| >= 1 && e[0] == '.' && '.' !in e[1..] && '/' !in e
  {
    var e := Extname(pathname);
    if e == "" then ".pdf" else e
  }

  /** One entry of `downloadAttachments`. An entry without a truthy URL or name is
      skipped; a URL under `/uploads/` is kept as it is; any other URL is parsed (`pathOf`
      gives its path, `None` when `new URL` throws) and downloaded to a file named after the
      name slugified at time `now`, and the entry then points at the copy, or keeps its
      remote URL when the download rejects. A `null` entry, a URL that is not a string, a
      URL that does not parse and a name that is not a string all throw, and so does a
      redirect the download cannot follow (the process dies before anything is written). */
  function Localize(att: Json, now: nat, pathOf: string -> Option<string>,
                    server: (bool, string) -> Option<Response>): (r: Localized)
    ensures r == Skipped <==> !att.JNull? && (!Truthy(Get(att, "url")) || !Truthy(Get(att, "name")))
    ensures r == Crashed <==>
      || att.JNull?
      || (&& Truthy(Get(att, "url")) && Truthy(Get(att, "name"))
          && (|| !Get(att, "url").value.JStr?
              || (&& !StartsWith(Get(att, "url").value.s, Uploads)
                  && (|| pathOf(Get(att, "url").value.s).None?
                      || !Get(att, "name").value.JStr?
                      || DownloadFile(Get(att, "url").value.s, server).Uncaught?))))
    ensures r.Listed? ==>
      && Get(att, "url").Some? && Get(att, "url").value.JStr?
      && r.a.kind == KindOf(att)
    ensures r.Listed? && StartsWith(Get(att, "url").value.s, Uploads) ==>
      r.a == Attachment(ToJsString(Get(att, "name").value), Get(att, "url").value.s, KindOf(att))
    ensures r.Listed? && !StartsWith(Get(att, "url").value.s, Uploads) ==>
      && Get(att, "name").value.JStr? && r.a.name == Get(att, "name").value.s
      && pathOf(Get(att, "url").value.s).Some?
      && (DownloadFile(Get(att, "url").value.s, server).Saved? ==>
            r.a.url == Uploads + (Slug.OpenclawSlugify(r.a.name, now) + UploadExt(pathOf(Get(att, "url").value.s).value)))
      && (!DownloadFile(Get(att, "url").value.s, server).Saved? ==> r.a.url == Get(att, "url").value.s)
  {
    if att.JNull? then Crashed
    else
      var url, name := Get(att, "url"), Get(att, "name");
      if !Truthy(url) || !Truthy(name) then Skipped
      else if !url.value.JStr? then Crashed
      else
        var u := url.value.s;
        if StartsWith(u, Uploads) then Listed(Attachment(ToJsString(name.value), u, KindOf(att)))
        else match pathOf(u)
          case None => Crashed
          case Some(pathname) =>
            if !name.value.JStr? then Crashed
            else
              var n := name.value.s;
              var file := Slug.OpenclawSlugify(n, now) + UploadExt(pathname);
              match DownloadFile(u, server)
              case Saved(_, _) => Listed(Attachment(n, Uploads + file, KindOf(att)))
              case Uncaught(_) => Crashed
              case _ => Listed(Attachment(n, u, KindOf(att)))
  }

  /** A downloaded copy keeps the remote file's extension, `.pdf` when it had none. */
  lemma DownloadedKeepsExtension(att: Json, now: nat, pathOf: string -> Option<string>,
                                 server: (bool, string) -> Option<Response>)
    requires Localize(att, now, pathOf, server).Listed?
    requires !StartsWith(Get(att, "url").value.s, Uploads)
    requires DownloadFile(Get(att, "url").value.s, server).Saved?
    ensures var u := Get(att, "url").value.s;
      var e := Extname(pathOf(u).value);
      Extname(Localize(att, now, pathOf, server).a.url) == (if e == "" then ".pdf" else e)
  {
    var u := Get(att, "url").value.s;
    var a := Localize(att, now, pathOf, server).a;
    var slug := Slug.OpenclawSlugify(a.name, now);
    var ext := UploadExt(pathOf(u).value);
    SlugStem(slug);
    assert a.url == Uploads + (slug + ext);
    assert Uploads[|Uploads| - 1] == '/';
    ExtnameAfterStem(Uploads, slug, ext);
  }

  /** A slug has no dot and no slash. */
  lemma SlugStem(slug: string)
    requires All(slug, Slug.IsPrefixChar) && |slug| >= 1
    ensures slug != "" && '/' !in slug && '.' !in slug
  {
    forall k | 0 <= k < |slug|
      ensures slug[k] != '/' && slug[k] != '.'
    {
      assert Slug.IsPrefixChar(slug[k]);
    }
  }

  /** Some entry throws. */
  predicate AnyCrashed<T>(items: seq<T>, f: T -> Localized) {
    exists i :: 0 <= i < |items| && f(items[i]) == Crashed
  }

  /** The entries in order, each handled by `f`; `None` when one of them throws. */
  function LocalizeAll<T>(items: seq<T>, f: T -> Localized): (r: Option<seq<Attachment>>)
    ensures r.None? <==> AnyCrashed(items, f)
    ensures r.Some? ==> |r.value| <= |items|
    decreases |items|
  {
    if |items| == 0 then Some([])
    else
      assert forall i :: 1 <= i < |items| ==> items[1..][i - 1] == items[i];
      Step(f(items[0]), LocalizeAll(items[1..], f))
  }

  /** One entry's outcome before the attachments of the entries after it. */
  function Step(e: Localized, rest: Option<seq<Attachment>>): Option<seq<Attachment>> {
    match e
    case Crashed => None
    case Skipped => rest
    case Listed(a) => if rest.None? then None else Some([a] + rest.value)
  }

  /** One attachment is listed for each entry `f` lists. */
  lemma {:induction false} LocalizeAllCount<T>(items: seq<T>, f: T -> Localized)
    requires LocalizeAll(items, f).Some?
    ensures |LocalizeAll(items, f).value| == Count(items, x => f(x).Listed?)
    decreases |items|
  {
    if |items| > 0 {
      assert LocalizeAll(items[1..], f).Some?;
      LocalizeAllCount(items[1..], f);
    }
  }

  /** Every attachment listed comes from an entry, in the entries' order: the first from
      the first entry `f` lists, and the rest from the entries after it. */
  lemma {:induction false} LocalizeAllFrom<T>(items: seq<T>, f: T -> Localized)
    requires LocalizeAll(items, f).Some?
    ensures forall k :: 0 <= k < |LocalizeAll(items, f).value| ==>
      exists i :: 0 <= i < |items| && f(items[i]) == Listed(LocalizeAll(items, f).value[k])
    decreases |items|
  {
    if |items| > 0 {
      var r := LocalizeAll(items, f).value;
      var rest := LocalizeAll(items[1..], f);
      assert rest.Some?;
      LocalizeAllFrom(items[1..], f);
      forall k | 0 <= k < |r|
        ensures exists i :: 0 <= i < |items| && f(items[i]) == Listed(r[k])
      {
        if f(items[0]).Listed? && k == 0 {
          assert f(items[0]) == Listed(r[0]);
        } else {
          var k' := if f(items[0]).Listed? then k - 1 else k;
          assert r[k] == rest.value[k'];
          var i' :| 0 <= i' < |items[1..]| && f(items[1..][i']) == Listed(rest.value[k']);
          assert f(items[i' + 1]) == Listed(r[k]);
        }
      }
    }
  }

  /** Entries are handled one after the other: the attachments of two runs of entries
      are those of the first run followed by those of the second. */
  lemma {:induction false} LocalizeAllAppend<T>(a: seq<T>, b: seq<T>, f: T -> Localized)
    requires LocalizeAll(a, f).Some? && LocalizeAll(b, f).Some?
    ensures LocalizeAll(a + b, f) == Some(LocalizeAll(a, f).value + LocalizeAll(b, f).value)
    decreases |a|
  {
    if |a| == 0 {
      assert a + b == b;
      assert LocalizeAll(a, f).value == [];
      assert [] + LocalizeAll(b, f).value == LocalizeAll(b, f).value;
    } else {
      assert LocalizeAll(a[1..], f).Some?;
      LocalizeAllAppend(a[1..], b, f);
      AppendStep(a, b, f);
    }
  }

  lemma AppendStep<T>(a: seq<T>, b: seq<T>, f: T -> Localized)
    requires |a| > 0 && LocalizeAll(a, f).Some? && LocalizeAll(b, f).Some? && LocalizeAll(a[1..], f).Some?
    requires LocalizeAll(a[1..] + b, f) == Some(LocalizeAll(a[1..], f).value + LocalizeAll(b, f).value)
    ensures LocalizeAll(a + b, f) == Some(LocalizeAll(a, f).value + LocalizeAll(b, f).value)
  {
    ConsAppend(a, b);
    StepAppend(f(a[0]), LocalizeAll(a[1..], f).value, LocalizeAll(b, f).value);
  }

  lemma StepAppend(e: Localized, ra: seq<Attachment>, rb: seq<Attachment>)
    requires Step(e, Some(ra)).Some?
    ensures Step(e, Some(ra + rb)) == Some(Step(e, Some(ra)).value + rb)
  {
    if e.Listed? {
      assert [e.a] + (ra + rb) == ([e.a] + ra) + rb;
    }
  }

  /** The entries with their positions. */
  function Numbered(items: seq<Json>): (r: seq<(nat, Json)>)
    ensures |r| == |items|
    ensures forall i :: 0 <= i < |items| ==> r[i] == (i, items[i])
  {
    seq(|items|, i requires 0 <= i < |items| => (i, items[i]))
  }

  /** The handling of one entry, as a function of its position and the entry. The
      script reads the clock afresh each time it slugifies a name: `clock(i)` is the
      reading taken for entry `i`. */
  function EntryHandler(clock: nat -> nat, pathOf: string -> Option<string>,
                        server: (bool, string) -> Option<Response>): ((nat, Json)) -> Localized {
    (x: (nat, Json)) => Localize(x.1, clock(x.0), pathOf, server)
  }

  /** `downloadAttachments(data.attachments || [])`: a falsy value, an empty array or
      object and a string (whose characters carry no URL) give none; an array is handled
      entry by entry; any other value cannot be iterated and throws. */
  function DownloadAttachments(v: Option<Json>, clock: nat -> nat, pathOf: string -> Option<string>,
                               server: (bool, string) -> Option<Response>): (r: Option<seq<Attachment>>)
    ensures !Truthy(v) ==> r == Some([])
    ensures Truthy(v) && v.value.JArr? ==> r == LocalizeAll(Numbered(v.value.items), EntryHandler(clock, pathOf, server))
    ensures Truthy(v) && (v.value.JNum? || v.value.JBool?) ==> r.None?
  {
    if !Truthy(v) then Some([])
    else match v.value
      case JArr(items) => LocalizeAll(Numbered(items), EntryHandler(clock, pathOf, server))
      case JStr(_) => Some([])
      case JObj(_) => if Get(v.value, "length") == Some(JNum(0)) then Some([]) else None
      case _ => None
  }

  // ---------------------------------------------------------------------------------
  // The record
  // ---------------------------------------------------------------------------------

  /** The `tags` as `buildMdx` lists them: every element of an array through `String`; a
      non-empty string and an object with a positive `length` throw; anything else shows
      the placeholder. */
  function PublishTags(v: Option<Json>): (r: Option<Option<seq<string>>>)
    ensures r.None? <==> Truthy(v) && (v.value.JStr? || (v.value.JObj? && LengthPositive(Get(v.value, "length"))))
    ensures Truthy(v) && v.value.JArr? ==>
      && r.Some? && r.value.Some? && |r.value.value| == |v.value.items|
      && forall i :: 0 <= i < |v.value.items| ==> r.value.value[i] == ToJsString(v.value.items[i])
  {
    if !Truthy(v) then Some(None)
    else match v.value
      case JArr(items) => Some(Some(ToJsStrings(items)))
      case JStr(_) => None
      case JObj(_) => if LengthPositive(Get(v.value, "length")) then None else Some(None)
      case _ => Some(None)
  }

  /** The draft `buildMdx` receives: the record's fields through `String`, with the local
      attachments. `None` when the title is not a string (`slugify` throws) or the tags
      cannot be mapped. */
  function PublishDraft(data: Json, atts: seq<Attachment>): (r: Option<Draft>)
    ensures r.Some? <==> AsString(Get(data, "title")).Some? && PublishTags(Get(data, "tags")).Some?
    ensures r.Some? ==>
      && r.value.title == AsString(Get(data, "title")).value
      && r.value.summary == TextField(Get(data, "summary"))
      && r.value.category == TextField(Get(data, "category"))
      && r.value.author == TextField(Get(data, "author"))
      && r.value.date == TextField(Get(data, "date"))
      && r.value.slug.None? && r.value.attachments == atts
  {
    var title := AsString(Get(data, "title"));
    var tags := PublishTags(Get(data, "tags"));
    var content := if Get(data, "content").Some? then ToJsString(Get(data, "content").value) else "undefined";
    if title.None? || tags.None? then None
    else Some(Draft(title.value, TextField(Get(data, "summary")), TextField(Get(data, "date")),
                    TextField(Get(data, "category")), tags.value, TextField(Get(data, "author")),
                    content, None, atts))
  }

  /** A truthy category that prints as nothing is kept: `category: []` is written as the
      empty category, not as `未分类`; a missing one falls back to `未分类`. */
  lemma EmptyArrayCategoryKept(data: Json, atts: seq<Attachment>)
    requires PublishDraft(data, atts).Some?
    ensures Get(data, "category") == Some(JArr([])) ==> PublishDraft(data, atts).value.category.GetOr(Uncategorized) == ""
    ensures Get(data, "category").None? ==> PublishDraft(data, atts).value.category.GetOr(Uncategorized) == Uncategorized
  {
  }

  /** `data.module || "articles"`. */
  function ModuleOf(data: Json): (m: Json)
    ensures !Truthy(Get(data, "module")) ==> m == JStr("articles")
    ensures Truthy(Get(data, "module")) ==> m == Get(data, "module").value
  {
    if Truthy(Get(data, "module")) then Get(data, "module").value else JStr("articles")
  }

  /** How a run ends. `Crash` is an exception that rejects `main`. */
  datatype PublishOutcome =
    | NoInput
    | BadJson
    | Crash
    | NoHazards
    | NoTitleOrContent
    | BadModule
    | WroteStandards(count: nat, total: nat, hazards: seq<Json>)
    | WroteContent(slug: string, path: string, document: string, attachments: seq<Attachment>)

  /** `main`. `input` is what arrived on standard input and `data` its parse (`None` when it
      is not JSON); `file` is the parsed hazards file. The checks come in the script's
      order: the input, the JSON, the standards branch, the title and content, and only
      then the module. The slug is always made from the title, with the clock read once
      more after the attachments (`now`); `clock` gives the readings taken for them. */
  function PublishCommand(input: string, data: Option<Json>, file: Option<Json>, clock: nat -> nat, now: nat, today: string,
                          pathOf: string -> Option<string>, server: (bool, string) -> Option<Response>): (o: PublishOutcome)
    ensures o == NoInput <==> IsBlank(input)
    ensures o == BadJson <==> !IsBlank(input) && data.None?
    ensures o == NoHazards <==>
      && !IsBlank(input) && data.Some? && data.value != JNull
      && ModuleOf(data.value) == JStr("standards")
      && (AsArray(Get(data.value, "hazards")).None? || |AsArray(Get(data.value, "hazards")).value| == 0)
    ensures o == NoTitleOrContent <==>
      && !IsBlank(input) && data.Some? && data.value != JNull
      && ModuleOf(data.value) != JStr("standards")
      && (!Truthy(Get(data.value, "title")) || !Truthy(Get(data.value, "content")))
    ensures o == BadModule <==>
      && !IsBlank(input) && data.Some? && data.value != JNull
      && ModuleOf(data.value) !in {JStr("standards"), JStr("laws"), JStr("articles")}
      && Truthy(Get(data.value, "title")) && Truthy(Get(data.value, "content"))
    ensures o.WroteStandards? ==>
      && data.Some? && ModuleOf(data.value) == JStr("standards")
      && AsArray(Get(data.value, "hazards")).Some?
      && o.count == |AsArray(Get(data.value, "hazards")).value| > 0
      && MergeHazards(ExistingHazards(file), AsArray(Get(data.value, "hazards")).value) == Some(o.hazards)
      && o.total == |o.hazards|
    ensures o.WroteContent? ==>
      && data.Some? && ModuleOf(data.value) in {JStr("laws"), JStr("articles")}
      && DownloadAttachments(Get(data.value, "attachments"), clock, pathOf, server) == Some(o.attachments)
      && PublishDraft(data.value, o.attachments).Some?
      && o.slug == Slug.OpenclawSlugify(PublishDraft(data.value, o.attachments).value.title, now)
      && o.path == "content/" + ModuleOf(data.value).s + "/" + o.slug + ".mdx"
      && (var d := PublishDraft(data.value, o.attachments).value;
          OneLineDraft(d, today) && OneLineAttachments(d.attachments) ==>
            ReadsBackAs(o.document, d.title, d.summary.GetOr(""), d.category.GetOr(Uncategorized), d.content))
  {
    if IsBlank(input) then NoInput
    else if data.None? then BadJson
    else if data.value == JNull then Crash
    else
      var m := ModuleOf(data.value);
      if m == JStr("standards") then
        match AsArray(Get(data.value, "hazards"))
        case None => NoHazards
        case Some(hs) =>
          if |hs| == 0 then NoHazards
          else match MergeHazards(ExistingHazards(file), hs)
            case None => Crash
            case Some(merged) => WroteStandards(|hs|, |merged|, merged)
      else if !Truthy(Get(data.value, "title")) || !Truthy(Get(data.value, "content")) then NoTitleOrContent
      else if m !in {JStr("laws"), JStr("articles")} then BadModule
      else match DownloadAttachments(Get(data.value, "attachments"), clock, pathOf, server)
        case None => Crash
        case Some(atts) =>
          match PublishDraft(data.value, atts)
          case None => Crash
          case Some(d) =>
            PublishMdxFields(d, today);
            var slug := Slug.OpenclawSlugify(d.title, now);
            WroteContent(slug, "content/" + m.s + "/" + slug + ".mdx", PublishMdx(d, today), atts)
  }

  /** An attachment entry that throws, a redirect the download cannot follow among them,
      stops a content record before its page is written. */
  lemma CrashedEntryWritesNothing(input: string, data: Option<Json>, file: Option<Json>, clock: nat -> nat,
                                  now: nat, today: string, pathOf: string -> Option<string>,
                                  server: (bool, string) -> Option<Response>, i: nat)
    requires !IsBlank(input) && data.Some? && ModuleOf(data.value) in {JStr("laws"), JStr("articles")}
    requires Truthy(Get(data.value, "title")) && Truthy(Get(data.value, "content"))
    requires Get(data.value, "attachments").Some? && Get(data.value, "attachments").value.JArr?
    requires i < |Get(data.value, "attachments").value.items|
    requires Localize(Get(data.value, "attachments").value.items[i], clock(i), pathOf, server) == Crashed
    ensures PublishCommand(input, data, file, clock, now, today, pathOf, server) == Crash
  {
    var items := Get(data.value, "attachments").value.items;
    var f := EntryHandler(clock, pathOf, server);
    assert Numbered(items)[i] == (i, items[i]);
    assert f(Numbered(items)[i]) == Crashed;
    assert AnyCrashed(Numbered(items), f);
    assert DownloadAttachments(Get(data.value, "attachments"), clock, pathOf, server).None?;
  }
}

=== FILE: openclaw_push.dfy ===
/** The OpenClaw push script (`scripts/openclaw-push.mjs`) at the level of its commands: a
    free-text command or a JSON record becomes an MDX document under `content/<section>`,
    or hazard records are merged into `content/standards/gbz-hazards.json`. The clock is a
    parameter (`now` in milliseconds, `today` as `YYYY-MM-DD`); reading and writing files,
    the console and git are left out. */
module OpenclawPush {
  import opened Common
  import opened Text
  import opened Json
  import opened Frontmatter
  import opened OpenclawMdx
  import opened OpenclawParse
  import opened HazardMerge
  import Slug

  // ---------------------------------------------------------------------------------
  // Writing a document
  // ---------------------------------------------------------------------------------

  /** `writeContent`: the slug is the draft's own when it is truthy, otherwise
      the title slugified with the clock; the file is `content/<dir>/<slug>.mdx` and holds
      the push script's document. Returns the slug, the path and the document. */
  function WriteContent(dir: string, d: Draft, now: nat, today: string): (r: (string, string, string))
    ensures d.slug.Some? ==> r.0 == d.slug.value
    ensures d.slug.None? ==>
      All(r.0, Slug.IsPrefixChar) && |r.0| <= 57 && EndsWith(r.0, "-" + Slug.DigitSuffix(now, 6))
    ensures r.1 == "content/" + dir + "/" + r.0 + ".mdx"
    ensures OneLineDraft(d, today) ==>
      ReadDocument(r.2) == Some((PushFront(d, today), "\n" + d.content + "\n"))
      && ReadsBackAs(r.2, d.title, d.summary.GetOr(""), d.category.GetOr(Uncategorized), d.content)
  {
    PushMdxFields(d, today);
    var slug := d.slug.GetOr(Slug.OpenclawSlugify(d.title, now));
    (slug, "content/" + dir + "/" + slug + ".mdx", PushMdx(d, today))
  }

  // ---------------------------------------------------------------------------------
  // The free-text mode
  // ---------------------------------------------------------------------------------

  /** How a run of `main` ends. `Crash` is an exception that rejects `main` (a field of
      the wrong type, a `null` record); the others are the script's own outcomes. */
  datatype PushOutcome =
    | Usage
    | BadJson
    | Crash
    | Unparsed
    | NoHazards
    | NoTitleOrContent
    | WroteStandards(count: nat, total: nat, hazards: seq<Json>, source: Json)
    | WroteContent(slug: string, path: string, document: string)

  /** The draft `writeContent` receives from a parsed command: no date, author or slug. */
  function DraftOf(p: Parsed): (d: Draft)
    ensures d.title == p.title && d.content == p.content && d.slug.None? && d.attachments == []
    ensures d.summary.GetOr("") == p.summary
    ensures p.category != "" ==> d.category.GetOr(Uncategorized) == p.category
  {
    Draft(p.title, Given(p.summary), None, Given(p.category), Some(p.tags), None, p.content, None, [])
  }

  /** A parsed command's values fit on one line: its document always reads back. */
  lemma ParsedOneLine(input: string, today: string)
    requires !IsBlank(input) && OneLine(today)
    ensures OneLineDraft(DraftOf(ParseNaturalLanguage(input).value), today)
  {
    var p := ParseNaturalLanguage(input).value;
    CategoryOneLine(p.category);
    DraftOneLine(p, today);
  }

  /** The five category names are one-line words. */
  lemma CategoryOneLine(c: string)
    requires SectionOfCategory(c).Some?
    ensures OneLine(c) && c != ""
  {
    assert c in LawCategories || c in ArticleCategories;
    assert forall k :: 0 <= k < |LawCategories| ==> OneLine(LawCategories[k]) && LawCategories[k] != "";
    assert forall k :: 0 <= k < |ArticleCategories| ==> OneLine(ArticleCategories[k]) && ArticleCategories[k] != "";
  }

  lemma DraftOneLine(p: Parsed, today: string)
    requires OneLine(p.title) && OneLine(p.summary) && OneLine(p.category) && p.category != "" && OneLine(today)
    requires forall k :: 0 <= k < |p.tags| ==> All(p.tags[k], IsTagChar)
    ensures OneLineDraft(DraftOf(p), today)
  {
    var d := DraftOf(p);
    forall i | 0 <= i < |ShownTags(d.tags)|
      ensures OneLine(ShownTags(d.tags)[i])
    {
      if |p.tags| > 0 {
        assert All(p.tags[i], IsTagChar);
      }
    }
  }

  /** The natural-language mode: the words of the command joined by spaces are parsed and
      written to the detected section under a slug made from the title. It fails exactly
      when the command has no non-empty line; otherwise the document reads back as the
      parsed title, summary and category, with the parsed content as its body. */
  function TextCommand(input: string, now: nat, today: string): (o: PushOutcome)
    requires OneLine(today)
    ensures o == Unparsed <==> IsBlank(input)
    ensures o != Unparsed ==> o.WroteContent?
    ensures o.WroteContent? ==> var p := ParseNaturalLanguage(input).value;
      && o.path == "content/" + SectionDir(p.section) + "/" + o.slug + ".mdx"
      && All(o.slug, Slug.IsPrefixChar)
      && ReadsBackAs(o.document, p.title, p.summary, p.category, p.content)
  {
    match ParseNaturalLanguage(input)
    case None => Unparsed
    case Some(p) =>
      var d := DraftOf(p);
      var dir := SectionDir(p.section);
      ParsedOneLine(input, today);
      CategoryOneLine(p.category);
      var w := WriteContent(dir, d, now, today);
      WroteContent(w.0, w.1, w.2)
  }

  // ---------------------------------------------------------------------------------
  // Records given as JSON
  // ---------------------------------------------------------------------------------

  /** A field passed to `sanitizeYaml` after `|| default`: a falsy value is absent, a
      string is kept and anything else throws (`None`). */
  function StringField(v: Option<Json>): (r: Option<Option<string>>)
    ensures r.None? <==> Truthy(v) && !v.value.JStr?
    ensures r == Some(None) <==> !Truthy(v)
    ensures r.Some? && r.value.Some? ==> v == Some(JStr(r.value.value)) && r.value.value != ""
  {
    if !Truthy(v) then Some(None)
    else if v.value.JStr? then Some(Some(v.value.s))
    else None
  }

  /** The `tags` of a record: a falsy value or one without a positive `length` shows the
      placeholder (`None`); an array of strings is kept; an array holding anything else,
      a non-empty string and an object with a positive `length` throw. */
  function TagsField(v: Option<Json>): (r: Option<Option<seq<string>>>)
    ensures r.None? <==>
      Truthy(v) && ((v.value.JArr? && exists i :: 0 <= i < |v.value.items| && !v.value.items[i].JStr?)
                    || v.value.JStr? || (v.value.JObj? && LengthPositive(Get(v.value, "length"))))
    ensures r.Some? && r.value.Some? ==> v == Some(StrArray(r.value.value))
  {
    if !Truthy(v) then Some(None)
    else match v.value
      case JArr(items) =>
        (match AllStrings(items)
         case None => None
         case Some(xs) =>
           assert StrArray(xs).items == items;
           Some(Some(xs)))
      case JStr(_) => None
      case JObj(_) => if LengthPositive(Get(v.value, "length")) then None else Some(None)
      case _ => Some(None)
  }

  /** The draft `writeContent` builds from a record, or `None` when building the document
      throws: the title is not a string (`slugify` and `sanitizeYaml` call string methods
      on it), a summary, category, author or tag is truthy but not a string, or `tags`
      cannot be mapped. A missing content is written as `undefined`. */
  function DraftFromJson(data: Json): (r: Option<Draft>)
    ensures r.Some? <==>
      AsString(Get(data, "title")).Some? && StringField(Get(data, "summary")).Some?
      && StringField(Get(data, "category")).Some? && StringField(Get(data, "author")).Some?
      && TagsField(Get(data, "tags")).Some?
    ensures r.Some? ==>
      && r.value.title == AsString(Get(data, "title")).value
      && r.value.date == TextField(Get(data, "date"))
      && r.value.slug == TextField(Get(data, "slug"))
      && (Get(data, "content").Some? ==> r.value.content == ToJsString(Get(data, "content").value))
      && (Get(data, "content").None? ==> r.value.content == "undefined")
      && r.value.attachments == []
  {
    var title := AsString(Get(data, "title"));
    var summary := StringField(Get(data, "summary"));
    var category := StringField(Get(data, "category"));
    var author := StringField(Get(data, "author"));
    var tags := TagsField(Get(data, "tags"));
    var content := if Get(data, "content").Some? then ToJsString(Get(data, "content").value) else "undefined";
    if title.None? || summary.None? || category.None? || author.None? || tags.None? then None
    else Some(Draft(title.value, summary.value, TextField(Get(data, "date")), category.value,
                    tags.value, author.value, content, TextField(Get(data, "slug")), []))
  }

  /** The keys a record written from a draft may hold. */
  const RecordKeys: set<string> := {"title", "content", "summary", "date", "category", "author", "slug", "tags"}

  /** The value a record written from `d` holds under `key`: the title and content always,
      the other fields when they are set. */
  function FieldOf(d: Draft, key: string): Option<Json> {
    if key == "title" then Some(JStr(d.title))
    else if key == "content" then Some(JStr(d.content))
    else if key == "summary" then OptionStr(d.summary)
    else if key == "date" then OptionStr(d.date)
    else if key == "category" then OptionStr(d.category)
    else if key == "author" then OptionStr(d.author)
    else if key == "slug" then OptionStr(d.slug)
    else if key == "tags" && d.tags.Some? then Some(StrArray(d.tags.value))
    else None
  }

  function OptionStr(v: Option<string>): Option<Json> {
    if v.Some? then Some(JStr(v.value)) else None
  }

  /** A draft as a JSON record. */
  function RecordOf(d: Draft): (j: Json)
    ensures j.JObj?
    ensures forall k :: k in RecordKeys ==> Get(j, k) == FieldOf(d, k)
  {
    JObj(map k | k in RecordKeys && FieldOf(d, k).Some? :: FieldOf(d, k).value)
  }

  /** A draft whose optional strings are absent rather than empty, with no attachments:
      the drafts a record can describe exactly. */
  predicate Canonical(d: Draft) {
    d.summary != Some("") && d.date != Some("") && d.category != Some("") && d.author != Some("")
    && d.slug != Some("") && d.attachments == []
  }

  /** Reading a record written from a canonical draft gives the draft back. */
  lemma DraftFromRecord(d: Draft)
    requires Canonical(d)
    ensures DraftFromJson(RecordOf(d)) == Some(d)
  {
    var j := RecordOf(d);
    assert "tags" in RecordKeys;
    if d.tags.Some? {
      AllStringsOfStrArray(d.tags.value);
    }
    assert TagsField(Get(j, "tags")) == Some(d.tags);
  }

  // ---------------------------------------------------------------------------------
  // The --json and --file modes
  // ---------------------------------------------------------------------------------

  /** `main` with `--json <module> <json>`. `data` is the parsed argument (`None` when it is
      missing or not JSON) and `file` the parsed hazards file. The module must be one of
      the three sections; a standards record needs a non-empty `hazards` array, and a
      laws or articles record a truthy title and content. */
  function JsonCommand(moduleArg: Option<string>, data: Option<Json>, file: Option<Json>,
                       now: nat, today: string): (o: PushOutcome)
    ensures o == Usage <==> moduleArg !in {Some("laws"), Some("articles"), Some("standards")}
    ensures o == BadJson <==> moduleArg in {Some("laws"), Some("articles"), Some("standards")} && data.None?
    ensures o == NoTitleOrContent <==>
      moduleArg in {Some("laws"), Some("articles")} && data.Some? && data.value != JNull
      && (!Truthy(Get(data.value, "title")) || !Truthy(Get(data.value, "content")))
    ensures o == NoHazards <==>
      moduleArg == Some("standards") && data.Some? && data.value != JNull
      && (AsArray(Get(data.value, "hazards")).None? || |AsArray(Get(data.value, "hazards")).value| == 0)
    ensures o.WroteStandards? ==>
      moduleArg == Some("standards") && data.Some?
      && AsArray(Get(data.value, "hazards")).Some?
      && o.count == |AsArray(Get(data.value, "hazards")).value| > 0
      && MergeHazards(ExistingHazards(file), AsArray(Get(data.value, "hazards")).value) == Some(o.hazards)
      && o.total == |o.hazards| && 1 <= o.total <= |ExistingHazards(file)| + o.count
      && o.source == (if Truthy(Get(data.value, "source")) then Get(data.value, "source").value else JStr("openclaw"))
    ensures o.WroteContent? ==>
      moduleArg in {Some("laws"), Some("articles")} && data.Some?
      && DraftFromJson(data.value).Some?
      && o.path == "content/" + moduleArg.value + "/" + o.slug + ".mdx"
      && (OneLineDraft(DraftFromJson(data.value).value, today) ==>
            ReadDocument(o.document) == Some((PushFront(DraftFromJson(data.value).value, today),
                                              "\n" + DraftFromJson(data.value).value.content + "\n")))
  {
    if moduleArg !in {Some("laws"), Some("articles"), Some("standards")} then Usage
    else if data.None? then BadJson
    else if data.value == JNull then Crash
    else if moduleArg == Some("standards") then
      match AsArray(Get(data.value, "hazards"))
      case None => NoHazards
      case Some(hs) =>
        if |hs| == 0 then NoHazards
        else
          var source := Get(data.value, "source");
          match MergeHazards(ExistingHazards(file), hs)
          case None => Crash
          case Some(merged) =>
            WroteStandards(|hs|, |merged|, merged,
              if Truthy(source) then source.value else JStr("openclaw"))
    else if !Truthy(Get(data.value, "title")) || !Truthy(Get(data.value, "content")) then NoTitleOrContent
    else match DraftFromJson(data.value)
      case None => Crash
      case Some(d) =>
        var w := WriteContent(moduleArg.value, d, now, today);
        WroteContent(w.0, w.1, w.2)
  }

  /** A laws or articles record written from a canonical draft with a title and content
      is written as that draft's document. */
  lemma JsonRecordWritten(m: string, d: Draft, file: Option<Json>, now: nat, today: string)
    requires m == "laws" || m == "articles"
    requires Canonical(d) && d.title != "" && d.content != ""
    ensures var w := WriteContent(m, d, now, today);
      JsonCommand(Some(m), Some(RecordOf(d)), file, now, today) == WroteContent(w.0, w.1, w.2)
  {
    var j := RecordOf(d);
    DraftFromRecord(d);
    assert "title" in RecordKeys && "content" in RecordKeys;
    assert Get(j, "title") == Some(JStr(d.title)) && Get(j, "content") == Some(JStr(d.content));
    assert Truthy(Get(j, "title")) && Truthy(Get(j, "content")) && j != JNull;
    assert Some(m) in {Some("laws"), Some("articles"), Some("standards")} && Some(m) != Some("standards");
  }

  /** `main` with `--file <module> <path>`: both arguments must be given; `data` is the
      parsed file (`None` when it cannot be read or parsed, which throws). The record is
      written as it is: neither the module nor the title and content are checked. */
  function FileCommand(moduleArg: Option<string>, pathArg: Option<string>, data: Option<Json>,
                       now: nat, today: string): (o: PushOutcome)
    ensures o == Usage <==> Or(moduleArg, "") == "" || Or(pathArg, "") == ""
    ensures o.WroteContent? <==>
      Or(moduleArg, "") != "" && Or(pathArg, "") != "" && data.Some? && DraftFromJson(data.value).Some?
    ensures o.WroteContent? ==> o.path == "content/" + moduleArg.value + "/" + o.slug + ".mdx"
    ensures o in {Usage, Crash} || o.WroteContent?
  {
    if Or(moduleArg, "") == "" || Or(pathArg, "") == "" then Usage
    else if data.None? then Crash
    else match DraftFromJson(data.value)
      case None => Crash
      case Some(d) =>
        var w := WriteContent(moduleArg.value, d, now, today);
        WroteContent(w.0, w.1, w.2)
  }

  /** The file mode writes a record the JSON mode refuses: one without content, whose
      body becomes the text `undefined`, in a directory of any name. */
  lemma FileModeWritesUndefined(now: nat, today: string)
    ensures var data := JObj(map["title" := JStr("t")]);
      && JsonCommand(Some("x"), Some(data), None, now, today) == Usage
      && JsonCommand(Some("laws"), Some(data), None, now, today) == NoTitleOrContent
      && FileCommand(Some("x"), Some("a.json"), Some(data), now, today).WroteContent?
      && DraftFromJson(data).value.content == "undefined"
  {
    var data := JObj(map["title" := JStr("t")]);
    assert Get(data, "content").None? && Get(data, "summary").None? && Get(data, "tags").None?;
    assert Get(data, "category").None? && Get(data, "author").None?;
  }
}

=== FILE: pattern.dfy ===
/** The fragment of JavaScript regular expressions the source matches codes with:
    sequences of single characters, character classes and starred atoms, tried with the
    same backtracking order as ECMA-262 (a greedy `*` first tries the longest run). */
module Pattern {
  import opened Common
  import opened Text

  /** One position of a pattern: a literal character, a literal compared without ASCII
      case (the `i` flag), or a character class. */
  datatype Atom = Char(c: char) | NoCase(c: char) | Class(p: char -> bool)

  /** An atom matched once, any number of times (`atom*`), or at most once (`atom?`). */
  datatype Item = One(a: Atom) | Many(a: Atom) | Maybe(a: Atom)

  predicate AtomMatches(a: Atom, c: char) {
    match a
    case Char(d) => c == d
    case NoCase(d) => LowerChar(c) == LowerChar(d)
    case Class(p) => p(c)
  }

  /** The pattern matching exactly the string `w`. */
  function Lit(w: string): (r: seq<Item>)
    ensures |r| == |w|
    ensures forall k :: 0 <= k < |w| ==> r[k] == One(Char(w[k]))
  {
    seq(|w|, k requires 0 <= k < |w| => One(Char(w[k])))
  }

  /** The pattern matching `w` with ASCII letters compared case-insensitively. */
  function LitNoCase(w: string): (r: seq<Item>)
    ensures |r| == |w|
  {
    seq(|w|, k requires 0 <= k < |w| => One(NoCase(w[k])))
  }

  /** `atom+`. */
  function Plus(a: Atom): seq<Item> {
    [One(a), Many(a)]
  }

  /** Where a match of `items` that starts at `i` ends, in the order the backtracking
      matcher of ECMA-262 tries the alternatives; `None` when nothing matches there. */
  function MatchEnd(s: string, i: nat, items: seq<Item>): (r: Option<nat>)
    requires i <= |s|
    ensures r.Some? ==> i <= r.value <= |s|
    decreases |s| - i, |items|
  {
    if |items| == 0 then Some(i)
    else match items[0]
      case One(a) =>
        if i < |s| && AtomMatches(a, s[i]) then MatchEnd(s, i + 1, items[1..]) else None
      case Many(a) =>
        var longer := if i < |s| && AtomMatches(a, s[i]) then MatchEnd(s, i + 1, items) else None;
        if longer.Some? then longer else MatchEnd(s, i, items[1..])
      case Maybe(a) =>
        var taken := if i < |s| && AtomMatches(a, s[i]) then MatchEnd(s, i + 1, items[1..]) else None;
        if taken.Some? then taken else MatchEnd(s, i, items[1..])
  }

  /** A match of a pattern that opens with a single atom starts with a character that atom
      accepts, and is not empty. */
  lemma FirstAtomMatched(s: string, i: nat, items: seq<Item>)
    requires i <= |s| && |items| > 0 && items[0].One? && MatchEnd(s, i, items).Some?
    ensures i < |s| && AtomMatches(items[0].a, s[i])
    ensures MatchEnd(s, i, items).value > i
  {
  }

  /** The leftmost match at or after `from`, as a (start, end) pair. */
  function SearchFrom(s: string, from: nat, items: seq<Item>): (r: Option<(nat, nat)>)
    ensures r.Some? ==> from <= r.value.0 <= r.value.1 <= |s|
    ensures r.Some? ==> MatchEnd(s, r.value.0, items) == Some(r.value.1)
    ensures r.Some? ==> forall j :: from <= j < r.value.0 ==> MatchEnd(s, j, items).None?
    ensures r.None? ==> forall j :: from <= j <= |s| ==> MatchEnd(s, j, items).None?
    decreases |s| + 1 - from
  {
    if from > |s| then None
    else match MatchEnd(s, from, items)
      case Some(e) => Some((from, e))
      case None => SearchFrom(s, from + 1, items)
  }

  /** `String.prototype.match` without the `g` flag: the leftmost match, if any. */
  function Search(s: string, items: seq<Item>): (r: Option<(nat, nat)>)
    ensures r.Some? <==> exists j :: 0 <= j <= |s| && MatchEnd(s, j, items).Some?
    ensures r.Some? ==> r.value.0 <= r.value.1 <= |s|
  {
    var r := SearchFrom(s, 0, items);
    assert r.Some? ==> MatchEnd(s, r.value.0, items).Some?;
    r
  }

  /** `s.matchAll(re)` with the `g` flag, from `from` on: the leftmost match, then the
      matches after its end (one position further when the match is empty), as (start,
      end) pairs, in order and without overlap. */
  function MatchAllFrom(s: string, from: nat, items: seq<Item>): (r: seq<(nat, nat)>)
    ensures forall k :: 0 <= k < |r| ==> from <= r[k].0 <= r[k].1 <= |s|
    ensures forall k :: 0 < k < |r| ==> r[k - 1].1 <= r[k].0 && r[k - 1].0 < r[k].0
    decreases |s| + 1 - from
  {
    var m := SearchFrom(s, from, items);
    if m.None? then []
    else
      var next := NextFrom(m.value);
      var rest := MatchAllFrom(s, next, items);
      ConsOrdered(from, m.value, next, rest, |s|);
      [m.value] + rest
  }

  /** A window at or after `from`, followed by ordered windows at or after `next`. */
  lemma ConsOrdered(from: nat, m: (nat, nat), next: nat, rest: seq<(nat, nat)>, n: nat)
    requires from <= m.0 <= m.1 <= n && m.1 <= next && m.0 < next
    requires forall k :: 0 <= k < |rest| ==> next <= rest[k].0 <= rest[k].1 <= n
    requires forall k :: 0 < k < |rest| ==> rest[k - 1].1 <= rest[k].0 && rest[k - 1].0 < rest[k].0
    ensures var r := [m] + rest;
      && (forall k :: 0 <= k < |r| ==> from <= r[k].0 <= r[k].1 <= n)
      && (forall k :: 0 < k < |r| ==> r[k - 1].1 <= r[k].0 && r[k - 1].0 < r[k].0)
  {
    var r := [m] + rest;
    assert forall k :: 0 < k < |r| ==> r[k] == rest[k - 1];
  }

  /** Every pair `matchAll` gives is a match of the pattern. */
  lemma {:induction false} MatchAllSound(s: string, from: nat, items: seq<Item>, k: nat)
    requires k < |MatchAllFrom(s, from, items)|
    ensures var m := MatchAllFrom(s, from, items)[k]; MatchEnd(s, m.0, items) == Some(m.1)
    decreases |s| + 1 - from
  {
    MatchAllUnfold(s, from, items);
    var m := SearchFrom(s, from, items).value;
    var rest := MatchAllFrom(s, NextFrom(m), items);
    if k == 0 {
      assert ([m] + rest)[0] == m;
    } else {
      MatchAllSound(s, NextFrom(m), items, k - 1);
      assert ([m] + rest)[k] == rest[k - 1];
    }
  }

  /** No match is skipped: every position where the pattern matches lies in one of the
      matches (or starts an empty one). */
  lemma {:induction false} MatchAllComplete(s: string, from: nat, items: seq<Item>, j: nat)
    requires from <= j <= |s| && MatchEnd(s, j, items).Some?
    ensures exists k :: 0 <= k < |MatchAllFrom(s, from, items)| && Covers(MatchAllFrom(s, from, items)[k], j)
    decreases |s| + 1 - from
  {
    SearchFromFirst(s, from, items, j);
    var m := SearchFrom(s, from, items).value;
    var rest := MatchAllFrom(s, NextFrom(m), items);
    MatchAllUnfold(s, from, items);
    if Covers(m, j) {
      assert ([m] + rest)[0] == m;
    } else {
      MatchAllComplete(s, NextFrom(m), items, j);
      var k :| 0 <= k < |rest| && Covers(rest[k], j);
      assert ([m] + rest)[k + 1] == rest[k];
    }
  }

  /** The search from `from` finds a match no later than any position that matches. */
  lemma SearchFromFirst(s: string, from: nat, items: seq<Item>, j: nat)
    requires from <= j <= |s| && MatchEnd(s, j, items).Some?
    ensures SearchFrom(s, from, items).Some? && SearchFrom(s, from, items).value.0 <= j
  { }

  /** Where the next search starts after match `m`. */
  function NextFrom(m: (nat, nat)): (r: nat)
    ensures r > m.0 && r >= m.1
  {
    if m.1 > m.0 then m.1 else m.0 + 1
  }

  /** One step of `matchAll`: the first match, then the matches after it. */
  lemma MatchAllUnfold(s: string, from: nat, items: seq<Item>)
    requires SearchFrom(s, from, items).Some?
    ensures MatchAllFrom(s, from, items)
      == [SearchFrom(s, from, items).value] + MatchAllFrom(s, NextFrom(SearchFrom(s, from, items).value), items)
  { }

  /** The match `m` covers position `j`. */
  predicate Covers(m: (nat, nat), j: nat) {
    m.0 <= j && (j < m.1 || j == m.0)
  }

  /** `RegExp.prototype.test`. */
  predicate Test(s: string, items: seq<Item>) {
    Search(s, items).Some?
  }

  /** The text of the leftmost match (`s.match(re)[0]`). */
  function Matched(s: string, items: seq<Item>): (r: Option<string>)
    ensures r.Some? <==> Test(s, items)
  {
    match Search(s, items)
    case None => None
    case Some((a, b)) => Some(s[a..b])
  }

  /** A literal pattern matches at `i` exactly when the word occurs there. */
  lemma {:induction false} LitMatchEnd(s: string, i: nat, w: string)
    requires i <= |s|
    ensures MatchEnd(s, i, Lit(w)).Some? <==> StartsAt(s, i, w)
    ensures MatchEnd(s, i, Lit(w)).Some? ==> MatchEnd(s, i, Lit(w)) == Some(i + |w|)
    decreases |w|
  {
    if |w| > 0 {
      assert Lit(w)[1..] == Lit(w[1..]);
      if i < |s| && s[i] == w[0] {
        LitMatchEnd(s, i + 1, w[1..]);
        if StartsAt(s, i + 1, w[1..]) {
          assert s[i..i + |w|] == [s[i]] + s[i + 1..i + 1 + |w[1..]|];
          assert w == [w[0]] + w[1..];
        }
        if StartsAt(s, i, w) {
          assert s[i + 1..i + 1 + |w[1..]|] == s[i..i + |w|][1..];
        }
      }
    }
  }

  /** Testing a literal pattern is `includes`. */
  lemma LitTest(s: string, w: string)
    ensures Test(s, Lit(w)) <==> Contains(s, w)
  {
    if Contains(s, w) {
      var j :| 0 <= j <= |s| && StartsAt(s, j, w);
      LitMatchEnd(s, j, w);
    }
    if Test(s, Lit(w)) {
      var j :| 0 <= j <= |s| && MatchEnd(s, j, Lit(w)).Some?;
      LitMatchEnd(s, j, w);
    }
  }
}

=== FILE: pdf.dfy ===
/** PDF files as the download paths of the site check them: a file is taken for a PDF when
    it begins with the header `%PDF-` (section 7.5.2 of ISO 32000-1, "File header") and is
    large enough. Every path reads the first five bytes and compares their text with
    `%PDF-`; five bytes decode to those five ASCII characters exactly when they are the
    five header bytes, so the comparison is stated on bytes. */
module Pdf {
  import opened Text

  /** An octet. */
  type Byte = b: int | 0 <= b < 256

  /** The bytes of `%PDF-`. */
  const Magic: seq<Byte> := [0x25, 0x50, 0x44, 0x46, 0x2D]

  /** The bytes of the header are the character codes of `%PDF-`. */
  lemma MagicSpellsHeader()
    ensures |Magic| == |"%PDF-"|
    ensures forall i :: 0 <= i < |Magic| ==> Magic[i] == "%PDF-"[i] as int
  {
  }

  /** The data begins with the header (`buf.slice(0, 5).toString() === "%PDF-"`). */
  predicate HasMagic(data: seq<Byte>) {
    |data| >= 5 && data[..5] == Magic
  }

  /** A five-byte buffer, zero-filled, into which the start of a file is read: what
      `isValidPdf` of the PDF finder compares. */
  function FirstFive(data: seq<Byte>): (r: seq<Byte>)
    ensures |r| == 5
  {
    if |data| >= 5 then data[..5] else data + seq(5 - |data|, _ => 0)
  }

  /** Reading into a zeroed buffer detects exactly the files that begin with the header:
      a shorter file leaves a zero byte in the buffer, and the header has none. */
  lemma FirstFiveIsMagic(data: seq<Byte>)
    ensures FirstFive(data) == Magic <==> HasMagic(data)
  {
    if |data| < 5 {
      assert FirstFive(data)[|data|] == 0 != Magic[|data|];
    }
  }

  /** An HTTP answer: its status and its body. */
  datatype Response = Response(status: int, data: seq<Byte>) {
    /** `response.ok`: a status in 200–299. */
    predicate Ok() {
      200 <= status <= 299
    }
  }

  /** What a request ended in: an answer, or an exception (network failure, timeout). */
  datatype Fetched = Threw | Answered(response: Response)

  /** How one download attempt of the batch download scripts ends: the file is saved, or
      the promise is rejected for a status other than 200, a body under the minimum size,
      a body without the header, or a network failure. */
  datatype Attempt = Saved(size: nat) | HttpError(status: int) | TooSmall | NotPdf | Failed

  /** `downloadFile` / `downloadUrl` of the batch scripts, for the answer that ends the
      redirect chain: status 200, then at least `minBytes` bytes, then the header. */
  function Download(f: Fetched, minBytes: nat): (r: Attempt)
    ensures r.Saved? <==> f.Answered? && f.response.status == 200
                          && |f.response.data| >= minBytes && HasMagic(f.response.data)
    ensures r.Saved? ==> r.size == |f.response.data| && r.size >= minBytes
    ensures r.HttpError? <==> f.Answered? && f.response.status != 200
    ensures r.Failed? <==> f.Threw?
  {
    match f
    case Threw => Failed
    case Answered(resp) =>
      if resp.status != 200 then HttpError(resp.status)
      else if |resp.data| < minBytes then TooSmall
      else if !HasMagic(resp.data) then NotPdf
      else Saved(|resp.data|)
  }

  /** A stricter size floor accepts fewer answers, and saves the same size when it does. */
  lemma DownloadMonotone(f: Fetched, lo: nat, hi: nat)
    requires lo <= hi
    ensures Download(f, hi).Saved? ==> Download(f, lo) == Download(f, hi)
  {
  }

  /** The file stem the scripts derive from a standard code:
      `code.replace(/\//g, "-").replace(/\s+/g, "-")`. */
  function CodeStem(code: string): (r: string)
    ensures |r| <= |code|
    ensures forall i :: 0 <= i < |r| ==> r[i] != '/' && !IsSpace(r[i])
  {
    ReplaceRuns(MapChar(code, '/', '-'), IsSpace, '-')
  }
}

=== FILE: scrape_pdfs.dfy ===
/** The scraper of the occupational-disease news site (scripts/scrape-and-download-pdfs.mjs).
    It walks the 66 listing pages of the site's standards column and collects the article
    addresses. From each article it reads the title, the standard code and the PDF/DOC
    links. Every record with a PDF link is then downloaded into the local PDF folder,
    three at a time. Page fetches (`curl`, which yields "" on any failure) and file
    downloads are parameters. The folder is a map from file name to size. */
module ScrapePdfs {
  import opened Common
  import opened Text
  import opened Pattern
  import opened Pdf
  import JsMap

  /** The news site the listing and the articles live on. */
  const Site: string := "https://news.zybw.com"

  /** The number of listing pages walked. */
  const ListingPages: nat := 66

  // ---------------------------------------------------------------------------------
  // Step 1: the listing pages

  /** The address of listing page `page`: the column root for the first page, a `page`
      query for the others. */
  function ListingUrl(page: nat): string {
    if page == 1 then Site + "/flfg/bz/" else Site + "/flfg/bz?page=" + NatToString(page)
  }

  /** Different pages are fetched from different addresses, so no page is read twice. */
  lemma ListingUrlInjective(p: nat, q: nat)
    requires ListingUrl(p) == ListingUrl(q)
    ensures p == q
  {
    if p != 1 && q != 1 {
      var k := |Site + "/flfg/bz?page="|;
      assert NatToString(p) == ListingUrl(p)[k..];
      assert NatToString(q) == ListingUrl(q)[k..];
      DigitsValueNatToString(p);
      DigitsValueNatToString(q);
    }
  }

  /** The listing pages in the order they are walked, `1 .. 66`. */
  function Pages(): (r: seq<nat>)
    ensures |r| == ListingPages
    ensures forall i :: 0 <= i < |r| ==> r[i] == i + 1
  {
    seq(ListingPages, i requires 0 <= i < ListingPages => i + 1)
  }

  /** `href="(https?://news.zybw.com/flfg/bz/(\d+).html)"`. */
  function AbsoluteArticle(): seq<Item> {
    Lit("href=\"http") + [Maybe(Char('s'))] + Lit("://news.zybw.com/flfg/bz/")
    + Plus(Class(IsDigit)) + Lit(".html\"")
  }

  /** `href="(/flfg/bz/(\d+).html)"`. */
  function RelativeArticle(): seq<Item> {
    Lit("href=\"/flfg/bz/") + Plus(Class(IsDigit)) + Lit(".html\"")
  }

  /** The first capture group of an `href="…"` match: the text between the quotes. */
  function HrefGroup(s: string, m: (nat, nat)): string
    requires m.0 <= m.1 <= |s|
  {
    if m.0 + 6 <= m.1 - 1 then s[m.0 + 6..m.1 - 1] else ""
  }

  /** The texts of every `href="…"` match of `items` in `s`, in order (`matchAll`). */
  function Groups(s: string, items: seq<Item>): (r: seq<string>)
    ensures |r| == |MatchAllFrom(s, 0, items)|
  {
    var ms := MatchAllFrom(s, 0, items);
    seq(|ms|, k requires 0 <= k < |ms| => HrefGroup(s, ms[k]))
  }

  /** A relative article address is completed with the site. */
  function FullUrl(g: string): (r: string)
    ensures StartsWith(r, "http")
    ensures StartsWith(g, "http") ==> r == g
  {
    if StartsWith(g, "http") then g
    else
      assert (Site + g)[..4] == Site[..4];
      Site + g
  }

  /** A relative link and the absolute link to the same article give one address, so the
      set the addresses are gathered in keeps the article once. */
  lemma RelativeAbsoluteSame(id: string)
    ensures FullUrl("/flfg/bz/" + id + ".html") == FullUrl(Site + "/flfg/bz/" + id + ".html")
  {
    var rel := "/flfg/bz/" + id + ".html";
    assert rel[0] == '/';
    assert !StartsWith(rel, "http");
    assert (Site + "/flfg/bz/" + id + ".html")[..4] == "http";
    assert Site + rel == Site + "/flfg/bz/" + id + ".html";
  }

  /** The article addresses of one listing page: the absolute links, then the relative
      ones, each completed to a full address. An empty page (a failed fetch) has none. */
  function PageArticles(html: string): (r: seq<string>)
    ensures forall i :: 0 <= i < |r| ==> StartsWith(r[i], "http")
    ensures html == "" ==> r == []
  {
    var gs := Groups(html, AbsoluteArticle()) + Groups(html, RelativeArticle());
    seq(|gs|, k requires 0 <= k < |gs| => FullUrl(gs[k]))
  }

  /** The article addresses found on each listing page, by page number. */
  function ListingArticles(page: string -> string): nat -> seq<string> {
    (p: nat) => PageArticles(page(ListingUrl(p)))
  }

  /** `scrapeListingPages`: the distinct article addresses of the 66 listing pages, in the
      order they were first seen. `page` gives the text `curl` returns for an address. */
  function ScrapeListing(page: string -> string): (r: seq<string>)
    ensures Distinct(r)
    ensures forall i :: 0 <= i < |r| ==> StartsWith(r[i], "http")
    ensures forall u :: u in r <==> exists p :: 1 <= p <= ListingPages && u in ListingArticles(page)(p)
  {
    var r := JsMap.Dedup(FlatMap(Pages(), ListingArticles(page)));
    forall u
      ensures u in r <==> exists p :: 1 <= p <= ListingPages && u in ListingArticles(page)(p)
    {
      ListingMember(page, u);
    }
    forall i | 0 <= i < |r|
      ensures StartsWith(r[i], "http")
    {
      assert r[i] in r;
      ListingHttp(page, r[i]);
    }
    r
  }

  /** An address is among those gathered exactly when some listing page links to it. */
  lemma ListingMember(page: string -> string, u: string)
    ensures u in FlatMap(Pages(), ListingArticles(page))
      <==> exists p :: 1 <= p <= ListingPages && u in ListingArticles(page)(p)
  {
    FlatMapMember(Pages(), ListingArticles(page), u);
    if exists p :: 1 <= p <= ListingPages && u in ListingArticles(page)(p) {
      var p :| 1 <= p <= ListingPages && u in ListingArticles(page)(p);
      assert Pages()[p - 1] == p;
    }
  }

  /** Every gathered address is a full address. */
  lemma ListingHttp(page: string -> string, u: string)
    requires u in FlatMap(Pages(), ListingArticles(page))
    ensures StartsWith(u, "http")
  {
    ListingMember(page, u);
    var p :| 1 <= p <= ListingPages && u in ListingArticles(page)(p);
    var xs := PageArticles(page(ListingUrl(p)));
    var j :| 0 <= j < |xs| && xs[j] == u;
  }

  // ---------------------------------------------------------------------------------
  // Step 2: the article pages

  /** `[\d.]`. */
  predicate IsDigitOrDot(c: char) { IsDigit(c) || c == '.' }

  /** `[-—]`: a hyphen or an em dash. */
  predicate IsCodeDash(c: char) { c == '-' || c == '\U{2014}' }

  /** `(PREFIX[\s]*[\d.]+[\s]*[-—][\s]*\d{4})` with the `i` flag. */
  function CodePattern(prefix: string): seq<Item> {
    LitNoCase(prefix) + [Many(Class(IsSpace))] + Plus(Class(IsDigitOrDot))
    + [Many(Class(IsSpace)), One(Class(IsCodeDash)), Many(Class(IsSpace))]
    + [One(Class(IsDigit)), One(Class(IsDigit)), One(Class(IsDigit)), One(Class(IsDigit))]
  }

  /** The code families, in the order they are tried. */
  const CodePrefixes: seq<string> := ["GBZ/T", "GBZ", "WS/T", "WS", "AQ", "GB"]

  /** The code family `source` matches: the pattern of `prefix` occurs in it. */
  predicate FamilyMatches(source: string, prefix: string) {
    Test(source, CodePattern(prefix))
  }

  /** A white-space character other than the plain space cannot occur. */
  predicate PlainSpacing(c: char) { !IsSpace(c) || c == ' ' }

  /** A matched code made tidy: its first em dash becomes a hyphen, white-space runs become
      one space, and the ends are trimmed. */
  function NormalizeCode(m: string): (r: string)
    ensures IsBlank(m) ==> r == ""
    ensures |m| > 0 && !IsSpace(m[0]) ==> r != ""
    ensures |r| > 0 ==> !IsSpace(r[0]) && !IsSpace(r[|r| - 1])
    ensures forall i :: 0 <= i < |r| ==> PlainSpacing(r[i])
  {
    var t := ReplaceFirst(m, "\U{2014}", "-");
    var u := ReplaceRuns(t, IsSpace, ' ');
    assert All(u, PlainSpacing);
    TrimKeeps(u, PlainSpacing);
    DashlessBlank(m);
    FirstSolid(m);
    Trim(u)
  }

  /** A blank match has no em dash to replace, and collapses to spaces only. */
  lemma DashlessBlank(m: string)
    ensures IsBlank(m) ==> IsBlank(ReplaceRuns(ReplaceFirst(m, "\U{2014}", "-"), IsSpace, ' '))
  {
    if IsBlank(m) {
      forall i | 0 <= i <= |m|
        ensures !StartsAt(m, i, "\U{2014}")
      {
        if i < |m| {
          assert m[i..i + 1][0] == m[i];
        }
      }
      assert ReplaceFirst(m, "\U{2014}", "-") == m;
      var u := ReplaceRuns(m, IsSpace, ' ');
      assert forall k :: 0 <= k < |u| ==> IsSpace(u[k]);
    }
  }

  /** A match that starts with a non-space character still does after the em-dash
      replacement and the run collapse. */
  lemma FirstSolid(m: string)
    ensures |m| > 0 && !IsSpace(m[0]) ==>
      var u := ReplaceRuns(ReplaceFirst(m, "\U{2014}", "-"), IsSpace, ' ');
      |u| > 0 && !IsSpace(u[0])
  {
    var t := ReplaceFirst(m, "\U{2014}", "-");
    if |m| > 0 && !IsSpace(m[0]) && Contains(m, "\U{2014}") {
      var i :| 0 <= i <= |m| - 1 && StartsAt(m, i, "\U{2014}") && t == m[..i] + "-" + m[i + 1..];
      assert t[0] == if i == 0 then '-' else m[0];
    }
  }

  /** A match of a code pattern whose prefix opens with a letter starts with that letter
      (in either case), so it is not empty and does not start with white space. */
  lemma CodeMatchSolid(source: string, prefix: string)
    requires |prefix| > 0 && IsUpper(prefix[0]) && FamilyMatches(source, prefix)
    ensures var m := Matched(source, CodePattern(prefix)).value;
      |m| > 0 && !IsSpace(m[0])
  {
    var items := CodePattern(prefix);
    var (a, b) := SearchFrom(source, 0, items).value;
    assert items[0] == One(NoCase(prefix[0]));
    FirstAtomMatched(source, a, items);
    assert Matched(source, items).value == source[a..b];
    assert source[a..b][0] == source[a];
  }

  /** The standard code of an article (`codeMatch`): the first family whose pattern occurs
      in `source`, its leftmost match made tidy; "" when no family occurs. */
  function ExtractCode(source: string): (r: string)
    ensures r == "" <==> NoFamily(source)
    ensures |r| > 0 ==> !IsSpace(r[0]) && !IsSpace(r[|r| - 1])
  {
    match FirstWhere(CodePrefixes, p => FamilyMatches(source, p))
    case None => ""
    case Some(k) =>
      CodeMatchSolid(source, CodePrefixes[k]);
      NormalizeCode(Matched(source, CodePattern(CodePrefixes[k])).value)
  }

  /** `replace(/<[^>]*>/g, "")`: every `<` that has a `>` after it is removed together with
      everything up to the first such `>`; a `<` with none after it stays. */
  function StripTags(s: string): (r: string)
    ensures |r| <= |s|
    ensures forall c :: c in r ==> c in s
    ensures '<' !in s ==> r == s
    ensures NoTag(r)
    decreases |s|
  {
    if |s| == 0 then ""
    else if s[0] == '<' && IndexOfFrom(s, ">", 1).Some? then
      StripTags(s[IndexOfFrom(s, ">", 1).value + 1..])
    else
      var rest := StripTags(s[1..]);
      NoCloseAfter(s);
      ConsNoTag(s[0], rest);
      [s[0]] + rest
  }

  /** With no `>` after a leading `<`, the rest of the text has none either. */
  lemma NoCloseAfter(s: string)
    requires |s| > 0
    ensures IndexOfFrom(s, ">", 1).None? ==> '>' !in s[1..]
  {
    if IndexOfFrom(s, ">", 1).None? && '>' in s[1..] {
      var j :| 0 <= j < |s[1..]| && s[1..][j] == '>';
      assert StartsAt(s, j + 1, ">");
    }
  }

  /** No `<` in `s` has a `>` after it: nothing left that `/<[^>]*>/` matches. */
  predicate NoTag(s: string) {
    forall i :: 0 <= i < |s| && s[i] == '<' ==> '>' !in s[i + 1..]
  }

  /** A character in front of a text without tags makes none, unless it is a `<` with a
      `>` somewhere after it. */
  lemma ConsNoTag(c: char, rest: string)
    requires NoTag(rest) && (c == '<' ==> '>' !in rest)
    ensures NoTag([c] + rest)
  {
    var r := [c] + rest;
    forall i | 0 <= i < |r| && r[i] == '<'
      ensures '>' !in r[i + 1..]
    {
      assert r[i + 1..] == rest[i..];
      if i > 0 {
        assert rest[i - 1] == '<';
        assert rest[i..] == rest[i - 1 + 1..];
      }
    }
  }

  /** The closing tag `</tag>`. */
  function Close(tag: string): string {
    "</" + tag + ">"
  }

  /** `<tag[^>]*>(.*?)</tag>` (with the `s` flag) at position `i`: the opening tag runs to
      the first `>` after its name, and the content to the first closing tag after that.
      The result is the content's (start, end). */
  function TagAt(s: string, i: nat, tag: string): (r: Option<(nat, nat)>)
    ensures r.Some? ==> StartsAt(s, i, "<" + tag) && i + 1 + |tag| < r.value.0 <= r.value.1
    ensures r.Some? ==> StartsAt(s, r.value.1, Close(tag))
    ensures r.Some? ==> s[r.value.0 - 1] == '>' && '>' !in s[i + 1 + |tag|..r.value.0 - 1]
  {
    if !StartsAt(s, i, "<" + tag) then None
    else match IndexOfFrom(s, ">", i + 1 + |tag|)
      case None => None
      case Some(g) =>
        match IndexOfFrom(s, Close(tag), g + 1)
        case None => None
        case Some(c) =>
          OneCharAt(s, g, '>');
          NoCharBefore(s, i + 1 + |tag|, g, '>');
          Some((g + 1, c))
  }

  /** A one-character word occurs at `i` exactly when that character is there. */
  lemma OneCharAt(s: string, i: nat, c: char)
    requires StartsAt(s, i, [c])
    ensures i < |s| && s[i] == c
  {
    assert s[i..i + 1][0] == s[i];
  }

  /** No occurrence of the character `c` from `a` up to `b` means `c` is not in that slice. */
  lemma NoCharBefore(s: string, a: nat, b: nat, c: char)
    requires a <= b <= |s| && forall j :: a <= j < b ==> !StartsAt(s, j, [c])
    ensures c !in s[a..b]
  {
    if c in s[a..b] {
      var k :| 0 <= k < b - a && s[a..b][k] == c;
      assert s[a + k] == c;
      assert StartsAt(s, a + k, [c]);
    }
  }

  /** Every `<tag …>…</tag>` element from `from` on, in order, scanning on after each
      closing tag (`matchAll`): the (start, content start, content end) of each. */
  function TagsFrom(s: string, from: nat, tag: string): (r: seq<(nat, nat, nat)>)
    ensures forall k :: 0 <= k < |r| ==> from <= r[k].0 && TagAt(s, r[k].0, tag) == Some((r[k].1, r[k].2))
    decreases |s| + 1 - from
  {
    if from >= |s| then []
    else match TagAt(s, from, tag)
      case None => TagsFrom(s, from + 1, tag)
      case Some((a, b)) => [(from, a, b)] + TagsFrom(s, b + |Close(tag)|, tag)
  }

  /** An element found by `TagsFrom`: the whole element, and its content with the markup
      stripped and the ends trimmed. */
  function Element(s: string, m: (nat, nat, nat), tag: string): (r: (string, string))
    requires TagAt(s, m.0, tag) == Some((m.1, m.2))
  {
    (s[m.0..m.2 + |Close(tag)|], Trim(StripTags(s[m.1..m.2])))
  }

  /** The `<h1>` elements of a page, in order. */
  function Headings(html: string): (r: seq<(string, string)>)
    ensures |r| == |TagsFrom(html, 0, "h1")|
  {
    var hs := TagsFrom(html, 0, "h1");
    seq(|hs|, k requires 0 <= k < |hs| => Element(html, hs[k], "h1"))
  }

  /** The heading of the article rather than the site logo: not marked `site_logo`, not
      the site's name, and longer than three UTF-16 code units. */
  predicate IsArticleHeading(h: (string, string)) {
    !Contains(h.0, "site_logo") && h.1 != "职业病网" && JsLength(h.1) > 3
  }

  /** The article's own title: the text of its first article heading, "" when there is
      none. */
  function ArticleTitle(html: string): (r: string)
    ensures r == "" <==> forall k :: 0 <= k < |Headings(html)| ==> !IsArticleHeading(Headings(html)[k])
    ensures r != "" ==> exists k :: 0 <= k < |Headings(html)| && IsArticleHeading(Headings(html)[k])
                                    && r == Headings(html)[k].1
                                    && forall j :: 0 <= j < k ==> !IsArticleHeading(Headings(html)[j])
  {
    match FirstWhere(Headings(html), IsArticleHeading)
    case None => ""
    case Some(k) => Headings(html)[k].1
  }

  /** The text of the page's first `<title>` element, "" when it has none. */
  function PageTitle(html: string): string {
    var ts := TagsFrom(html, 0, "title");
    if |ts| == 0 then "" else Element(html, ts[0], "title").1
  }

  /** `bestTitle`: the article heading, or the page title when there is none. */
  function BestTitle(html: string): string {
    var t := ArticleTitle(html);
    if t != "" then t else PageTitle(html)
  }

  /** `u` ends with `suffix`, ASCII letters compared without case. */
  predicate EndsWithNoCase(u: string, suffix: string) {
    |suffix| <= |u| && Lower(u[|u| - |suffix|..]) == Lower(suffix)
  }

  /** `\.(pdf|PDF|doc|DOC|docx|DOCX)` closing the link, with the `i` flag. */
  predicate HasDocExt(u: string) {
    EndsWithNoCase(u, ".pdf") || EndsWithNoCase(u, ".doc") || EndsWithNoCase(u, ".docx")
  }

  /** Putting text in front keeps the ending. */
  lemma EndsWithNoCasePrefix(p: string, u: string, suffix: string)
    requires EndsWithNoCase(u, suffix)
    ensures EndsWithNoCase(p + u, suffix)
  {
    assert (p + u)[|p + u| - |suffix|..] == u[|u| - |suffix|..];
  }

  /** `href="([^"]*\.(pdf|…|DOCX))"` with the `i` flag, at position `i`: the link runs to
      the first quote after `href="`, and matches when it has a document ending (the
      `[^"]*` cannot pass a quote, so the closing quote is the first one). The result is
      the position of the closing quote. */
  function HrefAt(s: string, i: nat): (r: Option<nat>)
    ensures r.Some? ==> i + 6 <= r.value < |s| && s[r.value] == '"'
    ensures r.Some? ==> '"' !in s[i + 6..r.value] && HasDocExt(s[i + 6..r.value])
  {
    if i + 6 <= |s| && Lower(s[i..i + 6]) == "href=\"" then
      match IndexOfFrom(s, "\"", i + 6)
      case None => None
      case Some(q) =>
        OneCharAt(s, q, '"');
        NoCharBefore(s, i + 6, q, '"');
        if HasDocExt(s[i + 6..q]) then Some(q) else None
    else None
  }

  /** A matcher: where a match starting at a position ends, if one starts there. */
  type Matcher = nat -> Option<nat>

  /** The matcher ends every match at or after its start. */
  ghost predicate Forward(at: Matcher) {
    forall i :: at(i).Some? ==> at(i).value >= i
  }

  /** `matchAll` with `at`: from `from` on, the first position where a match starts, then
      the matches after its end, as (start, end) pairs, up to the end `n` of the text. */
  function ScanFrom(n: nat, from: nat, at: Matcher): (r: seq<(nat, nat)>)
    requires Forward(at)
    ensures forall k :: 0 <= k < |r| ==> from <= r[k].0 < n && at(r[k].0) == Some(r[k].1)
    ensures forall k :: 0 < k < |r| ==> r[k - 1].1 < r[k].0
    decreases n - from
  {
    if from >= n then []
    else match at(from)
      case None => ScanFrom(n, from + 1, at)
      case Some(q) =>
        var rest := ScanFrom(n, q + 1, at);
        assert forall k :: 0 < k < |rest| + 1 ==> ([(from, q)] + rest)[k] == rest[k - 1];
        [(from, q)] + rest
  }

  /** Position `i` lies inside one of the (start, end) windows. */
  predicate Covered(ms: seq<(nat, nat)>, i: nat) {
    exists k :: 0 <= k < |ms| && ms[k].0 <= i <= ms[k].1
  }

  /** A window in front keeps every covered position covered, and covers its own. */
  lemma CoveredCons(m: (nat, nat), rest: seq<(nat, nat)>, i: nat)
    requires Covered(rest, i) || m.0 <= i <= m.1
    ensures Covered([m] + rest, i)
  {
    if m.0 <= i <= m.1 {
      assert ([m] + rest)[0] == m;
    } else {
      var k :| 0 <= k < |rest| && rest[k].0 <= i <= rest[k].1;
      assert ([m] + rest)[k + 1] == rest[k];
    }
  }

  /** No match is skipped: every position before `n` where a match starts lies inside one
      of the matches the scan finds. */
  lemma {:induction false} ScanComplete(n: nat, from: nat, at: Matcher, i: nat)
    requires Forward(at) && from <= i < n && at(i).Some?
    ensures Covered(ScanFrom(n, from, at), i)
    decreases n - from
  {
    match at(from)
    case None =>
      ScanComplete(n, from + 1, at, i);
    case Some(q) =>
      if q < i {
        ScanComplete(n, q + 1, at, i);
      }
      CoveredCons((from, q), ScanFrom(n, q + 1, at), i);
  }

  /** The link matcher of a page. */
  function Hrefs(s: string): (at: Matcher)
    ensures Forward(at)
  {
    i => HrefAt(s, i)
  }

  /** Every link match of a page, from `from` on, as (start, closing quote) pairs. */
  function HrefsFrom(s: string, from: nat): (r: seq<(nat, nat)>)
    ensures forall k :: 0 <= k < |r| ==> HrefAt(s, r[k].0) == Some(r[k].1)
  {
    ScanFrom(|s|, from, Hrefs(s))
  }

  /** No link is skipped: every position where a link match starts lies inside one of
      the matches found. */
  lemma HrefsComplete(s: string, i: nat)
    requires HrefAt(s, i).Some?
    ensures Covered(HrefsFrom(s, 0), i)
  {
    ScanComplete(|s|, 0, Hrefs(s), i);
  }

  /** The text of every link match of a page, in order. */
  function LinkTexts(html: string): (r: seq<string>)
    ensures forall k :: 0 <= k < |r| ==> '"' !in r[k] && HasDocExt(r[k])
  {
    var hs := HrefsFrom(html, 0);
    seq(|hs|, k requires 0 <= k < |hs| => html[hs[k].0 + 6..hs[k].1])
  }

  /** A link is made absolute when it starts with `/`, and kept only when it then starts
      with `http`. */
  function NormalizeLink(u: string): (r: Option<string>)
    ensures r.Some? <==> StartsWith(u, "/") || StartsWith(u, "http")
    ensures r.Some? ==> StartsWith(r.value, "http")
    ensures r.Some? && HasDocExt(u) ==> HasDocExt(r.value)
  {
    var v := if StartsWith(u, "/") then LinkHost + u else u;
    HostedLink(u);
    if StartsWith(v, "http") then Some(v) else None
  }

  /** The host a root-relative download link is completed with. */
  const LinkHost: string := "http://www.zybw.com"

  /** A completed link starts with `http` and keeps its document ending. */
  lemma HostedLink(u: string)
    ensures StartsWith(LinkHost + u, "http")
    ensures HasDocExt(u) ==> HasDocExt(LinkHost + u)
  {
    assert (LinkHost + u)[..4] == "http";
    if EndsWithNoCase(u, ".pdf") { EndsWithNoCasePrefix(LinkHost, u, ".pdf"); }
    if EndsWithNoCase(u, ".doc") { EndsWithNoCasePrefix(LinkHost, u, ".doc"); }
    if EndsWithNoCase(u, ".docx") { EndsWithNoCasePrefix(LinkHost, u, ".docx"); }
  }

  /** The distinct download links of an article page, completed and in page order. */
  function ArticleLinks(html: string): (r: seq<string>)
    ensures Distinct(r)
    ensures forall k :: 0 <= k < |r| ==> StartsWith(r[k], "http") && HasDocExt(r[k])
    ensures forall u :: u in r <==> SomeGives(LinkTexts(html), NormalizeLink, u)
  {
    var kept := Collect(LinkTexts(html), NormalizeLink);
    forall u
      ensures u in kept <==> SomeGives(LinkTexts(html), NormalizeLink, u)
    {
      CollectMembers(LinkTexts(html), NormalizeLink, u);
    }
    forall u | u in kept
      ensures StartsWith(u, "http") && HasDocExt(u)
    {
      var i :| 0 <= i < |LinkTexts(html)| && NormalizeLink(LinkTexts(html)[i]) == Some(u);
    }
    JsMap.Dedup(kept)
  }

  /** What is kept of an article: its title, its standard code, its address and its
      download links. */
  datatype PdfLink = PdfLink(title: string, code: string, articleUrl: string, pdfUrls: seq<string>)

  /** The text the code is looked for in: the title, a space, and the first 5000 UTF-16
      code units of the page. A surrogate half cut off at the end cannot be part of a code,
      which ends in four digits, so leaving it out changes no match. */
  function CodeSource(html: string): string {
    BestTitle(html) + " " + JsTake(html, 5000)
  }

  /** No code family occurs in `source`. */
  predicate NoFamily(source: string) {
    forall k :: 0 <= k < |CodePrefixes| ==> !FamilyMatches(source, CodePrefixes[k])
  }

  /** Every link of the page is dropped by `NormalizeLink`. */
  predicate NoKeptLink(html: string) {
    forall k :: 0 <= k < |LinkTexts(html)| ==> NormalizeLink(LinkTexts(html)[k]).None?
  }

  /** The record of one article page; none when the page could not be fetched, or has
      neither a code nor a link. */
  function ExtractRecord(articleUrl: string, html: string): (r: Option<PdfLink>)
    ensures r.None? <==> html == "" || (NoFamily(CodeSource(html)) && NoKeptLink(html))
    ensures r.Some? ==> r.value.articleUrl == articleUrl && r.value.title == BestTitle(html)
    ensures r.Some? ==> Distinct(r.value.pdfUrls)
  {
    if html == "" then None
    else
      var code := ExtractCode(CodeSource(html));
      var links := ArticleLinks(html);
      CollectEmpty(LinkTexts(html), NormalizeLink);
      assert |links| == 0 <==> |Collect(LinkTexts(html), NormalizeLink)| == 0;
      if code != "" || |links| > 0 then Some(PdfLink(BestTitle(html), code, articleUrl, links))
      else None
  }

  /** The record of each article address, read from the page fetched for it. */
  function ArticleRecords(page: string -> string): string -> Option<PdfLink> {
    u => ExtractRecord(u, page(u))
  }

  /** `extractPdfLinks`: the records of the article pages, in the order of the addresses;
      pages without a record are skipped. */
  function ExtractPdfLinks(urls: seq<string>, page: string -> string): (r: seq<PdfLink>)
    ensures |r| <= |urls|
    ensures forall x :: x in r <==> SomeGives(urls, ArticleRecords(page), x)
    ensures forall k :: 0 <= k < |r| ==> r[k].articleUrl in urls
  {
    var r := Collect(urls, ArticleRecords(page));
    forall x
      ensures x in r <==> SomeGives(urls, ArticleRecords(page), x)
    {
      CollectMembers(urls, ArticleRecords(page), x);
    }
    forall k | 0 <= k < |r|
      ensures r[k].articleUrl in urls
    {
      assert r[k] in r;
      var i :| 0 <= i < |urls| && ArticleRecords(page)(urls[i]) == Some(r[k]);
    }
    r
  }

  // ---------------------------------------------------------------------------------
  // Step 3: the downloads

  /** `/\.pdf$/i`. */
  predicate IsPdfUrl(u: string) {
    EndsWithNoCase(u, ".pdf")
  }

  /** The record has a link to a PDF. */
  predicate HasPdfUrl(p: PdfLink) {
    exists k :: 0 <= k < |p.pdfUrls| && IsPdfUrl(p.pdfUrls[k])
  }

  /** The records worth a download: those with a PDF link. */
  function ToDownload(links: seq<PdfLink>): (r: seq<PdfLink>)
    ensures forall p :: p in r <==> p in links && HasPdfUrl(p)
    ensures |r| <= |links|
  {
    Filter(links, HasPdfUrl)
  }

  /** `[\w\u4e00-\u9fa5-]`: the characters a title keeps in a file name. */
  predicate IsNameChar(c: char) {
    IsWordChar(c) || ('\U{4E00}' <= c <= '\U{9FA5}') || c == '-'
  }

  /** The number of decimal digits starting at `j`. */
  function DigitRun(s: string, j: nat): (d: nat)
    ensures j + d <= |s| || (j >= |s| && d == 0)
    ensures forall k :: j <= k < j + d ==> IsDigit(s[k])
    ensures j + d < |s| ==> !IsDigit(s[j + d])
    decreases |s| - j
  {
    if j < |s| && IsDigit(s[j]) then 1 + DigitRun(s, j + 1) else 0
  }

  /** `/\/(\d+)\.html/` at position `i`: a slash, the longest run of digits, then
      `.html` (a shorter run would leave a digit where the dot must be). The result is
      the digits. */
  function IdAt(s: string, i: nat): (r: Option<string>)
    ensures r.Some? ==> |r.value| > 0 && forall k :: 0 <= k < |r.value| ==> IsDigit(r.value[k])
  {
    if i < |s| && s[i] == '/' then
      var d := DigitRun(s, i + 1);
      if d > 0 && StartsAt(s, i + 1 + d, ".html") then Some(s[i + 1..i + 1 + d]) else None
    else None
  }

  /** The article number in an address: the digits of the leftmost `/<digits>.html`. */
  function ArticleId(url: string, from: nat): (r: Option<string>)
    ensures r.Some? ==> |r.value| > 0 && forall k :: 0 <= k < |r.value| ==> IsDigit(r.value[k])
    ensures r.Some? ==> exists i :: from <= i < |url| && IdAt(url, i) == r
    ensures r.None? ==> forall i :: from <= i < |url| ==> IdAt(url, i).None?
    decreases |url| - from
  {
    if from >= |url| then None
    else if IdAt(url, from).Some? then IdAt(url, from)
    else ArticleId(url, from + 1)
  }

  /** The file name a record is saved under, without `.pdf`: the code with slashes and
      white-space runs made hyphens; else a title longer than five UTF-16 code units, reduced
      to word characters, CJK ideographs and hyphens and cut to 80; else `standard-` and the
      article number, or the clock `now` when the address has none. */
  function NameBase(item: PdfLink, now: nat): (r: string)
    ensures forall i :: 0 <= i < |r| ==> r[i] != '/' && !IsSpace(r[i])
    ensures item.code != "" ==> r == CodeStem(item.code)
    ensures item.code == "" && JsLength(item.title) > 5 ==> JsLength(r) <= 80 && forall i :: 0 <= i < |r| ==> IsNameChar(r[i])
  {
    if item.code != "" then CodeStem(item.code)
    else if JsLength(item.title) > 5 then
      var t := TitleName(item.title);
      NameCharsPlain(t);
      t
    else FallbackName(item.articleUrl, now)
  }

  lemma NameCharsPlain(t: string)
    requires forall i :: 0 <= i < |t| ==> IsNameChar(t[i])
    ensures forall i :: 0 <= i < |t| ==> t[i] != '/' && !IsSpace(t[i])
  {
  }

  /** A title reduced to the characters a file name keeps, cut to 80. Those characters
      are single code units, so cutting code units and cutting characters agree. */
  function TitleName(title: string): (r: string)
    ensures |r| <= 80 && forall i :: 0 <= i < |r| ==> IsNameChar(r[i])
    ensures JsLength(r) == |r|
  {
    var kept := Filter(title, IsNameChar);
    assert forall i :: 0 <= i < |Take(kept, 80)| ==> Take(kept, 80)[i] == kept[i];
    JsLengthBmp(Take(kept, 80));
    Take(kept, 80)
  }

  /** `standard-` and the article number, or the clock when the address has none. */
  function FallbackName(url: string, now: nat): (r: string)
    ensures forall i :: 0 <= i < |r| ==> r[i] != '/' && !IsSpace(r[i])
  {
    var id := match ArticleId(url, 0) case Some(id) => id case None => NatToString(now);
    assert forall i :: 0 <= i < |id| ==> IsDigit(id[i]);
    "standard-" + id
  }

  /** The file a record is saved to. */
  function FileName(item: PdfLink, now: nat): string {
    NameBase(item, now) + ".pdf"
  }

  /** The smallest download accepted, and the size above which a file on disk counts as
      already downloaded. */
  const MinBytes: nat := 500

  /** How the download of one record ends. */
  datatype ItemResult = Exists | Got(size: nat) | FailedAll

  /** The download succeeds for address `u`. */
  function Accepts(fetch: string -> Fetched): string -> bool {
    u => Download(fetch(u), MinBytes).Saved?
  }

  /** One record of a batch: skipped when its file is on disk with more than 500 bytes;
      otherwise its PDF links are tried in order and the first accepted download is
      saved. `files` is the folder as it was when the batch started. */
  function DownloadItem(item: PdfLink, files: map<string, nat>, fetch: string -> Fetched, now: nat): (r: ItemResult)
    ensures r.Exists? <==> FileName(item, now) in files && files[FileName(item, now)] > MinBytes
    ensures r.Got? ==> r.size >= MinBytes
    ensures r.Got? ==> exists u :: u in item.pdfUrls && IsPdfUrl(u) && Download(fetch(u), MinBytes) == Saved(r.size)
    ensures r.FailedAll? ==> forall u :: u in item.pdfUrls && IsPdfUrl(u) ==> !Download(fetch(u), MinBytes).Saved?
  {
    var name := FileName(item, now);
    if name in files && files[name] > MinBytes then Exists
    else
      var pdfOnly := Filter(item.pdfUrls, IsPdfUrl);
      match FirstWhere(pdfOnly, Accepts(fetch))
      case None =>
        assert forall u :: u in item.pdfUrls && IsPdfUrl(u) ==> u in pdfOnly;
        FailedAll
      case Some(k) =>
        assert pdfOnly[k] in pdfOnly;
        Got(Download(fetch(pdfOnly[k]), MinBytes).size)
  }

  /** A file of exactly 500 bytes does not count as downloaded, yet a 500-byte download is
      accepted: a file the scraper saved itself can be fetched again on the next run. */
  lemma FiveHundredBytesFetchedAgain(item: PdfLink, files: map<string, nat>, fetch: string -> Fetched, now: nat)
    requires FileName(item, now) in files && files[FileName(item, now)] == MinBytes
    requires |item.pdfUrls| == 1 && IsPdfUrl(item.pdfUrls[0])
    requires fetch(item.pdfUrls[0]) == Answered(Response(200, Magic + seq(MinBytes - 5, _ => 0)))
    ensures DownloadItem(item, files, fetch, now) == Got(MinBytes)
  {
    var data := Magic + seq(MinBytes - 5, _ => 0);
    assert data[..5] == Magic;
    assert Filter(item.pdfUrls, IsPdfUrl) == item.pdfUrls;
  }

  /** Records downloaded at once. */
  const Batch: nat := 3

  /** The counters of the download step; a rejected promise is not counted at all. */
  datatype Tally = Tally(downloaded: nat, skipped: nat, failed: nat, totalBytes: nat) {
    /** The records accounted for. */
    function Total(): nat {
      downloaded + skipped + failed
    }
  }

  /** The counters after the results of one batch, in order. */
  function CountAll(results: seq<ItemResult>, t: Tally): (r: Tally)
    ensures r.Total() == t.Total() + |results|
    ensures r.totalBytes >= t.totalBytes
  {
    if |results| == 0 then t
    else
      var t1 := match results[0]
        case Exists => t.(skipped := t.skipped + 1)
        case Got(n) => t.(downloaded := t.downloaded + 1, totalBytes := t.totalBytes + n)
        case FailedAll => t.(failed := t.failed + 1);
      CountAll(results[1..], t1)
  }

  /** The folder after the saved downloads of a batch are written, in batch order. */
  function Store(files: map<string, nat>, names: seq<string>, results: seq<ItemResult>): (r: map<string, nat>)
    requires |names| == |results|
    ensures files.Keys <= r.Keys
    ensures forall x :: x in files && Untouched(names, results, x) ==> r[x] == files[x]
    decreases |names|
  {
    if |names| == 0 then files
    else
      var f := if results[0].Got? then files[names[0] := results[0].size] else files;
      UntouchedTail(names, results);
      Store(f, names[1..], results[1..])
  }

  /** No saved download of the batch goes to file `x`. */
  predicate Untouched(names: seq<string>, results: seq<ItemResult>, x: string)
    requires |names| == |results|
  {
    forall k :: 0 <= k < |names| && results[k].Got? ==> names[k] != x
  }

  /** A file untouched by a batch is untouched by its tail. */
  lemma UntouchedTail(names: seq<string>, results: seq<ItemResult>)
    requires |names| == |results| > 0
    ensures forall x :: Untouched(names, results, x) ==> Untouched(names[1..], results[1..], x)
  {
    forall x | Untouched(names, results, x)
      ensures Untouched(names[1..], results[1..], x)
    {
      forall k | 0 <= k < |names| - 1 && results[1..][k].Got?
        ensures names[1..][k] != x
      {
        assert results[k + 1].Got?;
      }
    }
  }

  /** The results of one batch, all checked against the same folder. */
  function BatchResults(batch: seq<PdfLink>, files: map<string, nat>, fetch: string -> Fetched, now: nat)
    : (r: seq<ItemResult>)
    ensures |r| == |batch|
    ensures forall k :: 0 <= k < |batch| ==> r[k] == DownloadItem(batch[k], files, fetch, now)
  {
    seq(|batch|, k requires 0 <= k < |batch| => DownloadItem(batch[k], files, fetch, now))
  }

  /** The file names of one batch. */
  function BatchNames(batch: seq<PdfLink>, now: nat): (r: seq<string>)
    ensures |r| == |batch|
    ensures forall k :: 0 <= k < |batch| ==> r[k] == FileName(batch[k], now)
  {
    seq(|batch|, k requires 0 <= k < |batch| => FileName(batch[k], now))
  }

  /** Every file on disk with more than 500 bytes still has its size in `after`. */
  ghost predicate KeepsBig(before: map<string, nat>, after: map<string, nat>) {
    before.Keys <= after.Keys && forall x :: x in before && before[x] > MinBytes ==> after[x] == before[x]
  }

  /** Keeping the large files is transitive. */
  lemma KeepsBigChain(a: map<string, nat>, b: map<string, nat>, c: map<string, nat>)
    requires KeepsBig(a, b) && KeepsBig(b, c)
    ensures KeepsBig(a, c)
  {
  }

  /** One batch keeps the large files. */
  lemma BatchKeepsBig(batch: seq<PdfLink>, files: map<string, nat>, fetch: string -> Fetched, now: nat)
    ensures KeepsBig(files, Store(files, BatchNames(batch, now), BatchResults(batch, files, fetch, now)))
  {
    BigFilesUntouched(batch, files, fetch, now, BatchNames(batch, now), BatchResults(batch, files, fetch, now));
  }

  /** `downloadPdfs` over the records still to do, three at a time: every record of a
      batch is checked against the folder as it was when the batch started, and the
      batch's downloads are written before the next batch starts. */
  function DownloadBatches(items: seq<PdfLink>, files: map<string, nat>, fetch: string -> Fetched, now: nat)
    : (r: (Tally, map<string, nat>))
    ensures r.0.Total() == |items|
    decreases |items|
  {
    if |items| == 0 then (Tally(0, 0, 0, 0), files)
    else
      var n := if |items| < Batch then |items| else Batch;
      var results := BatchResults(items[..n], files, fetch, now);
      var rest := DownloadBatches(items[n..], Store(files, BatchNames(items[..n], now), results), fetch, now);
      (CountAll(results, rest.0), rest.1)
  }

  /** The download step only adds files, and never replaces one that was on disk with
      more than 500 bytes. */
  lemma {:induction false} DownloadKeepsBig(items: seq<PdfLink>, files: map<string, nat>, fetch: string -> Fetched, now: nat)
    ensures KeepsBig(files, DownloadBatches(items, files, fetch, now).1)
    decreases |items|
  {
    if |items| > 0 {
      var n := if |items| < Batch then |items| else Batch;
      var stored := Store(files, BatchNames(items[..n], now), BatchResults(items[..n], files, fetch, now));
      BatchKeepsBig(items[..n], files, fetch, now);
      DownloadKeepsBig(items[n..], stored, fetch, now);
      KeepsBigChain(files, stored, DownloadBatches(items[n..], stored, fetch, now).1);
    }
  }

  /** A batch never writes over a file that was on disk with more than 500 bytes. */
  lemma BigFilesUntouched(batch: seq<PdfLink>, files: map<string, nat>, fetch: string -> Fetched, now: nat,
                          names: seq<string>, results: seq<ItemResult>)
    requires |names| == |results| == |batch|
    requires forall k :: 0 <= k < |batch| ==> names[k] == FileName(batch[k], now)
    requires forall k :: 0 <= k < |batch| ==> results[k] == DownloadItem(batch[k], files, fetch, now)
    ensures forall x :: x in files && files[x] > MinBytes ==> Untouched(names, results, x)
  {
  }

  /** The progress record the download step saves. */
  datatype Report = Report(downloaded: nat, skipped: nat, failed: nat, totalBytes: nat, noPdf: nat)

  /** `downloadPdfs`: the records with a `.pdf` link are downloaded in batches; the rest
      are reported as having no PDF link. */
  function DownloadPdfs(links: seq<PdfLink>, files: map<string, nat>, fetch: string -> Fetched, now: nat)
    : (r: (Report, map<string, nat>))
    ensures r.0.downloaded + r.0.skipped + r.0.failed + r.0.noPdf == |links|
    ensures r.0.noPdf == |links| - |ToDownload(links)|
    ensures (forall p :: p in links ==> !HasPdfUrl(p)) ==> r.0.noPdf == |links| && r.1 == files
  {
    var todo := ToDownload(links);
    var (t, after) := DownloadBatches(todo, files, fetch, now);
    NoneToDownload(links);
    (Report(t.downloaded, t.skipped, t.failed, t.totalBytes, |links| - |todo|), after)
  }

  /** Without a record to download there is nothing to write. */
  lemma NoneToDownload(links: seq<PdfLink>)
    ensures (forall p :: p in links ==> !HasPdfUrl(p)) ==> ToDownload(links) == []
  {
    if forall p :: p in links ==> !HasPdfUrl(p) {
      if |ToDownload(links)| > 0 {
        assert ToDownload(links)[0] in ToDownload(links);
      }
    }
  }

  /** The download step never replaces a file that was on disk with more than 500 bytes. */
  lemma DownloadPdfsKeepsBig(links: seq<PdfLink>, files: map<string, nat>, fetch: string -> Fetched, now: nat)
    ensures KeepsBig(files, DownloadPdfs(links, files, fetch, now).1)
  {
    DownloadKeepsBig(ToDownload(links), files, fetch, now);
  }

  /** The whole script: the cached links when the links file exists, otherwise the
      listing pages are scraped and every article page is read; then the downloads. */
  function Main(cached: Option<seq<PdfLink>>, page: string -> string,
                files: map<string, nat>, fetch: string -> Fetched, now: nat): (r: (Report, map<string, nat>))
    ensures cached.Some? ==> r.0.downloaded + r.0.skipped + r.0.failed + r.0.noPdf == |cached.value|
    ensures cached.None? ==> r.0.downloaded + r.0.skipped + r.0.failed + r.0.noPdf
                             == |ExtractPdfLinks(ScrapeListing(page), page)|
  {
    var links := if cached.Some? then cached.value else ExtractPdfLinks(ScrapeListing(page), page);
    DownloadPdfs(links, files, fetch, now)
  }
}

=== FILE: site_maintain.dfy ===
/** The maintenance supervisor (`scripts/site-auto-maintain.mjs`): a lock file keeps two
    runs from overlapping, five checks each contribute at most one error per module (one
    per failing page for the website check), the run's health status is graded from the
    number of errors, and the lock is released before the health file is written. */
module SiteMaintain {
  import opened Common
  import opened Text

  /** A lock older than this many milliseconds is stale. */
  const StaleAfterMs: int := 30 * 60 * 1000

  /** Log files above this many bytes are rotated. */
  const RotateAboveBytes: int := 5 * 1024 * 1024

  /** How much of a rotated log is kept (its last UTF-16 code units). */
  const KeepUnits: nat := 1024 * 1024

  /** The lock file as the next run reads it: unreadable (not JSON, or JSON `null`), or a
      record whose `timestamp` is a number (`None` when it coerces to NaN: missing or not
      numeric). */
  datatype LockFile = Unreadable | Held(pid: int, timestamp: Option<int>)

  /** The lock is stale: its timestamp is a number more than thirty minutes old. */
  predicate Stale(lock: LockFile, now: int) {
    lock.Held? && lock.timestamp.Some? && now - lock.timestamp.value > StaleAfterMs
  }

  /** `acquireLock`: returns whether this run may proceed and the lock file afterwards. A
      missing, unreadable or stale lock is replaced by this run's own; any other lock,
      including one whose timestamp is not a number, makes the run skip. */
  function AcquireLock(lock: Option<LockFile>, pid: int, now: int): (r: (bool, Option<LockFile>))
    ensures r.0 <==> lock.None? || lock.value.Unreadable? || Stale(lock.value, now)
    ensures r.0 ==> r.1 == Some(Held(pid, Some(now)))
    ensures !r.0 ==> r.1 == lock
  {
    match lock
    case None => (true, Some(Held(pid, Some(now))))
    case Some(Unreadable) => (true, Some(Held(pid, Some(now))))
    case Some(l) =>
      if l.timestamp.Some? && now - l.timestamp.value > StaleAfterMs then (true, Some(Held(pid, Some(now))))
      else (false, lock)
  }

  /** While the first run still holds its lock, a second run started within thirty minutes
      of it does not proceed: it finds the first one's fresh lock. (The first run frees the
      lock when it finishes; a run after that proceeds.) */
  lemma LockExcludesOverlap(lock: Option<LockFile>, pid1: int, pid2: int, t1: int, t2: int)
    requires t1 <= t2 <= t1 + StaleAfterMs
    requires AcquireLock(lock, pid1, t1).0
    ensures !AcquireLock(AcquireLock(lock, pid1, t1).1, pid2, t2).0
  {
  }

  /** A lock written without a numeric timestamp is never taken over. */
  lemma NonNumericLockBlocksForever(pid: int, other: int, now: int)
    ensures !AcquireLock(Some(Held(other, None)), pid, now).0
  {
  }

  /** The log file after appending `line`: when the file is above 5 MiB it is first cut to
      its last 1 MiB of UTF-16 code units. */
  function AppendLog(content: string, sizeBytes: int, line: string): (r: string)
    ensures EndsWith(r, line + "\n")
    ensures sizeBytes <= RotateAboveBytes ==> r == content + line + "\n"
    ensures sizeBytes > RotateAboveBytes ==>
      var kept := r[..|r| - |line| - 1];
      && EndsWith(content, kept) && JsLength(kept) <= KeepUnits
      && (|kept| < |content| ==> JsLength(content[|content| - |kept| - 1..]) > KeepUnits)
  {
    var kept := if sizeBytes > RotateAboveBytes then JsTakeLast(content, KeepUnits) else content;
    AppendedLine(kept, line);
    kept + line + "\n"
  }

  lemma AppendedLine(kept: string, line: string)
    ensures (kept + line + "\n")[..|kept|] == kept
    ensures EndsWith(kept + line + "\n", line + "\n")
  {
    assert kept + line + "\n" == kept + (line + "\n");
  }

  /** A module check's verdict. */
  datatype ModuleStatus = Ok | Warning | Failed

  /** The overall verdict written to the health file. */
  datatype Overall = AllOk | SomeWarnings | Errors

  /** What one image or PPT manifest check found: no manifest; a manifest that could not be
      read; or, for each listed item, whether its file exists. */
  datatype ManifestCheck = NoManifest | BadManifest | Items(present: seq<bool>)

  /** The facts the five checks observe; the child processes and the HTTP requests are not
      modelled, only what they return. */
  datatype Observations = Observations(
    standardsRan: bool,            // the catalogue job exited normally
    articleCount: Option<int>,     // None: listing the articles failed
    brokenArticles: int,
    images: ManifestCheck,
    ppts: ManifestCheck,
    pageStatuses: seq<int>)        // HTTP status of each page, 0 for no answer

  /** The pages the website check requests, in order. */
  const Pages: seq<string> := ["/", "/standards", "/articles", "/images", "/ppts", "/laws"]

  function ManifestStatus(m: ManifestCheck): ModuleStatus {
    match m
    case NoManifest => Ok
    case BadManifest => Failed
    case Items(present) => if Count(present, (b: bool) => !b) > 0 then Warning else Ok
  }

  function ArticlesStatus(o: Observations): ModuleStatus {
    if o.articleCount.None? then Failed else if o.brokenArticles > 0 then Warning else Ok
  }

  /** A page passes only with status 200. */
  predicate PageOk(status: int) {
    status == 200
  }

  /** The website check: ok exactly when every page answered 200. */
  function WebsiteOk(statuses: seq<int>): (ok: bool)
    ensures ok <==> forall i :: 0 <= i < |statuses| ==> statuses[i] == 200
  {
    Count(statuses, PageOk) == |statuses|
  }

  /** The number of entries pushed onto `errors`: one per failed module, one per failing
      page. Warnings are not errors. */
  function ErrorCount(o: Observations): (n: nat)
    ensures n == 0 <==>
      (o.standardsRan && o.articleCount.Some? && ManifestStatus(o.images) != Failed
       && ManifestStatus(o.ppts) != Failed && WebsiteOk(o.pageStatuses))
    ensures n >= Count(o.pageStatuses, (s: int) => !PageOk(s))
  {
    (if o.standardsRan then 0 else 1)
    + (if o.articleCount.None? then 1 else 0)
    + (if ManifestStatus(o.images) == Failed then 1 else 0)
    + (if ManifestStatus(o.ppts) == Failed then 1 else 0)
    + Count(o.pageStatuses, (s: int) => !PageOk(s))
  }

  /** Zero errors is ok, one or two a warning, more an error. */
  function Grade(errors: nat): (g: Overall)
    ensures g == AllOk <==> errors == 0
    ensures g == Errors <==> errors > 2
  {
    if errors == 0 then AllOk else if errors <= 2 then SomeWarnings else Errors
  }

  /** What the health file says after a run. */
  datatype Health = Skipped | Finished(overall: Overall, errors: nat) | Crash

  /** The file-system effects at the end of a run, in order. */
  datatype Effect = RemoveLock | WriteHealth(h: Health)

  datatype RunResult = RunResult(lockAfter: Option<LockFile>, effects: seq<Effect>)

  /** One run of `main`. `lockWriteFails` says that writing the lock file throws, which
      rejects `main` and sends it down the crash path. */
  function Maintain(lock: Option<LockFile>, pid: int, now: int, lockWriteFails: bool, o: Observations): (r: RunResult)
    requires |o.pageStatuses| == |Pages|
    ensures var acquired := lock.None? || lock.value.Unreadable? || Stale(lock.value, now);
      !acquired ==> r == RunResult(lock, [WriteHealth(Skipped)])
    ensures var acquired := lock.None? || lock.value.Unreadable? || Stale(lock.value, now);
      acquired ==> r.lockAfter.None? && |r.effects| == 2 && r.effects[0] == RemoveLock
    ensures r.effects[|r.effects| - 1].WriteHealth?
    ensures r.effects[|r.effects| - 1] == WriteHealth(Finished(AllOk, 0)) <==>
      !lockWriteFails && (lock.None? || lock.value.Unreadable? || Stale(lock.value, now)) && ErrorCount(o) == 0
    ensures var acquired := lock.None? || lock.value.Unreadable? || Stale(lock.value, now);
      acquired && !lockWriteFails ==> r.effects[1] == WriteHealth(Finished(Grade(ErrorCount(o)), ErrorCount(o)))
    ensures var acquired := lock.None? || lock.value.Unreadable? || Stale(lock.value, now);
      r.effects[|r.effects| - 1] == WriteHealth(Crash) <==> acquired && lockWriteFails
  {
    var (acquired, after) := AcquireLock(lock, pid, now);
    if !acquired then RunResult(lock, [WriteHealth(Skipped)])
    else if lockWriteFails then RunResult(None, [RemoveLock, WriteHealth(Crash)])
    else
      var n := ErrorCount(o);
      RunResult(None, [RemoveLock, WriteHealth(Finished(Grade(n), n))])
  }
}

=== FILE: slug.dfy ===
/** The slug and file-name normalisers. They are character-class pipelines; each is
    proved to produce only its allowed alphabet and no doubled dash. The ones that finish
    by stripping edge dashes are proved to leave none and to be idempotent. */
module Slug {
  import opened Common
  import opened Text

  /** The CJK ranges the OpenClaw and Notion slugifiers replace by a dash: the unified
      ideographs, CJK symbols and punctuation, and the half- and full-width forms. */
  predicate IsCjk(c: char) {
    ('\U{4E00}' <= c <= '\U{9FFF}') || ('\U{3000}' <= c <= '\U{303F}') || ('\U{FF00}' <= c <= '\U{FFEF}')
  }

  /** `[\w-]`. */
  predicate IsWordOrDash(c: char) { IsWordChar(c) || c == '-' }

  /** The alphabet of a lower-cased `[\w-]` slug: `[a-z0-9_-]`. */
  predicate IsPrefixChar(c: char) { IsLowerAlpha(c) || IsDigit(c) || c == '_' || c == '-' }

  /** No character of `s` is an ASCII capital. */
  predicate NoUpper(s: string) {
    forall i :: 0 <= i < |s| ==> !IsUpper(s[i])
  }

  /** A run replacement with a lower-case replacement keeps a string free of capitals. */
  lemma ReplaceRunsNoUpper(s: string, p: char -> bool, rc: char)
    requires NoUpper(s) && !IsUpper(rc)
    ensures NoUpper(ReplaceRuns(s, p, rc))
  {
    var r := ReplaceRuns(s, p, rc);
    forall i | 0 <= i < |r|
      ensures !IsUpper(r[i])
    {
      if r[i] != rc {
        assert r[i] in s;
      }
    }
  }

  /** The well-formed slug: non-empty pieces of the alphabet `ok` joined by single dashes,
      with no dash at either end. */
  predicate Clean(s: string, ok: char -> bool) {
    All(s, ok) && NoDouble(s, '-') && (|s| > 0 ==> s[0] != '-' && s[|s| - 1] != '-')
  }

  /** `replace(/-+/g, "-").replace(/^-|-$/g, "")`: the common tail of every slug
      pipeline. */
  function Tidy(s: string): (r: string)
    ensures NoDouble(r, '-')
    ensures |r| > 0 ==> r[0] != '-' && r[|r| - 1] != '-'
  {
    StripEdgeDashes(CollapseDashes(s))
  }

  /** `Tidy` keeps any alphabet that contains the dash. */
  lemma TidyKeeps(s: string, ok: char -> bool)
    requires All(s, ok) && ok('-')
    ensures Clean(Tidy(s), ok)
  {
    var e := CollapseDashes(s);
    forall i | 0 <= i < |e|
      ensures ok(e[i])
    {
      assert e[i] in s || e[i] == '-';
    }
    var r := StripEdgeDashes(e);
    forall i | 0 <= i < |r|
      ensures ok(r[i])
    {
      assert r[i] in e;
    }
  }

  /** Replacing runs of `p` by a character of the alphabet `ok` keeps every other
      character of the alphabet. */
  lemma ReplaceRunsKeeps(s: string, p: char -> bool, rc: char, ok: char -> bool)
    requires forall i :: 0 <= i < |s| ==> p(s[i]) || ok(s[i])
    requires ok(rc)
    ensures All(ReplaceRuns(s, p, rc), ok)
  {
    var r := ReplaceRuns(s, p, rc);
    forall i | 0 <= i < |r|
      ensures ok(r[i])
    {
      assert r[i] in s || r[i] == rc;
    }
  }

  /** The part of the OpenClaw and Notion slug prefix before the cut. */
  function SlugBody(text: string): (r: string)
    ensures Clean(r, IsPrefixChar)
  {
    var b := ReplaceRuns(Lower(text), IsCjk, '-');
    var c := ReplaceRuns(b, IsSpace, '-');
    var d := Filter(c, IsWordOrDash);
    ReplaceRunsNoUpper(Lower(text), IsCjk, '-');
    ReplaceRunsNoUpper(b, IsSpace, '-');
    assert All(d, IsPrefixChar) by {
      forall i | 0 <= i < |d|
        ensures IsPrefixChar(d[i])
      {
        assert d[i] in c;
      }
    }
    TidyKeeps(d, IsPrefixChar);
    Tidy(d)
  }

  /** The slug prefix of the OpenClaw and Notion slugifiers: lower-case; CJK runs and white
      space runs become a dash; everything outside `[\w-]` is dropped; dash runs collapse;
      one edge dash is stripped on each side; then the first `maxLen` characters are kept.
      Cutting after the strip can leave a dash at the end. */
  function SlugPrefix(text: string, maxLen: nat): (r: string)
    ensures |r| <= maxLen
    ensures All(r, IsPrefixChar)
    ensures NoDouble(r, '-')
    ensures |r| > 0 ==> r[0] != '-'
  {
    var f := SlugBody(text);
    var r := Take(f, maxLen);
    PrefixKeepsClean(f, |r|);
    r
  }

  /** A prefix of a clean slug body keeps its alphabet, its single dashes and its first
      character. */
  lemma PrefixKeepsClean(f: string, k: nat)
    requires k <= |f| && Clean(f, IsPrefixChar)
    ensures All(f[..k], IsPrefixChar) && NoDouble(f[..k], '-') && (k > 0 ==> f[..k][0] != '-')
  {
    var r := f[..k];
    assert forall i :: 0 <= i < |r| ==> r[i] == f[i];
  }

  /** The timestamp suffix: the last `n` decimal digits of `now`. */
  function DigitSuffix(now: nat, n: nat): (r: string)
    requires n > 0
    ensures 1 <= |r| <= n
    ensures All(r, IsDigit)
  {
    TakeLast(NatToString(now), n)
  }

  /** The last `k` digits of `n`, read back, are `n` modulo `10^k`. */
  lemma {:induction false} DigitSuffixValue(n: nat, k: nat)
    requires k > 0
    ensures DigitsValue(DigitSuffix(n, k)) == n % Pow10(k)
    decreases n
  {
    if n < 10 {
      OneDigitSuffix(n, k);
    } else if k == 1 {
      LastDigitSuffix(n);
    } else {
      DigitSuffixValue(n / 10, k - 1);
      DigitSuffixStep(n, k);
    }
  }

  lemma OneDigitSuffix(n: nat, k: nat)
    requires n < 10 && k > 0
    ensures DigitsValue(DigitSuffix(n, k)) == n % Pow10(k)
  {
    var r := DigitSuffix(n, k);
    assert r == NatToString(n) == [DigitChar(n)];
    assert DigitsValue(r) == DigitsValue([]) * 10 + DigitValue(DigitChar(n));
    Pow10AtLeastTen(k);
    ModUnique(n, Pow10(k), 0, n);
  }

  lemma LastDigitSuffix(n: nat)
    requires n >= 10
    ensures DigitsValue(DigitSuffix(n, 1)) == n % Pow10(1)
  {
    var last := DigitChar(n % 10);
    assert NatToString(n) == NatToString(n / 10) + [last];
    var r := DigitSuffix(n, 1);
    assert r == [last];
    assert DigitsValue(r) == DigitsValue([]) * 10 + DigitValue(last);
    assert Pow10(1) == 10;
  }

  /** Dropping the last digit of `n` moves one position along its suffix. */
  lemma DigitSuffixStep(n: nat, k: nat)
    requires n >= 10 && k > 1
    requires DigitsValue(DigitSuffix(n / 10, k - 1)) == n / 10 % Pow10(k - 1)
    ensures DigitsValue(DigitSuffix(n, k)) == n % Pow10(k)
  {
    var last := DigitChar(n % 10);
    var q := DigitSuffix(n / 10, k - 1);
    DigitSuffixSnoc(n, k);
    DigitsValueSnoc(q, last);
    assert Pow10(k) == 10 * Pow10(k - 1);
    ModTenStep(n, Pow10(k - 1));
  }

  /** The last `k` digits of `n` are the last `k - 1` digits of `n / 10` and its last digit. */
  lemma DigitSuffixSnoc(n: nat, k: nat)
    requires n >= 10 && k > 1
    ensures DigitSuffix(n, k) == DigitSuffix(n / 10, k - 1) + [DigitChar(n % 10)]
  {
    assert NatToString(n) == NatToString(n / 10) + [DigitChar(n % 10)];
  }

  /** Appending a digit multiplies the value by ten and adds the digit. */
  lemma DigitsValueSnoc(q: string, c: char)
    requires All(q, IsDigit) && IsDigit(c)
    ensures All(q + [c], IsDigit)
    ensures DigitsValue(q + [c]) == DigitsValue(q) * 10 + DigitValue(c)
  {
    assert (q + [c])[..|q|] == q;
  }

  function Pow10(k: nat): (p: nat)
    ensures p >= 1
  {
    if k == 0 then 1 else 10 * Pow10(k - 1)
  }

  lemma {:induction false} Pow10AtLeastTen(k: nat)
    requires k > 0
    ensures Pow10(k) >= 10
  {
    assert Pow10(k) == 10 * Pow10(k - 1);
  }

  /** `n mod 10m` splits into the last digit and `(n / 10) mod m`. */
  lemma ModTenStep(n: nat, m: nat)
    requires m >= 1
    ensures n % (10 * m) == (n / 10 % m) * 10 + n % 10
  {
    var a, b := n / 10, n % 10;
    var q, c := a / m, a % m;
    assert n == 10 * a + b;
    assert a == m * q + c;
    assert n == (10 * m) * q + (10 * c + b) by {
      assert 10 * a == 10 * (m * q) + 10 * c;
      assert 10 * (m * q) == (10 * m) * q;
    }
    assert 10 * c + b < 10 * m by {
      assert c <= m - 1;
      assert 10 * c <= 10 * m - 10;
    }
    ModUnique(n, 10 * m, q, 10 * c + b);
  }

  /** Division with remainder has one answer. */
  lemma ModUnique(n: int, d: int, q: int, r: int)
    requires d > 0 && 0 <= r < d && n == d * q + r
    ensures n % d == r
  {
    var q0, r0 := n / d, n % d;
    assert n == d * q0 + r0;
    assert d * q - d * q0 == r0 - r;
    if q > q0 {
      assert d * (q - q0) == d * q - d * q0;
      MulAtLeast(d, q - q0);
    } else if q < q0 {
      assert d * (q0 - q) == d * q0 - d * q;
      MulAtLeast(d, q0 - q);
    }
  }

  lemma {:induction false} MulAtLeast(d: int, k: int)
    requires d > 0 && k >= 1
    ensures d * k >= d
    decreases k
  {
    if k > 1 {
      MulAtLeast(d, k - 1);
      assert d * k == d * (k - 1) + d;
    }
  }

  /** `head-tail`. */
  function Hyphenate(head: string, tail: string): (r: string)
    ensures |r| == |head| + 1 + |tail|
    ensures StartsWith(r, head) && EndsWith(r, "-" + tail)
    ensures All(head, IsPrefixChar) && All(tail, IsPrefixChar) ==> All(r, IsPrefixChar)
  {
    var r := head + "-" + tail;
    assert r[..|head|] == head;
    assert r[|head|..] == "-" + tail;
    r
  }

  lemma PostIsPrefixChars()
    ensures All("post", IsPrefixChar)
  {
    var w := "post";
    assert w[0] == 'p' && w[1] == 'o' && w[2] == 's' && w[3] == 't';
  }

  /** `slugify` of the OpenClaw push and publish scripts: a prefix of at most 50
      characters followed by the last six digits of the clock, or `post-` and those digits
      when the prefix is shorter than three characters. */
  function OpenclawSlugify(text: string, now: nat): (r: string)
    ensures All(r, IsPrefixChar)
    ensures |r| <= 57
    ensures EndsWith(r, "-" + DigitSuffix(now, 6))
    ensures DigitsValue(DigitSuffix(now, 6)) == now % 1000000
    ensures |SlugPrefix(text, 50)| >= 3 ==> StartsWith(r, SlugPrefix(text, 50))
    ensures |SlugPrefix(text, 50)| < 3 ==> StartsWith(r, "post")
  {
    var p := SlugPrefix(text, 50);
    var suffix := DigitSuffix(now, 6);
    DigitSuffixValue(now, 6);
    assert Pow10(6) == 1000000;
    assert All(suffix, IsPrefixChar);
    var head := if |p| >= 3 then p else "post";
    PostIsPrefixChars();
    Hyphenate(head, suffix)
  }

  /** Truncating after the strip can put a dash at the end of the prefix, so the slug then
      holds `--` before its suffix: 49 letters, a space, and a letter give this. */
  lemma OpenclawSlugifyCanDoubleDash()
    ensures SlugPrefix(Letters(49) + " b", 50) == Letters(49) + "-"
  {
    var c := Letters(49) + "-b";
    DoubleDashBody();
    assert Take(c, 50) == c[..50] == Letters(49) + "-";
  }

  lemma DoubleDashBody()
    ensures SlugBody(Letters(49) + " b") == Letters(49) + "-b"
  {
    var c := Letters(49) + "-b";
    DoubleDashRuns();
    DoubleDashKept(c);
  }

  lemma DoubleDashKept(c: string)
    requires c == Letters(49) + "-b"
    ensures Filter(c, IsWordOrDash) == c && Tidy(c) == c
  {
    assert All(c, IsWordOrDash);
    assert NoDouble(c, '-');
    CollapseDashesFixed(c);
  }

  /** The run replacements of `SlugPrefix` on the witness above. */
  lemma DoubleDashRuns()
    ensures ReplaceRuns(ReplaceRuns(Lower(Letters(49) + " b"), IsCjk, '-'), IsSpace, '-') == Letters(49) + "-b"
  {
    var pre := Letters(49);
    var text := pre + " " + "b";
    assert text == Letters(49) + " b";
    LowerNoUpper(text);
    ReplaceRunsNone(text, IsCjk, '-');
    ReplaceRunsSplit(pre, " ", "b", IsSpace, '-');
    assert pre + ['-'] + "b" == Letters(49) + "-b";
  }

  /** `n` copies of the letter `a`. */
  function Letters(n: nat): (r: string)
    ensures |r| == n && forall i :: 0 <= i < n ==> r[i] == 'a'
  {
    seq(n, _ => 'a')
  }

  /** A run of `p`-characters between two strings without them becomes one `rc`. */
  lemma {:induction false} ReplaceRunsSplit(pre: string, gap: string, post: string, p: char -> bool, rc: char)
    requires forall i :: 0 <= i < |pre| ==> !p(pre[i])
    requires forall i :: 0 <= i < |post| ==> !p(post[i])
    requires |gap| > 0 && forall i :: 0 <= i < |gap| ==> p(gap[i])
    requires |post| > 0
    ensures ReplaceRuns(pre + gap + post, p, rc) == pre + [rc] + post
    decreases |pre|
  {
    var s := pre + gap + post;
    if |pre| == 0 {
      assert s == gap + post;
      DropWhileRun(gap, post, p);
      ReplaceRunsNone(post, p, rc);
      ReplaceRunsAtRun(s, p, rc);
    } else {
      var rest := pre[1..] + gap + post;
      assert s == [pre[0]] + rest;
      ReplaceRunsSplit(pre[1..], gap, post, p, rc);
      ReplaceRunsAtOther(pre[0], rest, p, rc);
      assert pre + [rc] + post == [pre[0]] + (pre[1..] + [rc] + post);
    }
  }

  /** A run at the start becomes one `rc` followed by the replacement of the rest. */
  lemma ReplaceRunsAtRun(s: string, p: char -> bool, rc: char)
    requires |s| > 0 && p(s[0])
    ensures ReplaceRuns(s, p, rc) == [rc] + ReplaceRuns(DropWhile(s, p), p, rc)
  {
  }

  /** A first character outside the class is kept as it is. */
  lemma ReplaceRunsAtOther(c: char, rest: string, p: char -> bool, rc: char)
    requires !p(c)
    ensures ReplaceRuns([c] + rest, p, rc) == [c] + ReplaceRuns(rest, p, rc)
  {
    assert ([c] + rest)[1..] == rest;
  }

  lemma {:induction false} DropWhileRun(gap: string, post: string, p: char -> bool)
    requires forall i :: 0 <= i < |gap| ==> p(gap[i])
    requires |post| > 0 && !p(post[0])
    ensures DropWhile(gap + post, p) == post
    decreases |gap|
  {
    if |gap| == 0 {
      assert gap + post == post;
    } else {
      assert (gap + post)[1..] == gap[1..] + post;
      DropWhileRun(gap[1..], post, p);
    }
  }

  /** `slugify` of the Notion sync: a prefix of at most 60 characters, then the last 12
      characters of the page id with its dashes removed, or the last eight clock digits
      when there is no page id; `post-` replaces an empty prefix. */
  function NotionSlugify(text: string, pageId: Option<string>, now: nat): (r: string)
    ensures EndsWith(r, "-" + NotionSuffix(pageId, now))
    ensures |SlugPrefix(text, 60)| > 0 ==> StartsWith(r, SlugPrefix(text, 60))
    ensures |SlugPrefix(text, 60)| == 0 ==> StartsWith(r, "post")
    ensures |r| <= 73
  {
    var p := SlugPrefix(text, 60);
    Hyphenate(if |p| > 0 then p else "post", NotionSuffix(pageId, now))
  }

  /** The Notion slug's suffix. A page id (truthy: non-empty) gives its last 12
      characters after its dashes are removed. */
  function NotionSuffix(pageId: Option<string>, now: nat): (r: string)
    ensures |r| <= 12
    ensures pageId.Some? && pageId.value != "" ==> '-' !in r
    ensures !(pageId.Some? && pageId.value != "") ==> |r| <= 8 && All(r, IsDigit)
  {
    if pageId.Some? && pageId.value != "" then
      var stripped := Filter(pageId.value, (c: char) => c != '-');
      if |stripped| == 0 then "" else TakeLast(stripped, 12)
    else DigitSuffix(now, 8)
  }

  /** The normalisation of `createSlug` in the content library: trim, lower-case, drop
      everything but `[a-z0-9]`, white space and `-`, turn white-space runs into a dash,
      collapse dash runs and strip one edge dash on each side. */
  function ContentNormalize(input: string): (r: string)
    ensures Clean(r, IsSlugChar)
  {
    var c := Filter(Lower(Trim(input)), IsSlugOrSpace);
    ReplaceRunsKeeps(c, IsSpace, '-', IsSlugChar);
    TidyKeeps(ReplaceRuns(c, IsSpace, '-'), IsSlugChar);
    Tidy(ReplaceRuns(c, IsSpace, '-'))
  }

  predicate IsSlugOrSpace(c: char) { IsSlugChar(c) || IsSpace(c) }

  /** A string that is already a clean slug is not changed by trimming. */
  lemma TrimNoEdgeSpace(s: string)
    requires |s| == 0 || (!IsSpace(s[0]) && !IsSpace(s[|s| - 1]))
    ensures Trim(s) == s
  {
    assert DropWhile(s, IsSpace) == s;
    assert TrimEnd(s) == s;
  }

  /** A clean slug is a fixed point of the content normalisation. */
  lemma ContentNormalizeFixed(s: string)
    requires Clean(s, IsSlugChar)
    ensures ContentNormalize(s) == s
  {
    TrimNoEdgeSpace(s);
    LowerNoUpper(s);
    assert Filter(s, IsSlugOrSpace) == s;
    ReplaceRunsNone(s, IsSpace, '-');
    CollapseDashesFixed(s);
    assert ContentNormalize(s) == Tidy(s);
  }

  /** Normalising twice is normalising once. */
  lemma ContentNormalizeIdempotent(input: string)
    ensures ContentNormalize(ContentNormalize(input)) == ContentNormalize(input)
  {
    ContentNormalizeFixed(ContentNormalize(input));
  }

  /** `createSlug(input, prefix)` of the content library: the normalised input when it has
      at least three characters, otherwise `prefix-<now>`. */
  function CreateSlug(input: string, prefix: string, now: nat): (r: string)
    ensures var n := ContentNormalize(input);
      (|n| >= 3 ==> r == n && Clean(r, IsSlugChar))
      && (|n| < 3 ==> r == prefix + "-" + NatToString(now))
  {
    var n := ContentNormalize(input);
    if |n| >= 3 then n else prefix + "-" + NatToString(now)
  }

  /** A string made only of dashes with no two adjacent has at most one character. */
  lemma DashesOnlyShort(s: string)
    requires forall i :: 0 <= i < |s| ==> s[i] == '-'
    requires NoDouble(s, '-')
    ensures |s| <= 1
  {
    NoDoubleAt(s, '-', 0);
  }

  /** The instance of `NoDouble` at position `i`. */
  lemma NoDoubleAt(s: string, c: char, i: int)
    ensures NoDouble(s, c) && 0 <= i < |s| - 1 ==> !(s[i] == c && s[i + 1] == c)
  {
  }

  predicate IsAlnum(c: char) { IsUpper(c) || IsLowerAlpha(c) || IsDigit(c) }

  predicate NotAlnum(c: char) { !IsAlnum(c) }

  /** No ASCII letter or digit occurs in `s`. */
  predicate NoAlnum(s: string) {
    All(s, NotAlnum)
  }

  /** Only dashes and white space survive the filter of a string without letters or
      digits. */
  lemma NoAlnumFilter(b: string)
    requires NoAlnum(b)
    ensures forall i :: 0 <= i < |Filter(b, IsSlugOrSpace)| ==>
      Filter(b, IsSlugOrSpace)[i] == '-' || IsSpace(Filter(b, IsSlugOrSpace)[i])
  {
    var c := Filter(b, IsSlugOrSpace);
    forall i | 0 <= i < |c|
      ensures c[i] == '-' || IsSpace(c[i])
    {
      assert c[i] in b;
      var j :| 0 <= j < |b| && b[j] == c[i];
    }
  }

  /** A string of dashes and white space becomes dashes only. */
  lemma SpacesBecomeDashes(c: string)
    requires forall i :: 0 <= i < |c| ==> c[i] == '-' || IsSpace(c[i])
    ensures var d := ReplaceRuns(c, IsSpace, '-');
      forall i :: 0 <= i < |d| ==> d[i] == '-'
  {
    var d := ReplaceRuns(c, IsSpace, '-');
    forall i | 0 <= i < |d|
      ensures d[i] == '-'
    {
      assert d[i] in c || d[i] == '-';
    }
  }

  /** A string of dashes tidies to nothing. */
  lemma DashesTidyEmpty(d: string)
    requires forall i :: 0 <= i < |d| ==> d[i] == '-'
    ensures Tidy(d) == ""
  {
    var e := CollapseDashes(d);
    forall i | 0 <= i < |e|
      ensures e[i] == '-'
    {
      assert e[i] in d || e[i] == '-';
    }
    DashesOnlyShort(e);
  }

  /** Text without ASCII letters or digits (a title written only in Chinese, say)
      normalises to the empty string, so `createSlug` falls back to the prefix. */
  lemma ContentNormalizeNoAlnum(input: string, prefix: string, now: nat)
    requires NoAlnum(input)
    ensures ContentNormalize(input) == ""
    ensures CreateSlug(input, prefix, now) == prefix + "-" + NatToString(now)
  {
    NoAlnumNormalizesEmpty(input);
  }

  /** The normalisation step of the lemma above. */
  lemma NoAlnumNormalizesEmpty(input: string)
    requires NoAlnum(input)
    ensures ContentNormalize(input) == ""
  {
    var c := Filter(Lower(Trim(input)), IsSlugOrSpace);
    NoAlnumFiltered(input, c);
    SpacesBecomeDashes(c);
    var d := ReplaceRuns(c, IsSpace, '-');
    DashesTidyEmpty(d);
    assert ContentNormalize(input) == Tidy(d);
  }

  /** The letters-and-digits-free input keeps only dashes and white space through the
      first three steps of the normalisation. */
  lemma NoAlnumFiltered(input: string, c: string)
    requires NoAlnum(input) && c == Filter(Lower(Trim(input)), IsSlugOrSpace)
    ensures forall i :: 0 <= i < |c| ==> c[i] == '-' || IsSpace(c[i])
  {
    var t := Trim(input);
    TrimKeeps(input, NotAlnum);
    LowerNoAlnum(t);
    NoAlnumFilter(Lower(t));
  }

  /** Lower-casing keeps a string free of letters and digits. */
  lemma LowerNoAlnum(t: string)
    requires NoAlnum(t)
    ensures NoAlnum(Lower(t))
  {
    forall i | 0 <= i < |Lower(t)|
      ensures NotAlnum(Lower(t)[i])
    {
      assert NotAlnum(t[i]);
    }
  }

  /** `createSlug` of the fetch-standard route: lower-case, white-space runs, `/` and `\`
      become dashes, everything outside `[a-z0-9-]` is dropped, dash runs collapse and one
      edge dash is stripped on each side. */
  function StandardSlug(stdNumber: string): (r: string)
    ensures Clean(r, IsSlugChar)
  {
    var d := Filter(MapClass(ReplaceRuns(Lower(stdNumber), IsSpace, '-'), IsSlash, '-'), IsSlugChar);
    TidyKeeps(d, IsSlugChar);
    Tidy(d)
  }

  predicate IsSlash(c: char) { c == '/' || c == '\\' }

  /** A clean slug is a fixed point of the standard-number slug. */
  lemma StandardSlugFixed(s: string)
    requires Clean(s, IsSlugChar)
    ensures StandardSlug(s) == s
  {
    StandardSlugSteps(s);
    assert Tidy(s) == s by {
      CollapseDashesFixed(s);
    }
  }

  lemma StandardSlugSteps(s: string)
    requires Clean(s, IsSlugChar)
    ensures Filter(MapClass(ReplaceRuns(Lower(s), IsSpace, '-'), IsSlash, '-'), IsSlugChar) == s
  {
    LowerNoUpper(s);
    ReplaceRunsNone(s, IsSpace, '-');
    MapClassNone(s, IsSlash, '-');
    assert Filter(s, IsSlugChar) == s;
  }

  /** A class no character belongs to leaves the string unchanged. */
  lemma MapClassNone(s: string, p: char -> bool, y: char)
    requires forall i :: 0 <= i < |s| ==> !p(s[i])
    ensures MapClass(s, p, y) == s
  {
  }

  lemma StandardSlugIdempotent(stdNumber: string)
    ensures StandardSlug(StandardSlug(stdNumber)) == StandardSlug(stdNumber)
  {
    StandardSlugFixed(StandardSlug(stdNumber));
  }

  /** The characters an uploaded file name may keep: `[a-zA-Z0-9._-]`. */
  predicate IsFileNameChar(c: char) {
    IsUpper(c) || IsLowerAlpha(c) || IsDigit(c) || c == '.' || c == '_' || c == '-'
  }

  predicate NotFileNameChar(c: char) { !IsFileNameChar(c) }

  /** `sanitizeFileName` of the media route (and the same chain in the smart-push route):
      trim, turn every other character into a dash, collapse dash runs and strip one edge
      dash on each side; an empty result becomes `upload-<now>.bin`. */
  function SanitizeFileName(fileName: string, now: nat): (r: string)
    ensures |r| > 0
    ensures Clean(r, IsFileNameChar)
    ensures Clean(fileName, IsFileNameChar) && fileName != "" ==> r == fileName
  {
    var m := MapClass(Trim(fileName), NotFileNameChar, '-');
    TidyKeeps(m, IsFileNameChar);
    CleanFileNameKept(fileName);
    if Tidy(m) == "" then UploadFallback(now) else Tidy(m)
  }

  /** The name given to an upload whose name sanitises to nothing. */
  function UploadFallback(now: nat): (r: string)
    ensures |r| > 0
    ensures Clean(r, IsFileNameChar)
  {
    var digits := NatToString(now);
    var r := "upload-" + digits + ".bin";
    forall i | 0 <= i < |r|
      ensures IsFileNameChar(r[i]) && (r[i] == '-' ==> i == 6)
    {
      if 7 <= i < 7 + |digits| {
        assert r[i] == digits[i - 7];
      }
    }
    r
  }

  /** A name that is already clean passes through the replacement chain unchanged. */
  lemma CleanFileNameKept(fileName: string)
    ensures Clean(fileName, IsFileNameChar) && fileName != "" ==>
      Tidy(MapClass(Trim(fileName), NotFileNameChar, '-')) == fileName
  {
    if Clean(fileName, IsFileNameChar) && fileName != "" {
      TrimNoEdgeSpace(fileName);
      assert MapClass(fileName, NotFileNameChar, '-') == fileName;
      assert Tidy(fileName) == fileName by {
        CollapseDashesFixed(fileName);
      }
    }
  }
}

=== FILE: smart_push.dfy ===
/** `POST /api/smart-push` (`src/app/api/smart-push/route.ts`): one endpoint that adds a law,
    an article, a media file or a GBZ snapshot, choosing the section from the request or
    guessing it from the data. The configured key, the parsed body, the environment, the
    clocks, the Base64 decoder and whether the content write succeeds are parameters. */
module SmartPush {
  import opened Common
  import opened Text
  import opened Json
  import opened Pdf
  import opened Content
  import ApiAuth
  import Slug
  import ContentWrite
  import MediaRoute
  import StandardsStore

  /** The four sections a push can target. */
  datatype Section = LawsSection | ArticlesSection | MediaSection | StandardsSection

  /** The words that make `detectModule` file a record under laws. */
  const LawKeywords: seq<string> := [
    "法", "条例", "规定", "办法", "标准", "规范", "gbz", "通知",
    "决定", "意见", "公告", "令", "制度", "管理办法", "实施细则",
    "law", "regulation", "standard", "rule"]

  /** `items.join(sep)`: `null` elements become empty, the rest are converted. */
  function JoinItems(items: seq<Json>, sep: string): string {
    Join(seq(|items|, i requires 0 <= i < |items| => if items[i].JNull? then "" else ToJsString(items[i])), sep)
  }

  /** `String(v || "")`. */
  function TextOrEmpty(v: Option<Json>): (r: string)
    ensures !Truthy(v) ==> r == ""
    ensures v.Some? && v.value.JStr? ==> r == v.value.s
  {
    TextField(v).GetOr("")
  }

  /** The lower-cased `title category tags` text the keywords are looked for in. */
  function Combined(data: Json): string {
    var tags := match AsArray(Get(data, "tags")) case Some(items) => JoinItems(items, " ") case None => "";
    Lower(TextOrEmpty(Get(data, "title")) + " " + TextOrEmpty(Get(data, "category")) + " " + tags)
  }

  /** `detectModule`: a `hazards` array means standards; otherwise a file name and data
      mean media; otherwise a title and a content mean laws or articles by the keywords;
      anything else is an article. */
  function DetectModule(data: Json): (m: Section)
    ensures AsArray(Get(data, "hazards")).Some? ==> m == StandardsSection
    ensures AsArray(Get(data, "hazards")).None? && Truthy(Get(data, "fileData")) && Truthy(Get(data, "fileName")) ==>
      m == MediaSection
    ensures AsArray(Get(data, "hazards")).None? && !(Truthy(Get(data, "fileData")) && Truthy(Get(data, "fileName")))
            && Truthy(Get(data, "title")) && Truthy(Get(data, "content")) ==>
      (m == LawsSection <==> ContainsAny(Combined(data), LawKeywords)) && m != MediaSection && m != StandardsSection
    ensures AsArray(Get(data, "hazards")).None? && !(Truthy(Get(data, "fileData")) && Truthy(Get(data, "fileName")))
            && !(Truthy(Get(data, "title")) && Truthy(Get(data, "content"))) ==>
      m == ArticlesSection
  {
    if AsArray(Get(data, "hazards")).Some? then StandardsSection
    else if Truthy(Get(data, "fileData")) && Truthy(Get(data, "fileName")) then MediaSection
    else if Truthy(Get(data, "title")) && Truthy(Get(data, "content")) then
      if ContainsAny(Combined(data), LawKeywords) then LawsSection else ArticlesSection
    else ArticlesSection
  }

  /** The section a request names: `None` for an unknown name. A missing, falsy or `auto`
      name means detection. */
  function ChosenSection(moduleField: Option<Json>, data: Json): (r: Option<Section>)
    ensures moduleField == Some(JStr("auto")) || !Truthy(moduleField) ==> r == Some(DetectModule(data))
    ensures moduleField == Some(JStr("laws")) ==> r == Some(LawsSection)
    ensures moduleField == Some(JStr("articles")) ==> r == Some(ArticlesSection)
    ensures moduleField == Some(JStr("media")) ==> r == Some(MediaSection)
    ensures moduleField == Some(JStr("standards")) ==> r == Some(StandardsSection)
    ensures r.None? <==>
      (Truthy(moduleField) && moduleField.value !in {JStr("auto"), JStr("laws"), JStr("articles"), JStr("media"), JStr("standards")})
  {
    if moduleField == Some(JStr("auto")) || !Truthy(moduleField) then Some(DetectModule(data))
    else match moduleField.value
      case JStr(s) =>
        if s == "laws" then Some(LawsSection)
        else if s == "articles" then Some(ArticlesSection)
        else if s == "media" then Some(MediaSection)
        else if s == "standards" then Some(StandardsSection)
        else None
      case _ => None
  }

  /** Why a handler refused the data (answered with 400). */
  datatype Refusal = TitleTooShort | ContentTooShort | NoFileName | NoFileData | EmptyFile | FileTooLarge | NoHazards

  /** How a request ends. `Crash` is an exception: outside the handlers the framework
      answers it with 500, inside them the route's own catch does. */
  datatype Outcome =
    | Denied(denial: ApiAuth.Denial)
    | BadJson
    | Crash
    | NoData
    | Unsupported
    | Refused(reason: Refusal)
    | ContentAdded(kind: Kind, written: ContentWrite.Written)
    | MediaAdded(fileName: string, url: string, bytes: nat)
    | StandardsSaved(file: Json, count: nat)
  {
    function Status(): nat {
      match this
      case Denied(d) => d.Status()
      case BadJson => 400
      case Crash => 500
      case NoData => 400
      case Unsupported => 400
      case Refused(_) => 400
      case ContentAdded(_, _) => 200
      case MediaAdded(_, _, _) => 200
      case StandardsSaved(_, _) => 200
    }
  }

  /** A field cast to `string | undefined` and later used through `??`: absent or `null`
      is `None`; a string is kept; anything else throws when the writer calls a string
      method on it (outer `None`). */
  function NullishString(v: Option<Json>): (r: Option<Option<string>>)
    ensures r.None? <==> v.Some? && !v.value.JNull? && !v.value.JStr?
    ensures r == Some(None) <==> v.None? || v == Some(JNull)
    ensures v.Some? && v.value.JStr? ==> r == Some(Some(v.value.s))
  {
    if v.None? || v == Some(JNull) then Some(None)
    else if v.value.JStr? then Some(Some(v.value.s))
    else None
  }

  /** A field cast to `string | undefined` that the writer only uses when truthy. */
  function TruthyString(v: Option<Json>): (r: Option<Option<string>>)
    ensures r.None? <==> Truthy(v) && !v.value.JStr?
    ensures !Truthy(v) ==> r == Some(None)
    ensures Truthy(v) && v.value.JStr? ==> r == Some(Some(v.value.s))
  {
    if !Truthy(v) then Some(None)
    else if v.value.JStr? then Some(Some(v.value.s))
    else None
  }

  /** The payload `handleContentPush` hands to the writer, or `None` when building the file
      throws. Tags of an array are converted with `String`; anything else gives no tags. */
  function ContentPayload(data: Json): (r: Option<ContentWrite.Payload>)
    ensures r.Some? ==>
      && r.value.title == TextOrEmpty(Get(data, "title"))
      && r.value.content == TextOrEmpty(Get(data, "content"))
      && r.value.attachments.None?
      && (AsArray(Get(data, "tags")).Some? ==> r.value.tags == Some(ToJsStrings(AsArray(Get(data, "tags")).value)))
      && (AsArray(Get(data, "tags")).None? ==> r.value.tags.None?)
    ensures r.None? <==>
      || NullishString(Get(data, "slug")).None? || NullishString(Get(data, "summary")).None?
      || NullishString(Get(data, "date")).None? || NullishString(Get(data, "category")).None?
      || TruthyString(Get(data, "author")).None? || TruthyString(Get(data, "source")).None?
  {
    var slug := NullishString(Get(data, "slug"));
    var summary := NullishString(Get(data, "summary"));
    var date := NullishString(Get(data, "date"));
    var category := NullishString(Get(data, "category"));
    var author := TruthyString(Get(data, "author"));
    var source := TruthyString(Get(data, "source"));
    var tags := match AsArray(Get(data, "tags")) case Some(items) => Some(ToJsStrings(items)) case None => None;
    if slug.None? || summary.None? || date.None? || category.None? || author.None? || source.None? then None
    else Some(ContentWrite.Payload(slug.value, TextOrEmpty(Get(data, "title")), summary.value, date.value, tags,
                                   category.value, author.value, source.value, None, TextOrEmpty(Get(data, "content"))))
  }

  /** The parameters of the content writer. */
  datatype WriteEnv = WriteEnv(env: ContentWrite.Env, cwd: string, now: nat, today: string, ok: bool)

  /** `handleContentPush`: the trimmed title must have 2 UTF-16 code units, then the
      trimmed content 10; a failed write throws. */
  function ContentPush(kind: Kind, data: Json, w: WriteEnv): (o: Outcome)
    ensures JsLength(Trim(TextOrEmpty(Get(data, "title")))) < 2 <==> o == Refused(TitleTooShort)
    ensures o == Refused(ContentTooShort) <==>
      JsLength(Trim(TextOrEmpty(Get(data, "title")))) >= 2 && JsLength(Trim(TextOrEmpty(Get(data, "content")))) < 10
    ensures o.ContentAdded? <==>
      && JsLength(Trim(TextOrEmpty(Get(data, "title")))) >= 2 && JsLength(Trim(TextOrEmpty(Get(data, "content")))) >= 10
      && ContentPayload(data).Some? && w.ok
    ensures o.ContentAdded? ==>
      o.kind == kind && o.written == ContentWrite.WriteContentFile(kind, ContentPayload(data).value, w.env, w.cwd, w.now, w.today)
    ensures o.Refused? || o.ContentAdded? || o.Crash?
  {
    var title := TextOrEmpty(Get(data, "title"));
    var content := TextOrEmpty(Get(data, "content"));
    if JsLength(Trim(title)) < 2 then Refused(TitleTooShort)
    else if JsLength(Trim(content)) < 10 then Refused(ContentTooShort)
    else match ContentPayload(data)
      case None => Crash
      case Some(p) =>
        if !w.ok then Crash
        else ContentAdded(kind, ContentWrite.WriteContentFile(kind, p, w.env, w.cwd, w.now, w.today))
  }

  /** The parameters of the media handler; `ok` says whether creating the upload
      directory and writing the file succeed. */
  datatype MediaEnv = MediaEnv(decode: string -> seq<Byte>, nameNow: nat, storeNow: nat, ok: bool)

  /** `handleMediaPush`: name and data are converted with `String`, must be non-empty,
      and the decoded data must be non-empty and at most 20 MiB; an oversized file is an
      ordinary refusal (400), and a failed write throws. */
  function MediaPush(data: Json, m: MediaEnv): (o: Outcome)
    ensures o == Refused(NoFileName) <==> TextOrEmpty(Get(data, "fileName")) == ""
    ensures o == Refused(NoFileData) <==> TextOrEmpty(Get(data, "fileName")) != "" && TextOrEmpty(Get(data, "fileData")) == ""
    ensures o.Refused? || o.MediaAdded? || o.Crash?
    ensures TextOrEmpty(Get(data, "fileName")) != "" && TextOrEmpty(Get(data, "fileData")) != "" ==>
      var n := |m.decode(MediaRoute.DataPart(TextOrEmpty(Get(data, "fileData"))))|;
      && (o == Refused(EmptyFile) <==> n == 0)
      && (o == Refused(FileTooLarge) <==> n > MediaRoute.MaxMediaBytes)
      && (o.Crash? <==> 0 < n <= MediaRoute.MaxMediaBytes && !m.ok)
      && (o.MediaAdded? ==>
            && m.ok
            && o.bytes == n
            && o.fileName == NatToString(m.storeNow) + "-" + Slug.SanitizeFileName(TextOrEmpty(Get(data, "fileName")), m.nameNow)
            && o.url == "/uploads/" + o.fileName)
  {
    var fileName := TextOrEmpty(Get(data, "fileName"));
    var fileData := TextOrEmpty(Get(data, "fileData"));
    if fileName == "" then Refused(NoFileName)
    else if fileData == "" then Refused(NoFileData)
    else
      var safeName := Slug.SanitizeFileName(fileName, m.nameNow);
      var bytes := m.decode(MediaRoute.DataPart(fileData));
      if |bytes| == 0 then Refused(EmptyFile)
      else if |bytes| > MediaRoute.MaxMediaBytes then Refused(FileTooLarge)
      else if !m.ok then Crash
      else
        var finalName := NatToString(m.storeNow) + "-" + safeName;
        MediaAdded(finalName, "/uploads/" + finalName, |bytes|)
  }

  /** `handleStandardsPush`: any non-empty array is saved as it is, with the source
      converted by `String(source || "smart-push")`; `saveOk` says whether writing the
      snapshot succeeds, and a failed write throws. */
  function StandardsPush(data: Json, now: string, saveOk: bool): (o: Outcome)
    ensures o == Refused(NoHazards) <==> AsArray(Get(data, "hazards")).None? || |AsArray(Get(data, "hazards")).value| == 0
    ensures o.StandardsSaved? <==> AsArray(Get(data, "hazards")).Some? && |AsArray(Get(data, "hazards")).value| > 0 && saveOk
    ensures o.Crash? <==> AsArray(Get(data, "hazards")).Some? && |AsArray(Get(data, "hazards")).value| > 0 && !saveOk
    ensures o.StandardsSaved? ==>
      && AsArray(Get(o.file, "hazards")) == AsArray(Get(data, "hazards"))
      && Get(o.file, "source") == Some(JStr(TextField(Get(data, "source")).GetOr("smart-push")))
      && o.count == |AsArray(Get(data, "hazards")).value|
  {
    match AsArray(Get(data, "hazards"))
    case None => Refused(NoHazards)
    case Some(items) =>
      if |items| == 0 then Refused(NoHazards)
      else if !saveOk then Crash
      else
        var file := StandardsStore.SaveSnapshot(items, JStr(TextField(Get(data, "source")).GetOr("smart-push")), now);
        StandardsSaved(file, |AsArray(Get(file, "hazards")).value|)
  }

  /** `typeof data === "object"` for a truthy value: an object or an array. */
  predicate IsData(v: Option<Json>) {
    v.Some? && (v.value.JObj? || v.value.JArr?)
  }

  /** The handler. */
  function Post(expected: Option<string>, req: ApiAuth.Request, body: Option<Json>,
                w: WriteEnv, m: MediaEnv, now: string, saveOk: bool): (o: Outcome)
    ensures o.Denied? <==> ApiAuth.RequireApiKey(expected, req).Some?
    ensures o.BadJson? <==> ApiAuth.RequireApiKey(expected, req).None? && body.None?
    ensures o.NoData? <==> ApiAuth.RequireApiKey(expected, req).None? && body.Some? && body.value != JNull
                           && !IsData(Get(body.value, "data"))
    ensures o.Unsupported? <==> ApiAuth.RequireApiKey(expected, req).None? && body.Some? && IsData(Get(body.value, "data"))
                                && ChosenSection(Get(body.value, "module"), Get(body.value, "data").value).None?
    ensures ApiAuth.RequireApiKey(expected, req).None? && body.Some? && IsData(Get(body.value, "data")) ==>
      var data := Get(body.value, "data").value;
      match ChosenSection(Get(body.value, "module"), data)
      case None => o == Unsupported
      case Some(LawsSection) => o == ContentPush(Laws, data, w)
      case Some(ArticlesSection) => o == ContentPush(Articles, data, w)
      case Some(MediaSection) => o == MediaPush(data, m)
      case Some(StandardsSection) => o == StandardsPush(data, now, saveOk)
  {
    var denial := ApiAuth.RequireApiKey(expected, req);
    if denial.Some? then Denied(denial.value)
    else if body.None? then BadJson
    else if body.value == JNull then Crash
    else if !IsData(Get(body.value, "data")) then NoData
    else
      var data := Get(body.value, "data").value;
      match ChosenSection(Get(body.value, "module"), data)
      case None => Unsupported
      case Some(LawsSection) => ContentPush(Laws, data, w)
      case Some(ArticlesSection) => ContentPush(Articles, data, w)
      case Some(MediaSection) => MediaPush(data, m)
      case Some(StandardsSection) => StandardsPush(data, now, saveOk)
  }

  /** The status follows the handler's verdict: success 200, refusal or unknown section
      400, exception 500, and the gate's own status before anything is parsed. */
  lemma StatusMapping(expected: Option<string>, req: ApiAuth.Request, body: Option<Json>,
                      w: WriteEnv, m: MediaEnv, now: string, saveOk: bool)
    ensures var o := Post(expected, req, body, w, m, now, saveOk);
      && (o.ContentAdded? || o.MediaAdded? || o.StandardsSaved? ==> o.Status() == 200)
      && (o.Refused? || o.Unsupported? ==> o.Status() == 400)
      && (o.Crash? ==> o.Status() == 500)
      && (ApiAuth.RequireApiKey(expected, req).Some? ==> o.Status() == ApiAuth.RequireApiKey(expected, req).value.Status())
  {
  }

  /** The title is checked before the content: a too-short title is reported even when the
      content is too short as well. */
  lemma TitleCheckedFirst(kind: Kind, data: Json, w: WriteEnv)
    requires JsLength(Trim(TextOrEmpty(Get(data, "title")))) < 2 && JsLength(Trim(TextOrEmpty(Get(data, "content")))) < 10
    ensures ContentPush(kind, data, w) == Refused(TitleTooShort)
  {
  }

  /** The standards handler checks nothing inside the array: a list of `null`s is saved. */
  lemma NoHazardValidation(data: Json, now: string, n: nat)
    requires n > 0 && Get(data, "hazards") == Some(JArr(seq(n, _ => JNull)))
    ensures StandardsPush(data, now, true).StandardsSaved? && StandardsPush(data, now, true).count == n
  {
  }

  /** The same oversized upload is a 400 here but a 413 from the media route. */
  lemma OversizeStatusDiffers(data: Json, m: MediaEnv, expected: Option<string>, req: ApiAuth.Request)
    requires Get(data, "fileName").Some? && Get(data, "fileName").value.JStr? && Get(data, "fileName").value.s != ""
    requires Get(data, "fileData").Some? && Get(data, "fileData").value.JStr? && Get(data, "fileData").value.s != ""
    requires |m.decode(MediaRoute.DataPart(Get(data, "fileData").value.s))| > MediaRoute.MaxMediaBytes
    requires ApiAuth.RequireApiKey(expected, req).None?
    ensures MediaPush(data, m).Status() == 400
    ensures MediaRoute.Post(expected, req, Some(data), m.decode, m.nameNow, m.storeNow, m.ok).Status() == 413
  {
  }

  /** A title naming a GBZ standard files an auto-detected record under laws. */
  lemma GbzTitleIsLaw(data: Json)
    requires data.JObj? && data.fields.Keys == {"title", "content"}
    requires data.fields["title"] == JStr("GBZ 2.1") && data.fields["content"] == JStr("正文内容")
    ensures DetectModule(data) == LawsSection
  {
    var c := Combined(data);
    assert c[0..3] == "gbz";
    assert StartsAt(c, 0, LawKeywords[6]);
  }
}

=== FILE: sorting.dfy ===
/** Stable sorting by a comparison, as `Array.prototype.sort` does it (ECMA-262 requires
    the sort to be stable since 2019): insertion sort on sequences, proved to permute its
    input into non-decreasing order. */
module Sorting {
  import opened Text

  /** `le` is total and transitive: a total preorder, which every comparator the source
      passes to `sort` induces. */
  ghost predicate TotalPreorder<T(!new)>(le: (T, T) -> bool) {
    (forall a, b :: le(a, b) || le(b, a))
    && (forall a, b, c :: le(a, b) && le(b, c) ==> le(a, c))
  }

  /** Every earlier element is `le` every later one. */
  predicate SortedBy<T>(xs: seq<T>, le: (T, T) -> bool) {
    forall i, j :: 0 <= i < j < |xs| ==> le(xs[i], xs[j])
  }

  /** Puts `x` in front of the first element it is `le`: before its equals, which came
      later in the input, so the sort that uses it is stable. */
  function Insert<T(!new)>(x: T, xs: seq<T>, le: (T, T) -> bool): (r: seq<T>)
    requires TotalPreorder(le)
    requires SortedBy(xs, le)
    ensures SortedBy(r, le)
    ensures multiset(r) == multiset(xs) + multiset{x}
    ensures |r| == |xs| + 1
    ensures r[0] == x || (|xs| > 0 && r[0] == xs[0])
  {
    if |xs| == 0 then [x]
    else if le(x, xs[0]) then [x] + xs
    else
      var rest := Insert(x, xs[1..], le);
      assert xs == [xs[0]] + xs[1..];
      assert le(xs[0], rest[0]) by {
        if rest[0] != x {
          assert rest[0] == xs[1];
        }
      }
      ConsSorted(xs[0], rest, le);
      [xs[0]] + rest
  }

  /** An element `le` the head of a sorted sequence can go in front of it. */
  lemma ConsSorted<T(!new)>(y: T, rest: seq<T>, le: (T, T) -> bool)
    requires TotalPreorder(le) && SortedBy(rest, le)
    requires |rest| > 0 ==> le(y, rest[0])
    ensures SortedBy([y] + rest, le)
  {
    var s := [y] + rest;
    forall i, j | 0 <= i < j < |s|
      ensures le(s[i], s[j])
    {
      if i == 0 && j > 1 {
        assert le(rest[0], rest[j - 1]);
      }
    }
  }

  /** Sorts `xs` by `le`, keeping equal elements in their original order: the elements of
      any one class of equals come out in the order they went in. */
  function Sort<T(!new)>(xs: seq<T>, le: (T, T) -> bool): (r: seq<T>)
    requires TotalPreorder(le)
    ensures SortedBy(r, le)
    ensures multiset(r) == multiset(xs)
    ensures |r| == |xs|
  {
    if |xs| == 0 then []
    else
      assert xs == [xs[0]] + xs[1..];
      Insert(xs[0], Sort(xs[1..], le), le)
  }

  /** `a` and `b` are equals under `le`: neither comes strictly before the other. */
  predicate Equiv<T>(le: (T, T) -> bool, a: T, b: T) {
    le(a, b) && le(b, a)
  }

  /** The elements of `xs` equal to `z` under `le`, in their order in `xs`. */
  function Class<T>(xs: seq<T>, le: (T, T) -> bool, z: T): (r: seq<T>)
    ensures |r| <= |xs|
  {
    if |xs| == 0 then []
    else (if Equiv(le, xs[0], z) then [xs[0]] else []) + Class(xs[1..], le, z)
  }

  /** Inserting puts `x` before every element equal to it and leaves every other class
      unchanged. */
  lemma {:induction false} InsertClass<T(!new)>(x: T, xs: seq<T>, le: (T, T) -> bool, z: T)
    requires TotalPreorder(le) && SortedBy(xs, le)
    ensures Class(Insert(x, xs, le), le, z) == (if Equiv(le, x, z) then [x] else []) + Class(xs, le, z)
  {
    if |xs| == 0 {
      ClassCons(x, [], le, z);
      assert Insert(x, xs, le) == [x] + [];
    } else if le(x, xs[0]) {
      ClassCons(x, xs, le, z);
    } else {
      InsertClass(x, xs[1..], le, z);
      InsertClassStep(x, xs, le, z);
    }
  }

  /** The step of the lemma above when `x` goes after the head. */
  lemma InsertClassStep<T(!new)>(x: T, xs: seq<T>, le: (T, T) -> bool, z: T)
    requires TotalPreorder(le) && SortedBy(xs, le) && |xs| > 0 && !le(x, xs[0])
    requires Class(Insert(x, xs[1..], le), le, z) == (if Equiv(le, x, z) then [x] else []) + Class(xs[1..], le, z)
    ensures Class(Insert(x, xs, le), le, z) == (if Equiv(le, x, z) then [x] else []) + Class(xs, le, z)
  {
    InsertAfterHead(x, xs, le);
    HeadSplit(xs);
    if Equiv(le, x, z) {
      NotEquivBefore(x, xs[0], z, le);
    }
    ClassStep(xs[0], Insert(x, xs[1..], le), xs[1..], le, z, if Equiv(le, x, z) then [x] else []);
  }

  /** An element not `le` the head is inserted into the tail. */
  lemma InsertAfterHead<T(!new)>(x: T, xs: seq<T>, le: (T, T) -> bool)
    requires TotalPreorder(le) && SortedBy(xs, le) && |xs| > 0 && !le(x, xs[0])
    ensures Insert(x, xs, le) == [xs[0]] + Insert(x, xs[1..], le)
  {
  }

  lemma HeadSplit<T>(xs: seq<T>)
    requires |xs| > 0
    ensures xs == [xs[0]] + xs[1..]
  {
  }

  /** Putting the same first element in front of two sequences whose classes differ by a
      prefix `hx` keeps that difference, as long as the element is not in the class when
      `hx` is non-empty. */
  lemma ClassStep<T>(y: T, rest: seq<T>, tail: seq<T>, le: (T, T) -> bool, z: T, hx: seq<T>)
    requires Class(rest, le, z) == hx + Class(tail, le, z)
    requires hx != [] ==> !Equiv(le, y, z)
    ensures Class([y] + rest, le, z) == hx + Class([y] + tail, le, z)
  {
    var a, b := Class(rest, le, z), Class(tail, le, z);
    ClassCons(y, rest, le, z);
    ClassCons(y, tail, le, z);
    if Equiv(le, y, z) {
      assert hx == [] && a == b;
      assert Class([y] + rest, le, z) == [y] + a;
      assert Class([y] + tail, le, z) == [y] + b;
    } else {
      assert Class([y] + rest, le, z) == a;
      assert Class([y] + tail, le, z) == b;
    }
  }

  /** What `x` does not precede is not equal to anything equal to `x`. */
  lemma NotEquivBefore<T(!new)>(x: T, y: T, z: T, le: (T, T) -> bool)
    requires TotalPreorder(le) && !le(x, y) && Equiv(le, x, z)
    ensures !Equiv(le, y, z)
  {
  }

  /** The class of a sequence with a first element. */
  lemma ClassCons<T>(y: T, rest: seq<T>, le: (T, T) -> bool, z: T)
    ensures Class([y] + rest, le, z) == (if Equiv(le, y, z) then [y] else []) + Class(rest, le, z)
  {
    assert ([y] + rest)[1..] == rest;
  }

  /** Stability: the sort keeps the elements of every class of equals in their input
      order. */
  lemma {:induction false} SortStable<T(!new)>(xs: seq<T>, le: (T, T) -> bool, z: T)
    requires TotalPreorder(le)
    ensures Class(Sort(xs, le), le, z) == Class(xs, le, z)
  {
    if |xs| > 0 {
      SortStable(xs[1..], le, z);
      InsertClass(xs[0], Sort(xs[1..], le), le, z);
    }
  }

  /** "Larger key first": the order of `sort((a, b) => key(b) - key(a))`. */
  function DescendingBy<T>(key: T -> int): (T, T) -> bool {
    (a: T, b: T) => key(a) >= key(b)
  }

  lemma DescendingByIsTotalPreorder<T(!new)>(key: T -> int)
    ensures TotalPreorder(DescendingBy(key))
  {
  }

  /** Sorts by `key`, largest first, stably. */
  function SortDescending<T(!new)>(xs: seq<T>, key: T -> int): (r: seq<T>)
    ensures multiset(r) == multiset(xs)
    ensures forall i, j :: 0 <= i < j < |r| ==> key(r[i]) >= key(r[j])
  {
    DescendingByIsTotalPreorder(key);
    Sort(xs, DescendingBy(key))
  }

  /** Lexicographic order on code-unit sequences, a proper prefix first. */
  predicate UnitsLe(a: seq<int>, b: seq<int>)
    decreases |a|
  {
    |a| == 0 || (|b| > 0 && (a[0] < b[0] || (a[0] == b[0] && UnitsLe(a[1..], b[1..]))))
  }

  lemma {:induction false} UnitsLeTotal(a: seq<int>, b: seq<int>)
    ensures UnitsLe(a, b) || UnitsLe(b, a)
    decreases |a|
  {
    if |a| > 0 && |b| > 0 && a[0] == b[0] {
      UnitsLeTotal(a[1..], b[1..]);
    }
  }

  lemma {:induction false} UnitsLeTransitive(a: seq<int>, b: seq<int>, c: seq<int>)
    requires UnitsLe(a, b) && UnitsLe(b, c)
    ensures UnitsLe(a, c)
    decreases |a|
  {
    if |a| > 0 && a[0] == b[0] && b[0] == c[0] {
      UnitsLeTransitive(a[1..], b[1..], c[1..]);
    }
  }

  lemma {:induction false} UnitsLeAntisymmetric(a: seq<int>, b: seq<int>)
    requires UnitsLe(a, b) && UnitsLe(b, a)
    ensures a == b
    decreases |a|
  {
    if |a| > 0 {
      UnitsLeAntisymmetric(a[1..], b[1..]);
      assert a == [a[0]] + a[1..] && b == [b[0]] + b[1..];
    }
  }

  /** The default order of `sort()` without a comparator on strings (ECMA-262 compares
      them with `IsLessThan`): lexicographic by UTF-16 code unit, a proper prefix first. */
  predicate StringLe(a: string, b: string) {
    UnitsLe(Utf16(a), Utf16(b))
  }

  lemma StringLeTotal(a: string, b: string)
    ensures StringLe(a, b) || StringLe(b, a)
  {
    UnitsLeTotal(Utf16(a), Utf16(b));
  }

  lemma StringLeTransitive(a: string, b: string, c: string)
    requires StringLe(a, b) && StringLe(b, c)
    ensures StringLe(a, c)
  {
    UnitsLeTransitive(Utf16(a), Utf16(b), Utf16(c));
  }

  /** Two strings each before the other are equal, so among distinct strings the order
      is strict. */
  lemma StringLeAntisymmetric(a: string, b: string)
    requires StringLe(a, b) && StringLe(b, a)
    ensures a == b
  {
    UnitsLeAntisymmetric(Utf16(a), Utf16(b));
    Utf16Injective(a, b);
  }

  /** Code-unit order is not character order: a character beyond U+FFFF, whose high
      surrogate is below U+E000, sorts before a private-use character it follows in
      Unicode. */
  lemma CodeUnitsNotCodePoints()
    ensures '\U{10000}' > '\U{E000}'
    ensures StringLe("\U{10000}", "\U{E000}") && !StringLe("\U{E000}", "\U{10000}")
  {
    assert Utf16("\U{10000}") == [0xD800, 0xDC00] by {
      assert "\U{10000}"[1..] == [];
    }
    assert Utf16("\U{E000}") == [0xE000] by {
      assert "\U{E000}"[1..] == [];
    }
  }

  lemma StringLeIsTotalPreorder()
    ensures TotalPreorder(StringLe)
  {
    forall a, b
      ensures StringLe(a, b) || StringLe(b, a)
    {
      StringLeTotal(a, b);
    }
    forall a, b, c | StringLe(a, b) && StringLe(b, c)
      ensures StringLe(a, c)
    {
      StringLeTransitive(a, b, c);
    }
  }
}

=== FILE: standard_pdfs.dfy ===
/** The batch downloader of standard PDFs (scripts/download-standards-pdfs.mjs). For every
    catalog standard without a PDF on disk it tries four public sources in order and saves
    the first answer that is a PDF of at least 100 bytes. A progress file remembers, per
    standard code, the download or the number of runs in which every source failed; a
    standard that failed `--retry` runs is no longer tried. The standards are taken in
    batches of `--concurrency`. The folder is a map from file name to size; the requests
    and the command line are parameters. */
module StandardPdfs {
  import opened Common
  import opened Text
  import opened Pdf
  import opened Numbers

  // ---------------------------------------------------------------------------------
  // Command line

  /** The argument equals `flag`. */
  function Is(flag: string): string -> bool {
    a => a == flag
  }

  /** `args[args.indexOf(flag) + 1]`, `None` being `undefined`: the argument after the first
      `flag`; without the flag `indexOf` gives -1 and the first argument is read. */
  function ArgAfter(args: seq<string>, flag: string): (r: Option<string>)
    ensures flag !in args ==> r == (if |args| > 0 then Some(args[0]) else None)
    ensures forall i :: 0 <= i < |args| && args[i] == flag && flag !in args[..i]
                        ==> r == (if i + 1 < |args| then Some(args[i + 1]) else None)
  {
    var at := match FirstWhere(args, Is(flag)) case None => -1 case Some(i) => i;
    if at + 1 < |args| then Some(args[at + 1]) else None
  }

  /** The batch size as written: `parseInt(...) || 3`. Only NaN and zero fall back to the
      default, so a negative number is taken as it is. */
  function ConcurrencyAsWritten(args: seq<string>): (r: int)
    ensures r != 0
    ensures ArgAfter(args, "--concurrency").None? ==> r == 3
  {
    IntOr(ArgAfter(args, "--concurrency"), 3)
  }

  /** `--concurrency -1` is accepted as the batch size -1. */
  lemma MinusOneAccepted()
    ensures ConcurrencyAsWritten(["--concurrency", "-1"]) == -1
  {
    var args := ["--concurrency", "-1"];
    assert args[0] == "--concurrency" && args[..0] == [];
    ParseIntDecimal("", true, 1, "");
    assert "" + ("-" + NatToString(1) + "") == "-1";
  }

  /** With a negative batch size the batch loop `for (i = 0; i < pending.length; i += c)`
      never ends: after any number `k` of rounds its index `k * c` is still below a
      non-zero length. */
  lemma NegativeConcurrencyNeverEnds(args: seq<string>, pending: nat, k: nat)
    requires ConcurrencyAsWritten(args) < 0 && pending > 0
    ensures k * ConcurrencyAsWritten(args) < pending
  {
    NonPositiveSteps(k, ConcurrencyAsWritten(args));
  }

  /** Adding a negative step `k` times never goes above the start. */
  lemma {:induction false} NonPositiveSteps(k: nat, c: int)
    requires c < 0
    ensures k * c <= 0
  {
    if k > 0 {
      NonPositiveSteps(k - 1, c);
      assert k * c == (k - 1) * c + c;
    }
  }

  /** The batch size: a positive `--concurrency` value, otherwise the default 3. */
  function Concurrency(args: seq<string>): (r: nat)
    ensures r >= 1
    ensures ConcurrencyAsWritten(args) >= 1 ==> r == ConcurrencyAsWritten(args)
    ensures ConcurrencyAsWritten(args) < 1 ==> r == 3
  {
    var c := ConcurrencyAsWritten(args);
    if c >= 1 then c else 3
  }

  /** The number of failed runs after which a standard is skipped: `parseInt(...) || 2`. */
  function MaxRetry(args: seq<string>): (r: int)
    ensures r != 0
    ensures ArgAfter(args, "--retry").None? ==> r == 2
  {
    IntOr(ArgAfter(args, "--retry"), 2)
  }

  // ---------------------------------------------------------------------------------
  // Batches

  /** The batches concatenated. */
  function Flatten<T>(xss: seq<seq<T>>): seq<T> {
    if |xss| == 0 then [] else xss[0] + Flatten(xss[1..])
  }

  /** `pending.slice(i, i + c)` for `i = 0, c, 2c, ...`: consecutive batches of at most `c`
      standards, none empty, that together are the whole list in order. */
  function Chunks<T>(xs: seq<T>, c: nat): (r: seq<seq<T>>)
    requires c >= 1
    ensures forall k :: 0 <= k < |r| ==> 1 <= |r[k]| <= c
    ensures Flatten(r) == xs
    ensures |xs| > 0 ==> |r| > 0
    decreases |xs|
  {
    if |xs| == 0 then []
    else
      var n := if |xs| < c then |xs| else c;
      var rest := Chunks(xs[n..], c);
      assert ([xs[..n]] + rest)[1..] == rest;
      assert xs[..n] + xs[n..] == xs;
      [xs[..n]] + rest
  }

  // ---------------------------------------------------------------------------------
  // One standard

  /** A catalog standard as the downloader reads it. */
  datatype Std = Std(code: string, title: string, pdfFilename: string)

  /** A progress entry: the download, or the runs in which every source failed. */
  datatype Record = Downloaded(size: nat, source: string) | Unavailable(attempts: nat)

  /** The PDF folder (file name to size) and the progress map (code to entry). */
  datatype State = State(files: map<string, nat>, progress: map<string, Record>)

  /** The smallest body taken for a PDF; a file on disk must be larger. */
  const MinBytes: nat := 100

  /** The file exists with more than 100 bytes. */
  predicate OnDisk(files: map<string, nat>, name: string) {
    name in files && files[name] > MinBytes
  }

  /** `getDownloadUrls`: the four sources tried, in order, each addressed by the code
      with slashes and white-space runs made dashes. The title is not used. */
  function DownloadUrls(code: string): (r: seq<string>)
    ensures |r| == 4
    ensures EndsWith(r[0], CodeStem(code) + ".pdf") && EndsWith(r[3], CodeStem(code) + ".pdf")
    ensures EndsWith(r[1], CodeStem(code)) && EndsWith(r[2], CodeStem(code))
  {
    var stem := CodeStem(code);
    var r := ["https://www.csres.com/d/" + stem + ".pdf",
              "http://c.gb688.cn/bzgk/gb/showGb?type=online&hcno=" + stem,
              "https://openstd.samr.gov.cn/bzgk/gb/newGbInfo?hcno=" + stem,
              "https://max.book118.com/pdf/" + stem + ".pdf"];
    EndsWithAppend("https://www.csres.com/d/", stem + ".pdf");
    EndsWithAppend("http://c.gb688.cn/bzgk/gb/showGb?type=online&hcno=", stem);
    EndsWithAppend("https://openstd.samr.gov.cn/bzgk/gb/newGbInfo?hcno=", stem);
    EndsWithAppend("https://max.book118.com/pdf/", stem + ".pdf");
    assert "https://www.csres.com/d/" + stem + ".pdf" == "https://www.csres.com/d/" + (stem + ".pdf");
    assert "https://max.book118.com/pdf/" + stem + ".pdf" == "https://max.book118.com/pdf/" + (stem + ".pdf");
    r
  }

  /** A string ends with what is appended to it. */
  lemma EndsWithAppend(a: string, b: string)
    ensures EndsWith(a + b, b)
  {
    assert (a + b)[|a + b| - |b|..] == b;
  }

  /** `progress[code]?.attempts || 0`. */
  function Attempts(progress: map<string, Record>, code: string): nat {
    if code in progress && progress[code].Unavailable? then progress[code].attempts else 0
  }

  /** `progress[code]?.status === "unavailable" && progress[code]?.attempts >= maxRetry`. */
  predicate GivenUp(progress: map<string, Record>, code: string, maxRetry: int) {
    code in progress && progress[code].Unavailable? && progress[code].attempts >= maxRetry
  }

  /** What `downloadStandard` reports. */
  datatype Outcome = Exists(size: nat) | Skip | Got(size: nat, source: string) | FailedAll

  /** The source answers with a PDF of at least 100 bytes. */
  function Accepts(fetch: string -> Fetched): string -> bool {
    u => Download(fetch(u), MinBytes).Saved?
  }

  /** The loop over the sources in `downloadStandard`: the first source that answers with
      a PDF gives the download, and when none does every source has failed. What the
      sources answer depends neither on the folder nor on the progress. */
  function TrySources(std: Std, fetch: string -> Fetched): (o: Outcome)
    ensures o.Got? || o.FailedAll?
    ensures o.Got? ==> exists k :: 0 <= k < 4 && DownloadUrls(std.code)[k] == o.source
                          && forall j :: 0 <= j < k ==> !Accepts(fetch)(DownloadUrls(std.code)[j])
    ensures o.Got? ==> Download(fetch(o.source), MinBytes) == Saved(o.size)
    ensures o.FailedAll? <==> forall u :: u in DownloadUrls(std.code) ==> !Accepts(fetch)(u)
  {
    var urls := DownloadUrls(std.code);
    match FirstWhere(urls, Accepts(fetch))
    case None => FailedAll
    case Some(k) => Got(Download(fetch(urls[k]), MinBytes).size, urls[k])
  }

  /** What `downloadStandard` reports, decided by its checks against `st`, which it makes
      before its first `await`, and then by the sources. */
  function Decide(std: Std, st: State, maxRetry: int, fetch: string -> Fetched): Outcome {
    if OnDisk(st.files, std.pdfFilename) then Exists(st.files[std.pdfFilename])
    else if GivenUp(st.progress, std.code, maxRetry) then Skip
    else TrySources(std, fetch)
  }

  /** The writes of a standard once its downloads have settled: the saved file and its
      `downloaded` entry, or an `unavailable` entry that counts one more failed run on top
      of the progress as it stands at that moment. */
  function Settle(std: Std, o: Outcome, st: State): State {
    match o
    case Got(size, source) =>
      State(st.files[std.pdfFilename := size], st.progress[std.code := Downloaded(size, source)])
    case FailedAll =>
      st.(progress := st.progress[std.code := Unavailable(Attempts(st.progress, std.code) + 1)])
    case _ => st
  }

  /** `downloadStandard` on its own: a file larger than 100 bytes is kept; a standard given
      up on is skipped; otherwise the sources are tried, and their answer is written. */
  function DownloadStandard(std: Std, st: State, maxRetry: int, fetch: string -> Fetched): (r: (Outcome, State))
    ensures r.0.Exists? <==> OnDisk(st.files, std.pdfFilename)
    ensures r.0.Exists? ==> r.0.size == st.files[std.pdfFilename]
    ensures r.0.Skip? <==> !OnDisk(st.files, std.pdfFilename) && GivenUp(st.progress, std.code, maxRetry)
    ensures r.0.Exists? || r.0.Skip? ==> r.1 == st
    ensures r.0.Got? || r.0.FailedAll? ==> r.0 == TrySources(std, fetch)
    ensures r.0.Got? ==> r.1.files == st.files[std.pdfFilename := r.0.size]
    ensures r.0.Got? ==> r.1.progress == st.progress[std.code := Downloaded(r.0.size, r.0.source)]
    ensures r.0.FailedAll? ==> r.1.files == st.files
    ensures r.0.FailedAll? ==> r.1.progress == st.progress[std.code := Unavailable(Attempts(st.progress, std.code) + 1)]
  {
    var o := Decide(std, st, maxRetry, fetch);
    (o, Settle(std, o, st))
  }

  /** The progress after `n` runs of the script on one standard whose file is missing,
      with the same answers every time. */
  function Rerun(n: nat, std: Std, files: map<string, nat>, progress: map<string, Record>, maxRetry: int,
                 fetch: string -> Fetched): map<string, Record>
  {
    if n == 0 then progress
    else DownloadStandard(std, State(files, Rerun(n - 1, std, files, progress, maxRetry, fetch)), maxRetry, fetch).1.progress
  }

  /** One run on a standard no source has: it stays unavailable, and the count of failed
      runs goes one up unless the standard was already given up on. */
  lemma FailingRun(std: Std, files: map<string, nat>, p: map<string, Record>, maxRetry: int,
                   fetch: string -> Fetched)
    requires !OnDisk(files, std.pdfFilename)
    requires forall u :: u in DownloadUrls(std.code) ==> !Accepts(fetch)(u)
    ensures var q := DownloadStandard(std, State(files, p), maxRetry, fetch).1.progress;
      std.code in q && q[std.code].Unavailable?
      && (GivenUp(p, std.code, maxRetry) ==> q == p)
      && (!GivenUp(p, std.code, maxRetry) ==> q[std.code].attempts == Attempts(p, std.code) + 1)
  {
  }

  /** While every source fails, each run either counts one more failure or finds the
      standard given up on. */
  lemma {:induction false} RerunCounts(n: nat, std: Std, files: map<string, nat>, progress: map<string, Record>,
                                       maxRetry: int, fetch: string -> Fetched)
    requires !OnDisk(files, std.pdfFilename)
    requires forall u :: u in DownloadUrls(std.code) ==> !Accepts(fetch)(u)
    requires n >= 1
    ensures var p := Rerun(n, std, files, progress, maxRetry, fetch);
      std.code in p && p[std.code].Unavailable? && (p[std.code].attempts >= n || p[std.code].attempts >= maxRetry)
  {
    var p := Rerun(n - 1, std, files, progress, maxRetry, fetch);
    FailingRun(std, files, p, maxRetry, fetch);
    assert Rerun(n, std, files, progress, maxRetry, fetch)
        == DownloadStandard(std, State(files, p), maxRetry, fetch).1.progress;
    if n > 1 {
      RerunCounts(n - 1, std, files, progress, maxRetry, fetch);
    }
  }

  /** A standard no source has is retried at most `--retry` times: from then on every run
      skips it, whatever the progress file said before. */
  lemma GivesUpAfterRetries(n: nat, std: Std, files: map<string, nat>, progress: map<string, Record>,
                            maxRetry: int, fetch: string -> Fetched)
    requires !OnDisk(files, std.pdfFilename)
    requires forall u :: u in DownloadUrls(std.code) ==> !Accepts(fetch)(u)
    requires n >= 1 && n >= maxRetry
    ensures DownloadStandard(std, State(files, Rerun(n, std, files, progress, maxRetry, fetch)), maxRetry, fetch).0 == Skip
  {
    RerunCounts(n, std, files, progress, maxRetry, fetch);
  }

  // ---------------------------------------------------------------------------------
  // The whole run

  /** The counters of `processAll`. */
  datatype Counters = Counters(downloaded: nat, present: nat, failed: nat, skipped: nat, totalBytes: nat) {
    /** The standards accounted for. */
    function Total(): nat {
      downloaded + present + failed + skipped
    }
  }

  /** The counters after one outcome. */
  function CountOne(t: Counters, o: Outcome): (r: Counters)
    ensures r.Total() == t.Total() + 1
  {
    match o
    case Got(size, _) => t.(downloaded := t.downloaded + 1, totalBytes := t.totalBytes + size)
    case Exists(_) => t.(present := t.present + 1)
    case Skip => t.(skipped := t.skipped + 1)
    case FailedAll => t.(failed := t.failed + 1)
  }

  /** The standards one after another, each seeing what the earlier ones wrote: the run
      the script makes with `--concurrency 1`, and the reference a batch is compared with. */
  function RunAll(stds: seq<Std>, st: State, maxRetry: int, fetch: string -> Fetched, t: Counters)
    : (r: (Counters, State))
    ensures r.0.Total() == t.Total() + |stds|
    decreases |stds|
  {
    if |stds| == 0 then (t, st)
    else
      var (o, st1) := DownloadStandard(stds[0], st, maxRetry, fetch);
      RunAll(stds[1..], st1, maxRetry, fetch, CountOne(t, o))
  }

  /** The standard's file is on disk. */
  function Present(files: map<string, nat>): Std -> bool {
    (s: Std) => OnDisk(files, s.pdfFilename)
  }

  /** The standard's file is not on disk, and it was given up on. */
  function Skipped(st: State, maxRetry: int): Std -> bool {
    (s: Std) => !OnDisk(st.files, s.pdfFilename) && GivenUp(st.progress, s.code, maxRetry)
  }

  /** The standards of a batch started together by `Promise.allSettled(batch.map(...))`.
      Each makes its checks before its first `await`, so against the state `st0` at the
      batch's start; their writes then land one after another on the current state `st`. */
  function SettleBatch(stds: seq<Std>, st0: State, st: State, maxRetry: int, fetch: string -> Fetched,
                       t: Counters): (r: (Counters, State))
    ensures r.0.Total() == t.Total() + |stds|
    decreases |stds|
  {
    if |stds| == 0 then (t, st)
    else
      var o := Decide(stds[0], st0, maxRetry, fetch);
      SettleBatch(stds[1..], st0, Settle(stds[0], o, st), maxRetry, fetch, CountOne(t, o))
  }

  /** Only a file on disk at the batch's start makes a standard of the batch exist. */
  lemma {:induction false} SettleBatchPresent(stds: seq<Std>, st0: State, st: State, maxRetry: int,
                                              fetch: string -> Fetched, t: Counters)
    ensures SettleBatch(stds, st0, st, maxRetry, fetch, t).0.present == t.present + Count(stds, Present(st0.files))
    decreases |stds|
  {
    if |stds| > 0 {
      var o := Decide(stds[0], st0, maxRetry, fetch);
      assert o.Exists? <==> Present(st0.files)(stds[0]);
      assert CountOne(t, o).present == t.present + (if o.Exists? then 1 else 0);
      SettleBatchPresent(stds[1..], st0, Settle(stds[0], o, st), maxRetry, fetch, CountOne(t, o));
    }
  }

  /** Only a standard given up on by the batch's start is skipped. */
  lemma {:induction false} SettleBatchSkipped(stds: seq<Std>, st0: State, st: State, maxRetry: int,
                                              fetch: string -> Fetched, t: Counters)
    ensures SettleBatch(stds, st0, st, maxRetry, fetch, t).0.skipped == t.skipped + Count(stds, Skipped(st0, maxRetry))
    decreases |stds|
  {
    if |stds| > 0 {
      var o := Decide(stds[0], st0, maxRetry, fetch);
      assert o.Skip? <==> Skipped(st0, maxRetry)(stds[0]);
      assert CountOne(t, o).skipped == t.skipped + (if o.Skip? then 1 else 0);
      SettleBatchSkipped(stds[1..], st0, Settle(stds[0], o, st), maxRetry, fetch, CountOne(t, o));
    }
  }

  /** One batch: only a file on disk when the batch starts counts as existing, and only a
      standard given up on by then is skipped. */
  function RunBatch(batch: seq<Std>, st: State, maxRetry: int, fetch: string -> Fetched, t: Counters)
    : (r: (Counters, State))
    ensures r.0.Total() == t.Total() + |batch|
    ensures r.0.present == t.present + Count(batch, Present(st.files))
    ensures r.0.skipped == t.skipped + Count(batch, Skipped(st, maxRetry))
  {
    SettleBatchPresent(batch, st, st, maxRetry, fetch, t);
    SettleBatchSkipped(batch, st, st, maxRetry, fetch, t);
    SettleBatch(batch, st, st, maxRetry, fetch, t)
  }

  /** The batches in order. */
  function RunBatches(batches: seq<seq<Std>>, st: State, maxRetry: int, fetch: string -> Fetched, t: Counters)
    : (r: (Counters, State))
    ensures r.0.Total() == t.Total() + |Flatten(batches)|
    decreases |batches|
  {
    if |batches| == 0 then (t, st)
    else
      var (t1, st1) := RunBatch(batches[0], st, maxRetry, fetch, t);
      RunBatches(batches[1..], st1, maxRetry, fetch, t1)
  }

  /** Two standards of one batch that share a file name are both downloaded when that file
      is missing: neither sees the other's file, and the later write replaces the earlier. */
  lemma SharedFileInOneBatch(a: Std, b: Std, st: State, maxRetry: int, fetch: string -> Fetched, t: Counters)
    requires a.pdfFilename == b.pdfFilename && !OnDisk(st.files, a.pdfFilename)
    requires !GivenUp(st.progress, a.code, maxRetry) && !GivenUp(st.progress, b.code, maxRetry)
    requires TrySources(a, fetch).Got? && TrySources(b, fetch).Got?
    ensures var r := RunBatch([a, b], st, maxRetry, fetch, t);
      r.0.downloaded == t.downloaded + 2
      && a.pdfFilename in r.1.files && r.1.files[a.pdfFilename] == TrySources(b, fetch).size
  {
    var oa := TrySources(a, fetch);
    var ob := TrySources(b, fetch);
    assert Decide(a, st, maxRetry, fetch) == oa;
    assert Decide(b, st, maxRetry, fetch) == ob;
    var st1 := Settle(a, oa, st);
    var t1 := CountOne(t, oa);
    assert SettleBatch([b], st, st1, maxRetry, fetch, t1) == (CountOne(t1, ob), Settle(b, ob, st1)) by {
      assert [b][1..] == [];
    }
    assert SettleBatch([a, b], st, st, maxRetry, fetch, t) == SettleBatch([b], st, st1, maxRetry, fetch, t1) by {
      assert [a, b][1..] == [b];
    }
  }

  /** The same two standards in two batches of one: the second finds the first's file,
      when that has more than 100 bytes, and counts as existing. */
  lemma SharedFileInTwoBatches(a: Std, b: Std, st: State, maxRetry: int, fetch: string -> Fetched, t: Counters)
    requires a.pdfFilename == b.pdfFilename && !OnDisk(st.files, a.pdfFilename)
    requires !GivenUp(st.progress, a.code, maxRetry)
    requires TrySources(a, fetch).Got? && TrySources(a, fetch).size > MinBytes
    ensures var r := RunBatches([[a], [b]], st, maxRetry, fetch, t);
      r.0.downloaded == t.downloaded + 1 && r.0.present == t.present + 1
  {
    var oa := TrySources(a, fetch);
    assert Decide(a, st, maxRetry, fetch) == oa;
    var st1 := Settle(a, oa, st);
    var t1 := CountOne(t, oa);
    assert RunBatch([a], st, maxRetry, fetch, t) == (t1, st1) by {
      assert [a][1..] == [];
      assert SettleBatch([a], st, st, maxRetry, fetch, t) == SettleBatch([], st, st1, maxRetry, fetch, t1);
    }
    assert OnDisk(st1.files, b.pdfFilename);
    var ob := Decide(b, st1, maxRetry, fetch);
    assert ob.Exists?;
    assert RunBatch([b], st1, maxRetry, fetch, t1).0 == CountOne(t1, ob) by {
      assert [b][1..] == [];
      assert SettleBatch([b], st1, st1, maxRetry, fetch, t1) == SettleBatch([], st1, Settle(b, ob, st1), maxRetry, fetch, CountOne(t1, ob));
    }
    var r1 := RunBatch([b], st1, maxRetry, fetch, t1);
    assert RunBatches([[b]], st1, maxRetry, fetch, t1) == r1 by {
      assert [[b]][1..] == [];
    }
    assert RunBatches([[a], [b]], st, maxRetry, fetch, t) == RunBatches([[b]], st1, maxRetry, fetch, t1) by {
      assert [[a], [b]][1..] == [[b]];
    }
  }

  /** The state agrees with `st0` on what `s` reads and writes: its file and its progress
      entry. */
  predicate Agree(st0: State, st: State, s: Std) {
    && (s.pdfFilename in st0.files <==> s.pdfFilename in st.files)
    && (s.pdfFilename in st0.files ==> st0.files[s.pdfFilename] == st.files[s.pdfFilename])
    && (s.code in st0.progress <==> s.code in st.progress)
    && (s.code in st0.progress ==> st0.progress[s.code] == st.progress[s.code])
  }

  /** No two of the standards share a file name or a code. */
  predicate Independent(stds: seq<Std>) {
    forall i, j :: 0 <= i < j < |stds| ==> stds[i].pdfFilename != stds[j].pdfFilename && stds[i].code != stds[j].code
  }

  /** The writes of one standard leave another's file and progress entry alone. */
  lemma AgreeAfterSettle(st0: State, st: State, s: Std, o: Outcome, u: Std)
    requires Agree(st0, st, u) && u.pdfFilename != s.pdfFilename && u.code != s.code
    ensures Agree(st0, Settle(s, o, st), u)
  {
  }

  /** The standards after the first are independent too. */
  lemma IndependentTail(stds: seq<Std>)
    requires |stds| > 0 && Independent(stds)
    ensures Independent(stds[1..])
  {
    var rest := stds[1..];
    forall i, j | 0 <= i < j < |rest|
      ensures rest[i].pdfFilename != rest[j].pdfFilename && rest[i].code != rest[j].code
    {
      assert rest[i] == stds[i + 1] && rest[j] == stds[j + 1];
    }
  }

  /** Writes of other standards leave a standard's checks as they were at the start. */
  lemma {:induction false} SettleBatchSequential(stds: seq<Std>, st0: State, st: State, maxRetry: int,
                                                 fetch: string -> Fetched, t: Counters)
    requires Independent(stds)
    requires forall i :: 0 <= i < |stds| ==> Agree(st0, st, stds[i])
    ensures SettleBatch(stds, st0, st, maxRetry, fetch, t) == RunAll(stds, st, maxRetry, fetch, t)
    decreases |stds|
  {
    if |stds| > 0 {
      var s := stds[0];
      assert Agree(st0, st, s);
      var o := Decide(s, st0, maxRetry, fetch);
      assert o == Decide(s, st, maxRetry, fetch);
      var st1 := Settle(s, o, st);
      var rest := stds[1..];
      forall i | 0 <= i < |rest|
        ensures Agree(st0, st1, rest[i])
      {
        assert rest[i] == stds[i + 1];
        AgreeAfterSettle(st0, st, s, o, stds[i + 1]);
      }
      IndependentTail(stds);
      SettleBatchSequential(rest, st0, st1, maxRetry, fetch, CountOne(t, o));
    }
  }

  /** A batch whose standards have distinct file names and distinct codes ends as if its
      standards had run one after another. */
  lemma BatchSequentialWhenIndependent(batch: seq<Std>, st: State, maxRetry: int, fetch: string -> Fetched,
                                       t: Counters)
    requires Independent(batch)
    ensures RunBatch(batch, st, maxRetry, fetch, t) == RunAll(batch, st, maxRetry, fetch, t)
  {
    SettleBatchSequential(batch, st, st, maxRetry, fetch, t);
  }

  /** Running two lists one after another is running their concatenation. */
  lemma {:induction false} RunAllAppend(a: seq<Std>, b: seq<Std>, st: State, maxRetry: int,
                                        fetch: string -> Fetched, t: Counters)
    ensures var (t1, st1) := RunAll(a, st, maxRetry, fetch, t);
      RunAll(a + b, st, maxRetry, fetch, t) == RunAll(b, st1, maxRetry, fetch, t1)
    decreases |a|
  {
    if |a| > 0 {
      var (o, st1) := DownloadStandard(a[0], st, maxRetry, fetch);
      assert (a + b)[1..] == a[1..] + b;
      RunAllAppend(a[1..], b, st1, maxRetry, fetch, CountOne(t, o));
    } else {
      assert a + b == b;
    }
  }

  /** When no batch holds two standards with one file name or one code, the batch split
      does not matter: the run ends as the one-after-another run of all its standards. */
  lemma {:induction false} RunBatchesFlat(batches: seq<seq<Std>>, st: State, maxRetry: int,
                                          fetch: string -> Fetched, t: Counters)
    requires forall k :: 0 <= k < |batches| ==> Independent(batches[k])
    ensures RunBatches(batches, st, maxRetry, fetch, t) == RunAll(Flatten(batches), st, maxRetry, fetch, t)
    decreases |batches|
  {
    if |batches| > 0 {
      BatchSequentialWhenIndependent(batches[0], st, maxRetry, fetch, t);
      var (t1, st1) := RunBatch(batches[0], st, maxRetry, fetch, t);
      RunAllAppend(batches[0], Flatten(batches[1..]), st, maxRetry, fetch, t);
      assert forall k :: 0 <= k < |batches[1..]| ==> batches[1..][k] == batches[k + 1];
      RunBatchesFlat(batches[1..], st1, maxRetry, fetch, t1);
    }
  }

  /** The standard's file is not on disk yet. */
  function Pending(files: map<string, nat>): Std -> bool {
    (s: Std) => !OnDisk(files, s.pdfFilename)
  }

  /** Every standard is either on disk or pending. */
  lemma {:induction false} PresentOrPending(stds: seq<Std>, files: map<string, nat>)
    ensures Count(stds, Present(files)) + |Filter(stds, Pending(files))| == |stds|
  {
    if |stds| > 0 {
      PresentOrPending(stds[1..], files);
    }
  }

  /** The report `processAll` writes. */
  datatype Report = Report(total: nat, downloaded: nat, present: nat, failed: nat, skipped: nat, totalBytes: nat)

  /** `processAll`: the standards on disk are counted as existing, the others are taken in
      batches, and the report accounts for every standard of the catalog. */
  function ProcessAll(standards: seq<Std>, st: State, args: seq<string>, fetch: string -> Fetched)
    : (r: (Report, State))
    ensures r.0.total == |standards|
    ensures r.0.downloaded + r.0.present + r.0.failed + r.0.skipped == r.0.total
  {
    var present := Count(standards, Present(st.files));
    var pending := Filter(standards, Pending(st.files));
    var batches := Chunks(pending, Concurrency(args));
    var (t, after) := RunBatches(batches, st, MaxRetry(args), fetch, Counters(0, present, 0, 0, 0));
    PresentOrPending(standards, st.files);
    (Report(|standards|, t.downloaded, t.present, t.failed, t.skipped, t.totalBytes), after)
  }

  /** With `--concurrency 1` every batch holds one standard, and the run is the
      one-after-another run of the pending standards. */
  lemma ConcurrencyOneIsSequential(standards: seq<Std>, st: State, args: seq<string>, fetch: string -> Fetched)
    requires Concurrency(args) == 1
    ensures var present := Count(standards, Present(st.files));
      var (t, after) := RunAll(Filter(standards, Pending(st.files)), st, MaxRetry(args), fetch,
                               Counters(0, present, 0, 0, 0));
      ProcessAll(standards, st, args, fetch)
        == (Report(|standards|, t.downloaded, t.present, t.failed, t.skipped, t.totalBytes), after)
  {
    var present := Count(standards, Present(st.files));
    var batches := Chunks(Filter(standards, Pending(st.files)), 1);
    forall k | 0 <= k < |batches|
      ensures Independent(batches[k])
    {
      assert |batches[k]| == 1;
    }
    RunBatchesFlat(batches, st, MaxRetry(args), fetch, Counters(0, present, 0, 0, 0));
  }

  /** Every file on disk with more than 100 bytes keeps its size. */
  ghost predicate KeepsFiles(before: map<string, nat>, after: map<string, nat>) {
    before.Keys <= after.Keys && forall x :: OnDisk(before, x) ==> after[x] == before[x]
  }

  /** One standard writes at most its own file, and only when that file was not on disk. */
  lemma StandardKeepsFiles(std: Std, st: State, maxRetry: int, fetch: string -> Fetched)
    ensures KeepsFiles(st.files, DownloadStandard(std, st, maxRetry, fetch).1.files)
  {
  }

  /** Keeping the files on disk is transitive. */
  lemma KeepsFilesChain(a: map<string, nat>, b: map<string, nat>, c: map<string, nat>)
    requires KeepsFiles(a, b) && KeepsFiles(b, c)
    ensures KeepsFiles(a, c)
  {
  }

  /** One after another, no standard overwrites a PDF on disk, not even one an earlier
      standard of the same run saved. */
  lemma {:induction false} RunAllKeepsFiles(stds: seq<Std>, st: State, maxRetry: int, fetch: string -> Fetched,
                                            t: Counters)
    ensures KeepsFiles(st.files, RunAll(stds, st, maxRetry, fetch, t).1.files)
    decreases |stds|
  {
    if |stds| > 0 {
      var (o, st1) := DownloadStandard(stds[0], st, maxRetry, fetch);
      StandardKeepsFiles(stds[0], st, maxRetry, fetch);
      RunAllKeepsFiles(stds[1..], st1, maxRetry, fetch, CountOne(t, o));
      KeepsFilesChain(st.files, st1.files, RunAll(stds, st, maxRetry, fetch, t).1.files);
    }
  }

  /** The writes of a batch keep the files on disk at its start, whatever the earlier
      writes of the batch did. */
  lemma {:induction false} SettleBatchKeepsFiles(stds: seq<Std>, st0: State, st: State, maxRetry: int,
                                                 fetch: string -> Fetched, t: Counters)
    requires KeepsFiles(st0.files, st.files)
    ensures KeepsFiles(st0.files, SettleBatch(stds, st0, st, maxRetry, fetch, t).1.files)
    decreases |stds|
  {
    if |stds| > 0 {
      var o := Decide(stds[0], st0, maxRetry, fetch);
      var st1 := Settle(stds[0], o, st);
      assert KeepsFiles(st0.files, st1.files);
      SettleBatchKeepsFiles(stds[1..], st0, st1, maxRetry, fetch, CountOne(t, o));
    }
  }

  /** A batch never overwrites a PDF that was on disk when it started, which includes every
      file an earlier batch saved. */
  lemma RunBatchKeepsFiles(batch: seq<Std>, st: State, maxRetry: int, fetch: string -> Fetched, t: Counters)
    ensures KeepsFiles(st.files, RunBatch(batch, st, maxRetry, fetch, t).1.files)
  {
    SettleBatchKeepsFiles(batch, st, st, maxRetry, fetch, t);
  }

  /** The batches in turn keep every PDF that was on disk before the first. */
  lemma {:induction false} RunBatchesKeepsFiles(batches: seq<seq<Std>>, st: State, maxRetry: int,
                                                fetch: string -> Fetched, t: Counters)
    ensures KeepsFiles(st.files, RunBatches(batches, st, maxRetry, fetch, t).1.files)
    decreases |batches|
  {
    if |batches| > 0 {
      var (t1, st1) := RunBatch(batches[0], st, maxRetry, fetch, t);
      RunBatchKeepsFiles(batches[0], st, maxRetry, fetch, t);
      RunBatchesKeepsFiles(batches[1..], st1, maxRetry, fetch, t1);
      KeepsFilesChain(st.files, st1.files, RunBatches(batches, st, maxRetry, fetch, t).1.files);
    }
  }

  /** The whole run keeps every PDF that was on disk. */
  lemma ProcessAllKeepsFiles(standards: seq<Std>, st: State, args: seq<string>, fetch: string -> Fetched)
    ensures KeepsFiles(st.files, ProcessAll(standards, st, args, fetch).1.files)
  {
    var present := Count(standards, Present(st.files));
    var batches := Chunks(Filter(standards, Pending(st.files)), Concurrency(args));
    RunBatchesKeepsFiles(batches, st, MaxRetry(args), fetch, Counters(0, present, 0, 0, 0));
  }
}

=== FILE: standards_catalog.dfy ===
/** The standards catalogue table (`src/components/standards/standards-catalog.tsx`): the
    search and the three filters, the "files first, then by code" order, paging by fifty,
    the per-category counts and the handlers that move between pages and reset them. The
    rendering is not modelled; the component's state is a value and each handler a function
    from state to state. */
module StandardsCatalog {
  import opened Common
  import opened Text
  import opened Sorting

  /** One row of the catalogue, as the component's props declare it. */
  datatype Entry = Entry(
    id: int,
    code: string,
    title: string,
    fullTitle: string,
    year: int,
    status: string,
    category: string,
    slug: string,
    pdfFilename: string)

  /** The label that switches the category and status filters off. */
  const All: string := "全部"

  /** The rows per page. */
  const PageSize: nat := 50

  /** The file filter: off, rows with a file, rows without. */
  datatype FileFilter = AnyFile | Downloadable | NoFile

  /** The maps from slug to PDF file and to Word file. A slug counts as having a file when
      either map holds a non-empty name for it (`pdfMap[slug] || docMap[slug]`). */
  datatype Files = Files(pdf: map<string, string>, doc: map<string, string>)

  predicate HasFile(files: Files, e: Entry) {
    (e.slug in files.pdf && files.pdf[e.slug] != "") || (e.slug in files.doc && files.doc[e.slug] != "")
  }

  /** The component's state. */
  datatype View = View(search: string, category: string, status: string, download: FileFilter, page: int)

  /** The state the component starts in. */
  const Initial: View := View("", All, All, AnyFile, 1)

  /** The trimmed, lower-cased query occurs in the lower-cased code, title or full title. */
  predicate SearchHit(e: Entry, q: string) {
    Contains(Lower(e.code), q) || Contains(Lower(e.title), q) || Contains(Lower(e.fullTitle), q)
  }

  /** The query the search box holds, as it is matched. */
  function Query(v: View): string {
    Lower(Trim(v.search))
  }

  /** The four filter stages of `filtered`, each the identity when it is switched off. */
  predicate SearchStage(v: View, e: Entry) {
    Trim(v.search) == "" || SearchHit(e, Query(v))
  }

  predicate CategoryStage(v: View, e: Entry) {
    v.category == All || e.category == v.category
  }

  predicate StatusStage(v: View, e: Entry) {
    v.status == All || e.status == v.status
  }

  predicate FileStage(v: View, files: Files, e: Entry) {
    match v.download
    case AnyFile => true
    case Downloadable => HasFile(files, e)
    case NoFile => !HasFile(files, e)
  }

  /** A row the table shows under `v`: it passes all four stages. */
  predicate Shown(v: View, files: Files, e: Entry) {
    SearchStage(v, e) && CategoryStage(v, e) && StatusStage(v, e) && FileStage(v, files, e)
  }

  /** The sort key's first part: rows with a file (0) before rows without (1). */
  function Rank(files: Files, e: Entry): nat {
    if HasFile(files, e) then 0 else 1
  }

  /** The comparator: by rank, then by code. `codeLe` stands for the locale-aware
      comparison of codes (`localeCompare(...) <= 0`), whose collation tables are not
      modelled; all the order needs of it is that it be a total preorder, as code-unit
      order is (`Sorting.StringLeIsTotalPreorder`). */
  function RowLe(files: Files, codeLe: (string, string) -> bool): (Entry, Entry) -> bool {
    (a: Entry, b: Entry) => Rank(files, a) < Rank(files, b) || (Rank(files, a) == Rank(files, b) && codeLe(a.code, b.code))
  }

  lemma RowLeIsTotalPreorder(files: Files, codeLe: (string, string) -> bool)
    requires TotalPreorder(codeLe)
    ensures TotalPreorder(RowLe(files, codeLe))
  {
    forall a, b
      ensures RowLe(files, codeLe)(a, b) || RowLe(files, codeLe)(b, a)
    {
      assert codeLe(a.code, b.code) || codeLe(b.code, a.code);
    }
    forall a, b, c | RowLe(files, codeLe)(a, b) && RowLe(files, codeLe)(b, c)
      ensures RowLe(files, codeLe)(a, c)
    {
      if Rank(files, a) == Rank(files, b) == Rank(files, c) {
        assert codeLe(a.code, b.code) && codeLe(b.code, c.code);
      }
    }
  }

  /** The stages of `filtered`, applied one after another as the component does. */
  function SearchStep(rows: seq<Entry>, v: View): seq<Entry> {
    if Trim(v.search) != "" then Filter(rows, e => SearchHit(e, Query(v))) else rows
  }

  function CategoryStep(rows: seq<Entry>, v: View): seq<Entry> {
    if v.category != All then Filter(rows, (e: Entry) => e.category == v.category) else rows
  }

  function StatusStep(rows: seq<Entry>, v: View): seq<Entry> {
    if v.status != All then Filter(rows, (e: Entry) => e.status == v.status) else rows
  }

  function FileStep(rows: seq<Entry>, v: View, files: Files): seq<Entry> {
    match v.download
    case AnyFile => rows
    case Downloadable => Filter(rows, e => HasFile(files, e))
    case NoFile => Filter(rows, e => !HasFile(files, e))
  }

  function Staged(standards: seq<Entry>, v: View, files: Files): seq<Entry> {
    FileStep(StatusStep(CategoryStep(SearchStep(standards, v), v), v), v, files)
  }

  /** The rows passing the first one, two and three stages. */
  function UpTo1(v: View): Entry -> bool {
    (e: Entry) => SearchStage(v, e)
  }

  function UpTo2(v: View): Entry -> bool {
    (e: Entry) => SearchStage(v, e) && CategoryStage(v, e)
  }

  function UpTo3(v: View): Entry -> bool {
    (e: Entry) => SearchStage(v, e) && CategoryStage(v, e) && StatusStage(v, e)
  }

  lemma SearchStepIs(rows: seq<Entry>, v: View)
    ensures SearchStep(rows, v) == Filter(rows, UpTo1(v))
  {
    if Trim(v.search) != "" {
      FilterFilter(rows, e => true, e => SearchHit(e, Query(v)), UpTo1(v));
      assert Filter(rows, e => true) == rows;
    } else {
      assert forall i :: 0 <= i < |rows| ==> UpTo1(v)(rows[i]);
    }
  }

  lemma CategoryStepIs(rows: seq<Entry>, v: View)
    ensures CategoryStep(Filter(rows, UpTo1(v)), v) == Filter(rows, UpTo2(v))
  {
    if v.category != All {
      FilterFilter(rows, UpTo1(v), (e: Entry) => e.category == v.category, UpTo2(v));
    } else {
      FilterFilter(rows, UpTo1(v), e => true, UpTo2(v));
    }
  }

  lemma StatusStepIs(rows: seq<Entry>, v: View)
    ensures StatusStep(Filter(rows, UpTo2(v)), v) == Filter(rows, UpTo3(v))
  {
    if v.status != All {
      FilterFilter(rows, UpTo2(v), (e: Entry) => e.status == v.status, UpTo3(v));
    } else {
      FilterFilter(rows, UpTo2(v), e => true, UpTo3(v));
    }
  }

  lemma FileStepIs(rows: seq<Entry>, v: View, files: Files)
    ensures FileStep(Filter(rows, UpTo3(v)), v, files) == Filter(rows, e => Shown(v, files, e))
  {
    match v.download
    case AnyFile => FilterFilter(rows, UpTo3(v), e => true, e => Shown(v, files, e));
    case Downloadable => FilterFilter(rows, UpTo3(v), e => HasFile(files, e), e => Shown(v, files, e));
    case NoFile => FilterFilter(rows, UpTo3(v), e => !HasFile(files, e), e => Shown(v, files, e));
  }

  /** The stages in a row keep exactly the rows that pass all of them, in order. */
  lemma StagedIsShown(standards: seq<Entry>, v: View, files: Files)
    ensures Staged(standards, v, files) == Filter(standards, e => Shown(v, files, e))
  {
    SearchStepIs(standards, v);
    CategoryStepIs(standards, v);
    StatusStepIs(standards, v);
    FileStepIs(standards, v, files);
  }

  /** `filtered`: the rows that pass, rows with a file first, each group by code. */
  function Filtered(standards: seq<Entry>, v: View, files: Files, codeLe: (string, string) -> bool): (r: seq<Entry>)
    requires TotalPreorder(codeLe)
    ensures multiset(r) == multiset(Filter(standards, e => Shown(v, files, e)))
    ensures forall e :: e in r <==> e in standards && Shown(v, files, e)
    ensures forall i, j :: 0 <= i < j < |r| ==> HasFile(files, r[i]) || !HasFile(files, r[j])
    ensures forall i, j :: 0 <= i < j < |r| && HasFile(files, r[i]) == HasFile(files, r[j]) ==>
      codeLe(r[i].code, r[j].code)
  {
    RowLeIsTotalPreorder(files, codeLe);
    StagedIsShown(standards, v, files);
    var r := Sort(Staged(standards, v, files), RowLe(files, codeLe));
    SameMembers(r, Filter(standards, e => Shown(v, files, e)));
    RowOrder(r, files, codeLe);
    r
  }

  /** Two sequences with the same elements, counted, have the same members. */
  lemma SameMembers<T>(a: seq<T>, b: seq<T>)
    requires multiset(a) == multiset(b)
    ensures forall x :: x in a <==> x in b
  {
    assert forall x :: x in a <==> x in multiset(a);
    assert forall x :: x in b <==> x in multiset(b);
  }

  /** What the comparator's order says about two rows. */
  lemma RowOrder(r: seq<Entry>, files: Files, codeLe: (string, string) -> bool)
    requires SortedBy(r, RowLe(files, codeLe))
    ensures forall i, j :: 0 <= i < j < |r| ==> HasFile(files, r[i]) || !HasFile(files, r[j])
    ensures forall i, j :: 0 <= i < j < |r| && HasFile(files, r[i]) == HasFile(files, r[j]) ==>
      codeLe(r[i].code, r[j].code)
  {
    forall i, j | 0 <= i < j < |r|
      ensures HasFile(files, r[i]) || !HasFile(files, r[j])
      ensures HasFile(files, r[i]) == HasFile(files, r[j]) ==> codeLe(r[i].code, r[j].code)
    {
      assert RowLe(files, codeLe)(r[i], r[j]);
      assert Rank(files, r[i]) <= Rank(files, r[j]);
    }
  }

  /** Without a query and with every filter off, the table holds every row. */
  lemma AllFiltersOffShowsAll(standards: seq<Entry>, files: Files, page: int, codeLe: (string, string) -> bool)
    requires TotalPreorder(codeLe)
    ensures multiset(Filtered(standards, View("", All, All, AnyFile, page), files, codeLe)) == multiset(standards)
  {
    assert Trim("") == "";
  }

  /** A specific category or status keeps only the rows carrying it. */
  lemma SpecificFiltersSelect(standards: seq<Entry>, v: View, files: Files, e: Entry, codeLe: (string, string) -> bool)
    requires TotalPreorder(codeLe)
    requires e in Filtered(standards, v, files, codeLe)
    ensures v.category != All ==> e.category == v.category
    ensures v.status != All ==> e.status == v.status
  {
  }

  /** `downloadableCount`: the rows with a file. */
  function DownloadableCount(standards: seq<Entry>, files: Files): (n: nat)
    ensures n == |Filter(standards, e => HasFile(files, e))|
    ensures n <= |standards|
  {
    FilterLength(standards, e => HasFile(files, e));
    Count(standards, e => HasFile(files, e))
  }

  /** "With file" and "without file" split whatever the other filters leave: the two
      tables together have as many rows as the table with the file filter off. */
  lemma FileFiltersComplementary(standards: seq<Entry>, v: View, files: Files, codeLe: (string, string) -> bool)
    requires TotalPreorder(codeLe)
    ensures |Filtered(standards, v.(download := Downloadable), files, codeLe)| + |Filtered(standards, v.(download := NoFile), files, codeLe)|
      == |Filtered(standards, v.(download := AnyFile), files, codeLe)|
  {
    var a, b, c := v.(download := AnyFile), v.(download := Downloadable), v.(download := NoFile);
    FilteredCount(standards, a, files, codeLe);
    FilteredCount(standards, b, files, codeLe);
    FilteredCount(standards, c, files, codeLe);
    forall e: Entry
      ensures Shown(a, files, e) == (Shown(b, files, e) || Shown(c, files, e)) && !(Shown(b, files, e) && Shown(c, files, e))
    {
      ShownSplits(v, files, e);
    }
    CountPartition(standards, e => Shown(a, files, e), e => Shown(b, files, e), e => Shown(c, files, e));
  }

  /** A row passing the other filters passes exactly one of the two file filters. */
  lemma ShownSplits(v: View, files: Files, e: Entry)
    ensures var a, b, c := v.(download := AnyFile), v.(download := Downloadable), v.(download := NoFile);
      Shown(a, files, e) == (Shown(b, files, e) || Shown(c, files, e)) && !(Shown(b, files, e) && Shown(c, files, e))
  {
    var a, b, c := v.(download := AnyFile), v.(download := Downloadable), v.(download := NoFile);
    SameStages(v, a, e);
    SameStages(v, b, e);
    SameStages(v, c, e);
  }

  /** The three stages before the file filter read only the query, category and status. */
  lemma SameStages(v: View, w: View, e: Entry)
    requires v.search == w.search && v.category == w.category && v.status == w.status
    ensures SearchStage(v, e) == SearchStage(w, e)
    ensures CategoryStage(v, e) == CategoryStage(w, e)
    ensures StatusStage(v, e) == StatusStage(w, e)
  {
    assert Query(v) == Query(w);
  }

  /** The table has as many rows as pass the filters. */
  lemma FilteredCount(standards: seq<Entry>, v: View, files: Files, codeLe: (string, string) -> bool)
    requires TotalPreorder(codeLe)
    ensures |Filtered(standards, v, files, codeLe)| == Count(standards, e => Shown(v, files, e))
  {
    FilterLength(standards, e => Shown(v, files, e));
    assert |Filtered(standards, v, files, codeLe)| == |multiset(Filter(standards, e => Shown(v, files, e)))|;
  }

  /** With no other filter, the "with file" table has `downloadableCount` rows. */
  lemma DownloadableCountIsTable(standards: seq<Entry>, files: Files, page: int, codeLe: (string, string) -> bool)
    requires TotalPreorder(codeLe)
    ensures |Filtered(standards, View("", All, All, Downloadable, page), files, codeLe)| == DownloadableCount(standards, files)
  {
    var v := View("", All, All, Downloadable, page);
    assert Trim("") == "";
    assert |Filtered(standards, v, files, codeLe)| == |multiset(Filter(standards, e => Shown(v, files, e)))|;
    FilterFilter(standards, e => Shown(v, files, e), e => true, e => HasFile(files, e));
  }

  /** `Math.ceil(n / 50)`. */
  function TotalPages(n: nat): (t: nat)
    ensures t * PageSize >= n
    ensures t > 0 ==> (t - 1) * PageSize < n
  {
    (n + PageSize - 1) / PageSize
  }

  /** `filtered.slice((page - 1) * 50, page * 50)`. */
  function Paged(rows: seq<Entry>, page: int): (r: seq<Entry>)
    ensures |r| <= PageSize
    ensures 1 <= page && (page - 1) * PageSize < |rows| ==>
      var from := (page - 1) * PageSize;
      r == rows[from..if page * PageSize < |rows| then page * PageSize else |rows|]
    ensures 1 <= page && (page - 1) * PageSize >= |rows| ==> r == []
  {
    Slice(rows, (page - 1) * PageSize, page * PageSize)
  }

  /** Every row is on exactly the page its position says, and that page exists. */
  lemma RowOnItsPage(rows: seq<Entry>, i: nat)
    requires i < |rows|
    ensures var p := i / PageSize + 1;
      && 1 <= p <= TotalPages(|rows|)
      && i % PageSize < |Paged(rows, p)|
      && Paged(rows, p)[i % PageSize] == rows[i]
  {
    var p := i / PageSize + 1;
    assert (p - 1) * PageSize <= i < p * PageSize;
  }

  /** Pages beyond the last are empty, so "nothing found" shows exactly when the table
      has no row and the page is the first. */
  lemma FirstPageEmptyIffNoRows(rows: seq<Entry>)
    ensures Paged(rows, 1) == [] <==> |rows| == 0
  {
  }

  /** The previous-page button: one page back, never below 1. The filters are untouched,
      so the table is the same; only the page moves. */
  function Prev(v: View): (r: View)
    ensures forall files, e :: Shown(r, files, e) == Shown(v, files, e)
    ensures 1 <= r.page
  {
    v.(page := if 1 > v.page - 1 then 1 else v.page - 1)
  }

  /** The next-page button: one page on, never past the last. The filters are untouched,
      so the table is the same; only the page moves. */
  function Next(v: View, totalPages: nat): (r: View)
    ensures forall files, e :: Shown(r, files, e) == Shown(v, files, e)
    ensures r.page <= totalPages
  {
    v.(page := if totalPages < v.page + 1 then totalPages else v.page + 1)
  }

  /** The buttons keep a page that is in range in range. */
  lemma PageButtonsStayInRange(v: View, totalPages: nat)
    requires 1 <= v.page <= totalPages
    ensures 1 <= Prev(v).page <= totalPages
    ensures 1 <= Next(v, totalPages).page <= totalPages
    ensures Prev(v).page <= v.page <= Next(v, totalPages).page
  {
  }

  /** The two buttons undo each other: inside the page range, going back then on (or on
      then back) returns to the same view. */
  lemma PrevNextRoundTrip(v: View, totalPages: nat)
    ensures 1 < v.page <= totalPages ==> Next(Prev(v), totalPages) == v
    ensures 1 <= v.page < totalPages ==> Prev(Next(v, totalPages)) == v
  {
  }

  /** `handleSearch`: a new query goes back to page 1, and a query that is not blank also
      switches the category back to all. */
  function HandleSearch(v: View, val: string): (r: View)
    ensures r.search == val && r.page == 1
    ensures r.status == v.status && r.download == v.download
    ensures Trim(val) != "" ==> r.category == All
    ensures Trim(val) == "" ==> r.category == v.category
  {
    View(val, if Trim(val) != "" then All else v.category, v.status, v.download, 1)
  }

  /** `handleCategory`, `handleStatus`, `handleDownload`: the one filter changes and the
      page goes back to 1, so a row is shown when it passes the new filter and the three
      old ones. */
  function HandleCategory(v: View, val: string): (r: View)
    ensures r.page == 1
    ensures forall files, e :: Shown(r, files, e) <==>
      SearchStage(v, e) && (val == All || e.category == val) && StatusStage(v, e) && FileStage(v, files, e)
  {
    v.(category := val, page := 1)
  }

  function HandleStatus(v: View, val: string): (r: View)
    ensures r.page == 1
    ensures forall files, e :: Shown(r, files, e) <==>
      SearchStage(v, e) && CategoryStage(v, e) && (val == All || e.status == val) && FileStage(v, files, e)
  {
    StatusChangeShown(v, val);
    View(v.search, v.category, val, v.download, 1)
  }

  function HandleDownload(v: View, val: FileFilter): (r: View)
    ensures r.page == 1
    ensures forall files, e :: Shown(r, files, e) <==>
      SearchStage(v, e) && CategoryStage(v, e) && StatusStage(v, e)
      && (val == AnyFile || (val == Downloadable) == HasFile(files, e))
  {
    v.(download := val, page := 1)
  }

  /** The rows a status change shows, entry by entry. */
  lemma StatusChangeShown(v: View, val: string)
    ensures forall files, e :: Shown(View(v.search, v.category, val, v.download, 1), files, e) <==>
      SearchStage(v, e) && CategoryStage(v, e) && (val == All || e.status == val) && FileStage(v, files, e)
  {
    forall files, e
      ensures Shown(View(v.search, v.category, val, v.download, 1), files, e) <==>
        SearchStage(v, e) && CategoryStage(v, e) && (val == All || e.status == val) && FileStage(v, files, e)
    {
      StatusChangeEntry(v, val, files, e);
    }
  }

  /** The status change leaves the query, category and file filter as they were. */
  lemma StatusChangeEntry(v: View, val: string, files: Files, e: Entry)
    ensures Shown(View(v.search, v.category, val, v.download, 1), files, e) ==
      (SearchStage(v, e) && CategoryStage(v, e) && (val == All || e.status == val) && FileStage(v, files, e))
  {
    var r := View(v.search, v.category, val, v.download, 1);
    assert Query(r) == Query(v);
    SameFileStage(r, v, files, e);
  }

  /** The file stage reads only the file filter. */
  lemma SameFileStage(v: View, w: View, files: Files, e: Entry)
    requires v.download == w.download
    ensures FileStage(v, files, e) == FileStage(w, files, e)
  {
  }

  /** After any filter change the table shows the first fifty rows of the new result. */
  lemma FilterChangeShowsFirstPage(standards: seq<Entry>, files: Files, v: View, val: string, file: FileFilter,
                                    codeLe: (string, string) -> bool)
    requires TotalPreorder(codeLe)
    ensures var w := HandleSearch(v, val);
      Paged(Filtered(standards, w, files, codeLe), w.page) == Take(Filtered(standards, w, files, codeLe), PageSize)
    ensures var w := HandleCategory(v, val);
      Paged(Filtered(standards, w, files, codeLe), w.page) == Take(Filtered(standards, w, files, codeLe), PageSize)
    ensures var w := HandleStatus(v, val);
      Paged(Filtered(standards, w, files, codeLe), w.page) == Take(Filtered(standards, w, files, codeLe), PageSize)
    ensures var w := HandleDownload(v, file);
      Paged(Filtered(standards, w, files, codeLe), w.page) == Take(Filtered(standards, w, files, codeLe), PageSize)
  {
  }

  /** A search with a category selected: the category is dropped, so the search runs over
      every category. */
  lemma SearchClearsCategory(standards: seq<Entry>, files: Files, v: View, val: string, e: Entry, codeLe: (string, string) -> bool)
    requires TotalPreorder(codeLe)
    requires Trim(val) != "" && e in standards
    requires SearchHit(e, Lower(Trim(val))) && StatusStage(v, e) && FileStage(v, files, e)
    ensures e in Filtered(standards, HandleSearch(v, val), files, codeLe)
  {
  }

  /** A count per category, one more for each row carrying it. */
  function Bump(counts: map<string, nat>, c: string): (r: map<string, nat>)
    ensures r.Keys == counts.Keys + {c}
  {
    counts[c := (if c in counts then counts[c] else 0) + 1]
  }

  /** The count a map holds for a key, 0 when it holds none (`counts[c] || 0`). */
  function CountOf(counts: map<string, nat>, c: string): nat {
    if c in counts then counts[c] else 0
  }

  /** The loop of `categoryCounts` from a starting map. */
  function Tally(counts: map<string, nat>, rows: seq<Entry>): map<string, nat>
    decreases |rows|
  {
    if |rows| == 0 then counts else Tally(Bump(counts, rows[0].category), rows[1..])
  }

  /** Rows whose category is `c`. */
  function InCategory(c: string): Entry -> bool {
    (e: Entry) => e.category == c
  }

  /** The loop adds, for every category, the number of rows carrying it, and creates a key
      for every category that occurs. */
  lemma {:induction false} TallyCounts(counts: map<string, nat>, rows: seq<Entry>, c: string)
    ensures CountOf(Tally(counts, rows), c) == CountOf(counts, c) + Count(rows, InCategory(c))
    ensures c in Tally(counts, rows) <==> c in counts || exists i :: 0 <= i < |rows| && rows[i].category == c
    decreases |rows|
  {
    if |rows| > 0 {
      TallyCounts(Bump(counts, rows[0].category), rows[1..], c);
      if c in Tally(counts, rows) && c !in counts && c != rows[0].category {
        var i :| 0 <= i < |rows[1..]| && rows[1..][i].category == c;
        assert rows[i + 1].category == c;
      }
      if exists i :: 0 <= i < |rows| && rows[i].category == c {
        var i :| 0 <= i < |rows| && rows[i].category == c;
        if i > 0 {
          assert rows[1..][i - 1].category == c;
        }
      }
    }
  }

  /** `categoryCounts`: "全部" starts at the number of rows, then every row adds one to
      its category. */
  function CategoryCounts(standards: seq<Entry>): (r: map<string, nat>)
    ensures forall c :: c != All ==> CountOf(r, c) == Count(standards, InCategory(c))
    ensures CountOf(r, All) == |standards| + Count(standards, InCategory(All))
    ensures forall c :: c in r <==> c == All || exists i :: 0 <= i < |standards| && standards[i].category == c
  {
    var r := Tally(map[All := |standards|], standards);
    forall c
      ensures CountOf(r, c) == CountOf(map[All := |standards|], c) + Count(standards, InCategory(c))
      ensures c in r <==> c == All || exists i :: 0 <= i < |standards| && standards[i].category == c
    {
      TallyCounts(map[All := |standards|], standards, c);
    }
    r
  }

  /** The count of a category is the number of rows the category filter alone keeps. */
  lemma CategoryCountIsTable(standards: seq<Entry>, files: Files, c: string, page: int, codeLe: (string, string) -> bool)
    requires TotalPreorder(codeLe)
    requires c != All
    ensures CountOf(CategoryCounts(standards), c) == |Filtered(standards, View("", c, All, AnyFile, page), files, codeLe)|
  {
    var v := View("", c, All, AnyFile, page);
    assert Trim("") == "";
    assert |Filtered(standards, v, files, codeLe)| == |multiset(Filter(standards, e => Shown(v, files, e)))|;
    FilterFilter(standards, e => Shown(v, files, e), e => true, InCategory(c));
    FilterLength(standards, InCategory(c));
  }

  /** A row whose category is itself "全部" is counted twice under that label. */
  lemma AllLabelCountedTwice(e: Entry)
    requires e.category == All
    ensures CountOf(CategoryCounts([e]), All) == 2
  {
  }
}

=== FILE: standards_route.dfy ===
/** `POST /api/standards` (`src/app/api/standards/route.ts`): the hazard validator of the
    route and the order of its checks, ending in a save of the snapshot. The configured API
    key, the request, its parsed body and the time are parameters. */
module StandardsRoute {
  import opened Common
  import opened Json
  import opened Gbz
  import opened StandardsStore
  import opened ApiAuth

  /** Every element is a string (`every((item) => typeof item === "string")`). */
  predicate EveryString(xs: seq<Json>) {
    forall i :: 0 <= i < |xs| ==> xs[i].JStr?
  }

  /** The array under `key` holds only strings. */
  predicate StringArrayField(v: Json, key: string) {
    AsArray(Get(v, key)).Some? && EveryString(AsArray(Get(v, key)).value)
  }

  /** `validateHazard`, in the route's own order: the category is checked against the five
      labels before the arrays are looked at. */
  predicate ValidateHazard(v: Json) {
    && v.JObj?
    && AsString(Get(v, "code")).Some?
    && AsString(Get(v, "name")).Some?
    && AsString(Get(v, "category")).Some?
    && AsString(Get(v, "category")).value in GbzCategories
    && StringArrayField(v, "checks")
    && AsString(Get(v, "cycle")).Some?
    && StringArrayField(v, "contraindications")
    && StringArrayField(v, "targetDiseases")
  }

  /** The route accepts exactly the records the store would load. */
  lemma ValidateAgreesWithToHazard(v: Json)
    ensures ValidateHazard(v) <==> ToHazard(v).Some?
  {
  }

  /** How a request ends. */
  datatype Outcome =
    | Denied(denial: Denial)
    | BadJson
    | NotHazardArray
    | InvalidHazard
    | Crash
    | Saved(file: Json, count: nat)
  {
    /** The HTTP status of the response. An exception outside the handler's `try` becomes
        the framework's 500. */
    function Status(): nat {
      match this
      case Denied(d) => d.Status()
      case BadJson => 400
      case NotHazardArray => 400
      case InvalidHazard => 400
      case Crash => 500
      case Saved(_, _) => 200
    }
  }

  /** `payload.source ?? "api"`: any present, non-null value is saved as it is, even when it
      is not a string. */
  function SourceOf(body: Json): (s: Json)
    ensures Get(body, "source").Some? && !Get(body, "source").value.JNull? ==> s == Get(body, "source").value
    ensures Get(body, "source").None? || Get(body, "source").value.JNull? ==> s == JStr("api")
  {
    var v := Get(body, "source");
    if v.Some? && !v.value.JNull? then v.value else JStr("api")
  }

  /** The handler. `body` is the parsed request body, `None` when it is not valid JSON;
      `writeOk` says whether writing the snapshot file succeeds (a failed write throws out of
      the handler). */
  function Post(expected: Option<string>, req: Request, body: Option<Json>, now: string, writeOk: bool): (o: Outcome)
    ensures o.Denied? <==> RequireApiKey(expected, req).Some?
    ensures o.BadJson? <==> RequireApiKey(expected, req).None? && body.None?
    ensures o.Crash? <==>
      && RequireApiKey(expected, req).None? && body.Some?
      && (|| body.value == JNull
          || (&& AsArray(Get(body.value, "hazards")).Some? && |AsArray(Get(body.value, "hazards")).value| > 0
              && (forall i :: 0 <= i < |AsArray(Get(body.value, "hazards")).value| ==> ValidateHazard(AsArray(Get(body.value, "hazards")).value[i]))
              && !writeOk))
    ensures o.NotHazardArray? <==>
      && RequireApiKey(expected, req).None? && body.Some? && body.value != JNull
      && (AsArray(Get(body.value, "hazards")).None? || |AsArray(Get(body.value, "hazards")).value| == 0)
    ensures o.InvalidHazard? <==>
      && RequireApiKey(expected, req).None? && body.Some? && body.value != JNull
      && AsArray(Get(body.value, "hazards")).Some?
      && exists i :: 0 <= i < |AsArray(Get(body.value, "hazards")).value| && !ValidateHazard(AsArray(Get(body.value, "hazards")).value[i])
    ensures o.Saved? ==>
      var items := AsArray(Get(body.value, "hazards")).value;
      && (forall i :: 0 <= i < |items| ==> ValidateHazard(items[i]))
      && o.count == |items| > 0 && writeOk
      && o.file == SaveSnapshot(items, SourceOf(body.value), now)
  {
    if RequireApiKey(expected, req).Some? then Denied(RequireApiKey(expected, req).value)
    else if body.None? then BadJson
    else if body.value == JNull then Crash
    else
      var items := AsArray(Get(body.value, "hazards"));
      if items.None? || |items.value| == 0 then NotHazardArray
      else if !(forall i :: 0 <= i < |items.value| ==> ValidateHazard(items.value[i])) then InvalidHazard
      else if !writeOk then Crash
      else Saved(SaveSnapshot(items.value, SourceOf(body.value), now), |items.value|)
  }

  /** The key is checked before the body is looked at: a refused request gets the same
      answer whatever it carries. */
  lemma AuthBeforeBody(expected: Option<string>, req: Request, a: Option<Json>, b: Option<Json>, now: string, writeOk: bool)
    requires RequireApiKey(expected, req).Some?
    ensures Post(expected, req, a, now, writeOk) == Post(expected, req, b, now, writeOk)
  {
  }

  /** All or nothing: a batch with one invalid record is refused, and nothing is saved. */
  lemma OneInvalidRefusesAll(expected: Option<string>, req: Request, body: Json, now: string, writeOk: bool, i: nat)
    requires RequireApiKey(expected, req).None? && body != JNull
    requires AsArray(Get(body, "hazards")).Some? && i < |AsArray(Get(body, "hazards")).value|
    requires !ValidateHazard(AsArray(Get(body, "hazards")).value[i])
    ensures Post(expected, req, Some(body), now, writeOk) == InvalidHazard
  {
  }

  /** What a successful request saves loads back as every submitted record, in order, so
      the reported count is the number of records the site then serves. */
  lemma SavedLoadsBack(expected: Option<string>, req: Request, body: Json, now: string, later: string, writeOk: bool)
    requires Post(expected, req, Some(body), now, writeOk).Saved?
    ensures var o := Post(expected, req, Some(body), now, writeOk);
      var items := AsArray(Get(body, "hazards")).value;
      && LoadSnapshot(Some(o.file), later).Some?
      && |LoadSnapshot(Some(o.file), later).value.hazards| == o.count
      && (forall i :: 0 <= i < |items| ==> ToHazard(items[i]) == Some(LoadSnapshot(Some(o.file), later).value.hazards[i]))
  {
    var o := Post(expected, req, Some(body), now, writeOk);
    var items := AsArray(Get(body, "hazards")).value;
    var hs := seq(|items|, i requires 0 <= i < |items| =>
      ValidateAgreesWithToHazard(items[i]);
      ToHazard(items[i]).value);
    forall i | 0 <= i < |items|
      ensures ToHazard(items[i]) == Some(hs[i])
    {
      ValidateAgreesWithToHazard(items[i]);
    }
    CollectAll(items, ToHazard, hs);
    CollectCount(items, ToHazard);
  }
}

=== FILE: standards_store.dfy ===
/** The stored snapshot of hazard records (`src/lib/standards-store.ts`): the validation of
    one record read from the JSON file, the loading of the snapshot with its fallbacks, and
    what saving writes. The file's contents (already parsed) and the current time are
    parameters; reading and writing the file are not part of this model. */
module StandardsStore {
  import opened Common
  import opened Json
  import opened Gbz

  /** `isStringArray`: an array whose every element is a string, as those strings. */
  function StringList(v: Option<Json>): (r: Option<seq<string>>)
    ensures r.Some? <==> v.Some? && v.value.JArr? && forall i :: 0 <= i < |v.value.items| ==> v.value.items[i].JStr?
    ensures r.Some? ==> StrArray(r.value) == v.value
  {
    if AsArray(v).Some? then
      var r := AllStrings(v.value.items);
      if r.Some? then assert StrArray(r.value).items == v.value.items; r else r
    else None
  }

  /** The seven keys of a hazard record. */
  const HazardKeys: set<string> := {"code", "name", "category", "checks", "cycle", "contraindications", "targetDiseases"}

  /** The JSON value a hazard record holds under `key`. */
  function HazardField(h: Hazard, key: string): Option<Json> {
    if key == "code" then Some(JStr(h.code))
    else if key == "name" then Some(JStr(h.name))
    else if key == "category" then Some(JStr(h.category.Name()))
    else if key == "checks" then Some(StrArray(h.checks))
    else if key == "cycle" then Some(JStr(h.cycle))
    else if key == "contraindications" then Some(StrArray(h.contraindications))
    else if key == "targetDiseases" then Some(StrArray(h.targetDiseases))
    else None
  }

  /** A hazard record as `JSON.stringify` writes it: exactly the seven keys. */
  function HazardJson(h: Hazard): (j: Json)
    ensures j.JObj? && j.fields.Keys == HazardKeys
    ensures forall k :: k in HazardKeys ==> Get(j, k) == HazardField(h, k)
  {
    JObj(map k | k in HazardKeys :: HazardField(h, k).value)
  }

  /** A list of records as written. */
  function HazardsJson(hs: seq<Hazard>): (js: seq<Json>)
    ensures |js| == |hs| && forall i :: 0 <= i < |hs| ==> js[i] == HazardJson(hs[i])
  {
    seq(|hs|, i requires 0 <= i < |hs| => HazardJson(hs[i]))
  }

  /** `toHazard`: the record when it is an object whose code, name, category and cycle are
      strings, whose checks, contraindications and target diseases are arrays of strings,
      and whose category is one of the five labels. */
  function ToHazard(record: Json): (r: Option<Hazard>)
    ensures r.Some? <==>
      && record.JObj?
      && AsString(Get(record, "code")).Some? && AsString(Get(record, "name")).Some?
      && AsString(Get(record, "category")).Some? && StringList(Get(record, "checks")).Some?
      && AsString(Get(record, "cycle")).Some? && StringList(Get(record, "contraindications")).Some?
      && StringList(Get(record, "targetDiseases")).Some?
      && AsString(Get(record, "category")).value in GbzCategories
    ensures r.Some? ==> forall k :: k in HazardKeys ==> Get(record, k) == HazardField(r.value, k)
  {
    if !record.JObj? then None
    else
      var code, name, category := AsString(Get(record, "code")), AsString(Get(record, "name")), AsString(Get(record, "category"));
      var checks, cycle := StringList(Get(record, "checks")), AsString(Get(record, "cycle"));
      var contra, targets := StringList(Get(record, "contraindications")), StringList(Get(record, "targetDiseases"));
      if code.None? || name.None? || category.None? || checks.None? || cycle.None? || contra.None? || targets.None? then None
      else if ParseCategory(category.value).None? then None
      else Some(Hazard(code.value, name.value, ParseCategory(category.value).value, checks.value, cycle.value,
                       contra.value, targets.value))
  }

  /** A written record reads back as itself. */
  lemma ToHazardRoundTrip(h: Hazard)
    ensures ToHazard(HazardJson(h)) == Some(h)
  {
    var j := HazardJson(h);
    assert "code" in HazardKeys && "name" in HazardKeys && "category" in HazardKeys && "cycle" in HazardKeys;
    assert "checks" in HazardKeys && "contraindications" in HazardKeys && "targetDiseases" in HazardKeys;
    AllStringsOfStrArray(h.checks);
    AllStringsOfStrArray(h.contraindications);
    AllStringsOfStrArray(h.targetDiseases);
    ParseName(h.category);
  }

  /** Keys other than the seven do not matter: two objects that agree on the seven keys
      give the same record, so extra input fields are dropped. */
  lemma ToHazardIgnoresExtraKeys(a: map<string, Json>, b: map<string, Json>)
    requires forall k :: k in HazardKeys ==> (k in a <==> k in b)
    requires forall k :: k in HazardKeys && k in a ==> a[k] == b[k]
    ensures ToHazard(JObj(a)) == ToHazard(JObj(b))
  {
    assert "code" in HazardKeys && "name" in HazardKeys && "category" in HazardKeys && "cycle" in HazardKeys;
    assert "checks" in HazardKeys && "contraindications" in HazardKeys && "targetDiseases" in HazardKeys;
    assert Get(JObj(a), "code") == Get(JObj(b), "code") && Get(JObj(a), "name") == Get(JObj(b), "name");
    assert Get(JObj(a), "category") == Get(JObj(b), "category") && Get(JObj(a), "cycle") == Get(JObj(b), "cycle");
    assert Get(JObj(a), "checks") == Get(JObj(b), "checks");
    assert Get(JObj(a), "contraindications") == Get(JObj(b), "contraindications");
    assert Get(JObj(a), "targetDiseases") == Get(JObj(b), "targetDiseases");
  }

  /** The snapshot the site serves instead of the built-in table. */
  datatype Snapshot = Snapshot(hazards: seq<Hazard>, source: string, updatedAt: string)

  /** `loadStandardsSnapshot`. `file` is the parsed file, `None` when it could not be read
      or parsed; `now` is the ISO time used when the file has no `updatedAt` string. */
  function LoadSnapshot(file: Option<Json>, now: string): (r: Option<Snapshot>)
    ensures r.Some? <==>
      file.Some? && AsArray(Get(file.value, "hazards")).Some?
      && Count(AsArray(Get(file.value, "hazards")).value, j => Accepted(ToHazard, j)) > 0
    ensures r.Some? ==>
      && r.value.hazards == Collect(AsArray(Get(file.value, "hazards")).value, ToHazard)
      && r.value.source == AsString(Get(file.value, "source")).GetOr("api")
      && r.value.updatedAt == AsString(Get(file.value, "updatedAt")).GetOr(now)
  {
    if file.None? then None
    else
      var items := AsArray(Get(file.value, "hazards"));
      if items.None? then None
      else
        var hazards := Collect(items.value, ToHazard);
        CollectCount(items.value, ToHazard);
        if |hazards| == 0 then None
        else Some(Snapshot(hazards, AsString(Get(file.value, "source")).GetOr("api"),
                           AsString(Get(file.value, "updatedAt")).GetOr(now)))
  }

  /** `loadStoredHazards`. */
  function LoadStoredHazards(file: Option<Json>, now: string): (r: Option<seq<Hazard>>)
    ensures r.Some? <==> LoadSnapshot(file, now).Some?
    ensures r.Some? ==> |r.value| > 0
  {
    var s := LoadSnapshot(file, now);
    if s.Some? then Some(s.value.hazards) else None
  }

  /** A loaded hazard is exactly one that some entry of the file's array validates to. */
  lemma LoadedHazardsMembers(file: Option<Json>, now: string, h: Hazard)
    requires LoadSnapshot(file, now).Some?
    ensures h in LoadSnapshot(file, now).value.hazards <==>
      SomeGives(AsArray(Get(file.value, "hazards")).value, ToHazard, h)
  {
    CollectMembers(AsArray(Get(file.value, "hazards")).value, ToHazard, h);
  }

  /** `saveStandardsSnapshot`: the object written to the file. The hazards are stored as
      given, with no validation and no removal of duplicates. */
  function SaveSnapshot(hazards: seq<Json>, source: Json, now: string): (file: Json)
    ensures AsArray(Get(file, "hazards")) == Some(hazards)
    ensures Get(file, "source") == Some(source) && Get(file, "updatedAt") == Some(JStr(now))
  {
    JObj(map["hazards" := JArr(hazards), "source" := source, "updatedAt" := JStr(now)])
  }

  /** Saving a non-empty list of records and loading the file gives the records back, in
      order, with the source and the time of the save. */
  lemma SaveThenLoad(hs: seq<Hazard>, source: string, saved: string, now: string)
    requires |hs| > 0
    ensures LoadSnapshot(Some(SaveSnapshot(HazardsJson(hs), JStr(source), saved)), now)
      == Some(Snapshot(hs, source, saved))
  {
    var items := HazardsJson(hs);
    forall i | 0 <= i < |hs|
      ensures ToHazard(items[i]) == Some(hs[i])
    {
      ToHazardRoundTrip(hs[i]);
    }
    CollectAll(items, ToHazard, hs);
  }

  /** A source that is not a string (a number, say, that the route saved as given) is
      loaded as `api`. */
  lemma NonStringSourceLoadsAsApi(hazards: seq<Json>, source: Json, saved: string, now: string)
    requires !source.JStr?
    requires LoadSnapshot(Some(SaveSnapshot(hazards, source, saved)), now).Some?
    ensures LoadSnapshot(Some(SaveSnapshot(hazards, source, saved)), now).value.source == "api"
  {
  }
}

=== FILE: text.dfy ===
/** Character classes and string operations with the meaning JavaScript gives them:
    `\s`, `\w`, `trim`, ASCII lower-casing, `includes`, `startsWith`, `split`/`join`,
    `replace` with a string pattern, and the run-collapsing `replace(/x+/g, "-")`
    idiom the slug builders use. */
module Text {
  import opened Common

  /** The characters that JavaScript's `\s` class and `String.prototype.trim` treat as
      white space: WhiteSpace and LineTerminator of ECMA-262 (sections 12.2 and 12.3). */
  predicate IsSpace(c: char) {
    c == ' ' || c == '\t' || c == '\n' || c == '\r' || c == '\U{000B}' || c == '\U{000C}'
    || c == '\U{00A0}' || c == '\U{1680}' || ('\U{2000}' <= c <= '\U{200A}')
    || c == '\U{2028}' || c == '\U{2029}' || c == '\U{202F}' || c == '\U{205F}'
    || c == '\U{3000}' || c == '\U{FEFF}'
  }

  predicate IsDigit(c: char) { '0' <= c <= '9' }
  predicate IsUpper(c: char) { 'A' <= c <= 'Z' }
  predicate IsLowerAlpha(c: char) { 'a' <= c <= 'z' }

  /** JavaScript's `\w`: `[A-Za-z0-9_]`. */
  predicate IsWordChar(c: char) { IsUpper(c) || IsLowerAlpha(c) || IsDigit(c) || c == '_' }

  /** The URL-slug alphabet `[a-z0-9-]`. */
  predicate IsSlugChar(c: char) { IsLowerAlpha(c) || IsDigit(c) || c == '-' }

  predicate IsDash(c: char) { c == '-' }

  /** Every character of `s` satisfies `p`. */
  predicate All(s: string, p: char -> bool) {
    forall i :: 0 <= i < |s| ==> p(s[i])
  }

  function LowerChar(c: char): (d: char)
    ensures !IsUpper(d)
    ensures IsUpper(c) ==> d as int == c as int + 32
    ensures !IsUpper(c) ==> d == c
  {
    if IsUpper(c) then (c as int + 32) as char else c
  }

  /** `toLowerCase`, on the ASCII letters. */
  function Lower(s: string): (r: string)
    ensures |r| == |s|
    ensures forall i :: 0 <= i < |s| ==> r[i] == LowerChar(s[i])
  {
    seq(|s|, i requires 0 <= i < |s| => LowerChar(s[i]))
  }

  lemma LowerNoUpper(s: string)
    requires forall i :: 0 <= i < |s| ==> !IsUpper(s[i])
    ensures Lower(s) == s
  {
  }

  /** `replace(/x/g, y)` for a single character `x` and a single character `y`. */
  function MapChar(s: string, x: char, y: char): (r: string)
    ensures |r| == |s|
    ensures forall i :: 0 <= i < |s| ==> r[i] == if s[i] == x then y else s[i]
  {
    seq(|s|, i requires 0 <= i < |s| => if s[i] == x then y else s[i])
  }

  /** `replace(/[class]/g, y)`: every character satisfying `p` becomes `y`. */
  function MapClass(s: string, p: char -> bool, y: char): (r: string)
    ensures |r| == |s|
    ensures forall i :: 0 <= i < |s| ==> r[i] == if p(s[i]) then y else s[i]
  {
    seq(|s|, i requires 0 <= i < |s| => if p(s[i]) then y else s[i])
  }

  /** What is left of `s` after its longest prefix of `p`-characters. */
  function DropWhile(s: string, p: char -> bool): (r: string)
    ensures |r| <= |s| && r == s[|s| - |r|..]
    ensures |r| > 0 ==> !p(r[0])
    ensures forall i :: 0 <= i < |s| - |r| ==> p(s[i])
  {
    if |s| == 0 || !p(s[0]) then s else DropWhile(s[1..], p)
  }

  /** No two adjacent characters of `s` are both `c`. */
  predicate NoDouble(s: string, c: char) {
    forall i :: 0 <= i < |s| - 1 ==> !(s[i] == c && s[i + 1] == c)
  }

  /** Replaces every maximal run of characters satisfying `p` by the single character
      `rc`: the regular-expression replacement `replace(/[class]+/g, rc)`. */
  function ReplaceRuns(s: string, p: char -> bool, rc: char): (r: string)
    ensures |r| <= |s|
    ensures forall i :: 0 <= i < |r| ==> r[i] == rc || (!p(r[i]) && r[i] in s)
    ensures |s| > 0 ==> |r| > 0 && r[0] == (if p(s[0]) then rc else s[0])
    ensures p(rc) ==> NoDouble(r, rc)
    decreases |s|
  {
    if |s| == 0 then []
    else if p(s[0]) then [rc] + ReplaceRuns(DropWhile(s, p), p, rc)
    else [s[0]] + ReplaceRuns(s[1..], p, rc)
  }

  /** A string with no `p`-characters is left alone by `ReplaceRuns`. */
  lemma {:induction false} ReplaceRunsNone(s: string, p: char -> bool, rc: char)
    requires forall i :: 0 <= i < |s| ==> !p(s[i])
    ensures ReplaceRuns(s, p, rc) == s
  {
    if |s| > 0 {
      ReplaceRunsNone(s[1..], p, rc);
    }
  }

  /** `replace(/-+/g, "-")`. */
  function CollapseDashes(s: string): (r: string)
    ensures NoDouble(r, '-')
    ensures forall i :: 0 <= i < |r| ==> r[i] == '-' || r[i] in s
  {
    ReplaceRuns(s, IsDash, '-')
  }

  /** Collapsing a string without doubled dashes changes nothing. */
  lemma {:induction false} CollapseDashesFixed(s: string)
    requires NoDouble(s, '-')
    ensures CollapseDashes(s) == s
  {
    if |s| > 0 {
      assert NoDouble(s[1..], '-');
      CollapseDashesFixed(s[1..]);
      if s[0] == '-' {
        assert DropWhile(s[1..], IsDash) == s[1..];
        assert DropWhile(s, IsDash) == s[1..];
      }
    }
  }

  /** `replace(/^-|-$/g, "")`: drops one leading and one trailing dash. */
  function StripEdgeDashes(s: string): (r: string)
    ensures |r| <= |s|
    ensures forall i :: 0 <= i < |r| ==> r[i] in s
    ensures NoDouble(s, '-') ==> NoDouble(r, '-')
    ensures NoDouble(s, '-') && |r| > 0 ==> r[0] != '-' && r[|r| - 1] != '-'
    ensures (|s| == 0 || (s[0] != '-' && s[|s| - 1] != '-')) ==> r == s
  {
    var a := if |s| > 0 && s[0] == '-' then s[1..] else s;
    if |a| > 0 && a[|a| - 1] == '-' then a[..|a| - 1] else a
  }

  /** `trimEnd`. */
  function TrimEnd(s: string): (r: string)
    ensures |r| <= |s| && r == s[..|r|]
    ensures |r| > 0 ==> !IsSpace(r[|r| - 1])
    ensures forall i :: |r| <= i < |s| ==> IsSpace(s[i])
  {
    if |s| == 0 || !IsSpace(s[|s| - 1]) then s else TrimEnd(s[..|s| - 1])
  }

  /** The number of white-space characters `trim` removes from the front of `s`. */
  function LeadingSpaces(s: string): (k: nat)
    ensures k <= |s|
  {
    |s| - |DropWhile(s, IsSpace)|
  }

  /** `trim`: the slice of `s` left after its leading and trailing white space. */
  function Trim(s: string): (r: string)
    ensures |r| <= |s|
    ensures |r| > 0 ==> !IsSpace(r[0]) && !IsSpace(r[|r| - 1])
    ensures StartsAt(s, LeadingSpaces(s), r)
    ensures IsBlank(s) <==> r == ""
  {
    var t := DropWhile(s, IsSpace);
    var r := TrimEnd(t);
    assert StartsAt(s, |s| - |t|, r);
    assert r == "" ==> |t| == 0;
    r
  }

  /** The UTF-16 code units that encode `c`: a surrogate pair beyond U+FFFF, one unit
      otherwise. */
  function CodeUnits(c: char): nat {
    if c as int > 0xFFFF then 2 else 1
  }

  /** JavaScript's `length`: the number of UTF-16 code units of `s`. */
  function JsLength(s: string): (n: nat)
    ensures |s| <= n <= 2 * |s|
  {
    if s == [] then 0 else CodeUnits(s[0]) + JsLength(s[1..])
  }

  /** The code units are as many as the characters exactly when all of them lie in the
      Basic Multilingual Plane. */
  lemma {:induction false} JsLengthBmp(s: string)
    ensures JsLength(s) == |s| <==> forall i :: 0 <= i < |s| ==> s[i] as int <= 0xFFFF
  {
    if s != [] {
      JsLengthBmp(s[1..]);
      assert forall i :: 1 <= i < |s| ==> s[i] == s[1..][i - 1];
    }
  }

  lemma {:induction false} JsLengthAppend(a: string, b: string)
    ensures JsLength(a + b) == JsLength(a) + JsLength(b)
  {
    if a == [] {
      assert a + b == b;
    } else {
      assert (a + b)[0] == a[0] && (a + b)[1..] == a[1..] + b;
      JsLengthAppend(a[1..], b);
    }
  }

  /** `slice(0, n)` as far as whole characters go: the longest prefix of `s` with at most
      `n` UTF-16 code units. Where JavaScript cuts a surrogate pair in two and keeps its
      high half, that lone half is left out. */
  function JsTake(s: string, n: nat): (r: string)
    ensures |r| <= |s| && r == s[..|r|] && JsLength(r) <= n
    ensures |r| < |s| ==> JsLength(s[..|r| + 1]) > n
  {
    if s == [] then []
    else if CodeUnits(s[0]) > n then
      PrefixLength(s, 0);
      []
    else
      var t := JsTake(s[1..], n - CodeUnits(s[0]));
      PrefixLength(s, |t|);
      if |t| < |s| - 1 then PrefixLength(s, |t| + 1); [s[0]] + t
      else [s[0]] + t
  }

  /** A prefix of `s` is its first character, then the matching prefix of the rest. */
  lemma PrefixLength(s: string, k: nat)
    requires k < |s|
    ensures s[..k + 1] == [s[0]] + s[1..][..k]
    ensures JsLength(s[..k + 1]) == CodeUnits(s[0]) + JsLength(s[1..][..k])
  {
    assert s[..k + 1] == [s[0]] + s[1..][..k];
    JsLengthAppend([s[0]], s[1..][..k]);
    assert [s[0]][1..] == [];
  }

  /** `slice(-n)` for `n > 0`, as far as whole characters go: the longest suffix of `s`
      with at most `n` UTF-16 code units. Where JavaScript cuts a surrogate pair in two and
      keeps its low half, that lone half is left out. */
  function JsTakeLast(s: string, n: nat): (r: string)
    ensures |r| <= |s| && r == s[|s| - |r|..] && JsLength(r) <= n
    ensures |r| < |s| ==> JsLength(s[|s| - |r| - 1..]) > n
  {
    if s == [] then []
    else if CodeUnits(s[|s| - 1]) > n then
      SuffixLength(s, 1);
      []
    else
      var t := JsTakeLast(s[..|s| - 1], n - CodeUnits(s[|s| - 1]));
      SuffixLength(s, |t| + 1);
      if |t| < |s| - 1 then SuffixLength(s, |t| + 2); t + [s[|s| - 1]]
      else t + [s[|s| - 1]]
  }

  /** A suffix of `s` is the matching suffix of all but its last character, then that
      character. */
  lemma SuffixLength(s: string, k: nat)
    requires 0 < k <= |s|
    ensures s[|s| - k..] == s[..|s| - 1][|s| - k..] + [s[|s| - 1]]
    ensures JsLength(s[|s| - k..]) == JsLength(s[..|s| - 1][|s| - k..]) + CodeUnits(s[|s| - 1])
  {
    assert s[|s| - k..] == s[..|s| - 1][|s| - k..] + [s[|s| - 1]];
    JsLengthAppend(s[..|s| - 1][|s| - k..], [s[|s| - 1]]);
    assert [s[|s| - 1]][1..] == [];
  }

  /** On text within the Basic Multilingual Plane, code units are characters and the two
      slices are the plain ones. */
  lemma {:induction false} JsTakeBmp(s: string, n: nat)
    requires forall i :: 0 <= i < |s| ==> s[i] as int <= 0xFFFF
    ensures JsTake(s, n) == Take(s, n)
  {
    if s != [] && CodeUnits(s[0]) <= n {
      JsTakeBmp(s[1..], n - 1);
    }
  }

  /** The UTF-16 code units of one character: the character itself up to U+FFFF, else a
      high and a low surrogate (section 3.9 of the Unicode Standard, definition D91). */
  function Units(c: char): (u: seq<int>)
    ensures |u| == CodeUnits(c)
    ensures forall k :: 0 <= k < |u| ==> 0 <= u[k] <= 0xFFFF
  {
    var v := c as int;
    if v <= 0xFFFF then [v] else [0xD800 + (v - 0x10000) / 0x400, 0xDC00 + (v - 0x10000) % 0x400]
  }

  /** The UTF-16 encoding of `s`: the code units JavaScript stores and compares. */
  function Utf16(s: string): (u: seq<int>)
    ensures |u| == JsLength(s)
    ensures forall k :: 0 <= k < |u| ==> 0 <= u[k] <= 0xFFFF
  {
    if s == [] then []
    else
      var a, b := Units(s[0]), Utf16(s[1..]);
      assert forall k :: |a| <= k < |a| + |b| ==> (a + b)[k] == b[k - |a|];
      a + b
  }

  predicate IsHighSurrogate(x: int) { 0xD800 <= x <= 0xDBFF }
  predicate IsLowSurrogate(x: int) { 0xDC00 <= x <= 0xDFFF }

  /** Reads code units back into characters; `None` at a lone surrogate. */
  function FromUtf16(u: seq<int>): Option<string>
    requires forall k :: 0 <= k < |u| ==> 0 <= u[k] <= 0xFFFF
  {
    if u == [] then Some([])
    else if IsHighSurrogate(u[0]) then
      if |u| >= 2 && IsLowSurrogate(u[1]) then
        match FromUtf16(u[2..])
        case None => None
        case Some(rest) => Some([(0x10000 + (u[0] - 0xD800) * 0x400 + (u[1] - 0xDC00)) as char] + rest)
      else None
    else if IsLowSurrogate(u[0]) then None
    else
      match FromUtf16(u[1..])
      case None => None
      case Some(rest) => Some([u[0] as char] + rest)
  }

  /** Decoding undoes encoding, so two strings with the same code units are equal. */
  lemma {:induction false} Utf16RoundTrip(s: string)
    ensures FromUtf16(Utf16(s)) == Some(s)
  {
    if s != [] {
      var u := Utf16(s);
      var v := s[0] as int;
      Utf16RoundTrip(s[1..]);
      if v <= 0xFFFF {
        assert u[0] == v && u[1..] == Utf16(s[1..]);
      } else {
        assert u[0] == 0xD800 + (v - 0x10000) / 0x400 && u[1] == 0xDC00 + (v - 0x10000) % 0x400;
        assert u[2..] == Utf16(s[1..]);
        assert 0x10000 + (u[0] - 0xD800) * 0x400 + (u[1] - 0xDC00) == v;
      }
      assert s == [s[0]] + s[1..];
    }
  }

  lemma Utf16Injective(a: string, b: string)
    requires Utf16(a) == Utf16(b)
    ensures a == b
  {
    Utf16RoundTrip(a);
    Utf16RoundTrip(b);
  }

  /** Trimming keeps any property every character has. */
  lemma TrimKeeps(s: string, ok: char -> bool)
    requires All(s, ok)
    ensures All(Trim(s), ok)
  {
    var k := LeadingSpaces(s);
    SliceKeeps(s, k, k + |Trim(s)|, ok);
  }

  lemma SliceKeeps(s: string, a: int, b: int, ok: char -> bool)
    requires All(s, ok) && 0 <= a <= b <= |s|
    ensures All(s[a..b], ok)
  {
    forall i | 0 <= i < b - a
      ensures ok(s[a..b][i])
    {
      assert s[a..b][i] == s[a + i];
    }
  }

  /** `s` matches `/^\s*$/`: empty after trimming. */
  predicate IsBlank(s: string) {
    forall i :: 0 <= i < |s| ==> IsSpace(s[i])
  }

  /** `sub` occurs in `s` at position `i`. */
  predicate StartsAt(s: string, i: int, sub: string) {
    0 <= i && i + |sub| <= |s| && s[i..i + |sub|] == sub
  }

  /** `String.prototype.includes`. */
  predicate Contains(s: string, sub: string) {
    exists i :: 0 <= i <= |s| && StartsAt(s, i, sub)
  }

  /** `String.prototype.startsWith`. */
  predicate StartsWith(s: string, prefix: string) {
    StartsAt(s, 0, prefix)
  }

  /** `String.prototype.endsWith`. */
  predicate EndsWith(s: string, suffix: string) {
    |suffix| <= |s| && s[|s| - |suffix|..] == suffix
  }

  /** Some string of `words` occurs in `s`: a regular-expression alternation `/a|b|c/`
      matched against `s`. */
  predicate ContainsAny(s: string, words: seq<string>) {
    exists k :: 0 <= k < |words| && Contains(s, words[k])
  }

  /** First position at or after `from` where `sub` occurs. */
  function IndexOfFrom(s: string, sub: string, from: nat): (r: Option<nat>)
    ensures r.Some? ==> from <= r.value && StartsAt(s, r.value, sub)
    ensures r.Some? ==> forall j :: from <= j < r.value ==> !StartsAt(s, j, sub)
    ensures r.None? ==> forall j :: from <= j ==> !StartsAt(s, j, sub)
    decreases |s| + 1 - from
  {
    if from > |s| then None
    else if StartsAt(s, from, sub) then Some(from)
    else IndexOfFrom(s, sub, from + 1)
  }

  /** `String.prototype.indexOf`, with `None` for -1. */
  function IndexOf(s: string, sub: string): (r: Option<nat>)
    ensures r.Some? <==> Contains(s, sub)
    ensures r.Some? ==> StartsAt(s, r.value, sub) && forall j :: 0 <= j < r.value ==> !StartsAt(s, j, sub)
  {
    IndexOfFrom(s, sub, 0)
  }

  /** `s.replace(pattern, replacement)` with a string pattern: only the FIRST occurrence
      is replaced, and nothing changes when there is none. */
  function ReplaceFirst(s: string, pattern: string, replacement: string): (r: string)
    ensures !Contains(s, pattern) ==> r == s
    ensures Contains(s, pattern) ==>
      (exists i :: 0 <= i <= |s| - |pattern| && StartsAt(s, i, pattern) && r == s[..i] + replacement + s[i + |pattern|..])
  {
    match IndexOf(s, pattern)
    case None => s
    case Some(i) => s[..i] + replacement + s[i + |pattern|..]
  }

  /** `replace(/x/g, rep)` for one character `x` and any replacement string. */
  function ReplaceChar(s: string, x: char, rep: string): (r: string)
    ensures x !in s ==> r == s
  {
    if |s| == 0 then [] else (if s[0] == x then rep else [s[0]]) + ReplaceChar(s[1..], x, rep)
  }

  lemma {:induction false} ReplaceCharAppend(a: string, b: string, x: char, rep: string)
    ensures ReplaceChar(a + b, x, rep) == ReplaceChar(a, x, rep) + ReplaceChar(b, x, rep)
  {
    if |a| == 0 {
      assert a + b == b;
    } else {
      assert (a + b)[1..] == a[1..] + b;
      ReplaceCharAppend(a[1..], b, x, rep);
    }
  }

  /** `String.prototype.split(sep)` for a one-character separator. */
  function Split(s: string, sep: char): (r: seq<string>)
    ensures |r| >= 1
    ensures forall i :: 0 <= i < |r| ==> sep !in r[i]
    ensures |s| > 0 && s[0] != sep ==> |r[0]| > 0 && r[0][0] == s[0]
  {
    if |s| == 0 then [""]
    else
      var rest := Split(s[1..], sep);
      if s[0] == sep then [""] + rest else [[s[0]] + rest[0]] + rest[1..]
  }

  /** `Array.prototype.join(sep)`. */
  function Join(parts: seq<string>, sep: string): string {
    if |parts| == 0 then ""
    else if |parts| == 1 then parts[0]
    else parts[0] + sep + Join(parts[1..], sep)
  }

  /** Joining a concatenation joins each part and puts one separator between them. */
  lemma {:induction false} JoinAppend(a: seq<string>, b: seq<string>, sep: string)
    requires |a| >= 1 && |b| >= 1
    ensures Join(a + b, sep) == Join(a, sep) + sep + Join(b, sep)
  {
    if |a| == 1 {
      assert (a + b)[1..] == b;
    } else {
      assert (a + b)[1..] == a[1..] + b;
      JoinAppend(a[1..], b, sep);
    }
  }

  /** Lower-casing keeps windows: a window of `y` lower-cases to a window of `Lower(y)`. */
  lemma LowerWindow(y: string, k: nat, x: string)
    requires StartsAt(y, k, x)
    ensures StartsAt(Lower(y), k, Lower(x))
  {
    forall i | 0 <= i < |x|
      ensures Lower(y)[k + i] == Lower(x)[i]
    {
      assert y[k + i] == x[i];
    }
  }

  /** What occurs in a window of `y` occurs in `y`. */
  lemma ContainsInWindow(y: string, k: nat, x: string, kw: string)
    requires StartsAt(y, k, x) && Contains(x, kw)
    ensures Contains(y, kw)
  {
    var i :| 0 <= i <= |x| && StartsAt(x, i, kw);
    forall j | 0 <= j < |kw|
      ensures y[k + i + j] == kw[j]
    {
      assert x[i + j] == x[i..i + |kw|][j];
      assert y[k + i + j] == y[k..k + |x|][i + j];
    }
    assert y[k + i..k + i + |kw|] == kw;
    assert StartsAt(y, k + i, kw);
  }

  /** Every part occurs in the joined string. */
  lemma {:induction false} JoinHasPart(parts: seq<string>, sep: string, i: nat)
    requires i < |parts|
    ensures exists k: nat :: StartsAt(Join(parts, sep), k, parts[i])
  {
    if |parts| == 1 {
      assert StartsAt(Join(parts, sep), 0, parts[0]);
    } else if i == 0 {
      assert Join(parts, sep) == parts[0] + (sep + Join(parts[1..], sep));
      assert StartsAt(Join(parts, sep), 0, parts[0]);
    } else {
      JoinHasPart(parts[1..], sep, i - 1);
      var k: nat :| StartsAt(Join(parts[1..], sep), k, parts[1..][i - 1]);
      var pre := parts[0] + sep;
      assert Join(parts, sep) == pre + Join(parts[1..], sep);
      assert Join(parts, sep)[|pre| + k..|pre| + k + |parts[i]|] == Join(parts[1..], sep)[k..k + |parts[i]|];
      assert StartsAt(Join(parts, sep), |pre| + k, parts[i]);
    }
  }

  /** Splitting and joining with the same separator gives back the original string. */
  lemma {:induction false} JoinSplit(s: string, sep: char)
    ensures Join(Split(s, sep), [sep]) == s
  {
    if |s| > 0 {
      var rest := Split(s[1..], sep);
      JoinSplit(s[1..], sep);
      if s[0] == sep {
        assert Split(s, sep) == [""] + rest;
      } else {
        var r := Split(s, sep);
        assert r == [[s[0]] + rest[0]] + rest[1..];
        if |rest| == 1 {
          assert Join(r, [sep]) == [s[0]] + rest[0];
        } else {
          assert r[1..] == rest[1..];
          assert Join(r, [sep]) == [s[0]] + rest[0] + [sep] + Join(rest[1..], [sep]);
        }
      }
    }
  }

  /** Joining pieces that do not contain the separator, and splitting again, recovers them. */
  lemma {:induction false} SplitJoin(parts: seq<string>, sep: char)
    requires |parts| >= 1
    requires forall i :: 0 <= i < |parts| ==> sep !in parts[i]
    ensures Split(Join(parts, [sep]), sep) == parts
  {
    if |parts| == 1 {
      SplitNoSep(parts[0], sep);
    } else {
      SplitJoin(parts[1..], sep);
      SplitAppendSep(parts[0], Join(parts[1..], [sep]), sep);
      assert Join(parts, [sep]) == parts[0] + [sep] + Join(parts[1..], [sep]);
      assert parts == [parts[0]] + parts[1..];
    }
  }

  lemma {:induction false} SplitNoSep(s: string, sep: char)
    requires sep !in s
    ensures Split(s, sep) == [s]
  {
    if |s| > 0 {
      assert sep !in s[1..] by {
        assert forall i :: 0 <= i < |s[1..]| ==> s[1..][i] == s[i + 1];
      }
      SplitNoSep(s[1..], sep);
      assert s[0] != sep;
      assert s == [s[0]] + s[1..];
    }
  }

  lemma {:induction false} SplitAppendSep(a: string, b: string, sep: char)
    requires sep !in a
    ensures Split(a + [sep] + b, sep) == [a] + Split(b, sep)
  {
    if |a| == 0 {
      assert a + [sep] + b == [sep] + b;
      assert ([sep] + b)[1..] == b;
    } else {
      assert (a + [sep] + b)[1..] == a[1..] + [sep] + b;
      SplitAppendSep(a[1..], b, sep);
      assert a == [a[0]] + a[1..];
    }
  }

  function DigitChar(d: nat): (c: char)
    requires d < 10
    ensures IsDigit(c)
  {
    ('0' as int + d) as char
  }

  function DigitValue(c: char): nat
    requires IsDigit(c)
  {
    c as int - '0' as int
  }

  /** The decimal digits of `n` (`String(n)` for a non-negative integer). */
  function NatToString(n: nat): (r: string)
    ensures |r| >= 1
    ensures forall i :: 0 <= i < |r| ==> IsDigit(r[i])
    decreases n
  {
    if n < 10 then [DigitChar(n)] else NatToString(n / 10) + [DigitChar(n % 10)]
  }

  /** The number a string of decimal digits denotes (`parseInt` on digits only). */
  function DigitsValue(s: string): nat
    requires forall i :: 0 <= i < |s| ==> IsDigit(s[i])
  {
    if |s| == 0 then 0 else DigitsValue(s[..|s| - 1]) * 10 + DigitValue(s[|s| - 1])
  }

  /** Reading back the printed digits of `n` gives `n`. */
  lemma {:induction false} DigitsValueNatToString(n: nat)
    ensures DigitsValue(NatToString(n)) == n
    decreases n
  {
    var r := NatToString(n);
    if n >= 10 {
      DigitsValueNatToString(n / 10);
      assert r[..|r| - 1] == NatToString(n / 10);
    }
  }
}

=== FILE: upload_pdf.dfy ===
/** `POST /api/admin/upload-pdf` (`src/app/api/admin/upload-pdf/route.ts`): an administrator
    uploads the PDF of a law page, and the route then attaches it to the page's frontmatter
    by rewriting its text. The session, the form fields, the token, what the upload
    returned and the page's current text are parameters. */
module UploadPdf {
  import opened Common
  import opened Text
  import opened AdminSession
  import opened AttachText

  /** A multipart form field: absent, a text value, or a file with its name. */
  datatype FormValue = Missing | TextValue(s: string) | FileValue(name: string)

  /** JavaScript truthiness of `formData.get(...)`: a file, or a non-empty text. */
  predicate Present(v: FormValue) {
    v.FileValue? || (v.TextValue? && v.s != "")
  }

  /** The field used in a template string: its text, or what a file object prints as. */
  function AsText(v: FormValue): string {
    match v
    case TextValue(s) => s
    case FileValue(_) => "[object File]"
    case Missing => "null"
  }

  /** The empty attachments list the generated pages carry. */
  const EmptyList: string := "attachments: []"

  /** The key the second rewrite looks for at the start of a line. */
  const Key: string := "attachments:"

  /** The frontmatter rewrite: the first `attachments: []` becomes the one-entry block;
      failing that, when the text does not yet mention the PDF's address, the first
      line-initial `attachments:` (the one group of `/^(attachments:)/m`) becomes the block;
      otherwise the text is kept. The block is a `replace` replacement, so its `$`
      patterns are expanded. */
  function UpdateAttachments(content: string, slug: string, pdfUrl: string): (r: string)
    ensures Contains(content, EmptyList) ==> r == ReplaceString(content, EmptyList, PdfBlock(slug + ".pdf", pdfUrl))
    ensures !Contains(content, EmptyList) && !Contains(content, pdfUrl) && FirstKey(content, Key).Some? ==>
      var i := FirstKey(content, Key).value;
      i + |Key| <= |content| && r == ReplaceAt(content, i, |Key|, PdfBlock(slug + ".pdf", pdfUrl), [Key])
    ensures !Contains(content, EmptyList) && (Contains(content, pdfUrl) || FirstKey(content, Key).None?) ==> r == content
  {
    var block := PdfBlock(slug + ".pdf", pdfUrl);
    if Contains(content, EmptyList) then ReplaceString(content, EmptyList, block)
    else if !Contains(content, pdfUrl) then
      match FirstKey(content, Key)
      case None => content
      case Some(i) => ReplaceAt(content, i, |Key|, block, [Key])
    else content
  }

  /** With no `$` in the slug or the address the block is inserted as written: in place
      of the empty list, or as a new first entry right after the key. */
  lemma PlainRewrite(content: string, slug: string, pdfUrl: string)
    requires '$' !in slug && '$' !in pdfUrl
    ensures Contains(content, EmptyList) ==>
      && IndexOf(content, EmptyList).Some?
      && UpdateAttachments(content, slug, pdfUrl)
         == Splice(content, IndexOf(content, EmptyList).value, |EmptyList|, PdfBlock(slug + ".pdf", pdfUrl))
    ensures !Contains(content, EmptyList) && !Contains(content, pdfUrl) && FirstKey(content, Key).Some? ==>
      var i := FirstKey(content, Key).value;
      UpdateAttachments(content, slug, pdfUrl) == content[..i + |Key|] + PdfItem(slug + ".pdf", pdfUrl) + content[i + |Key|..]
  {
    assert '$' !in slug + ".pdf";
    BlockPlain(slug + ".pdf", pdfUrl);
    if Contains(content, EmptyList) {
      ReplaceFirstIsSplice(content, EmptyList, PdfBlock(slug + ".pdf", pdfUrl));
    } else if !Contains(content, pdfUrl) && FirstKey(content, Key).Some? {
      SpliceKeepsKey(content, FirstKey(content, Key).value, slug + ".pdf", pdfUrl);
    }
  }

  /** A slug holding `$&` gets the matched `attachments: []` spliced into the written file
      name: the slug `a$&b` names the entry `aattachments: []b.pdf`. */
  lemma DollarSlugRewrite(content: string, a: string, b: string, pdfUrl: string)
    requires Contains(content, EmptyList)
    requires '$' !in a && '$' !in b && '$' !in pdfUrl
    ensures IndexOf(content, EmptyList).Some?
    ensures UpdateAttachments(content, a + "$&" + b, pdfUrl)
            == Splice(content, IndexOf(content, EmptyList).value, |EmptyList|, PdfBlock(a + EmptyList + b + ".pdf", pdfUrl))
  {
    var i := IndexOf(content, EmptyList).value;
    assert content[i..i + |EmptyList|] == EmptyList;
    assert (a + "$&" + b) + ".pdf" == a + "$&" + (b + ".pdf");
    assert '$' !in b + ".pdf";
    DollarNameExpands(a, b + ".pdf", pdfUrl, EmptyList, content[..i], content[i + |EmptyList|..]);
    assert a + EmptyList + (b + ".pdf") == a + EmptyList + b + ".pdf";
  }

  /** The page is written back exactly when one of the two rewrites applies, whatever the
      slug holds; a page written back then references the PDF when neither the slug nor
      the address holds a `$`. */
  lemma RewriteAppliesIff(content: string, slug: string, pdfUrl: string)
    ensures var r := UpdateAttachments(content, slug, pdfUrl);
      && (r != content <==> Contains(content, EmptyList) || (!Contains(content, pdfUrl) && FirstKey(content, Key).Some?))
      && ('$' !in slug && '$' !in pdfUrl && r != content ==> Contains(r, pdfUrl))
  {
    var name := slug + ".pdf";
    var block := PdfBlock(name, pdfUrl);
    var r := UpdateAttachments(content, slug, pdfUrl);
    if Contains(content, EmptyList) {
      var i := IndexOf(content, EmptyList).value;
      ExpandBlockHead(name, pdfUrl, content[i..i + |EmptyList|], content[..i], content[i + |EmptyList|..], []);
      assert |r| != |content|;
      if '$' !in slug && '$' !in pdfUrl {
        PlainRewrite(content, slug, pdfUrl);
        SplicedBlockHasUrl(content, i, |EmptyList|, name, pdfUrl);
      }
    } else if !Contains(content, pdfUrl) && FirstKey(content, Key).Some? {
      var i := FirstKey(content, Key).value;
      ExpandBlockHead(name, pdfUrl, content[i..i + |Key|], content[..i], content[i + |Key|..], [Key]);
      assert |r| != |content|;
      if '$' !in slug && '$' !in pdfUrl {
        assert '$' !in name;
        BlockPlain(name, pdfUrl);
        SplicedBlockHasUrl(content, i, |Key|, name, pdfUrl);
      }
    }
  }

  /** A second upload of the same file leaves a page alone once it references the PDF and
      has no empty list left. */
  lemma SecondRewriteKeeps(content: string, slug: string, pdfUrl: string)
    requires !Contains(content, EmptyList) && Contains(content, pdfUrl)
    ensures UpdateAttachments(content, slug, pdfUrl) == content
  {
  }

  /** How a request ends; `Uploaded` carries the text written back to the page, if any. */
  datatype Outcome =
    | Forbidden
    | MissingField
    | NotPdf
    | NoToken
    | Crash
    | UploadFailed(errText: string)
    | Uploaded(url: string, fileName: string, filePath: string, rewritten: Option<string>)
  {
    function Status(): nat {
      match this
      case Forbidden => 403
      case MissingField => 400
      case NotPdf => 400
      case NoToken => 500
      case Crash => 500
      case UploadFailed(_) => 500
      case Uploaded(_, _, _, _) => 200
    }
  }

  /** The handler. `putOk`/`errText` are what the upload answered; `page` is the law page's
      current text when it could be read, `None` when the read failed or was refused. */
  function Post(session: Session, file: FormValue, slug: FormValue, token: Option<string>,
                putOk: bool, errText: string, page: Option<string>): (o: Outcome)
    ensures o.Forbidden? <==> !IsAdmin(session)
    ensures o.MissingField? <==> IsAdmin(session) && (!Present(file) || !Present(slug))
    ensures o.NotPdf? <==> IsAdmin(session) && Present(file) && Present(slug) && file.FileValue? && !EndsWith(file.name, ".pdf")
    ensures o.Crash? <==> IsAdmin(session) && file.TextValue? && file.s != "" && Present(slug)
    ensures o.NoToken? <==> IsAdmin(session) && Present(slug) && file.FileValue? && EndsWith(file.name, ".pdf")
                            && (token.None? || token.value == "")
    ensures o.UploadFailed? ==> !putOk
    ensures o.Uploaded? <==> IsAdmin(session) && Present(slug) && file.FileValue? && EndsWith(file.name, ".pdf")
                             && token.Some? && token.value != "" && putOk
    ensures o.Uploaded? ==>
      && o.fileName == AsText(slug) + ".pdf"
      && o.filePath == "public/uploads/" + o.fileName
      && o.url == "/uploads/" + o.fileName
      && (o.rewritten.Some? <==> page.Some? && UpdateAttachments(page.value, AsText(slug), o.url) != page.value)
      && (o.rewritten.Some? ==> o.rewritten.value == UpdateAttachments(page.value, AsText(slug), o.url))
  {
    if !IsAdmin(session) then Forbidden
    else if !Present(file) || !Present(slug) then MissingField
    else if !file.FileValue? then Crash
    else if !EndsWith(file.name, ".pdf") then NotPdf
    else if token.None? || token.value == "" then NoToken
    else
      var fileName := AsText(slug) + ".pdf";
      if !putOk then UploadFailed(errText)
      else
        var url := "/uploads/" + fileName;
        var rewritten :=
          match page
          case None => None
          case Some(text) =>
            var updated := UpdateAttachments(text, AsText(slug), url);
            if updated != text then Some(updated) else None;
        Uploaded(url, fileName, "public/uploads/" + fileName, rewritten)
  }

  /** What happens to the page never changes the answer: the status and the address are
      the same whether the page was read, rewritten or not. */
  lemma PageDoesNotChangeAnswer(session: Session, file: FormValue, slug: FormValue, token: Option<string>,
                                putOk: bool, errText: string, page1: Option<string>, page2: Option<string>)
    ensures var o1 := Post(session, file, slug, token, putOk, errText, page1);
            var o2 := Post(session, file, slug, token, putOk, errText, page2);
      && o1.Status() == o2.Status()
      && (o1.Uploaded? ==> o2.Uploaded? && o1.url == o2.url && o1.fileName == o2.fileName)
  {
  }
}

=== FILE: utils.dfy ===
/** The text helpers of the site (`src/lib/utils.ts`): `excerpt`, which shortens a text
    for a card, and the fallback of `formatDate`. Date parsing and the locale formatter are
    parameters. */
module Utils {
  import opened Common
  import opened Text
  import opened Slug

  /** Every white-space character of `s` is a plain space. */
  predicate SingleSpaced(s: string) {
    forall i :: 0 <= i < |s| ==> s[i] == ' ' || !IsSpace(s[i])
  }

  /** The shape of a normalised text: white space only as single plain spaces, none at
      either end. */
  predicate IsNormal(s: string) {
    && SingleSpaced(s)
    && NoDouble(s, ' ')
    && (|s| > 0 ==> !IsSpace(s[0]) && !IsSpace(s[|s| - 1]))
  }

  /** A window of a single-spaced text without doubled spaces is again one. */
  lemma WindowSpaced(s: string, a: nat, b: nat)
    requires SingleSpaced(s) && NoDouble(s, ' ') && a <= b <= |s|
    ensures SingleSpaced(s[a..b]) && NoDouble(s[a..b], ' ')
  {
    forall i | 0 <= i < b - a
      ensures s[a..b][i] == s[a + i]
    {
    }
  }

  /** `text.replace(/\s+/g, " ").trim()`. */
  function Normalize(text: string): (r: string)
    ensures IsNormal(r)
    ensures |r| <= |text|
  {
    var c := ReplaceRuns(text, IsSpace, ' ');
    CollapsedSpaced(text);
    TrimNormal(c);
    Trim(c)
  }

  /** Collapsing white-space runs leaves only single plain spaces. */
  lemma CollapsedSpaced(text: string)
    ensures SingleSpaced(ReplaceRuns(text, IsSpace, ' ')) && NoDouble(ReplaceRuns(text, IsSpace, ' '), ' ')
  {
  }

  /** Trimming a single-spaced text without doubled spaces gives a normal text. */
  lemma TrimNormal(c: string)
    requires SingleSpaced(c) && NoDouble(c, ' ')
    ensures IsNormal(Trim(c))
  {
    WindowSpaced(c, LeadingSpaces(c), LeadingSpaces(c) + |Trim(c)|);
  }

  /** Collapsing white-space runs leaves a single-spaced text without doubled spaces
      alone. */
  lemma {:induction false} CollapseFixed(s: string)
    requires SingleSpaced(s) && NoDouble(s, ' ')
    ensures ReplaceRuns(s, IsSpace, ' ') == s
  {
    if |s| > 0 {
      assert SingleSpaced(s[1..]) && NoDouble(s[1..], ' ');
      CollapseFixed(s[1..]);
      if s[0] == ' ' {
        assert DropWhile(s[1..], IsSpace) == s[1..];
      }
    }
  }

  /** A normal text is its own normalisation. */
  lemma NormalizeFixed(s: string)
    requires IsNormal(s)
    ensures Normalize(s) == s
  {
    CollapseFixed(s);
    TrimNoEdgeSpace(s);
  }

  /** Normalising twice is normalising once. */
  lemma NormalizeIdempotent(text: string)
    ensures Normalize(Normalize(text)) == Normalize(text)
  {
    NormalizeFixed(Normalize(text));
  }

  /** A prefix of a normal text followed by `...` is normal. */
  lemma PrefixDotsNormal(n: string, k: nat)
    requires IsNormal(n) && k <= |n|
    ensures IsNormal(n[..k] + "...")
  {
    var r := n[..k] + "...";
    WindowSpaced(n, 0, k);
    forall i | 0 <= i < |r| - 1
      ensures !(r[i] == ' ' && r[i + 1] == ' ')
    {
      if i + 1 < k {
        assert r[i] == n[i] && r[i + 1] == n[i + 1];
      }
    }
  }

  /** `excerpt(text, maxLength)`: the normalised text when it fits, otherwise its first
      `maxLength` characters (JavaScript `slice`, so a negative length counts from the end)
      followed by `...`. */
  function Excerpt(text: string, maxLength: int): (r: string)
    ensures |Normalize(text)| <= maxLength ==> r == Normalize(text)
    ensures 0 <= maxLength < |Normalize(text)| ==>
      r == Normalize(text)[..maxLength] + "..." && |r| == maxLength + 3
    ensures maxLength >= 0 ==> |r| <= maxLength + 3
    ensures IsNormal(r)
  {
    var n := Normalize(text);
    if |n| <= maxLength then n
    else
      var head := Slice(n, 0, maxLength);
      PrefixDotsNormal(n, |head|);
      head + "..."
  }

  /** The default length of an excerpt. */
  const DefaultExcerptLength: nat := 120

  /** `excerpt(text)` with the default length: at most 123 characters. */
  function ExcerptDefault(text: string): (r: string)
    ensures |r| <= 123
    ensures |Normalize(text)| <= 120 ==> r == Normalize(text)
  {
    Excerpt(text, DefaultExcerptLength)
  }

  /** An excerpt is stable: excerpting it again with room for the dots changes nothing. */
  lemma ExcerptIdempotent(text: string, maxLength: nat)
    ensures Excerpt(Excerpt(text, maxLength), maxLength + 3) == Excerpt(text, maxLength)
  {
    NormalizeFixed(Excerpt(text, maxLength));
  }

  /** A text that is already normal and short enough comes back unchanged. */
  lemma ShortNormalUnchanged(text: string, maxLength: int)
    requires IsNormal(text) && |text| <= maxLength
    ensures Excerpt(text, maxLength) == text
  {
    NormalizeFixed(text);
  }

  /** `formatDate(dateString)`: `parse` stands for `new Date(...)` (`None` for an invalid
      date) and `format` for the `zh-CN` year-month-day formatter. An invalid date is shown
      as it was written. */
  function FormatDate(dateString: string, parse: string -> Option<int>, format: int -> string): (r: string)
    ensures parse(dateString).None? ==> r == dateString
    ensures parse(dateString).Some? ==> r == format(parse(dateString).value)
  {
    var t := parse(dateString);
    if t.None? then dateString else format(t.value)
  }
}

=== FILE: webhook.dfy ===
/** The chat-bot webhook (`src/app/api/webhook/openclaw/route.ts`): a message either holds
    a JSON record or a free-text command, and either way becomes a page of the laws or the
    articles section. Its free-text parser differs from the one of the push script in the
    trigger words, the category rules, the hashtag characters and the body filter. */
module Webhook {
  import opened Common
  import opened Text
  import opened Json
  import opened Content
  import ApiAuth
  import ContentWrite
  import OpenclawParse
  import SmartPush

  /** The words of the first line that file a message under laws. */
  const LawTriggers: seq<string> := ["法规", "法律", "条例", "规定", "标准", "规范", "gbz", "办法", "通知"]

  /** The first line picks the section: laws exactly when its lower-cased text holds a
      trigger. */
  function DetectSection(firstLine: string): (k: Kind)
    ensures k == Laws <==> ContainsAny(Lower(firstLine), LawTriggers)
  {
    if ContainsAny(Lower(firstLine), LawTriggers) then Laws else Articles
  }

  /** None of the words of the three law categories occurs. */
  predicate NoCategoryWord(lowerFirst: string) {
    && !Contains(lowerFirst, "规定") && !Contains(lowerFirst, "办法")
    && !Contains(lowerFirst, "标准") && !Contains(lowerFirst, "gbz")
    && !Contains(lowerFirst, "法律") && !Contains(lowerFirst, "法规")
  }

  /** The category, found by four rules applied in turn over a default, each later match
      overwriting the earlier ones. */
  function Category(lowerFirst: string, k: Kind): (c: string)
    ensures (Contains(lowerFirst, "规定") || Contains(lowerFirst, "办法")) ==> c == "部门规章"
    ensures (&& !Contains(lowerFirst, "规定") && !Contains(lowerFirst, "办法")
             && (Contains(lowerFirst, "标准") || Contains(lowerFirst, "gbz"))) ==> c == "标准规范"
    ensures (&& !Contains(lowerFirst, "规定") && !Contains(lowerFirst, "办法")
             && !Contains(lowerFirst, "标准") && !Contains(lowerFirst, "gbz")
             && (Contains(lowerFirst, "法律") || Contains(lowerFirst, "法规"))) ==> c == "国家法律"
    ensures NoCategoryWord(lowerFirst) ==>
      c == (if Contains(lowerFirst, "案例") then "案例分析" else if k == Laws then "标准规范" else "实务指南")
  {
    var c0 := if k == Laws then "标准规范" else "实务指南";
    var c1 := if Contains(lowerFirst, "案例") then "案例分析" else c0;
    var c2 := if Contains(lowerFirst, "法律") || Contains(lowerFirst, "法规") then "国家法律" else c1;
    var c3 := if Contains(lowerFirst, "标准") || Contains(lowerFirst, "gbz") then "标准规范" else c2;
    if Contains(lowerFirst, "规定") || Contains(lowerFirst, "办法") then "部门规章" else c3
  }

  /** The category does not follow the section: a first line with `通知` (a law trigger)
      and `案例` and none of the other words is a law filed under the article category
      `案例分析`. */
  lemma CaseStudyLaw(firstLine: string)
    requires Contains(Lower(firstLine), "通知") && Contains(Lower(firstLine), "案例")
    requires NoCategoryWord(Lower(firstLine))
    ensures DetectSection(firstLine) == Laws
    ensures Category(Lower(firstLine), DetectSection(firstLine)) == "案例分析"
  {
    assert LawTriggers[8] == "通知";
  }

  // ---------------------------------------------------------------------------------
  // Hashtags
  // ---------------------------------------------------------------------------------

  /** The characters of a hashtag: CJK unified ideographs, ASCII letters and digits (the
      underscore is not one, unlike in the push script). */
  predicate IsHashChar(c: char) {
    ('\U{4E00}' <= c <= '\U{9FFF}') || IsUpper(c) || IsLowerAlpha(c) || IsDigit(c)
  }

  /** Where the run of hashtag characters starting at `i` ends. */
  function RunEnd(s: string, i: nat): (e: nat)
    requires i <= |s|
    ensures i <= e <= |s|
    ensures forall k :: i <= k < e ==> IsHashChar(s[k])
    ensures e < |s| ==> !IsHashChar(s[e])
    decreases |s| - i
  {
    if i < |s| && IsHashChar(s[i]) then RunEnd(s, i + 1) else i
  }

  /** A `#` followed by a hashtag character starts a tag at `i`. */
  predicate TagStart(s: string, i: nat) {
    i + 1 < |s| && s[i] == '#' && IsHashChar(s[i + 1])
  }

  /** The tags of a global match of `#` and a run of hashtag characters from `i` on,
      without the `#`. */
  function HashTags(s: string, i: nat): (r: seq<string>)
    requires i <= |s|
    ensures forall k :: 0 <= k < |r| ==> r[k] != "" && All(r[k], IsHashChar) && Contains(s, "#" + r[k])
    decreases |s| - i
  {
    if i >= |s| then []
    else if TagStart(s, i) then
      var e := RunEnd(s, i + 1);
      assert s[i..e] == "#" + s[i + 1..e];
      assert StartsAt(s, i, "#" + s[i + 1..e]);
      [s[i + 1..e]] + HashTags(s, e)
    else HashTags(s, i + 1)
  }

  /** Every tag start at or after `j` yields its tag: no match can swallow a `#`, so the
      scan never jumps over one. */
  lemma {:induction false} HashTagsComplete(s: string, j: nat, i: nat)
    requires j <= i && TagStart(s, i)
    ensures s[i + 1..RunEnd(s, i + 1)] in HashTags(s, j)
    decreases i - j
  {
    if j < i {
      if TagStart(s, j) {
        var e := RunEnd(s, j + 1);
        assert !IsHashChar(s[i]);
        assert e <= i;
        HashTagsComplete(s, e, i);
      } else {
        HashTagsComplete(s, j + 1, i);
      }
    }
  }

  // ---------------------------------------------------------------------------------
  // Free-text messages
  // ---------------------------------------------------------------------------------

  /** A body line: one not starting with `#`, or a `## ` heading. */
  predicate BodyLine(l: string) {
    !StartsWith(l, "#") || StartsWith(l, "## ")
  }

  /** The body lines: the third non-empty line on, hashtag lines dropped. */
  function BodyLines(lines: seq<string>): (kept: seq<string>)
    requires |lines| >= 2
    ensures IsSubsequence(kept, lines[2..])
    ensures forall l :: l in kept <==> l in lines[2..] && BodyLine(l)
  {
    FilterSubsequence(lines[2..], BodyLine);
    Filter(lines[2..], BodyLine)
  }

  /** What `parseNaturalLanguage` returns. */
  datatype Parsed = Parsed(kind: Kind, title: string, summary: string, category: string,
                           tags: seq<string>, content: string)

  /** `parseNaturalLanguage`: nothing for fewer than two non-empty lines. The section and
      category come from the trimmed first line, the title is that line without its
      command, the summary the trimmed second line, the tags the hashtags of the whole
      message, and the body the kept lines separated by empty lines, or a heading with
      the summary when none is kept. */
  function ParseNaturalLanguage(text: string): (r: Option<Parsed>)
    ensures r.None? <==> |OpenclawParse.InputLines(text)| < 2
    ensures r.Some? ==> var lines := OpenclawParse.InputLines(text);
      var first := Trim(lines[0]);
      && r.value.kind == DetectSection(first)
      && r.value.category == Category(Lower(first), r.value.kind)
      && r.value.title != "" && r.value.title == OpenclawParse.TitleOf(first)
      && r.value.summary == Trim(lines[1])
      && r.value.tags == HashTags(text, 0)
      && (|BodyLines(lines)| > 0 ==> r.value.content == Join(BodyLines(lines), "\n\n"))
      && (|BodyLines(lines)| == 0 ==> r.value.content == "## " + r.value.title + "\n\n" + r.value.summary)
  {
    var lines := OpenclawParse.InputLines(text);
    if |lines| < 2 then None
    else
      var first := Trim(lines[0]);
      TrimNonEmpty(lines[0]);
      var kind := DetectSection(first);
      var title := OpenclawParse.TitleOf(first);
      var summary := Trim(lines[1]);
      var kept := BodyLines(lines);
      var content := if |kept| > 0 then Join(kept, "\n\n") else "## " + title + "\n\n" + summary;
      Some(Parsed(kind, title, summary, Category(Lower(first), kind), HashTags(text, 0), content))
  }

  /** The first non-empty line starts with a non-space character, so trimming leaves it
      non-empty. */
  lemma TrimNonEmpty(l: string)
    requires l != "" && !IsSpace(l[0])
    ensures Trim(l) != ""
  {
    TrimKeepsFirst(l);
  }

  /** Trimming a string that starts with a non-space character keeps that character. */
  lemma TrimKeepsFirst(l: string)
    requires l != "" && !IsSpace(l[0])
    ensures |Trim(l)| > 0 && Trim(l)[0] == l[0]
  {
    assert LeadingSpaces(l) == 0;
  }

  /** A one-line message is a command to the push script but not to the webhook. */
  lemma OneLineOnlyParsedByScript(text: string)
    requires |OpenclawParse.InputLines(text)| == 1
    ensures ParseNaturalLanguage(text).None?
    ensures OpenclawParse.ParseNaturalLanguage(text).Some?
  {
  }

  // ---------------------------------------------------------------------------------
  // Access
  // ---------------------------------------------------------------------------------

  /** `checkApiKey`: with no key configured every request passes; otherwise the key the
      request presents first must be the configured one. */
  function CheckApiKey(expected: Option<string>, req: ApiAuth.Request): (ok: bool)
    ensures expected.GetOr("") == "" ==> ok
    ensures expected.GetOr("") != "" ==> (ok <==> ApiAuth.IncomingKey(req) == expected)
  {
    expected.GetOr("") == "" || ApiAuth.IncomingKey(req) == expected
  }

  /** With a key configured the webhook admits exactly the requests the shared API gate
      admits; without one, the webhook admits every request and the gate none. */
  lemma CheckMatchesGate(expected: Option<string>, req: ApiAuth.Request)
    ensures expected.GetOr("") != "" ==> (CheckApiKey(expected, req) <==> ApiAuth.RequireApiKey(expected, req).None?)
    ensures expected.GetOr("") == "" ==> CheckApiKey(expected, req) && ApiAuth.RequireApiKey(expected, req).Some?
  {
  }

  // ---------------------------------------------------------------------------------
  // JSON messages
  // ---------------------------------------------------------------------------------

  /** The words of a JSON record's title, category and tags that file it under laws. */
  const DataLawKeywords: seq<string> := ["法", "条例", "规定", "办法", "标准", "规范", "gbz", "通知"]

  /** `detectModuleFromData`. */
  function DetectSectionFromData(data: Json): (k: Kind)
    ensures k == Laws <==> ContainsAny(SmartPush.Combined(data), DataLawKeywords)
  {
    if ContainsAny(SmartPush.Combined(data), DataLawKeywords) then Laws else Articles
  }

  /** Any word with `法` in the title (`办法`, `法律`, `方法` alike) makes a record a law. */
  lemma FaAnywhereIsLaw(data: Json, k: nat)
    requires k < |SmartPush.Combined(data)| && SmartPush.Combined(data)[k] == '法'
    ensures DetectSectionFromData(data) == Laws
  {
    assert StartsAt(SmartPush.Combined(data), k, DataLawKeywords[0]);
  }

  /** The payload of a JSON record, or `None` when the writer throws on one of its
      fields; the source is always `openclaw` and no slug is passed on. */
  function JsonPayload(data: Json): (r: Option<ContentWrite.Payload>)
    ensures r.Some? ==>
      && Get(data, "title").Some? && Get(data, "content").Some?
      && r.value.slug.None? && r.value.source == Some("openclaw") && r.value.attachments.None?
      && r.value.title == ToJsString(Get(data, "title").value)
      && r.value.content == ToJsString(Get(data, "content").value)
      && (AsArray(Get(data, "tags")).Some? <==> r.value.tags.Some?)
    ensures r.None? <==>
      || SmartPush.NullishString(Get(data, "summary")).None? || SmartPush.NullishString(Get(data, "date")).None?
      || SmartPush.NullishString(Get(data, "category")).None? || SmartPush.TruthyString(Get(data, "author")).None?
      || Get(data, "title").None? || Get(data, "content").None?
  {
    var summary := SmartPush.NullishString(Get(data, "summary"));
    var date := SmartPush.NullishString(Get(data, "date"));
    var category := SmartPush.NullishString(Get(data, "category"));
    var author := SmartPush.TruthyString(Get(data, "author"));
    var tags := match AsArray(Get(data, "tags")) case Some(items) => Some(ToJsStrings(items)) case None => None;
    if summary.None? || date.None? || category.None? || author.None?
       || Get(data, "title").None? || Get(data, "content").None? then None
    else Some(ContentWrite.Payload(None, ToJsString(Get(data, "title").value), summary.value, date.value, tags,
                                   category.value, author.value, Some("openclaw"), None,
                                   ToJsString(Get(data, "content").value)))
  }

  /** The payload of a parsed free-text message: tags only when there are some. */
  function TextPayload(p: Parsed): (r: ContentWrite.Payload)
    ensures r.title == p.title && r.content == p.content && r.summary == Some(p.summary)
    ensures r.category == Some(p.category) && r.source == Some("openclaw")
    ensures r.tags.None? <==> |p.tags| == 0
    ensures r.tags.Some? ==> r.tags.value == p.tags
  {
    ContentWrite.Payload(None, p.title, Some(p.summary), None, if |p.tags| > 0 then Some(p.tags) else None,
                         Some(p.category), None, Some("openclaw"), None, p.content)
  }

  // ---------------------------------------------------------------------------------
  // The handler
  // ---------------------------------------------------------------------------------

  /** How a message ends: refused, ignored, written (from a JSON record or from free text),
      not understood, or an exception. */
  datatype Outcome =
    | Unauthorized
    | BadJson
    | Crash
    | TooShort
    | Added(kind: Kind, fromJson: bool, written: ContentWrite.Written)
    | Unparsed
  {
    function Status(): nat {
      match this
      case Unauthorized => 401
      case BadJson => 400
      case Crash => 500
      case _ => 200
    }
  }

  /** The message text: the Telegram message's text, else the body's own `text` field,
      whichever is truthy first. */
  function MessageText(body: Json): (v: Option<Json>)
    ensures v.Some? ==> Truthy(v)
    ensures Truthy(Get(body, "message")) && Truthy(Get(Get(body, "message").value, "text")) ==>
      v == Get(Get(body, "message").value, "text")
  {
    var message := Get(body, "message");
    var fromMessage := if message.Some? then Get(message.value, "text") else None;
    if Truthy(fromMessage) then fromMessage
    else if Truthy(Get(body, "text")) then Get(body, "text")
    else None
  }

  /** What happens to a message text long enough to act on: a JSON record with a truthy
      title and content is written as such; otherwise the text is parsed as a command. */
  function Handle(text: string, tryParse: string -> Option<Json>, w: SmartPush.WriteEnv): (o: Outcome)
    ensures o.Added? || o == Unparsed || o == Crash
    ensures o.Added? && o.fromJson ==>
      var data := tryParse(text);
      && data.Some? && Truthy(Get(data.value, "title")) && Truthy(Get(data.value, "content"))
      && o.kind == DetectSectionFromData(data.value)
      && JsonPayload(data.value).Some?
      && o.written == ContentWrite.WriteContentFile(o.kind, JsonPayload(data.value).value, w.env, w.cwd, w.now, w.today)
    ensures o.Added? && !o.fromJson ==>
      var parsed := ParseNaturalLanguage(text);
      && parsed.Some? && o.kind == parsed.value.kind
      && o.written == ContentWrite.WriteContentFile(o.kind, TextPayload(parsed.value), w.env, w.cwd, w.now, w.today)
    ensures o == Unparsed <==>
      && !(tryParse(text).Some? && Truthy(Get(tryParse(text).value, "title")) && Truthy(Get(tryParse(text).value, "content")))
      && ParseNaturalLanguage(text).None?
  {
    var data := tryParse(text);
    if data.Some? && Truthy(Get(data.value, "title")) && Truthy(Get(data.value, "content")) then
      var kind := DetectSectionFromData(data.value);
      match JsonPayload(data.value)
      case None => Crash
      case Some(p) =>
        if !w.ok then Crash
        else Added(kind, true, ContentWrite.WriteContentFile(kind, p, w.env, w.cwd, w.now, w.today))
    else
      match ParseNaturalLanguage(text)
      case None => Unparsed
      case Some(parsed) =>
        if !w.ok then Crash
        else Added(parsed.kind, false, ContentWrite.WriteContentFile(parsed.kind, TextPayload(parsed), w.env, w.cwd, w.now, w.today))
  }

  /** What the handler finds as the message text: nothing truthy, a value that is not a
      string (whose `trim` throws), or a string. */
  datatype Message = NoText | NotText | Text(s: string)

  function ReadMessage(body: Json): (m: Message)
    ensures m.NoText? <==> MessageText(body).None?
    ensures m.Text? <==> MessageText(body).Some? && MessageText(body).value.JStr?
    ensures m.Text? ==> MessageText(body) == Some(JStr(m.s)) && m.s != ""
  {
    match MessageText(body)
    case None => NoText
    case Some(v) => if v.JStr? then Text(v.s) else NotText
  }

  /** `POST`. `body` is the parsed request (`None` when it is not JSON) and `tryParse` the
      record extracted from a message, when it parses. */
  function Post(expected: Option<string>, req: ApiAuth.Request, body: Option<Json>,
                tryParse: string -> Option<Json>, w: SmartPush.WriteEnv): (o: Outcome)
    ensures o == Unauthorized <==> !CheckApiKey(expected, req)
    ensures o == BadJson <==> CheckApiKey(expected, req) && body.None?
  {
    if !CheckApiKey(expected, req) then Unauthorized
    else if body.None? then BadJson
    else if body.value == JNull then Crash
    else match ReadMessage(body.value)
      case NoText => TooShort
      case NotText => Crash
      case Text(s) => if JsLength(Trim(s)) < 5 then TooShort else Handle(s, tryParse, w)
  }

  /** A message whose text is missing, or shorter than five UTF-16 code units once trimmed, is
      ignored: nothing is written. */
  lemma ShortMessageIgnored(expected: Option<string>, req: ApiAuth.Request, body: Json,
                            tryParse: string -> Option<Json>, w: SmartPush.WriteEnv)
    requires CheckApiKey(expected, req) && body != JNull
    ensures var o := Post(expected, req, Some(body), tryParse, w);
      (o == TooShort <==> ReadMessage(body).NoText? || (ReadMessage(body).Text? && JsLength(Trim(ReadMessage(body).s)) < 5))
  {
    var o := Post(expected, req, Some(body), tryParse, w);
    match ReadMessage(body)
    case NoText => assert o == TooShort;
    case NotText => assert o == Crash;
    case Text(s) =>
      var n := JsLength(Trim(s));
      if n < 5 {
        assert o == TooShort;
      } else {
        var h := Handle(s, tryParse, w);
        assert h.Added? || h == Unparsed || h == Crash;
        assert o == h;
      }
  }

  /** Anything is written only through `Handle`, on a string message of at least five
      UTF-16 code units once trimmed. */
  lemma WritesOnlyLongText(expected: Option<string>, req: ApiAuth.Request, body: Option<Json>,
                           tryParse: string -> Option<Json>, w: SmartPush.WriteEnv)
    ensures var o := Post(expected, req, body, tryParse, w);
      o.Added? || o == Unparsed ==>
        && CheckApiKey(expected, req) && body.Some? && ReadMessage(body.value).Text?
        && JsLength(Trim(ReadMessage(body.value).s)) >= 5
        && o == Handle(ReadMessage(body.value).s, tryParse, w)
  {
  }

  /** A `null` body, or a message text that is not a string, makes the handler throw. */
  lemma NullOrNonStringCrashes(expected: Option<string>, req: ApiAuth.Request, body: Json,
                               tryParse: string -> Option<Json>, w: SmartPush.WriteEnv)
    requires CheckApiKey(expected, req)
    requires body == JNull || ReadMessage(body).NotText?
    ensures Post(expected, req, Some(body), tryParse, w) == Crash
  {
  }

  /** A JSON record with a truthy title and content always takes the JSON path: such a
      message is never parsed as free text. */
  lemma JsonRecordWins(text: string, tryParse: string -> Option<Json>, w: SmartPush.WriteEnv)
    requires w.ok
    requires var data := tryParse(text);
      data.Some? && Truthy(Get(data.value, "title")) && Truthy(Get(data.value, "content"))
      && JsonPayload(data.value).Some?
    ensures Handle(text, tryParse, w).Added? && Handle(text, tryParse, w).fromJson
  {
  }

  /** A free-text message of at least two lines with no usable JSON record is written,
      as long as the writer succeeds. */
  lemma TwoLinesWritten(text: string, tryParse: string -> Option<Json>, w: SmartPush.WriteEnv)
    requires w.ok && tryParse(text).None?
    requires |OpenclawParse.InputLines(text)| >= 2
    ensures Handle(text, tryParse, w).Added? && !Handle(text, tryParse, w).fromJson
  {
  }
}

=== FILE: yaml.dfy ===
/** Double-quoted YAML scalars (section 7.3.1 of YAML 1.2), as the frontmatter writers
    emit them: the writer doubles every backslash and then puts a backslash before every
    double quote; a reader turns `\\` and `\"` back into one character. */
module Yaml {
  import opened Common
  import opened Text

  /** What the writer produces for one character. */
  function EscapeChar(c: char): string {
    if c == '\\' then "\\\\" else if c == '"' then "\\\"" else [c]
  }

  /** Character-by-character escaping: the reference the two-pass writer is compared with. */
  function EscapeEach(s: string): string {
    if |s| == 0 then "" else EscapeChar(s[0]) + EscapeEach(s[1..])
  }

  /** The reader of a double-quoted scalar body: `None` when the body holds a bare `"`
      (which would end the scalar early), a dangling `\`, or an escape this writer never
      produces. */
  function Unescape(s: string): (r: Option<string>)
    ensures r.Some? ==> |r.value| <= |s|
  {
    if |s| == 0 then Some("")
    else if s[0] == '"' then None
    else if s[0] == '\\' then
      if |s| >= 2 && (s[1] == '\\' || s[1] == '"') then
        match Unescape(s[2..])
        case None => None
        case Some(t) => Some([s[1]] + t)
      else None
    else
      match Unescape(s[1..])
      case None => None
      case Some(t) => Some([s[0]] + t)
  }

  lemma {:induction false} UnescapeEscapeEach(s: string)
    ensures Unescape(EscapeEach(s)) == Some(s)
  {
    if |s| > 0 {
      UnescapeEscapeEach(s[1..]);
      var e := EscapeEach(s);
      assert e == EscapeChar(s[0]) + EscapeEach(s[1..]);
      if s[0] == '\\' || s[0] == '"' {
        assert e[2..] == EscapeEach(s[1..]);
      } else {
        assert e[0] == s[0];
        assert e[1..] == EscapeEach(s[1..]);
      }
      assert s == [s[0]] + s[1..];
    }
  }

  lemma {:induction false} TwoPassIsEach(s: string)
    ensures ReplaceChar(ReplaceChar(s, '\\', "\\\\"), '"', "\\\"") == EscapeEach(s)
  {
    if |s| > 0 {
      var p1 := ReplaceChar(s, '\\', "\\\\");
      var head := if s[0] == '\\' then "\\\\" else [s[0]];
      assert p1 == head + ReplaceChar(s[1..], '\\', "\\\\");
      ReplaceCharAppend(head, ReplaceChar(s[1..], '\\', "\\\\"), '"', "\\\"");
      TwoPassIsEach(s[1..]);
      if s[0] == '\\' {
        assert ReplaceChar(head, '"', "\\\"") == "\\\\";
      } else {
        assert ReplaceChar(head, '"', "\\\"") == EscapeChar(s[0]);
      }
    }
  }

  /** `value.replace(/\\/g, "\\\\").replace(/"/g, '\\"')`. */
  function Escape(s: string): (r: string)
    ensures '\n' !in s ==> '\n' !in r
  {
    EscapeNoNewline(s);
    ReplaceChar(ReplaceChar(s, '\\', "\\\\"), '"', "\\\"")
  }

  /** Reading an escaped string back as a double-quoted scalar body gives the original. */
  lemma EscapeRoundTrip(s: string)
    ensures Unescape(Escape(s)) == Some(s)
  {
    TwoPassIsEach(s);
    UnescapeEscapeEach(s);
  }

  /** A body with no backslash and no double quote reads back unchanged. */
  lemma {:induction false} UnescapePlain(s: string)
    requires '"' !in s && '\\' !in s
    ensures Unescape(s) == Some(s)
  {
    if |s| > 0 {
      assert '"' !in s[1..] && '\\' !in s[1..] by {
        assert forall i :: 0 <= i < |s[1..]| ==> s[1..][i] == s[i + 1];
      }
      UnescapePlain(s[1..]);
      assert s == [s[0]] + s[1..];
    }
  }

  /** Escaping adds only backslashes: any other character absent from `s` stays absent. */
  lemma {:induction false} EscapeEachAbsent(s: string, c: char)
    requires c !in s && c != '\\'
    ensures c !in EscapeEach(s)
  {
    if |s| > 0 {
      assert c !in s[1..] by {
        assert forall i :: 0 <= i < |s[1..]| ==> s[1..][i] == s[i + 1];
      }
      EscapeEachAbsent(s[1..], c);
    }
  }

  /** A line without a line break stays one line when escaped. */
  lemma EscapeNoNewline(s: string)
    ensures '\n' !in s ==> '\n' !in ReplaceChar(ReplaceChar(s, '\\', "\\\\"), '"', "\\\"")
  {
    if '\n' !in s {
      TwoPassIsEach(s);
      EscapeEachAbsent(s, '\n');
    }
  }

  /** `head` followed by the value escaped inside double quotes. */
  function Quoted(head: string, value: string): (r: string)
    ensures '\n' !in head && '\n' !in value ==> '\n' !in r
    ensures |r| >= |head| + 2
  {
    head + "\"" + Escape(value) + "\""
  }

  /** The reader's side of `Quoted`: what sits between the quotes after `head`. */
  function ReadQuoted(line: string, head: string): Option<string> {
    var open := head + "\"";
    if |line| >= |open| + 1 && StartsWith(line, open) && line[|line| - 1] == '"' then
      Unescape(line[|open|..|line| - 1])
    else None
  }

  /** Reading a quoted value back after its head gives the value. */
  lemma QuotedRoundTrip(head: string, value: string)
    ensures ReadQuoted(Quoted(head, value), head) == Some(value)
  {
    var r := Quoted(head, value);
    var open := head + "\"";
    assert r[..|open|] == open;
    assert r[|open|..|r| - 1] == Escape(value);
    EscapeRoundTrip(value);
  }
}
